=== FILE: README.md ===
# ratado core in Dafny

This project is a Dafny model of the core of **ratado**, a terminal task manager. It covers:

- tasks and their priority, status and due-date predicates;
- the list filters and sort orders;
- the text-editing widgets: a single-line input, a tag input and a multi-line description area with link detection;
- full-text search;
- the calendar week view;
- the month date picker;
- the add/edit task dialog, including natural-language due dates;
- the Quick Capture line parser and its suggestion dropdown;
- the project, filter/sort, move-to-project, delete-project, confirm and settings dialogs;
- the key-to-command mapping and the command dispatcher;
- the SQL value conversions of the storage layer;
- the date-formatting helpers;
- the task-row hit testing of the task list;
- the gradient bar of the theme.

Everything is a pure function over immutable datatypes. The exceptions are three loop methods, each proved against a functional definition: the gradient bar (`Theme.GradientBar`) and the two word-scanning loops of the text input (`TextInput.ScanWordLeft` and `TextInput.ScanWordRight`).

Modelling conventions:

- **Time.** An instant is an `int` number of seconds. "Now" is always a parameter.
- **Calendar days.** The local calendar day of an instant is a parameter `localDay: int -> int`. Day 0 is 1970-01-01, and weekdays count from Monday.
- **Strings.** Strings are `seq<char>`, assuming ASCII text. Byte offsets and character offsets therefore coincide, and lower-casing is ASCII lower-casing.
- **Keys.** Key events are a small datatype: a key code plus the ctrl, alt and shift flags.
- **Identifiers.** Fresh identifiers (UUIDs) are parameters.
- **Database, clock and external calls.** Anything that touches the database, the clock or the rendering library is either a parameter or left out.

Modules:

| module | file | models |
|---|---|---|
| `Tasks` | tasks.dfy | `src/models/task.rs` |
| `Filters` | filters.dfy | `Filter` of `src/models/filter.rs` |
| `Sorting` | sorting.dfy | `SortOrder` of `src/models/filter.rs` (a stable insertion sort, like `sort_by`) |
| `TextInput` | text_input.dfy | `src/ui/input.rs` |
| `TagInput` | tag_input.dfy | `src/ui/tag_input.rs` |
| `TextArea` | textarea.dfy | `src/ui/description_textarea.rs` |
| `Search` | search.dfy | `src/ui/search.rs` |
| `Dates` | dates.dfy | the proleptic Gregorian calendar that the date code relies on |
| `Calendar` | calendar.dfy | `src/ui/calendar.rs` |
| `DatePicker` | date_picker.dfy | `src/ui/date_picker.rs` |
| `AddTask` | add_task.dfy | `src/ui/dialogs/add_task.rs` |
| `CaptureParser` | capture_parser.dfy | `parse_capture_input` and `fuzzy_match_project` of `src/ui/dialogs/quick_capture.rs` |
| `QuickCapture` | quick_capture.dfy | the rest of `src/ui/dialogs/quick_capture.rs` |
| `ProjectDialog` | project_dialog.dfy | `src/ui/dialogs/project.rs` |
| `FilterSortDialog` | filter_sort_dialog.dfy | `src/ui/dialogs/filter_sort.rs` |
| `MoveToProject` | move_to_project.dfy | `src/ui/dialogs/move_to_project.rs` |
| `DeleteProject` | delete_project.dfy | `src/ui/dialogs/delete_project.rs` |
| `Confirm` | confirm.dfy | `src/ui/dialogs/confirm.rs` |
| `Settings` | settings.dfy | `src/ui/dialogs/settings.rs` |
| `Commands` | commands.dfy | `Command::execute` of `src/handlers/commands.rs`, over an abstract application state |
| `KeyMap` | keymap.dfy | `src/handlers/input.rs` |
| `Storage` | storage.dfy | the value conversions and filter clause of `src/storage/tasks.rs` |
| `DateTime` | datetime.dfy | `src/utils/datetime.rs` |
| `TaskList` | task_list.dfy | `ListRenderInfo` and `render_tags` of `src/ui/task_list.rs` |
| `Theme` | theme.dfy | `gradient_bar` of `src/ui/theme.rs` |
| `Keys`, `Wrappers`, `Seqs`, `Text`, `Numbers` | | key events, `Option`, sequence utilities, ASCII string functions and digit parsing that the other modules share |

Where the code and its own documentation disagree, the model follows the code:

- **Sort order.** The sort comparators have no secondary tie-breaks. Equal keys keep their input order, because `sort_by` is stable.
  - `DueDateDesc` still puts dated tasks before undated ones, so it is not the reverse of `DueDateAsc`.
  - `Alphabetical` compares bytes, so it is case-sensitive: "Zebra" sorts before "apple".
- **Due this week.** `is_due_this_week` is a closed interval: a task due exactly seven days from now still counts.
- **Line splitting.** `str::lines` strips a trailing `\r` from each line but keeps a bare `\r`.
- **Two different "today"s.** The date picker opens on the UTC date, while `parse_due_date` resolves relative words against the local date.
- **Priority suggestions.** Quick Capture filters priority suggestions by the raw partial text, without lower-casing it.
- **Signed offsets.** The `i64` parse inside `+Nd` accepts a sign, so `+-3d` means three days ago.
- **Hex colours.** `u8::from_str_radix` accepts a leading `+`, so colour channel text such as `+f` parses.
- **Settings Submit path.** In the settings menu, the branch that would submit a non-destructive option directly is unreachable, because every option is destructive.

## Model

| member | source | states |
|---|---|---|
| `Tasks.Rank` | src/models/task.rs:41-63 | the priority order is a numbering of the four priorities into 0..3 |
| `Tasks.PriorityStrictTotalOrder` | src/models/task.rs:41-63 | priority comparison is irreflexive, transitive and total, with Low < Medium < High < Urgent |
| `Tasks.NewTask` | src/models/task.rs:167-182 | a new task is pending, medium priority, undated, unassigned and untagged, created and updated at the same instant |
| `Tasks.OverdueIff` | src/models/task.rs:209-217 | a task is overdue exactly when it has a due date before now and is neither completed nor archived |
| `Tasks.ClosedNeverOverdue` | src/models/task.rs:209-217 | completed and archived tasks are never overdue |
| `Tasks.UndatedMatchesNoDuePredicate` | src/models/task.rs:209-273 | a task without a due date is not overdue, not due today and not due this week |
| `Tasks.DueThisWeekInterval` | src/models/task.rs:264-273 | "due this week" means the due instant lies in the closed interval from now to now plus seven days |
| `Tasks.Complete` | src/models/task.rs:290-294 | completing sets the status to Completed and stamps the completion and update times, leaving every other field unchanged |
| `Tasks.Reopen` | src/models/task.rs:312-316 | reopening sets the status to Pending, clears the completion time and stamps the update time, leaving every other field unchanged |
| `Tasks.CompleteThenReopen` | src/models/task.rs:290-316 | reopening a completed task gives back a pending task without a completion time; from a pending task this round trip changes only the update time |
| `Filters.Apply` | src/models/filter.rs:76-78 | applying a filter keeps exactly the matching tasks, in their original order |
| `Filters.ApplyCounts` | src/models/filter.rs:76-78 | a matching task is kept as often as it occurs in the input, and a task that does not match not at all |
| `Filters.ApplyAppend` | src/models/filter.rs:76-78 | filtering distributes over concatenation of task lists |
| `Filters.ApplyIdempotent` | src/models/filter.rs:76-78 | filtering an already filtered list changes nothing |
| `Filters.ApplyAllIsIdentity` | src/models/filter.rs:99-113 | the All filter keeps every task |
| `Filters.MatchesExact` | src/models/filter.rs:99-113 | each status, project, tag and priority filter matches exactly the tasks with that field value |
| `Filters.DateFiltersNeedDueDate` | src/models/filter.rs:99-113 | the DueToday, DueThisWeek and Overdue filters coincide with the task predicates, so they never match an undated task |
| `Sorting.LexCmpFlip` | src/models/filter.rs:212-214 | swapping the arguments of the title comparison reverses its result |
| `Sorting.LexCmpEqualIff` | src/models/filter.rs:212-214 | titles compare equal only when they are identical |
| `Sorting.LexCmpTransitive` | src/models/filter.rs:212-214 | the title comparison is transitive |
| `Sorting.CompareFlip` | src/models/filter.rs:176-216 | every sort comparator is antisymmetric |
| `Sorting.CompareTransitive` | src/models/filter.rs:176-216 | every sort comparator is transitive, so it is a total preorder |
| `Sorting.EquivalenceTransitive` | src/models/filter.rs:176-216 | "compares equal" is transitive for every sort order |
| `Sorting.Insert` | src/models/filter.rs:176-216 | inserting one task adds exactly that task to the multiset of tasks |
| `Sorting.SortBy` | src/models/filter.rs:176-216 | sorting is a permutation of its input |
| `Sorting.InsertSorted` | src/models/filter.rs:176-216 | inserting into a sorted list keeps it sorted |
| `Sorting.SortBySorted` | src/models/filter.rs:176-216 | the result of sorting is ordered by the comparator |
| `Sorting.InsertStable` | src/models/filter.rs:176-216 | insertion places the new task before its equals, preserving their relative order |
| `Sorting.SortByStable` | src/models/filter.rs:176-216 | sorting is stable: tasks that compare equal keep their input order |
| `Sorting.SortByPair` | src/models/filter.rs:176-216 | any earlier result element is ordered before or equal to any later one |
| `Sorting.DueDateAscLayout` | src/models/filter.rs:178-188 | DueDateAsc lists dated tasks first, earliest due first, then undated tasks oldest first |
| `Sorting.DueDateDescLayout` | src/models/filter.rs:189-199 | DueDateDesc lists dated tasks first, latest due first, then undated tasks newest first |
| `Sorting.DueDateDescIsNotReverse` | src/models/filter.rs:178-199 | both due-date orders put a dated task before an undated one, so neither is the reverse of the other |
| `Sorting.PriorityLayout` | src/models/filter.rs:200-205 | PriorityDesc orders by non-increasing priority and PriorityAsc by non-decreasing priority |
| `Sorting.CreatedLayout` | src/models/filter.rs:206-211 | CreatedDesc orders newest first and CreatedAsc oldest first |
| `Sorting.AlphabeticalLayout` | src/models/filter.rs:212-214 | Alphabetical orders titles by byte-wise comparison |
| `Sorting.AlphabeticalIsCaseSensitive` | src/models/filter.rs:212-214 | any title starting with an upper-case ASCII letter sorts before any title starting with a lower-case one, since the comparison is by code point and not case-folded |
| `TextInput.Empty` | src/ui/input.rs:45-51 | a new input is empty with the cursor at 0 |
| `TextInput.WithValue` | src/ui/input.rs:56-64 | building with a value puts the cursor at its end |
| `TextInput.SetValue` | src/ui/input.rs:83-86 | replacing the value moves the cursor to its end |
| `TextInput.Clear` | src/ui/input.rs:89-92 | clearing empties the value and resets the cursor |
| `TextInput.InsertChar` | src/ui/input.rs:95-98 | the character is inserted at the cursor, the text on both sides is preserved and the cursor advances by one |
| `TextInput.DeleteBackward` | src/ui/input.rs:101-106 | the character before the cursor is removed and the cursor steps back; at position 0 nothing changes |
| `TextInput.DeleteForward` | src/ui/input.rs:109-113 | the character under the cursor is removed; at the end nothing changes |
| `TextInput.MoveLeft` | src/ui/input.rs:116-118 | the cursor steps left, stopping at 0, and the text is unchanged |
| `TextInput.MoveRight` | src/ui/input.rs:121-123 | the cursor steps right, stopping at the end, and the text is unchanged |
| `TextInput.MoveHome` | src/ui/input.rs:126-128 | the cursor moves to 0 |
| `TextInput.MoveEnd` | src/ui/input.rs:131-133 | the cursor moves to the end of the text |
| `TextInput.WordLeftTarget` | src/ui/input.rs:138-157 | the word-left target is at or before the cursor and is either 0 or the start of a word |
| `TextInput.WordRightTarget` | src/ui/input.rs:162-183 | the word-right target is at or after the cursor and is either the end or the start of the next word |
| `TextInput.MoveWordLeft` | src/ui/input.rs:138-157 | the cursor jumps back to the start of the current or previous word |
| `TextInput.MoveWordRight` | src/ui/input.rs:162-183 | the cursor jumps forward to the start of the next word, or to the end |
| `TextInput.DeleteWordBackward` | src/ui/input.rs:186-207 | the text between the word-left target and the cursor is removed and the cursor moves to the target |
| `TextInput.ScanWordLeft` | src/ui/input.rs:138-157 | the source's backwards scanning loops land on the word-left target |
| `TextInput.ScanWordRight` | src/ui/input.rs:162-183 | the source's forwards scanning loops land on the word-right target |
| `TextInput.InsertThenDeleteBackward` | src/ui/input.rs:95-106 | backspace undoes a typed character exactly |
| `TextInput.DeleteAtBoundariesIsNoOp` | src/ui/input.rs:101-113 | backspace at the start and delete at the end change nothing |
| `TextInput.WordLeftExample` | src/ui/input.rs:138-157 | on "Hello world test", word-left from the end visits 12, 6 and 0 |
| `TextInput.WordRightExample` | src/ui/input.rs:162-183 | on "Hello world test", word-right from 0 visits 6, 12 and 16 |
| `TagInput.WithTags` | src/ui/tag_input.rs:73-81 | a tag input built from tags holds exactly those tags, with empty text and no suggestions |
| `TagInput.AddTag` | src/ui/tag_input.rs:94-99 | a tag is trimmed and appended unless it is blank or already present, ignoring case |
| `TagInput.AddTagKeepsDistinct` | src/ui/tag_input.rs:94-99 | adding a tag keeps the list free of case-insensitive duplicates |
| `TagInput.RemoveLastTag` | src/ui/tag_input.rs:102-104 | removing the last tag drops exactly the final element |
| `TagInput.RemoveTag` | src/ui/tag_input.rs:107-109 | removing a tag deletes every copy of it and keeps all other tags in order, each as often as before |
| `TagInput.UpdateSuggestions` | src/ui/tag_input.rs:123-145 | suggestions are at most the maximum count of known tags that contain the typed text, ignoring case, and are not yet chosen; the first one is highlighted |
| `TagInput.SelectedSuggestion` | src/ui/tag_input.rs:117-120 | the selected suggestion exists exactly when the highlight points inside the list |
| `TagInput.SuggestionUp` | src/ui/tag_input.rs:150-251 | Up moves the highlight back by one, wrapping from the first to the last entry |
| `TagInput.SuggestionDown` | src/ui/tag_input.rs:150-251 | Down moves the highlight forward by one, wrapping from the last to the first entry |
| `TagInput.SuggestionDownUp` | src/ui/tag_input.rs:150-251 | Down then Up returns to the same highlighted entry |
| `TagInput.HandleKey` | src/ui/tag_input.rs:150-251 | Backspace on empty text removes the last tag; comma or Enter commits non-blank text and does nothing else on blank text; Up/Down and Tab act as the suggestion keys and editing keys as the text keys; an unconsumed key changes nothing |
| `TagInput.SuggestionKey` | src/ui/tag_input.rs:177-212 | Up/Down move the highlight with wrap-around when there are suggestions; Tab adds the highlighted suggestion as a tag and clears the text and the list; without something to select the key is not consumed |
| `TagInput.EditKey` | src/ui/tag_input.rs:170-245 | a typed character is inserted, and Backspace and Delete delete, each followed by a suggestion refresh; cursor keys move the cursor only |
| `TextArea.Empty` | src/ui/description_textarea.rs:70-78 | a new description area has one empty line with the cursor at its start |
| `TextArea.SplitNewlines` | src/ui/description_textarea.rs:88-101 | splitting on newlines yields at least one piece, none containing a newline |
| `TextArea.SplitNewlinesJoin` | src/ui/description_textarea.rs:88-106 | joining the pieces with newlines gives back the original text |
| `TextArea.SetText` | src/ui/description_textarea.rs:88-101 | setting text gives a well-formed area with the cursor at the top left, and empty text gives one empty line |
| `TextArea.IsEmptyIffNoText` | src/ui/description_textarea.rs:104-111 | a single-line area is empty exactly when its text is empty |
| `TextArea.SetTextRoundTrip` | src/ui/description_textarea.rs:88-106 | reading the text back after setting it returns it unchanged, for text without carriage returns or a trailing newline |
| `TextArea.PieceHasNoCR` | src/ui/description_textarea.rs:88-101 | splitting text that has no carriage return yields no carriage return in any line |
| `TextArea.UrlEnd` | src/ui/description_textarea.rs:124-163 | a URL extends up to the first whitespace or closing delimiter |
| `TextArea.NextUrlStart` | src/ui/description_textarea.rs:124-163 | the next URL starts at the first "https://" or "http://" occurrence at or after the search position |
| `TextArea.UrlKeepsScheme` | src/ui/description_textarea.rs:124-163 | a detected URL starts with its scheme and is at least as long as it |
| `TextArea.DetectLinks` | src/ui/description_textarea.rs:124-163 | detected links lie on their line, start with a scheme, run to the first stop character and do not overlap; the first one starts at the first scheme, there are none without a scheme, and every scheme occurrence lies inside some link |
| `TextArea.LinksStep` | src/ui/description_textarea.rs:124-163 | putting the first URL's link before the links found after it keeps every property of the detected list |
| `TextArea.AllLinks` | src/ui/description_textarea.rs:114-121 | every link found in any line is well formed for its own line |
| `TextArea.LinkAtCursor` | src/ui/description_textarea.rs:166-173 | a link is returned exactly when the cursor lies inside some link, and it is that link's URL |
| `TextArea.AtMostOneLinkUnderCursor` | src/ui/description_textarea.rs:124-173 | no two links of a line cover the same cursor position |
| `TextArea.InsertChar` | src/ui/description_textarea.rs:181-190 | a character is inserted at the cursor on the current line only, and the cursor advances |
| `TextArea.InsertNewline` | src/ui/description_textarea.rs:193-203 | a newline splits the current line at the cursor and moves the cursor to the start of the new line |
| `TextArea.DeleteBackward` | src/ui/description_textarea.rs:206-219 | backspace removes the character before the cursor, or joins the line to the previous one at its end; at the top left nothing changes |
| `TextArea.DeleteForward` | src/ui/description_textarea.rs:222-234 | delete removes the character under the cursor, or joins the next line; at the very end nothing changes |
| `TextArea.NewlineThenDeleteBackward` | src/ui/description_textarea.rs:193-219 | backspace right after a newline restores the area exactly |
| `TextArea.InsertThenDeleteBackward` | src/ui/description_textarea.rs:181-219 | backspace right after typing a character restores the area exactly |
| `TextArea.MoveLeft` | src/ui/description_textarea.rs:237-244 | left steps back one column, or wraps to the end of the previous line |
| `TextArea.MoveRight` | src/ui/description_textarea.rs:247-256 | right steps forward one column, or wraps to the start of the next line |
| `TextArea.MoveUp` | src/ui/description_textarea.rs:259-264 | up moves one line up and clamps the column to that line's length |
| `TextArea.MoveDown` | src/ui/description_textarea.rs:267-272 | down moves one line down and clamps the column to that line's length |
| `TextArea.MoveHome` | src/ui/description_textarea.rs:275-277 | home moves to column 0 of the current line |
| `TextArea.MoveEnd` | src/ui/description_textarea.rs:280-284 | end moves to the end of the current line |
| `TextArea.MoveWordLeft` | src/ui/description_textarea.rs:287-317 | word-left uses the single-line word target within the line, and wraps like left at column 0 |
| `TextArea.MoveWordRight` | src/ui/description_textarea.rs:320-351 | word-right uses the single-line word target within the line, and wraps like right at the line end |
| `TextArea.DeleteWordBackward` | src/ui/description_textarea.rs:354-390 | the word before the cursor is deleted within the line; at column 0 it behaves like backspace |
| `TextArea.HandleKey` | src/ui/description_textarea.rs:393-487 | Tab and BackTab leave the field, Enter inserts a newline, and opening a link reports the URL under the cursor |
| `Search.TitleMatch` | src/ui/search.rs:39-42 | the title range is the first occurrence of the lower-cased query in the lower-cased title, present exactly when there is one |
| `Search.Window` | src/ui/search.rs:48-49 | the snippet window covers the match and extends exactly 20 characters before and 30 after it, clipped to the text |
| `Search.Snippet` | src/ui/search.rs:44-54 | a snippet exists exactly when the description contains the query; it is the window around the first match, with "..." before exactly when text was cut at the front and after exactly when cut at the back; it contains the query and is bounded in length |
| `Search.SnippetContainsMatch` | src/ui/search.rs:44-54 | cutting a window around a match and adding ellipses keeps the match inside the snippet |
| `Search.ResultFor` | src/ui/search.rs:36-64 | a task yields a result exactly when its title or description contains the query |
| `Search.ResultsFor` | src/ui/search.rs:36-66 | every result has a title match or a description snippet |
| `Search.SearchTasks` | src/ui/search.rs:30-67 | an empty query finds nothing, and every result has a title match or a snippet |
| `Search.TasksOf` | src/ui/search.rs:18-25 | the tasks of a result list are the results' tasks, in order |
| `Search.ResultsAreMatchingTasks` | src/ui/search.rs:36-66 | the results are exactly the matching tasks, in their original order |
| `Search.SearchTasksIsFilter` | src/ui/search.rs:30-67 | searching with a non-empty query is filtering by a case-insensitive match |
| `Search.Truncate` | src/ui/search.rs:364-372 | short text is kept, and long text is cut to exactly the width, ending in "..." when the width exceeds 3 |
| `Dates.DaysInMonth` | src/ui/date_picker.rs:313-323 | month lengths are 28 to 31 days, February having 29 exactly in leap years and April, June, September and November 30 |
| `Dates.Weekday` | src/ui/calendar.rs:49-60 | every day number has a weekday in 0..6 |
| `Dates.WeekdayPeriodic` | src/ui/calendar.rs:49-60 | weekdays repeat every seven days and advance by one each day |
| `Dates.NextDay` | src/ui/date_picker.rs:54-101 | the next calendar date is valid and one day number later |
| `Dates.PrevDay` | src/ui/date_picker.rs:54-101 | the previous calendar date is valid and one day number earlier |
| `Dates.AddDays` | src/ui/date_picker.rs:54-101 | adding n days gives the valid date n day numbers later |
| `Dates.FromDayNumber` | src/ui/calendar.rs:70-72 | every day number is the number of some valid date |
| `Dates.DayNumberInjective` | src/ui/calendar.rs:70-72 | different valid dates have different day numbers |
| `Dates.YearText` | src/ui/dialogs/add_task.rs:114 | chrono's `%Y`: a year from 0 to 9999 is four digits, any other year carries its sign, and the text reads back as the year |
| `Dates.FormatIso` | src/ui/dialogs/add_task.rs:114 | `%Y-%m-%d`: the three dash-separated fields read back as year, month and day; the text is ten characters exactly for years 0 to 9999, and starts with '+' or '-' otherwise |
| `Dates.YearLength` | src/ui/date_picker.rs:313-323 | a year has 366 days when it is a leap year and 365 otherwise |
| `Calendar.New` | src/ui/calendar.rs:49-67 | a new calendar selects today in the day grid with completed tasks hidden |
| `Calendar.GotoToday` | src/ui/calendar.rs:105-109 | going to today selects today and keeps focus and filters |
| `Calendar.PrevWeek` | src/ui/calendar.rs:95-97 | the previous week shows the week seven days earlier, keeping the weekday |
| `Calendar.NextWeek` | src/ui/calendar.rs:100-102 | the next week shows the week seven days later, keeping the weekday |
| `Calendar.PrevDay` | src/ui/calendar.rs:75-82 | the previous day selects the date one day earlier, moving to the previous week from Monday |
| `Calendar.NextDay` | src/ui/calendar.rs:85-92 | the next day selects the date one day later, moving to the next week from Sunday |
| `Calendar.NextThenPrevDay` | src/ui/calendar.rs:75-92 | next day then previous day returns to the same state |
| `Calendar.PrevThenNextDay` | src/ui/calendar.rs:75-92 | previous day then next day returns to the same state |
| `Calendar.WeekMovesInverse` | src/ui/calendar.rs:95-102 | the week moves undo each other |
| `Calendar.ToggleFocus` | src/ui/calendar.rs:112-121 | toggling switches between grid and task list, resetting the task selection when entering the list |
| `Calendar.ToggleFocusTwice` | src/ui/calendar.rs:112-121 | toggling twice restores the focus |
| `Calendar.PrevTask` | src/ui/calendar.rs:124-126 | the task selection moves up, stopping at 0 |
| `Calendar.NextTask` | src/ui/calendar.rs:129-133 | the task selection moves down, stopping at the last task |
| `Calendar.ResetTaskSelection` | src/ui/calendar.rs:136-138 | the task selection returns to 0 and nothing else changes |
| `Calendar.ToggleShowCompleted` | src/ui/calendar.rs:141-145 | the completed-tasks switch flips and the task selection resets |
| `Calendar.Ids` | src/ui/calendar.rs:382-409 | the identifiers are those of the listed tasks, in order |
| `Calendar.DayTasks` | src/ui/calendar.rs:382-409 | the day's list is a permutation of the tasks due that day (closed ones only when shown), sorted by due date |
| `Calendar.TasksForSelectedDay` | src/ui/calendar.rs:382-409 | the identifiers are those of the selected day's tasks, in their sorted order |
| `Calendar.DayTasksOnSelectedDay` | src/ui/calendar.rs:382-409 | every listed task is due on the selected day and is open unless completed tasks are shown |
| `Calendar.DayTasksComplete` | src/ui/calendar.rs:382-409 | every task due on the selected day that passes the completed-tasks switch is listed |
| `DatePicker.WithDate` | src/ui/date_picker.rs:35-40 | the picker selects the given date and shows its month |
| `DatePicker.New` | src/ui/date_picker.rs:26-32 | a new picker selects today and shows its month |
| `DatePicker.EnsureView` | src/ui/date_picker.rs:140-151 | the shown month is moved to the selected date's month only when it differs |
| `DatePicker.Shift` | src/ui/date_picker.rs:54-101 | moving the selection by n days keeps the view on the selected month |
| `DatePicker.PrevMonthStart` | src/ui/date_picker.rs:104-119 | the previous month starts on day 1, wrapping from January to December of the previous year |
| `DatePicker.NextMonthStart` | src/ui/date_picker.rs:122-137 | the next month starts on day 1, wrapping from December to January of the next year |
| `DatePicker.CarryDay` | src/ui/date_picker.rs:104-137 | the selected day of month carries over, clamped to the new month's length |
| `DatePicker.PrevMonth` | src/ui/date_picker.rs:104-119 | the previous month is shown, with the selection inside it and its day not increased |
| `DatePicker.NextMonth` | src/ui/date_picker.rs:122-137 | the next month is shown, with the selection inside it and its day not increased |
| `DatePicker.NextMonthStartDistance` | src/ui/date_picker.rs:122-137 | the next month begins exactly one month length after the current month's first day |
| `DatePicker.NextThenPrevMonth` | src/ui/date_picker.rs:104-137 | next month then previous month shows the original month again |
| `DatePicker.HandleKey` | src/ui/date_picker.rs:54-101 | arrow and hjkl keys move by a day or a week, t jumps to today, Enter selects, Esc and q cancel, a decision leaves the picker unchanged, and any other key is ignored |
| `AddTask.FieldCycle` | src/ui/dialogs/add_task.rs:38-59 | Tab and BackTab are inverse, and six Tabs cycle through all fields |
| `AddTask.PriorityLeft` | src/ui/dialogs/add_task.rs:318-343 | left lowers the priority by one, wrapping from Low to Urgent |
| `AddTask.PriorityRight` | src/ui/dialogs/add_task.rs:318-343 | right raises the priority by one, wrapping from Urgent to Low |
| `AddTask.PriorityStepsInverse` | src/ui/dialogs/add_task.rs:318-343 | left and right are inverse, and four rights are the identity |
| `AddTask.HandlePriorityInput` | src/ui/dialogs/add_task.rs:318-343 | the keys 1 to 4 pick Low to Urgent, arrows and h/l cycle, and other keys change nothing |
| `AddTask.DaysAhead` | src/ui/dialogs/add_task.rs:636-655 | a weekday name means the next such weekday, one to seven days ahead |
| `AddTask.ParseDueDay` | src/ui/dialogs/add_task.rs:591-695 | blank input has no date; otherwise the trimmed lower-cased text is resolved |
| `AddTask.WeekdayResolution` | src/ui/dialogs/add_task.rs:636-655 | a weekday name resolves to a strictly future day with that weekday, at most a week away |
| `AddTask.ParseDueDate` | src/ui/dialogs/add_task.rs:591-695 | a due date exists exactly when the day parses, and it is the end of that local day |
| `AddTask.RelativeTextIsNormal` | src/ui/dialogs/add_task.rs:594-598 | "+Nd" and "+Nw" are unchanged by trimming and lower-casing |
| `AddTask.PlusOffset` | src/ui/dialogs/add_task.rs:623-633 | "+Nd" is an offset of N days and "+Nw" of 7N days |
| `AddTask.PlusDays` | src/ui/dialogs/add_task.rs:594-628 | "+Nd" resolves to N days after today |
| `AddTask.PlusWeeks` | src/ui/dialogs/add_task.rs:594-633 | "+Nw" resolves to 7N days after today |
| `AddTask.KeywordToday` | src/ui/dialogs/add_task.rs:594-616 | "Today " is read as today: the text is lower-cased and trimmed before the keyword lookup |
| `AddTask.KeywordTomorrow` | src/ui/dialogs/add_task.rs:613-621 | the abbreviation "TOM" is tomorrow, whatever its case |
| `AddTask.KeywordNextWeek` | src/ui/dialogs/add_task.rs:613-621 | "next week" is seven days after today |
| `AddTask.KeywordNextMonth` | src/ui/dialogs/add_task.rs:613-621 | "next month" is thirty days after today, not the same day of the next month |
| `AddTask.New` | src/ui/dialogs/add_task.rs:93-108 | a new dialog focuses the title, creates rather than edits, and starts at medium priority with empty fields |
| `AddTask.UtcDate` | src/ui/dialogs/add_task.rs:111-131 | the picker date of an instant is its UTC calendar date |
| `AddTask.FromTask` | src/ui/dialogs/add_task.rs:111-131 | editing a task prefills title, priority, project, tags and description, and the due-date text is empty exactly when the task is undated and otherwise the `%Y-%m-%d` of its UTC date |
| `AddTask.HandleTextInput` | src/ui/dialogs/add_task.rs:289-315 | typed characters are inserted at the cursor and unhandled keys change nothing |
| `AddTask.HandleDueDateInput` | src/ui/dialogs/add_task.rs:242-286 | c opens the date picker without changing the typed text, on the typed date when it parses and on today otherwise; any other character is inserted into the due-date text, Backspace and Delete delete and the cursor keys move within it; the title and focus are untouched |
| `AddTask.HandleDescriptionInput` | src/ui/dialogs/add_task.rs:210-231 | the description field only edits text or moves the focus to an adjacent field |
| `AddTask.HandleKey` | src/ui/dialogs/add_task.rs:145-207 | Esc cancels and Enter on Submit or with ctrl submits; Tab and BackTab move the focus; an open picker takes every key |
| `AddTask.ToTask` | src/ui/dialogs/add_task.rs:348-384 | a task is produced exactly when the trimmed title is non-empty, carrying the trimmed title, optional trimmed description, parsed due date, priority, project and tags |
| `CaptureParser.PriorityLevel` | src/ui/dialogs/quick_capture.rs:95-136 | !1 is Urgent through !4 Low, and no other level is a priority |
| `CaptureParser.Classify` | src/ui/dialogs/quick_capture.rs:95-136 | a word is a project, tag, priority or due reference only with its marker and a non-empty rest; a bare "due:" is dropped |
| `CaptureParser.Parse` | src/ui/dialogs/quick_capture.rs:95-136 | the due date is the parse of the due text, and there is none without due text |
| `CaptureParser.WalkFields` | src/ui/dialogs/quick_capture.rs:95-136 | scanning collects the title words and tags in order and keeps the last project, priority and due reference |
| `CaptureParser.ParseFields` | src/ui/dialogs/quick_capture.rs:95-136 | the parse result is determined word by word: joined title words, all tags, last project, priority and due text |
| `CaptureParser.TagsOfAppend` | src/ui/dialogs/quick_capture.rs:95-136 | the tags of concatenated text are the concatenation of the tags |
| `CaptureParser.PlainWordsAreTitle` | src/ui/dialogs/quick_capture.rs:95-136 | words without markers all become title words and nothing else |
| `CaptureParser.PlainLineIsTitle` | src/ui/dialogs/quick_capture.rs:95-136 | a line without markers parses to itself as the title, with no metadata |
| `CaptureParser.ClassifyExamples` | src/ui/dialogs/quick_capture.rs:95-136 | bare markers, escaped markers and out-of-range priorities stay title words |
| `CaptureParser.FuzzyMatchProject` | src/ui/dialogs/quick_capture.rs:543-574 | a project is found exactly when some project name contains the name, ignoring case |
| `CaptureParser.FuzzyMatchPreference` | src/ui/dialogs/quick_capture.rs:543-574 | an exact match is preferred to a prefix match, which is preferred to a substring match, each the first of its kind |
| `CaptureParser.ExactLevel` | src/ui/dialogs/quick_capture.rs:547-553 | when some name equals the query ignoring case, the first such project is chosen |
| `CaptureParser.PrefixLevel` | src/ui/dialogs/quick_capture.rs:555-562 | when no name equals the query but some starts with it, the first such project is chosen |
| `CaptureParser.SubstringLevel` | src/ui/dialogs/quick_capture.rs:564-571 | when no name equals or starts with the query but some contains it, the first such project is chosen |
| `QuickCapture.TokenStart` | src/ui/dialogs/quick_capture.rs:368-396 | the active token starts after the last space before the cursor |
| `QuickCapture.TokenAt` | src/ui/dialogs/quick_capture.rs:368-396 | a token is active exactly when the text from its start begins with @, # or !, and its partial is the text after the marker up to the cursor |
| `QuickCapture.NamesOfKeep` | src/ui/dialogs/quick_capture.rs:402-443 | the names of the selected projects are exactly the names of projects meeting the condition |
| `QuickCapture.ProjectSuggestions` | src/ui/dialogs/quick_capture.rs:402-443 | an empty partial lists every project; otherwise exactly the projects whose name contains it are listed |
| `QuickCapture.ExactIsSubstring` | src/ui/dialogs/quick_capture.rs:402-443 | exact and prefix matches are also substring matches |
| `QuickCapture.ExactNamesAreExact` | src/ui/dialogs/quick_capture.rs:412-417 | every name in the exact block equals the partial, ignoring case |
| `QuickCapture.PrefixNamesArePrefixes` | src/ui/dialogs/quick_capture.rs:418-425 | every name in the prefix block starts with the partial, ignoring case |
| `QuickCapture.ExactNameIsListed` | src/ui/dialogs/quick_capture.rs:412-417 | every exactly matching project appears in the exact block |
| `QuickCapture.PrefixNameIsListed` | src/ui/dialogs/quick_capture.rs:418-425 | every prefix-matching project appears in the prefix block |
| `QuickCapture.ExactBlock` | src/ui/dialogs/quick_capture.rs:402-443 | the suggestions begin with the exact matches |
| `QuickCapture.PrefixBlock` | src/ui/dialogs/quick_capture.rs:402-443 | the prefix matches come after the exact ones and before the remaining substring matches |
| `QuickCapture.ProjectSuggestionsRanked` | src/ui/dialogs/quick_capture.rs:402-443 | no exact match comes after a non-exact one, and no prefix match after a plain substring match |
| `QuickCapture.FilterByQuery` | src/ui/dialogs/quick_capture.rs:483-498 | tags are kept exactly when they contain the partial, ignoring case |
| `QuickCapture.Candidates` | src/ui/dialogs/quick_capture.rs:453-482 | candidates are the known tags not already in the input, in or out of the project scope |
| `QuickCapture.TagSuggestions` | src/ui/dialogs/quick_capture.rs:444-505 | tag suggestions are the unused known tags that contain the partial, with the project's own tags first |
| `QuickCapture.ScopedFirst` | src/ui/dialogs/quick_capture.rs:453-482 | placing the scoped tags before the others ranks every scoped tag first |
| `QuickCapture.PrioritySuggestions` | src/ui/dialogs/quick_capture.rs:506-530 | the priority suggestions are the levels 1 to 4 that start with the partial |
| `QuickCapture.PrioritySuggestionsExamples` | src/ui/dialogs/quick_capture.rs:506-530 | an empty partial offers all four levels, "3" offers only 3, and "5" offers none |
| `QuickCapture.KeepLevels` | src/ui/dialogs/quick_capture.rs:506-530 | a one-character partial keeps only the level equal to it |
| `QuickCapture.RecordTasksContents` | src/ui/dialogs/quick_capture.rs:193-204 | a project's tag list holds exactly the tags used by its tasks, without duplicates |
| `QuickCapture.ProjectTagMap` | src/ui/dialogs/quick_capture.rs:193-204 | the project-tag map has an entry exactly for the projects that own a task |
| `QuickCapture.ProjectTagMapContents` | src/ui/dialogs/quick_capture.rs:193-204 | each project's tag list is exactly the distinct tags of its tasks |
| `QuickCapture.New` | src/ui/dialogs/quick_capture.rs:192-218 | a new dialog is empty, with no suggestions, no project and the project-tag map built from the tasks |
| `QuickCapture.NewInSync` | src/ui/dialogs/quick_capture.rs:192-218 | a new dialog's parse agrees with its (empty) input |
| `QuickCapture.SetProject` | src/ui/dialogs/quick_capture.rs:221-223 | pre-selecting a project sets the explicit project and leaves the input alone |
| `QuickCapture.Reparse` | src/ui/dialogs/quick_capture.rs:344-356 | reparsing brings the parse in line with the input; a typed @project replaces the explicit project and is matched fuzzily |
| `QuickCapture.UpdateSuggestions` | src/ui/dialogs/quick_capture.rs:402-538 | the suggestion mode follows the active token; the list is the project, tag or priority completion of the token's partial text (lower-cased for projects and tags); tag suggestions exclude tags already typed, and the first suggestion is highlighted |
| `QuickCapture.RightTimes` | src/ui/dialogs/quick_capture.rs:580-631 | moving right n times stops at the end of the text |
| `QuickCapture.ReplaceToken` | src/ui/dialogs/quick_capture.rs:634-661 | replacing a token changes the words of the text as the splice does, and the cursor lands after the replacement |
| `QuickCapture.ReplaceWholeToken` | src/ui/dialogs/quick_capture.rs:634-661 | replacing a whole word by another word swaps exactly that word |
| `QuickCapture.SpliceWords` | src/ui/dialogs/quick_capture.rs:634-661 | splicing a word between whitespace-delimited texts splices it into the word list |
| `QuickCapture.WordSplitsToItself` | src/ui/dialogs/quick_capture.rs:634-661 | a single word splits into itself |
| `QuickCapture.AcceptSuggestion` | src/ui/dialogs/quick_capture.rs:580-631 | accepting does nothing without a highlighted suggestion; otherwise it applies it and closes the dropdown |
| `QuickCapture.AcceptTagInsertsTag` | src/ui/dialogs/quick_capture.rs:605-616 | accepting a tag replaces the typed #partial by #tag and adds the tag to the parse |
| `QuickCapture.AcceptProjectRemovesToken` | src/ui/dialogs/quick_capture.rs:589-604 | accepting a project removes the @token from the text |
| `QuickCapture.AcceptProjectChoosesProject` | src/ui/dialogs/quick_capture.rs:589-604 | accepting a project makes that project the explicit one |
| `QuickCapture.HighlightUp` | src/ui/dialogs/quick_capture.rs:252-261 | Up moves the highlight back, wrapping to the last suggestion |
| `QuickCapture.HighlightDown` | src/ui/dialogs/quick_capture.rs:262-268 | Down moves the highlight forward, wrapping to the first suggestion |
| `QuickCapture.HighlightDownUp` | src/ui/dialogs/quick_capture.rs:252-268 | Down and Up undo each other |
| `QuickCapture.HandleKey` | src/ui/dialogs/quick_capture.rs:234-337 | Enter submits, Esc cancels and Tab expands only without suggestions; typing inserts and re-parses; a decision leaves the input as it was |
| `QuickCapture.Edited` | src/ui/dialogs/quick_capture.rs:287-304 | after an edit the parse and suggestions are recomputed for the new input |
| `QuickCapture.Moved` | src/ui/dialogs/quick_capture.rs:305-334 | a cursor move keeps the parse and only refreshes suggestions |
| `QuickCapture.EditKey` | src/ui/dialogs/quick_capture.rs:269-337 | word and character edits re-parse the input, cursor moves keep the parse, and every other key leaves the dialog alone; typing a character inserts it and re-parses |
| `QuickCapture.HandleKeyKeepsInSync` | src/ui/dialogs/quick_capture.rs:234-337 | every key keeps the parse in agreement with the input |
| `QuickCapture.SelectionCycles` | src/ui/dialogs/quick_capture.rs:252-268 | Down then Up restores the dialog, and the highlight wraps at both ends |
| `QuickCapture.ToTask` | src/ui/dialogs/quick_capture.rs:667-684 | a task is produced exactly when the parsed title is not blank; the project is the explicit one, else the matched one |
| `QuickCapture.ToAddTaskDialog` | src/ui/dialogs/quick_capture.rs:690-716 | expanding carries title, priority (default medium), due text, effective project and tags into the full dialog |
| `ProjectDialog.FieldCycle` | src/ui/dialogs/project.rs:46-63 | Tab and BackTab are inverse and four Tabs cycle through all fields |
| `ProjectDialog.New` | src/ui/dialogs/project.rs:85-94 | a new dialog is empty, creates rather than edits, and starts on the first colour and icon |
| `ProjectDialog.PositionOr0` | src/ui/dialogs/project.rs:97-118 | the palette position is the first occurrence of the value, or 0 when it is absent |
| `ProjectDialog.FromProject` | src/ui/dialogs/project.rs:97-118 | editing a project prefills its name and selects its colour and icon when they are in the palettes |
| `ProjectDialog.HandleChoice` | src/ui/dialogs/project.rs:176-221 | arrows and h/l step through a palette with wrap-around, a digit 1..n selects that entry, and other keys change nothing |
| `ProjectDialog.ChoiceStepsInverse` | src/ui/dialogs/project.rs:176-221 | a step left and a step right undo each other |
| `ProjectDialog.HandleNameInput` | src/ui/dialogs/project.rs:161-173 | typed characters are inserted and unhandled keys change nothing |
| `ProjectDialog.HandleKey` | src/ui/dialogs/project.rs:126-158 | Esc cancels, Enter on Submit or with ctrl submits, Tab/BackTab move the focus, and only the focused field changes |
| `ProjectDialog.ToProject` | src/ui/dialogs/project.rs:226-248 | a project is produced exactly when the trimmed name is non-empty, with the selected colour and icon and the edited or fresh identifier |
| `ProjectDialog.FromProjectToProject` | src/ui/dialogs/project.rs:97-248 | opening a project with palette colour and icon and saving it unchanged gives back the same project |
| `ProjectDialog.TrimStartMatches` | src/ui/dialogs/project.rs:414-425 | every leading '#' is stripped, and only those |
| `ProjectDialog.Channel` | src/ui/dialogs/project.rs:421-423 | a colour channel is the byte its two hex digits spell (or the single digit after a '+'), and 128 when they do not parse |
| `ProjectDialog.ParseHexColor` | src/ui/dialogs/project.rs:414-425 | a colour parses to RGB exactly when six characters remain after the '#'s, and gray otherwise; the three channels are those of the first, second and third digit pairs |
| `ProjectDialog.ParseHexColorRoundTrip` | src/ui/dialogs/project.rs:414-425 | three bytes written as `#rrggbb` parse back to the same three channels |
| `Numbers.ParseHexByte` | src/ui/dialogs/project.rs:421-423 | `u8::from_str_radix` on two characters: two hex digits give their byte, a '+' and one digit give that digit, and anything else fails |
| `Numbers.ParseHexByteText` | src/ui/dialogs/project.rs:421-423 | a byte written as two lower-case hex digits reads back as itself |
| `ProjectDialog.BlueDecodes` | src/ui/dialogs/project.rs:20-29 | the first palette colour #3498db decodes to (52, 152, 219) |
| `FilterSortDialog.CountMatching` | src/ui/dialogs/filter_sort.rs:89-91 | the count of matching tasks is at most the number of tasks |
| `FilterSortDialog.CountIsFilteredLength` | src/ui/dialogs/filter_sort.rs:89-91 | the count equals the length of the filtered list |
| `FilterSortDialog.CountsFor` | src/ui/dialogs/filter_sort.rs:75-78 | one count per filter choice, each the number of tasks it matches |
| `FilterSortDialog.FilterIndexAsWritten` | src/ui/dialogs/filter_sort.rs:64-67 | the pre-selected filter is the first choice of the same kind, ignoring its payload |
| `FilterSortDialog.LowFilterOpensOnUrgent` | src/ui/dialogs/filter_sort.rs:64-67 | with the low-priority filter active, the dialog opens on the urgent-priority entry |
| `FilterSortDialog.FilterIndex` | src/ui/dialogs/filter_sort.rs:64-67 | the pre-selected filter is the current one whenever it is a listed choice |
| `FilterSortDialog.SortIndex` | src/ui/dialogs/filter_sort.rs:69-72 | the pre-selected sort is the current one when listed, else the first |
| `FilterSortDialog.OpenAt` | src/ui/dialogs/filter_sort.rs:63-86 | the dialog opens on the filter column at the given entry, with the current sort selected and the counts of every filter |
| `FilterSortDialog.New` | src/ui/dialogs/filter_sort.rs:63-86 | as written: the dialog opens on the entry the discriminant lookup finds, with the current sort selected and the counts of every filter |
| `FilterSortDialog.NewIntended` | src/ui/dialogs/filter_sort.rs:63-86 | the dialog opens on the current filter's own entry, with the current sort selected and the counts of every filter |
| `FilterSortDialog.WrittenIndex` | src/ui/dialogs/filter_sort.rs:41-67 | the discriminant lookup finds each of the first six choices itself and every priority choice at the urgent entry |
| `FilterSortDialog.PriorityChoices` | src/ui/dialogs/filter_sort.rs:41-51 | the priority choices are the last four, starting with urgent |
| `FilterSortDialog.NewOnChoice` | src/ui/dialogs/filter_sort.rs:63-101 | as written: opening on a listed filter selects it, except that every priority filter selects the urgent one |
| `FilterSortDialog.NewKeepsCurrent` | src/ui/dialogs/filter_sort.rs:63-101 | as written: confirming straight away keeps the sort, and keeps the filter exactly unless it is a priority filter other than urgent, which becomes the urgent one |
| `FilterSortDialog.NewIntendedKeepsCurrent` | src/ui/dialogs/filter_sort.rs:63-101 | with the corrected lookup, confirming straight away keeps the current filter and sort |
| `FilterSortDialog.HandleKey` | src/ui/dialogs/filter_sort.rs:104-163 | Esc/q cancel and Enter submits without change; Tab and the horizontal keys switch columns; vertical keys move within the active column, clamped at both ends |
| `FilterSortDialog.MoveUp` | src/ui/dialogs/filter_sort.rs:122-132 | moving up keeps the dialog well formed |
| `FilterSortDialog.MoveDown` | src/ui/dialogs/filter_sort.rs:133-143 | moving down keeps the dialog well formed |
| `FilterSortDialog.ToFirst` | src/ui/dialogs/filter_sort.rs:146-152 | jumping to the first entry keeps the dialog well formed |
| `FilterSortDialog.ToLast` | src/ui/dialogs/filter_sort.rs:153-159 | jumping to the last entry keeps the dialog well formed |
| `FilterSortDialog.ToggleTwice` | src/ui/dialogs/filter_sort.rs:113-119 | two Tabs return to the same dialog |
| `MoveToProject.New` | src/ui/dialogs/move_to_project.rs:37-48 | the dialog opens on the task's current project when it is listed, else on the first entry |
| `MoveToProject.SelectedProject` | src/ui/dialogs/move_to_project.rs:51-53 | the selected project is the highlighted one, absent only when there are no projects |
| `MoveToProject.HandleKey` | src/ui/dialogs/move_to_project.rs:61-99 | Esc/q cancel and Enter submits unchanged; vertical keys and Home/End move the highlight, clamped to the list |
| `MoveToProject.NewThenSubmitKeepsProject` | src/ui/dialogs/move_to_project.rs:37-99 | confirming immediately chooses the task's current project |
| `DeleteProject.New` | src/ui/dialogs/delete_project.rs:44-51 | the dialog opens on "move tasks to Inbox" |
| `DeleteProject.UpDownCycle` | src/ui/dialogs/delete_project.rs:59-104 | up and down are inverse and three steps cycle through the choices |
| `DeleteProject.HandleKey` | src/ui/dialogs/delete_project.rs:59-104 | m, d and c/Esc choose and decide directly; Enter decides on the highlighted choice; a submit never carries Cancel |
| `DeleteProject.EnterOnNewMovesToInbox` | src/ui/dialogs/delete_project.rs:44-104 | pressing Enter on a fresh dialog moves the tasks to the Inbox |
| `Confirm.New` | src/ui/dialogs/confirm.rs:36-45 | a new confirmation selects No, is not destructive and uses "Yes"/"No" |
| `Confirm.HandleKey` | src/ui/dialogs/confirm.rs:81-104 | y submits, n and Esc cancel, the horizontal keys toggle the selection, and Enter decides by the selection |
| `Confirm.ToggleTwiceAndEnter` | src/ui/dialogs/confirm.rs:36-104 | one toggle and Enter confirms a fresh dialog |
| `Settings.New` | src/ui/dialogs/settings.rs:78-89 | the settings open on the menu with the first option and nothing pending |
| `Settings.ConfirmedOption` | src/ui/dialogs/settings.rs:97-99 | an option is confirmed exactly while the confirmation step is showing |
| `Settings.HandleMenuKey` | src/ui/dialogs/settings.rs:110-146 | the menu never submits; Enter asks for confirmation of the selected option, Esc cancels, and up/down move with clamping |
| `Settings.BackToMenu` | src/ui/dialogs/settings.rs:149-180 | returning to the menu clears the pending option and keeps the selection |
| `Settings.HandleConfirmKey` | src/ui/dialogs/settings.rs:149-180 | y, or Enter on Yes, submits; n, Esc, or Enter on No go back to the menu; the horizontal keys toggle Yes/No |
| `Settings.HandleKey` | src/ui/dialogs/settings.rs:102-107 | a submit always comes from the confirmation step with the pending option, and a cancel only from the menu |
| `Settings.TwoStepConfirmation` | src/ui/dialogs/settings.rs:102-180 | Enter then y confirms the selected option, and Enter then n returns to the menu |
| `Settings.EnterTwiceIsSafe` | src/ui/dialogs/settings.rs:102-180 | pressing Enter twice does not run a destructive action, because No is preselected |
| `Storage.PriorityToStr` | src/storage/tasks.rs:479-486 | priorities are stored as lower-case words |
| `Storage.StrToPriority` | src/storage/tasks.rs:488-495 | reading a priority ignores case, and unknown words read as Medium |
| `Storage.PriorityRoundTrip` | src/storage/tasks.rs:479-495 | reading back a stored priority gives the same priority, and distinct priorities are stored differently |
| `Storage.StrToPriorityIgnoresCase` | src/storage/tasks.rs:488-495 | reading a priority is case-insensitive |
| `Storage.StatusToStr` | src/storage/tasks.rs:497-504 | statuses are stored as lower-case words |
| `Storage.StrToStatus` | src/storage/tasks.rs:506-513 | reading a status ignores case, and unknown words read as Pending |
| `Storage.StatusRoundTrip` | src/storage/tasks.rs:497-513 | reading back a stored status gives the same status, and distinct statuses are stored differently |
| `Storage.StrToStatusIgnoresCase` | src/storage/tasks.rs:506-513 | reading a status is case-insensitive |
| `Storage.BuildFilterClause` | src/storage/tasks.rs:424-445 | only the project and priority filters bind a parameter, which is the project id or the stored priority, and only All and tag filters have no WHERE clause |
| `Storage.StatusFilterClauses` | src/storage/tasks.rs:426-430 | each status filter selects its own stored status word |
| `Storage.OverduePreselectionIsSound` | src/storage/tasks.rs:439-442 | every overdue task passes the SQL pre-selection |
| `Storage.DuePreselectionDropsClosedTasks` | src/storage/tasks.rs:439-442 | a completed task due now matches the DueToday and DueThisWeek filters in memory but is dropped by the SQL pre-selection |
| `DateTime.WeekdayFormat` | src/utils/datetime.rs:39-58 | the within-a-week form is six characters: the weekday abbreviation, a space and the two-digit day of the month |
| `DateTime.MonthFormat` | src/utils/datetime.rs:39-58 | the far form is six characters: the month abbreviation, a space and the two-digit day of the month |
| `DateTime.FormatRelativeDate` | src/utils/datetime.rs:39-58 | Today, Tomorrow and Yesterday exactly for a local-day difference of 0, 1 and -1; a weekday within 2 to 7 days ahead; month and day otherwise |
| `DateTime.FormatDueDate` | src/utils/datetime.rs:81-86 | a missing due date formats as the empty string, and a present one relatively |
| `DateTime.SameDayIsEquivalence` | src/utils/datetime.rs:112-116 | being on the same local day is reflexive, symmetric and transitive |
| `DateTime.DaysUntil` | src/utils/datetime.rs:195-199 | the day count is positive, zero or negative exactly when the date is in the future, today or the past |
| `DateTime.HelpersAgree` | src/utils/datetime.rs:81-199 | "Today", a zero day count, the today helper and the task's due-today predicate agree, and so do the two this-week predicates |
| `DateTime.AdjacentDays` | src/utils/datetime.rs:39-58 | "Tomorrow" and "Yesterday" appear exactly for day counts 1 and -1 |
| `TaskList.TaskRowRectAsWritten` | src/ui/task_list.rs:128-142 | as written: a row above the scroll offset has no rectangle |
| `TaskList.FarRowWrapsIntoView` | src/ui/task_list.rs:132-134 | a row 65536 lines below the offset is reported as visible on the first line |
| `TaskList.TaskRowRect` | src/ui/task_list.rs:128-142 | a row has a rectangle exactly when it is within the visible window, one line high at its offset from the top |
| `TaskList.FirstPosition` | src/ui/task_list.rs:145-148 | the position is the first index holding the task, and absent exactly when the task is not listed |
| `TaskList.FindTaskRect` | src/ui/task_list.rs:145-148 | as written: a task's rectangle is the truncating row rectangle of its first listed position, and absent for unlisted tasks |
| `TaskList.FindTaskRectIntended` | src/ui/task_list.rs:145-148 | with the corrected row rectangle: a task's rectangle is that of its first listed position, and absent for unlisted tasks |
| `TaskList.FindTaskRectAgrees` | src/ui/task_list.rs:128-148 | while the list is shorter than the 16-bit range past the scroll offset, the as-written and corrected lookups agree |
| `TaskList.RowsAreConsecutive` | src/ui/task_list.rs:128-142 | visible consecutive tasks occupy consecutive screen lines |
| `TaskList.TagString` | src/ui/task_list.rs:422-438 | the tag text is empty exactly without tags and starts with '#' otherwise |
| `TaskList.RenderTags` | src/ui/task_list.rs:422-438 | tags that fit are shown whole; otherwise they are cut with "...", within the width whenever it is at least 3 |
| `TaskList.NarrowRenderOverflows` | src/ui/task_list.rs:433-434 | with width 1 the rendered tags are "...", wider than the width |
| `Theme.Repeat` | src/ui/theme.rs:296-313 | a run is exactly n copies of one shade |
| `Theme.GradientBar` | src/ui/theme.rs:296-313 | the loops build exactly the gradient bar, which is exactly as wide as requested |
| `Theme.RunsAreBar` | src/ui/theme.rs:296-313 | the seven shade runs together make up the bar and fill the width |
| `Theme.MiddleRun` | src/ui/theme.rs:296-313 | the middle of the bar is the full block, and the middle run is never shorter than the others |
| `Commands.NavigateToTop` | src/handlers/commands.rs:274-284 | in the task list the first task is selected when there is one; in the sidebar the first entry is selected |
| `Commands.NavigateToBottom` | src/handlers/commands.rs:286-297 | in the task list the last task is selected when there is one; in the sidebar the last entry is selected |
| `Commands.PageDownBy` | src/handlers/commands.rs:299-309 | page down moves the selection ten rows down, clamped to the last task, and changes nothing else |
| `Commands.PageUpBy` | src/handlers/commands.rs:311-321 | page up moves the selection ten rows up, clamped to the first task, and changes nothing else |
| `Commands.PageDownThenUp` | src/handlers/commands.rs:299-321 | away from the ends, page down then page up returns to the same selection |
| `Commands.ChangeFilter` | src/handlers/commands.rs:713-719 | setting a filter selects the first visible task, or nothing when none is visible, and changes nothing else |
| `Commands.NextPriority` | src/handlers/commands.rs:387-402 | cycling the priority raises it by one, wrapping from Urgent to Low |
| `Commands.NextPriorityCycle` | src/handlers/commands.rs:387-402 | four cycles return to the start and fewer never do |
| `Commands.SearchUp` | src/handlers/commands.rs:647-653 | search up moves the result highlight back, stopping at the first |
| `Commands.SearchDown` | src/handlers/commands.rs:654-661 | search down moves the result highlight forward, stopping at the last |
| `Commands.SearchDownThenUp` | src/handlers/commands.rs:647-661 | away from the end, down then up restores the highlight |
| `Commands.Researched` | src/handlers/commands.rs:816-826 | after an edit in search mode, the results are those of the new query and the first is highlighted |
| `Commands.InsertAtCursor` | src/handlers/commands.rs:816-826 | a typed character is inserted at the cursor, and in search mode the results are refreshed |
| `Commands.DeleteBeforeCursor` | src/handlers/commands.rs:828-840 | backspace removes the character before the cursor, refreshing search results; at 0 nothing changes |
| `Commands.DeleteAtCursor` | src/handlers/commands.rs:842-847 | delete removes the character under the cursor without refreshing search; at the end nothing changes |
| `Commands.InsertThenDelete` | src/handlers/commands.rs:816-840 | typing then backspacing restores the buffer and cursor |
| `Commands.Cancelled` | src/handlers/commands.rs:800-814 | cancelling returns to normal mode with an empty buffer, and leaves the search view for the main view |
| `Commands.ToggleDebugLogs` | src/handlers/commands.rs:696-703 | the debug view is toggled: from it back to main, to it from anywhere else |
| `Commands.ToggleDebugLogsTwice` | src/handlers/commands.rs:696-703 | toggling twice from main or the debug view returns there |
| `Commands.OpenSearch` | src/handlers/commands.rs:633-645 | opening search shows the search view in search mode with an empty query and no results |
| `Commands.Execute` | src/handlers/commands.rs:253-894 | the state stays well formed; a result comes back exactly for the quit, list and view, calendar and line-edit commands; Quit and ForceQuit set the quit flag and stop the loop, and every other command keeps it running |
| `Commands.FilterCommandsResetSelection` | src/handlers/commands.rs:713-759 | every filter command sets the filter and resets the selection to the first visible task, leaving the view and buffer alone |
| `Commands.DebugLogsRoundTrip` | src/handlers/commands.rs:696-703 | showing the debug logs twice returns to the starting view |
| `Commands.CursorCommandsStayInBuffer` | src/handlers/commands.rs:849-869 | the cursor commands keep the cursor within the buffer and stop at its ends |
| `Commands.ExecuteInsertThenDelete` | src/handlers/commands.rs:816-840 | executing a character insert and then a backspace restores the buffer and cursor |
| `KeyMap.HelpKey` | src/handlers/input.rs:91-98 | every key in the help view returns to the main view |
| `KeyMap.DebugKey` | src/handlers/input.rs:103-124 | in the debug view Esc returns to main, j/k scroll the logger, and nothing else is produced |
| `KeyMap.CalendarKey` | src/handlers/input.rs:129-153 | in the calendar only calendar commands come out, and arrows and hjkl move by day and week |
| `KeyMap.DetailKey` | src/handlers/input.rs:158-174 | the task detail view offers only a fixed set of commands, and e/Enter edit |
| `KeyMap.DigitPriority` | src/handlers/input.rs:243-246 | the digits 1 to 4 select Low to Urgent in order, and no other key is a priority |
| `KeyMap.NormalKey` | src/handlers/input.rs:180-259 | a adds a project in the sidebar and a task in the list; digits filter by priority; Esc maps to nothing |
| `KeyMap.EditingKey` | src/handlers/input.rs:264-292 | in editing mode characters are typed, and with ctrl only a and e act |
| `KeyMap.SearchKey` | src/handlers/input.rs:297-332 | in search mode characters are typed, with ctrl only a, e, n and p act, and Down and ctrl-n move down |
| `KeyMap.MapKey` | src/handlers/input.rs:51-86 | ctrl-c force-quits and F12 toggles the logs everywhere; otherwise the view decides, so help returns to main and the calendar yields only calendar commands |
| `KeyMap.AltShiftIgnored` | src/handlers/input.rs:51-332 | the alt and shift flags never change the command |
| `KeyMap.NormalCtrlOnlyForCDU` | src/handlers/input.rs:180-259 | in normal mode ctrl matters only for c, d and u |
| `KeyMap.TypingInserts` | src/handlers/input.rs:264-332 | while editing or searching, a plain character is inserted |
| `KeyMap.EscapeReturns` | src/handlers/input.rs:51-332 | Esc leaves any secondary view or input mode, emptying the buffer, and does nothing in the main view |
| `KeyMap.DigitsAscend` | src/handlers/input.rs:243-246 | a higher digit filters on a strictly higher priority |

## Left out

- Database access: every `storage` query, the migrations and the loading of tasks, projects and tags. `build_order_clause` is left out as well; the SQL text is only modelled as far as the filter clause goes.
- Rendering: every `render_*` function, the layout and styles, and the colour constants of the theme. `progress_bar` is left out too, because it uses floating point.
- The application loop, the terminal and event reading, logging, and the `App` struct. `App` is not part of this model. `Commands` works over an abstract state that holds the fields the modelled commands touch; the number of tasks visible under a filter is a parameter.
- `Commands.Execute`: returns no result for the commands whose effect is a database write, opening a dialog, or a change to `App` that the model does not hold. These commands are NavigateUp/Down, SwitchPanel, the task and project actions, ShowTaskDetail, SearchSelectTask, SubmitInput, Refresh, the logger events, ShowSettings, ShowFilterSort and the calendar task actions.
- Clock, randomness and identifiers: `Utc::now`, `Local` time-zone conversion and UUID generation become parameters (`now`, `localDay`, `env.endOfDay`, `freshId`).
- `AddTask.ParseDueDate`: the explicit date formats (YYYY-MM-DD, MM/DD, DD/MM) are parsed by chrono. They are a parameter `calendarDate` instead of being modelled.
- Opening a URL with the system browser (`open::that`) and status-bar messages are left out. `TextArea.HandleKey` only reports which URL would be opened.
- Integer widths: `i64` overflow in date arithmetic is not modelled, and neither is `u16` overflow in screen coordinates other than the one in `task_row_rect`.
- Text encoding: text is ASCII, so UTF-8 byte offsets, multi-byte characters and Unicode case folding are not modelled.
- `TagInput.UpdateSuggestions` and `QuickCapture.UpdateSuggestions`: the order of suggestions inside each group is not stated beyond the ranking the other lemmas prove.

## Findings

| source | as written | input that shows it | evidently intended | confidence | as-written member | corrected member |
|---|---|---|---|---|---|---|
| src/ui/dialogs/filter_sort.rs:64-67 | the current filter is looked up by enum discriminant only, so the first `ByPriority` entry matches any priority filter | current filter `ByPriority(Low)` | the dialog opens on the `ByPriority(Low)` entry (index 9) | medium, not executed | `FilterSortDialog.FilterIndexAsWritten` / `FilterSortDialog.New` / `FilterSortDialog.NewKeepsCurrent` / `FilterSortDialog.LowFilterOpensOnUrgent` | `FilterSortDialog.FilterIndex` / `FilterSortDialog.NewIntended` / `FilterSortDialog.NewIntendedKeepsCurrent` |
| src/ui/task_list.rs:132-134 | `row_in_view as u16` truncates the row before comparing it with the height | scroll offset 0, index 65536, content height 10 | no rectangle, because the row is far below the view | low, not executed | `TaskList.TaskRowRectAsWritten` / `TaskList.FindTaskRect` / `TaskList.FarRowWrapsIntoView` | `TaskList.TaskRowRect` / `TaskList.FindTaskRectIntended` |

=== FILE: add_task.dfy ===
/**
 * The add/edit task dialog: field focus, the priority selector, the due
 * date parser and the conversion of the dialog's fields into a task.
 */
module AddTask {
  import opened Wrappers
  import opened Text
  import K = Keys
  import T = Tasks
  import TI = TextInput
  import TA = TextArea
  import TG = TagInput
  import DP = DatePicker
  import D = Dates
  import N = Numbers

  /**
   * What the dialog reads from outside: the clock, the local and UTC
   * calendar days of today, the instant of the end (23:59:59) of a local
   * day, and the calendar-format date parser ("YYYY-MM-DD", "YYYY/MM/DD",
   * "MM/DD", "DD/MM"), which yields a local day number.
   */
  datatype Env = Env(
    now: int,
    localToday: int,
    utcToday: int,
    endOfDay: int -> int,
    calendarDate: String -> Option<int>)

  // ---------------------------------------------------------------- fields

  datatype Field = Title | Description | DueDate | Priority | Tags | Submit

  /** `AddTaskField::next`. */
  function Next(f: Field): Field
  {
    match f
    case Title => Description
    case Description => DueDate
    case DueDate => Priority
    case Priority => Tags
    case Tags => Submit
    case Submit => Title
  }

  /** `AddTaskField::prev`. */
  function Prev(f: Field): Field
  {
    match f
    case Title => Submit
    case Description => Title
    case DueDate => Description
    case Priority => DueDate
    case Tags => Priority
    case Submit => Tags
  }

  function NextN(f: Field, n: nat): Field
  {
    if n == 0 then f else Next(NextN(f, n - 1))
  }

  /** Next and Prev undo each other, and Next cycles through all six fields. */
  lemma FieldCycle(f: Field)
    ensures Prev(Next(f)) == f && Next(Prev(f)) == f
    ensures NextN(f, 6) == f
    ensures forall k :: 1 <= k < 6 ==> NextN(f, k) != f
  {
    assert NextN(f, 1) != f && NextN(f, 2) != f && NextN(f, 3) != f;
    assert NextN(f, 4) != f && NextN(f, 5) != f;
  }

  // ---------------------------------------------------------------- priority

  /** Left / `h` on the priority field: one step down, Low wraps to Urgent. */
  function PriorityLeft(p: T.Priority): (r: T.Priority)
    ensures T.Rank(r) == (T.Rank(p) + 3) % 4
  {
    match p
    case Low => T.Urgent
    case Medium => T.Low
    case High => T.Medium
    case Urgent => T.High
  }

  /** Right / `l` on the priority field: one step up, Urgent wraps to Low. */
  function PriorityRight(p: T.Priority): (r: T.Priority)
    ensures T.Rank(r) == (T.Rank(p) + 1) % 4
  {
    match p
    case Low => T.Medium
    case Medium => T.High
    case High => T.Urgent
    case Urgent => T.Low
  }

  lemma PriorityStepsInverse(p: T.Priority)
    ensures PriorityLeft(PriorityRight(p)) == p && PriorityRight(PriorityLeft(p)) == p
    ensures PriorityRight(PriorityRight(PriorityRight(PriorityRight(p)))) == p
  {
  }

  /** `handle_priority_input`. */
  function HandlePriorityInput(p: T.Priority, key: K.KeyEvent): (r: T.Priority)
    ensures key.code in {K.Left, K.Char('h')} ==> r == PriorityLeft(p)
    ensures key.code in {K.Right, K.Char('l')} ==> r == PriorityRight(p)
    ensures key.code == K.Char('1') ==> r == T.Low
    ensures key.code == K.Char('2') ==> r == T.Medium
    ensures key.code == K.Char('3') ==> r == T.High
    ensures key.code == K.Char('4') ==> r == T.Urgent
    ensures key.code !in {K.Left, K.Char('h'), K.Right, K.Char('l'),
                          K.Char('1'), K.Char('2'), K.Char('3'), K.Char('4')} ==>
              r == p
  {
    var c := key.code;
    if c == K.Left || c == K.Char('h') then PriorityLeft(p)
    else if c == K.Right || c == K.Char('l') then PriorityRight(p)
    else if c == K.Char('1') then T.Low
    else if c == K.Char('2') then T.Medium
    else if c == K.Char('3') then T.High
    else if c == K.Char('4') then T.Urgent
    else p
  }

  // ---------------------------------------------------------------- due dates

  /** The keyword dates, as an offset in days from today. */
  function KeywordOffset(s: String): (r: Option<int>)
    ensures r.Some? ==> |s| >= 3 && s[0] in "tyn" && (s[0] == 't' ==> s[1] == 'o')
  {
    if s == "today" || s == "tod" then Some(0)
    else if s == "tomorrow" || s == "tom" then Some(1)
    else if s == "yesterday" then Some(-1)
    else if s == "next week" then Some(7)
    else if s == "next month" then Some(30)
    else None
  }

  /** "+Nd" is N days and "+Nw" is N weeks from today (N as `i64` parses it). */
  function RelativeOffset(s: String): (r: Option<int>)
    ensures r.Some? ==> |s| >= 3 && s[0] == '+'
  {
    if |s| >= 1 && s[0] == '+' then
      var rest := s[1..];
      if rest != [] && rest[|rest| - 1] == 'd' && N.ParseInt(rest[..|rest| - 1]).Some? then
        N.ParseInt(rest[..|rest| - 1])
      else if rest != [] && rest[|rest| - 1] == 'w' && N.ParseInt(rest[..|rest| - 1]).Some? then
        Some(7 * N.ParseInt(rest[..|rest| - 1]).value)
      else None
    else None
  }

  /** A weekday name or abbreviation, as days from Monday. */
  function WeekdayName(s: String): (r: Option<nat>)
    ensures r.Some? ==> r.value < 7
    ensures r.Some? ==> |s| >= 3 && s[0] in "mtwfs" && (s[0] == 't' ==> s[1] in "uh")
  {
    if s == "mon" || s == "monday" then Some(0)
    else if s == "tue" || s == "tuesday" then Some(1)
    else if s == "wed" || s == "wednesday" then Some(2)
    else if s == "thu" || s == "thursday" then Some(3)
    else if s == "fri" || s == "friday" then Some(4)
    else if s == "sat" || s == "saturday" then Some(5)
    else if s == "sun" || s == "sunday" then Some(6)
    else None
  }

  /** Days until the next `target` weekday strictly after `today`. */
  function DaysAhead(target: nat, today: int): (r: int)
    requires target < 7
    ensures 1 <= r <= 7 && D.Weekday(today + r) == target
  {
    var a := (target - D.Weekday(today) + 7) % 7;
    if a == 0 then 7 else a
  }

  /** The date a lowercased, trimmed, non-empty due-date text names, as a local day number. */
  function ResolveDay(s: String, today: int, calendarDate: String -> Option<int>): (r: Option<int>)
  {
    if KeywordOffset(s).Some? then Some(today + KeywordOffset(s).value)
    else if RelativeOffset(s).Some? then Some(today + RelativeOffset(s).value)
    else if WeekdayName(s).Some? then Some(today + DaysAhead(WeekdayName(s).value, today))
    else calendarDate(s)
  }

  /**
   * `parse_due_date` as a local day number: lowercased and trimmed; empty
   * is no date; then keywords, "+Nd"/"+Nw", weekday names, and last the
   * calendar formats.
   */
  function ParseDueDay(input: String, today: int, calendarDate: String -> Option<int>): (r: Option<int>)
    ensures Trim(Lower(input)) == [] ==> r.None?
    ensures Trim(Lower(input)) != [] ==> r == ResolveDay(Trim(Lower(input)), today, calendarDate)
  {
    var s := Trim(Lower(input));
    if s == [] then None else ResolveDay(s, today, calendarDate)
  }

  /** A weekday name gives the next such weekday, one to seven days after today, never today. */
  lemma WeekdayResolution(s: String, today: int, calendarDate: String -> Option<int>)
    requires WeekdayName(s).Some?
    ensures var r := ResolveDay(s, today, calendarDate);
            r.Some? && today + 1 <= r.value <= today + 7 && D.Weekday(r.value) == WeekdayName(s).value
  {
    assert KeywordOffset(s).None?;
    assert RelativeOffset(s).None?;
  }

  /** `parse_due_date`: the end of the parsed local day, as an instant. */
  function ParseDueDate(input: String, env: Env): (r: Option<int>)
    ensures r.Some? <==> ParseDueDay(input, env.localToday, env.calendarDate).Some?
    ensures r.Some? ==> r.value == env.endOfDay(ParseDueDay(input, env.localToday, env.calendarDate).value)
  {
    match ParseDueDay(input, env.localToday, env.calendarDate)
    case Some(day) => Some(env.endOfDay(day))
    case None => None
  }

  /** Lowercasing and trimming leave "+Nd" and "+Nw" unchanged. */
  lemma RelativeTextIsNormal(n: nat, unit: char)
    requires unit == 'd' || unit == 'w'
    ensures Trim(Lower("+" + N.NatToString(n) + [unit])) == "+" + N.NatToString(n) + [unit]
  {
    var s := "+" + N.NatToString(n) + [unit];
    assert forall i :: 0 <= i < |s| ==> !('A' <= s[i] <= 'Z') && !IsWhitespace(s[i]);
    assert Lower(s) == s;
    TrimUntouched(s);
  }

  /** Text without whitespace at either end is its own trim. */
  lemma TrimUntouched(s: String)
    requires s != [] && !IsWhitespace(s[0]) && !IsWhitespace(s[|s| - 1])
    ensures Trim(s) == s
  {
  }

  /** "+Nd" is N days and "+Nw" N weeks from today. */
  lemma PlusOffset(n: nat, unit: char)
    requires unit == 'd' || unit == 'w'
    ensures RelativeOffset("+" + N.NatToString(n) + [unit]) == Some(if unit == 'd' then n else 7 * n)
  {
    var s := "+" + N.NatToString(n) + [unit];
    var rest := s[1..];
    assert rest == N.NatToString(n) + [unit];
    assert rest[..|rest| - 1] == N.NatToString(n);
    N.ParseNatToString(n);
  }

  /** "+Nd" is today + N. */
  lemma PlusDays(n: nat, today: int, calendarDate: String -> Option<int>)
    ensures ParseDueDay("+" + N.NatToString(n) + ['d'], today, calendarDate) == Some(today + n)
  {
    PlusUnit(n, 'd', today, calendarDate);
  }

  /** "+Nw" is today + 7N. */
  lemma PlusWeeks(n: nat, today: int, calendarDate: String -> Option<int>)
    ensures ParseDueDay("+" + N.NatToString(n) + ['w'], today, calendarDate) == Some(today + 7 * n)
  {
    PlusUnit(n, 'w', today, calendarDate);
  }

  /** "+N" followed by a unit letter resolves by the relative offset. */
  lemma PlusUnit(n: nat, unit: char, today: int, calendarDate: String -> Option<int>)
    requires unit == 'd' || unit == 'w'
    ensures unit == 'd' ==> ParseDueDay("+" + N.NatToString(n) + [unit], today, calendarDate) == Some(today + n)
    ensures unit == 'w' ==> ParseDueDay("+" + N.NatToString(n) + [unit], today, calendarDate) == Some(today + 7 * n)
  {
    var s := "+" + N.NatToString(n) + [unit];
    RelativeTextIsNormal(n, unit);
    PlusOffset(n, unit);
    RelativeDay(s, today, calendarDate);
  }

  /** Normalised text starting with '+' that reads as a relative offset resolves by it. */
  lemma RelativeDay(s: String, today: int, calendarDate: String -> Option<int>)
    ensures Trim(Lower(s)) == s && s != [] && s[0] == '+' && RelativeOffset(s).Some? ==>
      ParseDueDay(s, today, calendarDate) == Some(today + RelativeOffset(s).value)
  {
    if Trim(Lower(s)) == s && s != [] && s[0] == '+' && RelativeOffset(s).Some? {
      ResolveRelative(s, today, calendarDate);
    }
  }

  /** Text starting with '+' is never a keyword, so a relative offset decides it. */
  lemma ResolveRelative(s: String, today: int, calendarDate: String -> Option<int>)
    requires s != [] && s[0] == '+' && RelativeOffset(s).Some?
    ensures ResolveDay(s, today, calendarDate) == Some(today + RelativeOffset(s).value)
  {
    assert KeywordOffset(s).None?;
  }

  /** "today" is read in any case and with trailing blanks. */
  lemma KeywordToday(today: int, calendarDate: String -> Option<int>)
    ensures ParseDueDay("Today ", today, calendarDate) == Some(today)
  {
    assert Lower("Today ") == "today" + " ";
    TrailingBlank("today");
    KeywordDay("Today ", "today" + " ", "today", today, calendarDate);
  }

  /** The abbreviation "tom" is tomorrow, whatever its case. */
  lemma KeywordTomorrow(today: int, calendarDate: String -> Option<int>)
    ensures ParseDueDay("TOM", today, calendarDate) == Some(today + 1)
  {
    assert Lower("TOM") == "tom";
    KeywordWord("TOM", "tom", today, calendarDate);
  }

  /** "next week" is seven days ahead. */
  lemma KeywordNextWeek(today: int, calendarDate: String -> Option<int>)
    ensures ParseDueDay("Next Week", today, calendarDate) == Some(today + 7)
  {
    assert Lower("Next Week") == "next week";
    KeywordWord("Next Week", "next week", today, calendarDate);
  }

  /** "next month" is a fixed thirty days ahead, not the same day of the next month. */
  lemma KeywordNextMonth(today: int, calendarDate: String -> Option<int>)
    ensures ParseDueDay("next month", today, calendarDate) == Some(today + 30)
  {
    assert Lower("next month") == "next month";
    KeywordWord("next month", "next month", today, calendarDate);
  }

  /** One trailing blank is trimmed away. */
  lemma TrailingBlank(w: String)
    requires w != [] && !IsWhitespace(w[0]) && !IsWhitespace(w[|w| - 1])
    ensures Trim(w + " ") == w
  {
    var s := w + " ";
    assert TrimStart(s) == s;
    assert s[..|s| - 1] == w;
    TrimUntouched(w);
  }

  /** Text that lowercases to a keyword with no blanks around it resolves by that keyword's offset. */
  lemma KeywordWord(input: String, word: String, today: int, calendarDate: String -> Option<int>)
    requires Lower(input) == word && word != [] && !IsWhitespace(word[0]) && !IsWhitespace(word[|word| - 1])
    requires KeywordOffset(word).Some?
    ensures ParseDueDay(input, today, calendarDate) == Some(today + KeywordOffset(word).value)
  {
    TrimUntouched(word);
    KeywordDay(input, word, word, today, calendarDate);
  }

  /** Text that normalises to a keyword resolves by that keyword's offset. */
  lemma KeywordDay(input: String, lowered: String, word: String, today: int, calendarDate: String -> Option<int>)
    ensures Lower(input) == lowered && Trim(lowered) == word && KeywordOffset(word).Some? ==>
      ParseDueDay(input, today, calendarDate) == Some(today + KeywordOffset(word).value)
  {
  }

  // ---------------------------------------------------------------- dialog

  datatype Dialog = Dialog(
    title: TI.Input,
    description: TA.Area,
    dueDate: TI.Input,
    priority: T.Priority,
    projectId: Option<String>,
    tags: TG.TagState,
    allTags: seq<String>,
    focused: Field,
    editingId: Option<String>,
    picker: Option<DP.Picker>)
  {
    predicate Valid()
    {
      title.Valid() && description.Valid() && dueDate.Valid() && tags.Valid()
      && (picker.Some? ==> picker.value.Valid())
    }
  }

  /** `AddTaskDialog::new`. */
  function New(): (d: Dialog)
    ensures d.Valid() && d.focused == Title && d.editingId == None && d.priority == T.Medium
    ensures d.title.value == [] && d.dueDate.value == [] && d.picker == None
  {
    Dialog(TI.Empty(), TA.Empty(), TI.Empty(), T.Medium, None, TG.WithTags([]), [], Title, None, None)
  }

  /** The UTC calendar date of an instant. */
  function UtcDate(instant: int): (r: D.Date)
    ensures r.Valid() && D.DayNumber(r) == instant / T.SecondsPerDay
  {
    D.FromDayNumber(instant / T.SecondsPerDay)
  }

  /** `AddTaskDialog::from_task`: the task's fields, editing its identifier. */
  function FromTask(t: T.Task): (d: Dialog)
    ensures d.Valid() && d.editingId == Some(t.id) && d.focused == Title
    ensures d.title.value == t.title && d.priority == t.priority && d.projectId == t.projectId
    ensures d.tags.tags == t.tags
    ensures t.dueDate.None? <==> d.dueDate.value == []
    ensures t.dueDate.Some? ==> d.dueDate.value == D.FormatIso(UtcDate(t.dueDate.value))
    ensures d.description == TA.SetText(if t.description.Some? then t.description.value else [])
  {
    var due := match t.dueDate case Some(i) => D.FormatIso(UtcDate(i)) case None => [];
    assert t.dueDate.Some? ==> due != [];
    Dialog(TI.WithValue(t.title),
           TA.SetText(match t.description case Some(x) => x case None => []),
           TI.WithValue(due), t.priority, t.projectId, TG.WithTags(t.tags), [], Title, Some(t.id), None)
  }

  /** `handle_text_input` on the title field. */
  function HandleTextInput(t: TI.Input, key: K.KeyEvent): (r: TI.Input)
    requires t.Valid()
    ensures r.Valid()
    ensures key.code.Char? && !(key.alt && key.code.c in "bf") ==> r == TI.InsertChar(t, key.code.c)
    ensures key.code !in {K.Backspace, K.Delete, K.Left, K.Right, K.Home, K.End} && !key.code.Char? ==> r == t
  {
    var c := key.code;
    if c == K.Char('b') && key.alt then TI.MoveWordLeft(t)
    else if c == K.Char('f') && key.alt then TI.MoveWordRight(t)
    else if c.Char? then TI.InsertChar(t, c.c)
    else if c == K.Backspace && key.alt then TI.DeleteWordBackward(t)
    else if c == K.Backspace then TI.DeleteBackward(t)
    else if c == K.Delete then TI.DeleteForward(t)
    else if c == K.Left && key.alt then TI.MoveWordLeft(t)
    else if c == K.Right && key.alt then TI.MoveWordRight(t)
    else if c == K.Left then TI.MoveLeft(t)
    else if c == K.Right then TI.MoveRight(t)
    else if c == K.Home then TI.MoveHome(t)
    else if c == K.End then TI.MoveEnd(t)
    else t
  }

  /** `handle_due_date_input`; `c` opens the date picker at the parsed date, or today. */
  function HandleDueDateInput(d: Dialog, key: K.KeyEvent, env: Env): (r: Dialog)
    requires d.Valid()
    ensures r.Valid() && r.focused == d.focused && r.title == d.title
    ensures key.code == K.Char('c') ==> r.picker.Some? && r.dueDate == d.dueDate
    ensures var parsed := ParseDueDate(Trim(d.dueDate.value), env);
            key.code == K.Char('c') && parsed.Some? ==>
              r.picker.value.selected == UtcDate(parsed.value) && DP.SameMonth(r.picker.value.view, r.picker.value.selected)
    ensures var parsed := ParseDueDate(Trim(d.dueDate.value), env);
            key.code == K.Char('c') && parsed.None? ==>
              D.DayNumber(r.picker.value.selected) == env.utcToday && DP.SameMonth(r.picker.value.view, r.picker.value.selected)
    ensures key.code != K.Char('c') ==> r.picker == d.picker
    ensures key.code.Char? && key.code.c != 'c' ==> r.dueDate == TI.InsertChar(d.dueDate, key.code.c)
    ensures key.code == K.Backspace ==> r.dueDate == TI.DeleteBackward(d.dueDate)
    ensures key.code == K.Delete ==> r.dueDate == TI.DeleteForward(d.dueDate)
    ensures key.code == K.Left ==> r.dueDate == TI.MoveLeft(d.dueDate)
    ensures key.code == K.Right ==> r.dueDate == TI.MoveRight(d.dueDate)
    ensures key.code == K.Home ==> r.dueDate == TI.MoveHome(d.dueDate)
    ensures key.code == K.End ==> r.dueDate == TI.MoveEnd(d.dueDate)
    ensures !key.code.Char? && key.code !in {K.Backspace, K.Delete, K.Left, K.Right, K.Home, K.End} ==> r == d
  {
    var c := key.code;
    var t := d.dueDate;
    if c == K.Char('c') then
      var p := match ParseDueDate(Trim(t.value), env)
               case Some(i) => DP.WithDate(UtcDate(i))
               case None => DP.New(env.utcToday);
      d.(picker := Some(p))
    else if c.Char? then d.(dueDate := TI.InsertChar(t, c.c))
    else if c == K.Backspace then d.(dueDate := TI.DeleteBackward(t))
    else if c == K.Delete then d.(dueDate := TI.DeleteForward(t))
    else if c == K.Left then d.(dueDate := TI.MoveLeft(t))
    else if c == K.Right then d.(dueDate := TI.MoveRight(t))
    else if c == K.Home then d.(dueDate := TI.MoveHome(t))
    else if c == K.End then d.(dueDate := TI.MoveEnd(t))
    else d
  }

  /** `handle_description_input`: the text area's field moves apply to the dialog. */
  function HandleDescriptionInput(d: Dialog, key: K.KeyEvent): (r: Dialog)
    requires d.Valid()
    ensures r.Valid()
    ensures r.focused in {d.focused, Next(d.focused), Prev(d.focused)}
  {
    var (area, action) := TA.HandleKey(d.description, key);
    match action
    case NextField => d.(description := area, focused := Next(d.focused))
    case PrevField => d.(description := area, focused := Prev(d.focused))
    case _ => d.(description := area)
  }

  /** `handle_key`. */
  function HandleKey(d: Dialog, key: K.KeyEvent, env: Env): (r: (Dialog, K.DialogAction))
    requires d.Valid()
    ensures r.0.Valid()
    ensures d.picker.None? && key.code == K.Esc ==> r.1 == K.Cancel
    ensures d.picker.None? && key.code == K.Enter && (d.focused == Submit || key.ctrl) ==> r.1 == K.Submit
    ensures d.picker.Some? || key.code != K.Tab ==> r.1 != K.Submit || key.code == K.Enter
    ensures d.picker.None? && key.code == K.Tab ==>
              if d.focused == Tags && TG.SelectedSuggestion(d.tags).Some? then r.0.focused == Tags
              else r.0.focused == Next(d.focused)
    ensures d.picker.None? && key.code == K.BackTab ==> r.0.focused == Prev(d.focused)
    ensures d.picker.Some? ==> r.1 == K.NoAction && r.0.focused == d.focused
  {
    match d.picker
    case Some(p) =>
      var (p2, act) := DP.HandleKey(p, key, env.utcToday);
      (match act
       case Select => (d.(dueDate := TI.WithValue(D.FormatIso(p2.selected)), picker := None), K.NoAction)
       case Cancel => (d.(picker := None), K.NoAction)
       case NoAction => (d.(picker := Some(p2)), K.NoAction))
    case None =>
      var c := key.code;
      if c == K.Esc then (d, K.Cancel)
      else if c == K.Enter && d.focused == Submit then (d, K.Submit)
      else if c == K.Enter && key.ctrl then (d, K.Submit)
      else if c == K.Tab then
        if d.focused == Tags && TG.SelectedSuggestion(d.tags).Some? then
          (d.(tags := TG.HandleKey(d.tags, key, d.allTags).0), K.NoAction)
        else (d.(focused := Next(d.focused)), K.NoAction)
      else if c == K.BackTab then (d.(focused := Prev(d.focused)), K.NoAction)
      else
        match d.focused
        case Title => (d.(title := HandleTextInput(d.title, key)), K.NoAction)
        case Description => (HandleDescriptionInput(d, key), K.NoAction)
        case DueDate => (HandleDueDateInput(d, key, env), K.NoAction)
        case Priority => (d.(priority := HandlePriorityInput(d.priority, key)), K.NoAction)
        case Tags => (d.(tags := TG.HandleKey(d.tags, key, d.allTags).0), K.NoAction)
        case Submit => (d, K.NoAction)
  }

  /**
   * `to_task`: nothing for a blank title; otherwise a new task (keeping the
   * edited task's identifier) with the trimmed title, the trimmed
   * description unless blank, the parsed due date and the other fields.
   */
  function ToTask(d: Dialog, freshId: String, env: Env): (r: Option<T.Task>)
    ensures r.None? <==> Trim(d.title.value) == []
    ensures r.Some? ==> r.value.title == Trim(d.title.value) && r.value.title != []
    ensures r.Some? ==> r.value.id == (if d.editingId.Some? then d.editingId.value else freshId)
    ensures r.Some? ==> (r.value.description.None? <==> Trim(TA.GetText(d.description)) == [])
    ensures r.Some? && r.value.description.Some? ==> r.value.description.value == Trim(TA.GetText(d.description))
    ensures r.Some? ==> r.value.dueDate == ParseDueDate(Trim(d.dueDate.value), env)
    ensures r.Some? ==> r.value.priority == d.priority && r.value.projectId == d.projectId
                        && r.value.tags == d.tags.tags && r.value.status == T.Pending
  {
    var title := Trim(d.title.value);
    if title == [] then None
    else
      var id := match d.editingId case Some(x) => x case None => freshId;
      var desc := Trim(TA.GetText(d.description));
      Some(T.NewTask(id, title, env.now).(
        description := if desc == [] then None else Some(desc),
        dueDate := ParseDueDate(Trim(d.dueDate.value), env),
        priority := d.priority,
        projectId := d.projectId,
        tags := d.tags.tags))
  }
}

=== FILE: calendar.dfy ===
/**
 * The weekly calendar view: the Monday that starts the shown week (a day
 * number), the selected weekday, and the task list of the selected day.
 */
module Calendar {
  import opened Wrappers
  import T = Tasks
  import D = Dates
  import S = Sorting
  import Seqs

  datatype Focus = DayGrid | TaskList

  datatype CalendarState = CalendarState(
    weekStart: int,
    selectedDay: nat,
    focus: Focus,
    taskIndex: nat,
    showCompleted: bool)
  {
    /** The week starts on a Monday and the selected day is one of its seven days. */
    predicate Valid()
    {
      D.Weekday(weekStart) == 0 && selectedDay < 7
    }
  }

  /** `selected_date`. */
  function SelectedDate(s: CalendarState): int
  {
    s.weekStart + s.selectedDay
  }

  /** `CalendarState::new` (and `goto_today` for the week fields): the week of `today`, today selected. */
  function New(today: int): (s: CalendarState)
    ensures s.Valid() && SelectedDate(s) == today
    ensures s.focus == DayGrid && s.taskIndex == 0 && !s.showCompleted
  {
    var w := D.Weekday(today);
    CalendarState(today - w, w, DayGrid, 0, false)
  }

  /** `goto_today`: only the week and the selected day change. */
  function GotoToday(s: CalendarState, today: int): (r: CalendarState)
    ensures r.Valid() && SelectedDate(r) == today
    ensures r.focus == s.focus && r.taskIndex == s.taskIndex && r.showCompleted == s.showCompleted
  {
    var n := New(today);
    s.(weekStart := n.weekStart, selectedDay := n.selectedDay)
  }

  function PrevWeek(s: CalendarState): (r: CalendarState)
    requires s.Valid()
    ensures r.Valid() && r.weekStart == s.weekStart - 7 && r.selectedDay == s.selectedDay
  {
    D.WeekdayPeriodic(s.weekStart - 7);
    s.(weekStart := s.weekStart - 7)
  }

  function NextWeek(s: CalendarState): (r: CalendarState)
    requires s.Valid()
    ensures r.Valid() && r.weekStart == s.weekStart + 7 && r.selectedDay == s.selectedDay
  {
    D.WeekdayPeriodic(s.weekStart);
    s.(weekStart := s.weekStart + 7)
  }

  /** `prev_day`: from Monday wraps to the Sunday of the previous week. */
  function PrevDay(s: CalendarState): (r: CalendarState)
    requires s.Valid()
    ensures r.Valid() && SelectedDate(r) == SelectedDate(s) - 1
    ensures s.selectedDay == 0 ==> r.selectedDay == 6 && r.weekStart == s.weekStart - 7
  {
    if s.selectedDay == 0 then PrevWeek(s).(selectedDay := 6) else s.(selectedDay := s.selectedDay - 1)
  }

  /** `next_day`: from Sunday wraps to the Monday of the next week. */
  function NextDay(s: CalendarState): (r: CalendarState)
    requires s.Valid()
    ensures r.Valid() && SelectedDate(r) == SelectedDate(s) + 1
    ensures s.selectedDay == 6 ==> r.selectedDay == 0 && r.weekStart == s.weekStart + 7
  {
    if s.selectedDay == 6 then NextWeek(s).(selectedDay := 0) else s.(selectedDay := s.selectedDay + 1)
  }

  lemma NextThenPrevDay(s: CalendarState)
    requires s.Valid()
    ensures PrevDay(NextDay(s)) == s
  {
  }

  lemma PrevThenNextDay(s: CalendarState)
    requires s.Valid()
    ensures NextDay(PrevDay(s)) == s
  {
  }

  lemma WeekMovesInverse(s: CalendarState)
    requires s.Valid()
    ensures PrevWeek(NextWeek(s)) == s && NextWeek(PrevWeek(s)) == s
  {
  }

  /** `toggle_focus`: entering the task list resets its selection. */
  function ToggleFocus(s: CalendarState): (r: CalendarState)
    ensures r.focus != s.focus
    ensures r.focus == TaskList ==> r.taskIndex == 0
    ensures r.focus == DayGrid ==> r.taskIndex == s.taskIndex
    ensures r.(focus := s.focus, taskIndex := s.taskIndex) == s
  {
    var f := if s.focus == DayGrid then TaskList else DayGrid;
    s.(focus := f, taskIndex := if f == TaskList then 0 else s.taskIndex)
  }

  lemma ToggleFocusTwice(s: CalendarState)
    ensures ToggleFocus(ToggleFocus(s)).focus == s.focus
  {
  }

  /** `prev_task`: saturates at 0. */
  function PrevTask(s: CalendarState): (r: CalendarState)
    ensures r.taskIndex == if s.taskIndex == 0 then 0 else s.taskIndex - 1
    ensures r.(taskIndex := s.taskIndex) == s
  {
    s.(taskIndex := if s.taskIndex > 0 then s.taskIndex - 1 else 0)
  }

  /** `next_task`: advances while below the last task; nothing with no tasks. */
  function NextTask(s: CalendarState, taskCount: nat): (r: CalendarState)
    ensures taskCount == 0 ==> r == s
    ensures s.taskIndex < taskCount ==> r.taskIndex < taskCount
    ensures r.taskIndex == s.taskIndex || r.taskIndex == s.taskIndex + 1
    ensures r.(taskIndex := s.taskIndex) == s
  {
    if taskCount > 0 && s.taskIndex < taskCount - 1 then s.(taskIndex := s.taskIndex + 1) else s
  }

  function ResetTaskSelection(s: CalendarState): (r: CalendarState)
    ensures r.taskIndex == 0 && r.(taskIndex := s.taskIndex) == s
  {
    s.(taskIndex := 0)
  }

  /** `toggle_show_completed`: flips the flag and resets the task selection. */
  function ToggleShowCompleted(s: CalendarState): (r: CalendarState)
    ensures r.showCompleted != s.showCompleted && r.taskIndex == 0
    ensures r.(showCompleted := s.showCompleted, taskIndex := s.taskIndex) == s
  {
    s.(showCompleted := !s.showCompleted, taskIndex := 0)
  }

  /** A task shown on day `day`: due that local day, and open unless completed tasks are shown. */
  predicate OnDay(t: T.Task, day: int, showCompleted: bool, localDay: int -> int)
  {
    t.dueDate.Some? && localDay(t.dueDate.value) == day
    && (showCompleted || (t.status != T.Completed && t.status != T.Archived))
  }

  function OnDayFn(day: int, showCompleted: bool, localDay: int -> int): T.Task -> bool
  {
    t => OnDay(t, day, showCompleted, localDay)
  }

  function Ids(ts: seq<T.Task>): (r: seq<string>)
    ensures |r| == |ts|
    ensures forall i :: 0 <= i < |ts| ==> r[i] == ts[i].id
  {
    seq(|ts|, i requires 0 <= i < |ts| => ts[i].id)
  }

  /** The tasks of the selected day, sorted by the default order (due date ascending). */
  function DayTasks(s: CalendarState, tasks: seq<T.Task>, localDay: int -> int): (r: seq<T.Task>)
    ensures multiset(r) == multiset(Seqs.Keep(OnDayFn(SelectedDate(s), s.showCompleted, localDay), tasks))
    ensures S.Sorted(S.DueDateAsc, r)
  {
    S.SortBySorted(S.DueDateAsc, Seqs.Keep(OnDayFn(SelectedDate(s), s.showCompleted, localDay), tasks));
    S.SortBy(S.DueDateAsc, Seqs.Keep(OnDayFn(SelectedDate(s), s.showCompleted, localDay), tasks))
  }

  /** `get_tasks_for_selected_day`. */
  function TasksForSelectedDay(s: CalendarState, tasks: seq<T.Task>, localDay: int -> int): (r: seq<string>)
    ensures |r| == |DayTasks(s, tasks, localDay)|
    ensures forall i :: 0 <= i < |r| ==> r[i] == DayTasks(s, tasks, localDay)[i].id
  {
    Ids(DayTasks(s, tasks, localDay))
  }

  /** Every listed task is due on the selected day and, unless completed tasks are shown, still open. */
  lemma DayTasksOnSelectedDay(s: CalendarState, tasks: seq<T.Task>, localDay: int -> int, i: nat)
    requires i < |DayTasks(s, tasks, localDay)|
    ensures var t := DayTasks(s, tasks, localDay)[i];
            t in tasks && t.dueDate.Some? && localDay(t.dueDate.value) == SelectedDate(s)
            && (!s.showCompleted ==> t.status != T.Completed && t.status != T.Archived)
  {
    var kept := Seqs.Keep(OnDayFn(SelectedDate(s), s.showCompleted, localDay), tasks);
    var t := DayTasks(s, tasks, localDay)[i];
    assert t in multiset(DayTasks(s, tasks, localDay));
    assert t in multiset(kept);
    var k :| 0 <= k < |kept| && kept[k] == t;
  }

  /** Every task due on the selected day that passes the completion filter is listed. */
  lemma DayTasksComplete(s: CalendarState, tasks: seq<T.Task>, localDay: int -> int, t: T.Task)
    requires t in tasks && OnDay(t, SelectedDate(s), s.showCompleted, localDay)
    ensures t in DayTasks(s, tasks, localDay)
  {
    var kept := Seqs.Keep(OnDayFn(SelectedDate(s), s.showCompleted, localDay), tasks);
    assert t in kept;
    assert t in multiset(DayTasks(s, tasks, localDay));
  }
}

=== FILE: capture_parser.dfy ===
/**
 * The quick-capture line parser: each whitespace-separated word is a
 * project (`@name`), a tag (`#tag`), a priority (`!1`..`!4`), a due date
 * (`due:text`), an escaped literal (`\@x`, `\#x`) or a title word; and the
 * fuzzy project lookup used for `@name`.
 */
module CaptureParser {
  import opened Wrappers
  import opened Text
  import T = Tasks
  import AT = AddTask
  import Seqs

  /** What one word contributes. */
  datatype Token =
    | TitleWord(word: String)
    | ProjectRef(name: String)
    | TagRef(tag: String)
    | PriorityRef(priority: T.Priority)
    | DueRef(text: String)
    | Dropped

  /** `!1`..`!4`: 1 is the most urgent. */
  function PriorityLevel(level: String): (r: Option<T.Priority>)
    ensures r.Some? <==> level in {"1", "2", "3", "4"}
    ensures r == Some(T.Urgent) <==> level == "1"
    ensures r == Some(T.Low) <==> level == "4"
  {
    if level == "1" then Some(T.Urgent)
    else if level == "2" then Some(T.High)
    else if level == "3" then Some(T.Medium)
    else if level == "4" then Some(T.Low)
    else None
  }

  /** The classification of one word, first matching rule wins. */
  function Classify(w: String): (r: Token)
    ensures r.ProjectRef? ==> |w| >= 2 && w[0] == '@' && r.name == w[1..]
    ensures r.TagRef? ==> |w| >= 2 && w[0] == '#' && r.tag == w[1..]
    ensures r.PriorityRef? ==> w != [] && w[0] == '!' && PriorityLevel(w[1..]) == Some(r.priority)
    ensures r.DueRef? ==> StartsWith(w, "due:") && r.text == w[4..] && r.text != []
    ensures r.Dropped? <==> w == "due:"
  {
    if StartsWith(w, "@") then (if |w| > 1 then ProjectRef(w[1..]) else TitleWord(w))
    else if StartsWith(w, "#") then (if |w| > 1 then TagRef(w[1..]) else TitleWord(w))
    else if StartsWith(w, "!") then
      (match PriorityLevel(w[1..]) case Some(p) => PriorityRef(p) case None => TitleWord(w))
    else if StartsWith(w, "due:") then (if |w| > 4 then DueRef(w[4..]) else Dropped)
    else if StartsWith(w, "\\@") then TitleWord("@" + w[2..])
    else if StartsWith(w, "\\#") then TitleWord("#" + w[2..])
    else TitleWord(w)
  }

  /** The fields gathered while walking the words. */
  datatype Acc = Acc(
    titleWords: seq<String>,
    projectName: Option<String>,
    tags: seq<String>,
    priority: Option<T.Priority>,
    dueText: Option<String>)

  const Start := Acc([], None, [], None, None)

  /** One step of the word loop: a later project, priority or due date replaces an earlier one. */
  function Step(a: Acc, w: String): Acc
  {
    match Classify(w)
    case TitleWord(x) => a.(titleWords := a.titleWords + [x])
    case ProjectRef(n) => a.(projectName := Some(n))
    case TagRef(t) => a.(tags := a.tags + [t])
    case PriorityRef(p) => a.(priority := Some(p))
    case DueRef(d) => a.(dueText := Some(d))
    case Dropped => a
  }

  function Walk(a: Acc, words: seq<String>): Acc
    decreases |words|
  {
    if words == [] then a else Walk(Step(a, words[0]), words[1..])
  }

  /** `ParsedCapture`; the due date is the end of the parsed local day, as an instant. */
  datatype Parsed = Parsed(
    title: String,
    projectName: Option<String>,
    tags: seq<String>,
    priority: Option<T.Priority>,
    dueText: Option<String>,
    dueDate: Option<int>)

  /** `parse_capture_input`. */
  function Parse(input: String, env: AT.Env): (r: Parsed)
    ensures r.dueText.None? ==> r.dueDate.None?
    ensures r.dueText.Some? ==> r.dueDate == AT.ParseDueDate(r.dueText.value, env)
  {
    var a := Walk(Start, SplitWhitespace(input));
    Parsed(Join(a.titleWords, " "), a.projectName, a.tags, a.priority, a.dueText,
           match a.dueText case Some(d) => AT.ParseDueDate(d, env) case None => None)
  }

  // ---- reference definitions, one per field

  function TitleWordsOf(words: seq<String>): seq<String>
    decreases |words|
  {
    if words == [] then []
    else (match Classify(words[0]) case TitleWord(x) => [x] case _ => []) + TitleWordsOf(words[1..])
  }

  function TagsOf(words: seq<String>): seq<String>
    decreases |words|
  {
    if words == [] then []
    else (match Classify(words[0]) case TagRef(t) => [t] case _ => []) + TagsOf(words[1..])
  }

  /** The name of the last `@name` word. */
  function LastProject(words: seq<String>): Option<String>
    decreases |words|
  {
    if words == [] then None
    else match LastProject(words[1..])
      case Some(n) => Some(n)
      case None => match Classify(words[0]) case ProjectRef(n) => Some(n) case _ => None
  }

  /** The level of the last valid `!n` word. */
  function LastPriority(words: seq<String>): Option<T.Priority>
    decreases |words|
  {
    if words == [] then None
    else match LastPriority(words[1..])
      case Some(p) => Some(p)
      case None => match Classify(words[0]) case PriorityRef(p) => Some(p) case _ => None
  }

  /** The text of the last non-empty `due:` word. */
  function LastDue(words: seq<String>): Option<String>
    decreases |words|
  {
    if words == [] then None
    else match LastDue(words[1..])
      case Some(d) => Some(d)
      case None => match Classify(words[0]) case DueRef(d) => Some(d) case _ => None
  }

  /** The word loop computes each field independently of the others. */
  lemma {:induction false} WalkFields(a: Acc, words: seq<String>)
    ensures Walk(a, words).titleWords == a.titleWords + TitleWordsOf(words)
    ensures Walk(a, words).tags == a.tags + TagsOf(words)
    ensures Walk(a, words).projectName == LastProject(words).Or(a.projectName)
    ensures Walk(a, words).priority == LastPriority(words).Or(a.priority)
    ensures Walk(a, words).dueText == LastDue(words).Or(a.dueText)
    decreases |words|
  {
    if words != [] {
      WalkFields(Step(a, words[0]), words[1..]);
    }
  }

  /**
   * The parsed title is the title words joined by single spaces, the tags
   * are the `#tag` words in order, and the last `@name`, `!n` and `due:`
   * words win.
   */
  lemma ParseFields(input: String, env: AT.Env)
    ensures Parse(input, env).title == Join(TitleWordsOf(SplitWhitespace(input)), " ")
    ensures Parse(input, env).tags == TagsOf(SplitWhitespace(input))
    ensures Parse(input, env).projectName == LastProject(SplitWhitespace(input))
    ensures Parse(input, env).priority == LastPriority(SplitWhitespace(input))
    ensures Parse(input, env).dueText == LastDue(SplitWhitespace(input))
  {
    var ws := SplitWhitespace(input);
    WalkFields(Start, ws);
    assert Walk(Start, ws).titleWords == TitleWordsOf(ws);
    assert Walk(Start, ws).tags == TagsOf(ws);
  }

  /** The tags of a concatenation are the tags of each part, in order. */
  lemma {:induction false} TagsOfAppend(a: seq<String>, b: seq<String>)
    ensures TagsOf(a + b) == TagsOf(a) + TagsOf(b)
    decreases |a|
  {
    if a != [] {
      assert (a + b)[0] == a[0];
      assert (a + b)[1..] == a[1..] + b;
      TagsOfAppend(a[1..], b);
    } else {
      assert a + b == b;
    }
  }

  /** A tag word anywhere in the line contributes its tag. */
  lemma TagsOfMiddle(before: seq<String>, w: String, after: seq<String>, tag: String)
    requires Classify(w) == TagRef(tag)
    ensures tag in TagsOf(before + [w] + after)
  {
    var ws: seq<String> := [w];
    assert TagsOf(ws) == [tag] by {
      assert ws[1..] == [];
    }
    TagsOfAppend(before + ws, after);
    TagsOfAppend(before, ws);
  }

  /** A word that no rule treats specially. */
  predicate PlainWord(w: String)
  {
    IsWord(w) && w[0] !in "@#!\\" && !StartsWith(w, "due:")
  }

  lemma {:induction false} PlainWordsAreTitle(words: seq<String>)
    requires forall i :: 0 <= i < |words| ==> PlainWord(words[i])
    ensures TitleWordsOf(words) == words
    ensures TagsOf(words) == [] && LastProject(words).None? && LastPriority(words).None? && LastDue(words).None?
    decreases |words|
  {
    if words != [] {
      PlainWordsAreTitle(words[1..]);
    }
  }

  /** A line of plain words parses to itself as the title, with nothing else set. */
  lemma PlainLineIsTitle(words: seq<String>, env: AT.Env)
    requires forall i :: 0 <= i < |words| ==> PlainWord(words[i])
    ensures var r := Parse(Join(words, " "), env);
            r.title == Join(words, " ") && r.tags == [] && r.projectName.None?
            && r.priority.None? && r.dueText.None? && r.dueDate.None?
  {
    SplitJoinRoundTrip(words);
    ParseFields(Join(words, " "), env);
    PlainWordsAreTitle(words);
  }

  /** The documented cases: bare `@`/`#` stay, escapes unescape, `!5` stays, empty `due:` is dropped. */
  lemma ClassifyExamples()
    ensures Classify("@") == TitleWord("@") && Classify("#") == TitleWord("#")
    ensures Classify("\\@john") == TitleWord("@john") && Classify("\\#123") == TitleWord("#123")
    ensures Classify("!5") == TitleWord("!5") && Classify("!1") == PriorityRef(T.Urgent)
    ensures Classify("due:") == Dropped && Classify("due:fri") == DueRef("fri")
    ensures Classify("@Backend") == ProjectRef("Backend") && Classify("#bug") == TagRef("bug")
  {
    ClassifyEscapes();
    ClassifyLevels();
    ClassifyDue();
    ClassifyRefs();
  }

  /** A backslash before `@` or `#` keeps the word in the title, without the backslash. */
  lemma ClassifyEscapes()
    ensures Classify("\\@john") == TitleWord("@john") && Classify("\\#123") == TitleWord("#123")
  {
    assert "\\@john"[2..] == "john";
    assert "\\#123"[2..] == "123";
  }

  /** `!1` is Urgent, and a level outside 1..4 leaves the word in the title. */
  lemma ClassifyLevels()
    ensures Classify("!5") == TitleWord("!5") && Classify("!1") == PriorityRef(T.Urgent)
  {
    assert "!5"[1..] == "5";
    assert "!1"[1..] == "1";
  }

  /** An empty `due:` is dropped and a non-empty one is due text. */
  lemma ClassifyDue()
    ensures Classify("due:") == Dropped && Classify("due:fri") == DueRef("fri")
  {
    assert "due:fri"[4..] == "fri";
  }

  /** `@name` names a project and `#tag` a tag. */
  lemma ClassifyRefs()
    ensures Classify("@Backend") == ProjectRef("Backend") && Classify("#bug") == TagRef("bug")
  {
    assert "@Backend"[1..] == "Backend";
    assert "#bug"[1..] == "bug";
  }

  // ---------------------------------------------------------------- fuzzy match

  predicate ExactName(lower: String, p: T.Project)
  {
    Lower(p.name) == lower
  }

  predicate PrefixName(lower: String, p: T.Project)
  {
    StartsWith(Lower(p.name), lower)
  }

  predicate SubstringName(lower: String, p: T.Project)
  {
    Contains(Lower(p.name), lower)
  }

  function ExactFn(lower: String): T.Project -> bool { p => ExactName(lower, p) }
  function PrefixFn(lower: String): T.Project -> bool { p => PrefixName(lower, p) }
  function SubstringFn(lower: String): T.Project -> bool { p => SubstringName(lower, p) }

  /**
   * `fuzzy_match_project`: the first project whose lowercased name equals
   * the lowercased query, else the first it starts with, else the first
   * containing it.
   */
  function FuzzyMatchProject(projects: seq<T.Project>, name: String): (r: Option<T.Project>)
    ensures r.Some? <==> exists i :: 0 <= i < |projects| && SubstringName(Lower(name), projects[i])
    ensures r.Some? ==> r.value in projects && SubstringName(Lower(name), r.value)
  {
    var lower := Lower(name);
    match Seqs.FirstIndex(ExactFn(lower), projects)
    case Some(i) =>
      assert lower == Lower(projects[i].name)[..|lower|];
      assert OccursAt(Lower(projects[i].name), lower, 0);
      Some(projects[i])
    case None =>
      match Seqs.FirstIndex(PrefixFn(lower), projects)
      case Some(i) =>
        assert lower == Lower(projects[i].name)[..|lower|];
        assert OccursAt(Lower(projects[i].name), lower, 0);
        Some(projects[i])
      case None =>
        match Seqs.FirstIndex(SubstringFn(lower), projects)
        case Some(i) => Some(projects[i])
        case None =>
          assert forall i :: 0 <= i < |projects| ==> !SubstringName(lower, projects[i]) by {
            forall i | 0 <= i < |projects| ensures !SubstringName(lower, projects[i]) {
              assert !SubstringFn(lower)(projects[i]);
            }
          }
          None
  }

  /** The exact-name level: a name equal to the query wins, the first such in order. */
  lemma ExactLevel(projects: seq<T.Project>, lower: String, name: String)
    requires lower == Lower(name)
    requires exists i :: 0 <= i < |projects| && ExactName(lower, projects[i])
    ensures var r := FuzzyMatchProject(projects, name);
            r.Some? && ExactName(lower, r.value)
            && exists i :: 0 <= i < |projects| && projects[i] == r.value
                           && forall j :: 0 <= j < i ==> !ExactName(lower, projects[j])
  {
    var i :| 0 <= i < |projects| && ExactName(lower, projects[i]);
    assert ExactFn(lower)(projects[i]);
  }

  /** The prefix level: with no exact name, the first name starting with the query wins. */
  lemma PrefixLevel(projects: seq<T.Project>, lower: String, name: String)
    requires lower == Lower(name)
    requires forall i :: 0 <= i < |projects| ==> !ExactName(lower, projects[i])
    requires exists i :: 0 <= i < |projects| && PrefixName(lower, projects[i])
    ensures var r := FuzzyMatchProject(projects, name);
            r.Some? && PrefixName(lower, r.value)
            && exists i :: 0 <= i < |projects| && projects[i] == r.value
                           && forall j :: 0 <= j < i ==> !PrefixName(lower, projects[j])
  {
    var i :| 0 <= i < |projects| && PrefixName(lower, projects[i]);
    assert PrefixFn(lower)(projects[i]);
    assert forall k :: 0 <= k < |projects| ==> !ExactFn(lower)(projects[k]);
  }

  /** The substring level: with no exact or prefix name, the first name containing the query wins. */
  lemma SubstringLevel(projects: seq<T.Project>, lower: String, name: String)
    requires lower == Lower(name)
    requires forall i :: 0 <= i < |projects| ==> !ExactName(lower, projects[i]) && !PrefixName(lower, projects[i])
    requires exists i :: 0 <= i < |projects| && SubstringName(lower, projects[i])
    ensures var r := FuzzyMatchProject(projects, name);
            r.Some? && SubstringName(lower, r.value)
            && exists i :: 0 <= i < |projects| && projects[i] == r.value
                           && forall j :: 0 <= j < i ==> !SubstringName(lower, projects[j])
  {
    var i :| 0 <= i < |projects| && SubstringName(lower, projects[i]);
    assert SubstringFn(lower)(projects[i]);
    assert forall k :: 0 <= k < |projects| ==> !ExactFn(lower)(projects[k]);
    assert forall k :: 0 <= k < |projects| ==> !PrefixFn(lower)(projects[k]);
  }

  /** Matching prefers an exact name, then a prefix, then a substring; each the first in order. */
  lemma FuzzyMatchPreference(projects: seq<T.Project>, name: String)
    ensures var lower := Lower(name);
            var r := FuzzyMatchProject(projects, name);
            (exists i :: 0 <= i < |projects| && ExactName(lower, projects[i])) ==>
              r.Some? && ExactName(lower, r.value)
              && exists i :: 0 <= i < |projects| && projects[i] == r.value
                             && forall j :: 0 <= j < i ==> !ExactName(lower, projects[j])
    ensures var lower := Lower(name);
            var r := FuzzyMatchProject(projects, name);
            (forall i :: 0 <= i < |projects| ==> !ExactName(lower, projects[i]))
            && (exists i :: 0 <= i < |projects| && PrefixName(lower, projects[i])) ==>
              r.Some? && PrefixName(lower, r.value)
              && exists i :: 0 <= i < |projects| && projects[i] == r.value
                             && forall j :: 0 <= j < i ==> !PrefixName(lower, projects[j])
    ensures var lower := Lower(name);
            var r := FuzzyMatchProject(projects, name);
            (forall i :: 0 <= i < |projects| ==> !ExactName(lower, projects[i]) && !PrefixName(lower, projects[i]))
            && (exists i :: 0 <= i < |projects| && SubstringName(lower, projects[i])) ==>
              r.Some? && SubstringName(lower, r.value)
              && exists i :: 0 <= i < |projects| && projects[i] == r.value
                             && forall j :: 0 <= j < i ==> !SubstringName(lower, projects[j])
  {
    var lower := Lower(name);
    if exists i :: 0 <= i < |projects| && ExactName(lower, projects[i]) {
      ExactLevel(projects, lower, name);
    } else if exists i :: 0 <= i < |projects| && PrefixName(lower, projects[i]) {
      PrefixLevel(projects, lower, name);
    } else if exists i :: 0 <= i < |projects| && SubstringName(lower, projects[i]) {
      SubstringLevel(projects, lower, name);
    }
  }
}

=== FILE: commands.dfy ===
/**
 * The commands the key map produces and the part of their execution that
 * is a pure update of the application state: list navigation and paging,
 * view switches, filter changes, the search list, the line-edit buffer,
 * and quitting. The application record is abstract: the number of tasks a
 * filter leaves visible, today's local day and the task count of the
 * selected calendar day are supplied from outside.
 */
module Commands {
  import opened Wrappers
  import opened Text
  import T = Tasks
  import F = Filters
  import C = Calendar
  import S = Search

  datatype Focus = Sidebar | TaskList

  datatype View = Main | Help | CalendarView | SearchView | DebugLogs | TaskDetail

  datatype InputMode = Normal | Editing | Searching

  /** `TuiLoggerEvent`: keys forwarded to the log viewer. */
  datatype LoggerEvent = SpaceBar | Up | Down | PrevPage | NextPage | Left | Right | Plus | Minus | Hide

  /** `Command`. */
  datatype Command =
    | NavigateUp | NavigateDown | NavigateTop | NavigateBottom | PageDown | PageUp
    | SwitchPanel | FocusSidebar | FocusTaskList
    | AddTask | EditTask | DeleteTask | ToggleTaskStatus | CyclePriority | MoveToProject | EditTags
    | AddProject | EditProject | DeleteProject
    | ShowMain | ShowHelp | ShowCalendar | ShowSearch | SearchNavigateUp | SearchNavigateDown
    | SearchSelectTask | ShowDebugLogs | ShowTaskDetail
    | CalendarPrevDay | CalendarNextDay | CalendarPrevWeek | CalendarNextWeek | CalendarToday
    | CalendarSelectDay | CalendarToggleFocus | CalendarTaskUp | CalendarTaskDown
    | CalendarToggleTask | CalendarCyclePriority | CalendarEditTask | CalendarGoToTask
    | CalendarToggleCompleted
    | ShowSettings
    | SetFilter(filter: F.Filter) | FilterToday | FilterThisWeek | FilterByPriority(priority: T.Priority)
    | ShowFilterSort
    | EnterEditMode | ExitEditMode | SubmitInput | CancelInput
    | InsertChar(c: char) | DeleteCharBackward | DeleteCharForward
    | MoveCursorLeft | MoveCursorRight | MoveCursorStart | MoveCursorEnd
    | Logger(event: LoggerEvent)
    | Quit | ForceQuit | Refresh

  /**
   * The application state the pure commands touch. `projectIndex` 0 is
   * "All Tasks" and `projectCount` counts the real projects;
   * `projectTasks` are the tasks of the selected project, searched by the
   * search view.
   */
  datatype App = App(
    focus: Focus,
    view: View,
    mode: InputMode,
    filter: F.Filter,
    selectedTask: Option<nat>,
    projectIndex: nat,
    projectCount: nat,
    buffer: String,
    cursor: nat,
    projectTasks: seq<T.Task>,
    searchResults: seq<S.SearchResult>,
    searchIndex: nat,
    calendar: C.CalendarState,
    shouldQuit: bool)
  {
    predicate Valid()
    {
      cursor <= |buffer| && calendar.Valid() && projectIndex <= projectCount
      && (searchResults != [] ==> searchIndex < |searchResults|)
    }
  }

  /**
   * What execution reads from outside the record: how many tasks a filter
   * leaves visible, today's local day, and how many tasks the selected
   * calendar day lists.
   */
  datatype Ctx = Ctx(visible: F.Filter -> nat, today: int, dayTaskCount: nat)

  // ---------------------------------------------------------------- navigation

  /** `NavigateTop`: the first task, or "All Tasks" on the sidebar. */
  function NavigateToTop(app: App, ctx: Ctx): (r: App)
    requires app.Valid()
    ensures r.Valid()
    ensures app.focus == TaskList && ctx.visible(app.filter) > 0 ==> r.selectedTask == Some(0)
    ensures app.focus == TaskList && ctx.visible(app.filter) == 0 ==> r == app
    ensures app.focus == Sidebar ==> r == app.(projectIndex := 0)
  {
    if app.focus == TaskList then
      if ctx.visible(app.filter) > 0 then app.(selectedTask := Some(0)) else app
    else app.(projectIndex := 0)
  }

  /** `NavigateBottom`: the last task, or the last project on the sidebar. */
  function NavigateToBottom(app: App, ctx: Ctx): (r: App)
    requires app.Valid()
    ensures r.Valid()
    ensures app.focus == TaskList && ctx.visible(app.filter) > 0 ==>
      r == app.(selectedTask := Some(ctx.visible(app.filter) - 1))
    ensures app.focus == TaskList && ctx.visible(app.filter) == 0 ==> r == app
    ensures app.focus == Sidebar ==> r == app.(projectIndex := app.projectCount)
  {
    var count := ctx.visible(app.filter);
    if app.focus == TaskList then
      if count > 0 then app.(selectedTask := Some(count - 1)) else app
    else app.(projectIndex := app.projectCount)
  }

  const PageSize: nat := 10

  /** `PageDown`: ten rows further, stopping at the last; the sidebar does not page. */
  function PageDownBy(app: App, ctx: Ctx): (r: App)
    requires app.Valid()
    ensures r.Valid() && r.(selectedTask := app.selectedTask) == app
    ensures app.focus == Sidebar || ctx.visible(app.filter) == 0 ==> r == app
    ensures app.focus == TaskList && ctx.visible(app.filter) > 0 ==>
      var cur := app.selectedTask.UnwrapOr(0);
      var n := ctx.visible(app.filter);
      r.selectedTask.Some? && r.selectedTask.value < n
      && r.selectedTask.value <= cur + PageSize
      && (r.selectedTask.value == cur + PageSize || r.selectedTask.value == n - 1)
  {
    var count := ctx.visible(app.filter);
    if app.focus == TaskList && count > 0 then
      var current := app.selectedTask.UnwrapOr(0);
      app.(selectedTask := Some(if current + PageSize <= count - 1 then current + PageSize else count - 1))
    else app
  }

  /** `PageUp`: ten rows back, stopping at the first; the sidebar does not page. */
  function PageUpBy(app: App, ctx: Ctx): (r: App)
    requires app.Valid()
    ensures r.Valid() && r.(selectedTask := app.selectedTask) == app
    ensures app.focus == Sidebar || ctx.visible(app.filter) == 0 ==> r == app
    ensures app.focus == TaskList && ctx.visible(app.filter) > 0 ==>
      var cur := app.selectedTask.UnwrapOr(0);
      r.selectedTask.Some? && r.selectedTask.value + PageSize >= cur
      && (r.selectedTask.value + PageSize == cur || r.selectedTask.value == 0)
  {
    var count := ctx.visible(app.filter);
    if app.focus == TaskList && count > 0 then
      var current := app.selectedTask.UnwrapOr(0);
      app.(selectedTask := Some(if current >= PageSize then current - PageSize else 0))
    else app
  }

  /** Paging down and back up returns to the same row when the list is long enough. */
  lemma PageDownThenUp(app: App, ctx: Ctx, i: nat)
    requires app.Valid() && app.focus == TaskList && app.selectedTask == Some(i)
    requires i + PageSize < ctx.visible(app.filter)
    ensures PageUpBy(PageDownBy(app, ctx), ctx) == app
  {
    assert PageDownBy(app, ctx) == app.(selectedTask := Some(i + PageSize));
  }

  // ---------------------------------------------------------------- filters

  /** `SetFilter` and the quick filters: a new filter, and the selection back at the top if anything shows. */
  function ChangeFilter(app: App, f: F.Filter, ctx: Ctx): (r: App)
    requires app.Valid()
    ensures r.Valid() && r.filter == f
    ensures r.selectedTask == (if ctx.visible(f) > 0 then Some(0) else None)
    ensures r.(filter := app.filter, selectedTask := app.selectedTask) == app
  {
    app.(filter := f, selectedTask := if ctx.visible(f) > 0 then Some(0) else None)
  }

  /** `CyclePriority`: Low, Medium, High, Urgent, then Low again. */
  function NextPriority(p: T.Priority): (r: T.Priority)
    ensures T.Rank(r) == (T.Rank(p) + 1) % 4
  {
    match p
    case Low => T.Medium
    case Medium => T.High
    case High => T.Urgent
    case Urgent => T.Low
  }

  /** Four steps of the cycle come back to the start, and fewer never do. */
  lemma NextPriorityCycle(p: T.Priority)
    ensures NextPriority(NextPriority(NextPriority(NextPriority(p)))) == p
    ensures NextPriority(p) != p && NextPriority(NextPriority(p)) != p
    ensures NextPriority(NextPriority(NextPriority(p))) != p
  {
  }

  // ---------------------------------------------------------------- search list

  /** `SearchNavigateUp`: one result up, stopping at the first. */
  function SearchUp(app: App): (r: App)
    requires app.Valid()
    ensures r.Valid() && r.(searchIndex := app.searchIndex) == app
    ensures app.searchResults == [] ==> r == app
    ensures app.searchResults != [] ==> r.searchIndex == if app.searchIndex == 0 then 0 else app.searchIndex - 1
  {
    if app.searchResults != [] then app.(searchIndex := if app.searchIndex > 0 then app.searchIndex - 1 else 0)
    else app
  }

  /** `SearchNavigateDown`: one result down, stopping at the last. */
  function SearchDown(app: App): (r: App)
    requires app.Valid()
    ensures r.Valid() && r.(searchIndex := app.searchIndex) == app
    ensures app.searchResults == [] ==> r == app
    ensures app.searchResults != [] ==>
      r.searchIndex == if app.searchIndex + 1 < |app.searchResults| then app.searchIndex + 1 else |app.searchResults| - 1
  {
    if app.searchResults != [] then
      app.(searchIndex := if app.searchIndex + 1 <= |app.searchResults| - 1 then app.searchIndex + 1 else |app.searchResults| - 1)
    else app
  }

  /** Down then Up returns to the same result unless Down was stopped at the last one. */
  lemma SearchDownThenUp(app: App)
    requires app.Valid() && app.searchIndex + 1 < |app.searchResults|
    ensures SearchUp(SearchDown(app)) == app
  {
  }

  /** Results for the search text within the selected project's tasks, the first highlighted. */
  function Researched(app: App): (r: App)
    requires app.Valid()
    ensures r.Valid() && r.searchResults == S.SearchTasks(app.buffer, app.projectTasks) && r.searchIndex == 0
  {
    app.(searchResults := S.SearchTasks(app.buffer, app.projectTasks), searchIndex := 0)
  }

  // ---------------------------------------------------------------- the line-edit buffer

  /** `InsertChar`: the character goes in at the cursor, which moves past it; a search is rerun. */
  function InsertAtCursor(app: App, c: char): (r: App)
    requires app.Valid()
    ensures r.Valid() && r.cursor == app.cursor + 1
    ensures r.buffer == app.buffer[..app.cursor] + [c] + app.buffer[app.cursor..]
    ensures app.mode == Searching ==> r.searchResults == S.SearchTasks(r.buffer, r.projectTasks) && r.searchIndex == 0
    ensures app.mode != Searching ==> r == app.(buffer := r.buffer, cursor := r.cursor)
  {
    var a := app.(buffer := app.buffer[..app.cursor] + [c] + app.buffer[app.cursor..], cursor := app.cursor + 1);
    if a.mode == Searching then Researched(a) else a
  }

  /** `DeleteCharBackward`: removes the character before the cursor, if any; a search is rerun. */
  function DeleteBeforeCursor(app: App): (r: App)
    requires app.Valid()
    ensures r.Valid()
    ensures app.cursor == 0 ==> r == app
    ensures app.cursor > 0 ==>
      r.cursor == app.cursor - 1 && r.buffer == app.buffer[..app.cursor - 1] + app.buffer[app.cursor..]
    ensures app.cursor > 0 && app.mode == Searching ==>
      r.searchResults == S.SearchTasks(r.buffer, r.projectTasks) && r.searchIndex == 0
  {
    if app.cursor > 0 then
      var a := app.(buffer := app.buffer[..app.cursor - 1] + app.buffer[app.cursor..], cursor := app.cursor - 1);
      if a.mode == Searching then Researched(a) else a
    else app
  }

  /** `DeleteCharForward`: removes the character at the cursor, if any; the search is not rerun. */
  function DeleteAtCursor(app: App): (r: App)
    requires app.Valid()
    ensures r.Valid() && r.cursor == app.cursor && r.searchResults == app.searchResults
    ensures app.cursor == |app.buffer| ==> r == app
    ensures app.cursor < |app.buffer| ==> r.buffer == app.buffer[..app.cursor] + app.buffer[app.cursor + 1..]
  {
    if app.cursor < |app.buffer| then app.(buffer := app.buffer[..app.cursor] + app.buffer[app.cursor + 1..])
    else app
  }

  /** Typing a character and then deleting it restores the buffer and the cursor. */
  lemma InsertThenDelete(app: App, c: char)
    requires app.Valid()
    ensures var r := DeleteBeforeCursor(InsertAtCursor(app, c));
            r.buffer == app.buffer && r.cursor == app.cursor
  {
    var a := InsertAtCursor(app, c);
    assert a.buffer[..a.cursor - 1] == app.buffer[..app.cursor];
    assert a.buffer[a.cursor..] == app.buffer[app.cursor..];
    assert app.buffer[..app.cursor] + app.buffer[app.cursor..] == app.buffer;
  }

  /** Leaving the line editor: normal mode with an empty buffer; leaving a search also closes it. */
  function Cancelled(app: App): (r: App)
    requires app.Valid()
    ensures r.Valid() && r.mode == Normal && r.buffer == [] && r.cursor == 0
    ensures app.view == SearchView ==> r.view == Main && r.searchResults == [] && r.searchIndex == 0
    ensures app.view != SearchView ==> r.view == app.view && r.searchResults == app.searchResults
  {
    var a := if app.view == SearchView then app.(view := Main, searchResults := [], searchIndex := 0) else app;
    a.(mode := Normal, buffer := [], cursor := 0)
  }

  // ---------------------------------------------------------------- views

  /** `ShowDebugLogs`: from the log view back to the main view, from anywhere else into the log view. */
  function ToggleDebugLogs(v: View): (r: View)
    ensures r == DebugLogs <==> v != DebugLogs
    ensures v == DebugLogs ==> r == Main
  {
    if v == DebugLogs then Main else DebugLogs
  }

  lemma ToggleDebugLogsTwice(v: View)
    requires v == Main || v == DebugLogs
    ensures ToggleDebugLogs(ToggleDebugLogs(v)) == v
  {
  }

  /** `ShowSearch`: the search view with an empty query, no results and the first one highlighted. */
  function OpenSearch(app: App): (r: App)
    requires app.Valid()
    ensures r.Valid() && r.view == SearchView && r.mode == Searching
    ensures r.buffer == [] && r.cursor == 0 && r.searchResults == [] && r.searchIndex == 0
  {
    app.(view := SearchView, mode := Searching, buffer := [], cursor := 0, searchResults := [], searchIndex := 0)
  }

  // ---------------------------------------------------------------- dispatch

  /** How the model treats a command: quitting, one of the three pure updates, or outside the model. */
  datatype Kind = QuitKind | ListKind | CalendarKind | InputKind | Outside

  function KindOf(cmd: Command): Kind
  {
    match cmd
    case Quit => QuitKind
    case ForceQuit => QuitKind
    case NavigateTop => ListKind
    case NavigateBottom => ListKind
    case PageDown => ListKind
    case PageUp => ListKind
    case FocusSidebar => ListKind
    case FocusTaskList => ListKind
    case ShowMain => ListKind
    case ShowHelp => ListKind
    case ShowDebugLogs => ListKind
    case SetFilter(_) => ListKind
    case FilterToday => ListKind
    case FilterThisWeek => ListKind
    case FilterByPriority(_) => ListKind
    case ShowCalendar => CalendarKind
    case CalendarPrevDay => CalendarKind
    case CalendarNextDay => CalendarKind
    case CalendarPrevWeek => CalendarKind
    case CalendarNextWeek => CalendarKind
    case CalendarToday => CalendarKind
    case CalendarSelectDay => CalendarKind
    case CalendarToggleFocus => CalendarKind
    case CalendarTaskUp => CalendarKind
    case CalendarTaskDown => CalendarKind
    case CalendarToggleCompleted => CalendarKind
    case ShowSearch => InputKind
    case SearchNavigateUp => InputKind
    case SearchNavigateDown => InputKind
    case EnterEditMode => InputKind
    case ExitEditMode => InputKind
    case CancelInput => InputKind
    case InsertChar(_) => InputKind
    case DeleteCharBackward => InputKind
    case DeleteCharForward => InputKind
    case MoveCursorLeft => InputKind
    case MoveCursorRight => InputKind
    case MoveCursorStart => InputKind
    case MoveCursorEnd => InputKind
    case _ => Outside
  }

  /** The navigation, focus, view and filter commands as updates of the record. */
  function ListUpdate(app: App, cmd: Command, ctx: Ctx): (r: App)
    requires app.Valid() && KindOf(cmd) == ListKind
    ensures r.Valid()
  {
    match cmd
    case NavigateTop => NavigateToTop(app, ctx)
    case NavigateBottom => NavigateToBottom(app, ctx)
    case PageDown => PageDownBy(app, ctx)
    case PageUp => PageUpBy(app, ctx)
    case FocusSidebar => app.(focus := Sidebar)
    case FocusTaskList => app.(focus := TaskList)
    case ShowMain => app.(view := Main)
    case ShowHelp => app.(view := Help)
    case ShowDebugLogs => app.(view := ToggleDebugLogs(app.view))
    case SetFilter(f) => ChangeFilter(app, f, ctx)
    case FilterToday => ChangeFilter(app, F.DueToday, ctx)
    case FilterThisWeek => ChangeFilter(app, F.DueThisWeek, ctx)
    case FilterByPriority(p) => ChangeFilter(app, F.ByPriority(p), ctx)
    case _ => assert false; app
  }

  /** The calendar view's commands that only move its selection. */
  function CalendarUpdate(app: App, cmd: Command, ctx: Ctx): (r: App)
    requires app.Valid() && KindOf(cmd) == CalendarKind
    ensures r.Valid()
  {
    match cmd
    case ShowCalendar => app.(view := CalendarView, calendar := C.GotoToday(app.calendar, ctx.today))
    case CalendarPrevDay => app.(calendar := C.PrevDay(app.calendar))
    case CalendarNextDay => app.(calendar := C.NextDay(app.calendar))
    case CalendarPrevWeek => app.(calendar := C.PrevWeek(app.calendar))
    case CalendarNextWeek => app.(calendar := C.NextWeek(app.calendar))
    case CalendarToday => app.(calendar := C.GotoToday(app.calendar, ctx.today))
    case CalendarSelectDay => app.(view := Main)
    case CalendarToggleFocus => app.(calendar := C.ToggleFocus(app.calendar))
    case CalendarTaskUp => app.(calendar := C.PrevTask(app.calendar))
    case CalendarTaskDown => app.(calendar := C.NextTask(app.calendar, ctx.dayTaskCount))
    case CalendarToggleCompleted => app.(calendar := C.ToggleShowCompleted(app.calendar))
    case _ => assert false; app
  }

  /** The search list and the line-edit buffer. */
  function InputUpdate(app: App, cmd: Command): (r: App)
    requires app.Valid() && KindOf(cmd) == InputKind
    ensures r.Valid()
  {
    match cmd
    case ShowSearch => OpenSearch(app)
    case SearchNavigateUp => SearchUp(app)
    case SearchNavigateDown => SearchDown(app)
    case EnterEditMode => app.(mode := Editing)
    case ExitEditMode => app.(mode := Normal, buffer := [], cursor := 0)
    case CancelInput => Cancelled(app)
    case InsertChar(c) => InsertAtCursor(app, c)
    case DeleteCharBackward => DeleteBeforeCursor(app)
    case DeleteCharForward => DeleteAtCursor(app)
    case MoveCursorLeft => app.(cursor := if app.cursor > 0 then app.cursor - 1 else 0)
    case MoveCursorRight => app.(cursor := if app.cursor < |app.buffer| then app.cursor + 1 else app.cursor)
    case MoveCursorStart => app.(cursor := 0)
    case MoveCursorEnd => app.(cursor := |app.buffer|)
    case _ => assert false; app
  }

  /**
   * `Command::execute` for the commands that are pure state updates, with
   * the loop's continue flag; `None` for the commands whose effect lies in
   * the database, in a dialog, or in application methods outside this model.
   */
  function Execute(app: App, cmd: Command, ctx: Ctx): (r: Option<(App, bool)>)
    requires app.Valid()
    ensures r.Some? ==> r.value.0.Valid()
    ensures r.Some? <==> KindOf(cmd) != Outside
    ensures r.Some? ==> (r.value.1 <==> !(cmd == Quit || cmd == ForceQuit))
    ensures cmd == Quit || cmd == ForceQuit ==> r == Some((app.(shouldQuit := true), false))
  {
    match KindOf(cmd)
    case QuitKind => Some((app.(shouldQuit := true), false))
    case ListKind => Some((ListUpdate(app, cmd, ctx), true))
    case CalendarKind => Some((CalendarUpdate(app, cmd, ctx), true))
    case InputKind => Some((InputUpdate(app, cmd), true))
    case Outside => None
  }

  /** A filter command always runs, and leaves the first task selected exactly when the new filter shows any. */
  lemma FilterCommandsResetSelection(app: App, cmd: Command, ctx: Ctx)
    requires app.Valid()
    requires cmd.SetFilter? || cmd == FilterToday || cmd == FilterThisWeek || cmd.FilterByPriority?
    ensures Execute(app, cmd, ctx).Some?
    ensures var r := Execute(app, cmd, ctx).value.0;
            (r.selectedTask.Some? <==> ctx.visible(r.filter) > 0)
            && (r.selectedTask.Some? ==> r.selectedTask.value == 0)
            && r.view == app.view && r.buffer == app.buffer
  {
    var f := if cmd.SetFilter? then cmd.filter
             else if cmd == FilterToday then F.DueToday
             else if cmd == FilterThisWeek then F.DueThisWeek
             else F.ByPriority(cmd.priority);
    FilterUpdate(app, cmd, ctx);
    ExecuteList(app, cmd, ctx);
    assert Execute(app, cmd, ctx).value.0 == ChangeFilter(app, f, ctx);
  }

  /** Each filter command is a list command that changes the filter. */
  lemma FilterUpdate(app: App, cmd: Command, ctx: Ctx)
    requires app.Valid()
    requires cmd.SetFilter? || cmd == FilterToday || cmd == FilterThisWeek || cmd.FilterByPriority?
    ensures KindOf(cmd) == ListKind
    ensures cmd.SetFilter? ==> ListUpdate(app, cmd, ctx) == ChangeFilter(app, cmd.filter, ctx)
    ensures cmd == FilterToday ==> ListUpdate(app, cmd, ctx) == ChangeFilter(app, F.DueToday, ctx)
    ensures cmd == FilterThisWeek ==> ListUpdate(app, cmd, ctx) == ChangeFilter(app, F.DueThisWeek, ctx)
    ensures cmd.FilterByPriority? ==> ListUpdate(app, cmd, ctx) == ChangeFilter(app, F.ByPriority(cmd.priority), ctx)
  {
    match cmd
    case SetFilter(f) =>
    case FilterToday =>
    case FilterThisWeek =>
    case FilterByPriority(p) =>
    case _ =>
  }

  /** The list and view commands run through `ListUpdate`. */
  lemma ExecuteList(app: App, cmd: Command, ctx: Ctx)
    requires app.Valid() && KindOf(cmd) == ListKind
    ensures Execute(app, cmd, ctx) == Some((ListUpdate(app, cmd, ctx), true))
  {
  }

  /** Toggling the log view twice from the main view or the log view comes back to it. */
  lemma DebugLogsRoundTrip(app: App, ctx: Ctx)
    requires app.Valid() && (app.view == Main || app.view == DebugLogs)
    ensures var a := Execute(app, ShowDebugLogs, ctx).value.0;
            Execute(a, ShowDebugLogs, ctx).value.0 == app
  {
  }

  /** The search and line-edit commands run through `InputUpdate`, and only they do. */
  lemma ExecuteInput(app: App, cmd: Command, ctx: Ctx)
    requires app.Valid() && KindOf(cmd) == InputKind
    ensures Execute(app, cmd, ctx) == Some((InputUpdate(app, cmd), true))
  {
  }

  /** The cursor commands keep the cursor inside the buffer and leave the buffer alone. */
  lemma CursorCommandsStayInBuffer(app: App, ctx: Ctx)
    requires app.Valid()
    ensures var r := Execute(app, MoveCursorRight, ctx).value.0;
            r.buffer == app.buffer
            && (app.cursor < |app.buffer| ==> r.cursor == app.cursor + 1)
            && (app.cursor == |app.buffer| ==> r.cursor == app.cursor)
    ensures var r := Execute(app, MoveCursorLeft, ctx).value.0;
            r.buffer == app.buffer && (app.cursor == 0 ==> r.cursor == 0)
            && (app.cursor > 0 ==> r.cursor == app.cursor - 1)
  {
    ExecuteInput(app, MoveCursorRight, ctx);
    ExecuteInput(app, MoveCursorLeft, ctx);
  }

  /** Typing a character and deleting it again through the dispatcher restores the buffer and the cursor. */
  lemma ExecuteInsertThenDelete(app: App, c: char, ctx: Ctx)
    requires app.Valid()
    ensures Execute(app, InsertChar(c), ctx).Some?
    ensures Execute(Execute(app, InsertChar(c), ctx).value.0, DeleteCharBackward, ctx).Some?
    ensures var a := Execute(app, InsertChar(c), ctx).value.0;
            var b := Execute(a, DeleteCharBackward, ctx).value.0;
            b.buffer == app.buffer && b.cursor == app.cursor
  {
    var a := InsertAtCursor(app, c);
    InputInsert(app, c);
    ExecuteInput(app, InsertChar(c), ctx);
    InputDelete(a);
    ExecuteInput(a, DeleteCharBackward, ctx);
    InsertThenDelete(app, c);
  }

  /** Typing a character is a line-edit command that inserts it at the cursor. */
  lemma InputInsert(app: App, c: char)
    requires app.Valid()
    ensures KindOf(InsertChar(c)) == InputKind && InputUpdate(app, InsertChar(c)) == InsertAtCursor(app, c)
  {
  }

  /** Backspace is a line-edit command that deletes before the cursor. */
  lemma InputDelete(app: App)
    requires app.Valid()
    ensures KindOf(DeleteCharBackward) == InputKind && InputUpdate(app, DeleteCharBackward) == DeleteBeforeCursor(app)
  {
  }
}

=== FILE: confirm.dfy ===
/** The yes/no confirmation dialog. */
module Confirm {
  import opened Text
  import K = Keys

  datatype Dialog = Dialog(title: String, message: String, confirmText: String, cancelText: String,
                           selectedYes: bool, destructive: bool)

  /** `ConfirmDialog::new`: "No" is highlighted so that Enter alone never confirms. */
  function New(title: String, message: String): (d: Dialog)
    ensures !d.selectedYes && !d.destructive && d.title == title && d.message == message
    ensures d.confirmText == "Yes" && d.cancelText == "No"
  {
    Dialog(title, message, "Yes", "No", false, false)
  }

  /**
   * `handle_key`: y/Y submit and n/N/Esc cancel whatever is highlighted;
   * Left, Right, Tab, h and l move the highlight; Enter answers with the
   * highlighted button.
   */
  function HandleKey(d: Dialog, key: K.KeyEvent): (r: (Dialog, K.DialogAction))
    ensures key.code in {K.Char('y'), K.Char('Y')} ==> r == (d, K.Submit)
    ensures key.code in {K.Char('n'), K.Char('N'), K.Esc} ==> r == (d, K.Cancel)
    ensures key.code in {K.Left, K.Right, K.Tab, K.Char('h'), K.Char('l')} <==>
              r.0 == d.(selectedYes := !d.selectedYes) && r.0 != d
    ensures key.code == K.Enter ==> r.0 == d && (r.1 == K.Submit <==> d.selectedYes) && r.1 != K.NoAction
    ensures r.0.(selectedYes := d.selectedYes) == d
  {
    match key.code
    case Char('y') => (d, K.Submit)
    case Char('Y') => (d, K.Submit)
    case Char('n') => (d, K.Cancel)
    case Char('N') => (d, K.Cancel)
    case Esc => (d, K.Cancel)
    case Left => (d.(selectedYes := !d.selectedYes), K.NoAction)
    case Right => (d.(selectedYes := !d.selectedYes), K.NoAction)
    case Tab => (d.(selectedYes := !d.selectedYes), K.NoAction)
    case Char('h') => (d.(selectedYes := !d.selectedYes), K.NoAction)
    case Char('l') => (d.(selectedYes := !d.selectedYes), K.NoAction)
    case Enter => (d, if d.selectedYes then K.Submit else K.Cancel)
    case _ => (d, K.NoAction)
  }

  /** Two toggles restore the highlight; on a fresh dialog Enter cancels and one toggle then Enter confirms. */
  lemma ToggleTwiceAndEnter(title: String, message: String, key: K.KeyEvent)
    requires key.code in {K.Left, K.Right, K.Tab, K.Char('h'), K.Char('l')}
    ensures var d := New(title, message);
            HandleKey(HandleKey(d, key).0, key).0 == d
            && HandleKey(d, K.Plain(K.Enter)).1 == K.Cancel
            && HandleKey(HandleKey(d, key).0, K.Plain(K.Enter)).1 == K.Submit
  {
  }
}

=== FILE: date_picker.dfy ===
/** The pop-up month calendar used to pick a due date. */
module DatePicker {
  import K = Keys
  import D = Dates

  /** The selected date and the first shown month (any day of it before the first month move). */
  datatype Picker = Picker(selected: D.Date, view: D.Date)
  {
    predicate Valid()
    {
      selected.Valid() && view.Valid()
    }
  }

  /** `DatePickerAction`; `NoAction` stands for its `None`. */
  datatype PickerAction = NoAction | Select | Cancel

  predicate SameMonth(a: D.Date, b: D.Date)
  {
    a.year == b.year && a.month == b.month
  }

  /** `DatePicker::with_date`. */
  function WithDate(d: D.Date): (p: Picker)
    requires d.Valid()
    ensures p.Valid() && p.selected == d && SameMonth(p.view, p.selected)
  {
    Picker(d, d)
  }

  /** `DatePicker::new`: today (a day number) selected. */
  function New(today: int): (p: Picker)
    ensures p.Valid() && D.DayNumber(p.selected) == today && SameMonth(p.view, p.selected)
  {
    WithDate(D.FromDayNumber(today))
  }

  /** `ensure_view_contains_selected`: move the view to the first of the selected month if needed. */
  function EnsureView(p: Picker): (r: Picker)
    requires p.Valid()
    ensures r.Valid() && r.selected == p.selected && SameMonth(r.view, r.selected)
    ensures SameMonth(p.view, p.selected) ==> r == p
    ensures !SameMonth(p.view, p.selected) ==> r.view.day == 1
  {
    if p.selected.year != p.view.year || p.selected.month != p.view.month then
      p.(view := D.Date(p.selected.year, p.selected.month, 1))
    else p
  }

  /** The selected date moved by `n` days, with the view following it. */
  function Shift(p: Picker, n: int): (r: Picker)
    requires p.Valid()
    ensures r.Valid() && D.DayNumber(r.selected) == D.DayNumber(p.selected) + n
    ensures SameMonth(r.view, r.selected)
  {
    EnsureView(p.(selected := D.AddDays(p.selected, n)))
  }

  /** The first day of the month before `v`'s. */
  function PrevMonthStart(v: D.Date): (r: D.Date)
    requires v.Valid()
    ensures r.Valid() && r.day == 1
    ensures v.month == 1 ==> r.year == v.year - 1 && r.month == 12
    ensures v.month > 1 ==> r.year == v.year && r.month == v.month - 1
  {
    if v.month == 1 then D.Date(v.year - 1, 12, 1) else D.Date(v.year, v.month - 1, 1)
  }

  /** The first day of the month after `v`'s. */
  function NextMonthStart(v: D.Date): (r: D.Date)
    requires v.Valid()
    ensures r.Valid() && r.day == 1
    ensures v.month == 12 ==> r.year == v.year + 1 && r.month == 1
    ensures v.month < 12 ==> r.year == v.year && r.month == v.month + 1
  {
    if v.month == 12 then D.Date(v.year + 1, 1, 1) else D.Date(v.year, v.month + 1, 1)
  }

  /** The selected day of the month carried into the month of `v`, clamped to its length. */
  function CarryDay(v: D.Date, day: nat): (r: D.Date)
    requires v.Valid() && day >= 1
    ensures r.Valid() && SameMonth(r, v)
    ensures r.day == if day < D.DaysInMonth(v.year, v.month) then day else D.DaysInMonth(v.year, v.month)
  {
    var n := D.DaysInMonth(v.year, v.month);
    D.Date(v.year, v.month, if day < n then day else n)
  }

  /** `prev_month`. */
  function PrevMonth(p: Picker): (r: Picker)
    requires p.Valid()
    ensures r.Valid() && r.view == PrevMonthStart(p.view) && SameMonth(r.view, r.selected)
    ensures r.selected.day <= p.selected.day
  {
    var v := PrevMonthStart(p.view);
    Picker(CarryDay(v, p.selected.day), v)
  }

  /** `next_month`. */
  function NextMonth(p: Picker): (r: Picker)
    requires p.Valid()
    ensures r.Valid() && r.view == NextMonthStart(p.view) && SameMonth(r.view, r.selected)
    ensures r.selected.day <= p.selected.day
  {
    var v := NextMonthStart(p.view);
    Picker(CarryDay(v, p.selected.day), v)
  }

  /** The first of the next month lies exactly one month length after the first of this one. */
  lemma NextMonthStartDistance(v: D.Date)
    requires v.Valid()
    ensures D.DayNumber(NextMonthStart(v)) == D.DayNumber(v.(day := 1)) + D.DaysInMonth(v.year, v.month)
  {
    if v.month == 12 {
      D.YearLength(v.year);
      D.MonthTable(v.year);
    }
  }

  /** Moving forward a month and back again returns the view to the first of its month. */
  lemma NextThenPrevMonth(p: Picker)
    requires p.Valid()
    ensures PrevMonth(NextMonth(p)).view == p.view.(day := 1)
  {
  }

  /** Every key the picker reacts to. */
  const PickerKeys := {K.Left, K.Char('h'), K.Right, K.Char('l'), K.Up, K.Char('k'), K.Down, K.Char('j'),
                       K.PageUp, K.Char('H'), K.PageDown, K.Char('L'), K.Char('t'), K.Enter, K.Esc, K.Char('q')}

  /** `handle_key`; any other key is ignored. */
  function HandleKey(p: Picker, key: K.KeyEvent, today: int): (r: (Picker, PickerAction))
    requires p.Valid()
    ensures r.0.Valid()
    ensures key.code in {K.Left, K.Char('h')} ==> D.DayNumber(r.0.selected) == D.DayNumber(p.selected) - 1
    ensures key.code in {K.Right, K.Char('l')} ==> D.DayNumber(r.0.selected) == D.DayNumber(p.selected) + 1
    ensures key.code in {K.Up, K.Char('k')} ==> D.DayNumber(r.0.selected) == D.DayNumber(p.selected) - 7
    ensures key.code in {K.Down, K.Char('j')} ==> D.DayNumber(r.0.selected) == D.DayNumber(p.selected) + 7
    ensures key.code in {K.Left, K.Char('h'), K.Right, K.Char('l'), K.Up, K.Char('k'), K.Down, K.Char('j'),
                         K.PageUp, K.Char('H'), K.PageDown, K.Char('L'), K.Char('t')} ==>
              SameMonth(r.0.view, r.0.selected)
    ensures key.code == K.Char('t') ==> D.DayNumber(r.0.selected) == today
    ensures r.1 == Select <==> key.code == K.Enter
    ensures r.1 == Cancel <==> key.code in {K.Esc, K.Char('q')}
    ensures r.1 != NoAction ==> r.0 == p
    ensures key.code !in PickerKeys ==> r == (p, NoAction)
  {
    var c := key.code;
    if c == K.Left || c == K.Char('h') then (Shift(p, -1), NoAction)
    else if c == K.Right || c == K.Char('l') then (Shift(p, 1), NoAction)
    else if c == K.Up || c == K.Char('k') then (Shift(p, -7), NoAction)
    else if c == K.Down || c == K.Char('j') then (Shift(p, 7), NoAction)
    else if c == K.PageUp || c == K.Char('H') then (PrevMonth(p), NoAction)
    else if c == K.PageDown || c == K.Char('L') then (NextMonth(p), NoAction)
    else if c == K.Char('t') then (EnsureView(p.(selected := D.FromDayNumber(today))), NoAction)
    else if c == K.Enter then (p, Select)
    else if c == K.Esc || c == K.Char('q') then (p, Cancel)
    else (p, NoAction)
  }
}

=== FILE: dates.dfy ===
/**
 * Proleptic Gregorian calendar dates and day numbers. Day 0 is 1970-01-01,
 * a Thursday; weekdays are counted from Monday = 0.
 */
module Dates {
  import opened Wrappers
  import opened Text
  import Numbers

  predicate IsLeapYear(y: int)
  {
    y % 4 == 0 && (y % 100 != 0 || y % 400 == 0)
  }

  /** The number of days of month `m` (1..12) of year `y`. */
  function DaysInMonth(y: int, m: int): (r: nat)
    requires 1 <= m <= 12
    ensures 28 <= r <= 31
    ensures r == 29 <==> m == 2 && IsLeapYear(y)
    ensures r == 28 <==> m == 2 && !IsLeapYear(y)
    ensures r == 30 <==> m in {4, 6, 9, 11}
  {
    if m == 2 then (if IsLeapYear(y) then 29 else 28)
    else if m == 4 || m == 6 || m == 9 || m == 11 then 30
    else 31
  }

  datatype Date = Date(year: int, month: nat, day: nat)
  {
    predicate Valid()
    {
      1 <= month <= 12 && 1 <= day <= DaysInMonth(year, month)
    }
  }

  /** Days of year `y` before the first of month `m`. */
  function DaysBeforeMonth(y: int, m: int): (r: nat)
    requires 1 <= m <= 13
  {
    if m == 1 then 0 else DaysBeforeMonth(y, m - 1) + DaysInMonth(y, m - 1)
  }

  /** Days from 0001-01-01 to the first of January of year `y`. */
  function DaysBeforeYear(y: int): int
  {
    365 * (y - 1) + (y - 1) / 4 - (y - 1) / 100 + (y - 1) / 400
  }

  /** Days from 0001-01-01 to 1970-01-01. */
  const EpochOffset: int := 719162

  /** The day number of a date: days since 1970-01-01. */
  function DayNumber(d: Date): int
    requires d.Valid()
  {
    DaysBeforeYear(d.year) + DaysBeforeMonth(d.year, d.month) + d.day - 1 - EpochOffset
  }

  /** Day of the week of a day number, Monday = 0 .. Sunday = 6. */
  function Weekday(n: int): (w: nat)
    ensures w < 7
  {
    (n + 3) % 7
  }

  /** The weekday repeats every seven days, and consecutive days have consecutive weekdays. */
  lemma WeekdayPeriodic(n: int)
    ensures Weekday(n + 7) == Weekday(n)
    ensures Weekday(n + 1) == (Weekday(n) + 1) % 7
  {
  }

  /** The months of a year add up to 337 days plus February. */
  lemma MonthTable(y: int)
    ensures DaysBeforeMonth(y, 13) == 337 + DaysInMonth(y, 2)
  {
    var feb := DaysInMonth(y, 2);
    assert DaysBeforeMonth(y, 1) == 0;
    assert DaysBeforeMonth(y, 2) == 31;
    assert DaysBeforeMonth(y, 3) == 31 + feb;
    assert DaysBeforeMonth(y, 4) == 62 + feb;
    assert DaysBeforeMonth(y, 5) == 92 + feb;
    assert DaysBeforeMonth(y, 6) == 123 + feb;
    assert DaysBeforeMonth(y, 7) == 153 + feb;
    assert DaysBeforeMonth(y, 8) == 184 + feb;
    assert DaysBeforeMonth(y, 9) == 215 + feb;
    assert DaysBeforeMonth(y, 10) == 245 + feb;
    assert DaysBeforeMonth(y, 11) == 276 + feb;
    assert DaysBeforeMonth(y, 12) == 306 + feb;
  }

  /** Division by a positive divisor determines quotient and remainder uniquely. */
  lemma DivUnique(x: int, d: int, q: int, r: int)
    requires 0 < d && 0 <= r < d && x == d * q + r
    ensures x / d == q && x % d == r
  {
    var q', r' := x / d, x % d;
    assert x == d * q' + r';
    var k := q - q';
    assert d * k == r' - r by { assert d * q - d * q' == d * k; }
    if k >= 1 { MulAtLeast(d, k); }
    else if k <= -1 { MulAtLeast(d, -k); }
  }

  /** A positive multiple of a positive number is at least that number. */
  lemma MulAtLeast(d: int, k: int)
    requires 0 < d && 1 <= k
    ensures d * k >= d
  {
    assert d * k == d + d * (k - 1);
    assert d * (k - 1) >= 0;
  }

  /** Stepping past a multiple of `d` bumps the quotient; otherwise it stays. */
  lemma DivSucc(x: int, d: int)
    requires 0 < d
    ensures (x + 1) / d == if x % d == d - 1 then x / d + 1 else x / d
    ensures (x + 1) % d == 0 <==> x % d == d - 1
  {
    var q, r := x / d, x % d;
    if r == d - 1 { DivUnique(x + 1, d, q + 1, 0); }
    else { DivUnique(x + 1, d, q, r + 1); }
  }

  /** The closed form counts one extra day exactly for leap years. */
  lemma YearStep(y: int)
    ensures DaysBeforeYear(y + 1) == DaysBeforeYear(y) + if IsLeapYear(y) then 366 else 365
  {
    DivSucc(y - 1, 4);
    DivSucc(y - 1, 100);
    DivSucc(y - 1, 400);
    assert y % 400 == 0 ==> y % 100 == 0 by {
      if y % 400 == 0 { DivUnique(y, 100, 4 * (y / 400), 0); }
    }
    assert y % 100 == 0 ==> y % 4 == 0 by {
      if y % 100 == 0 { DivUnique(y, 4, 25 * (y / 100), 0); }
    }
  }

  /** A whole year has 365 days, 366 in a leap year. */
  lemma YearLength(y: int)
    ensures DaysBeforeMonth(y, 13) == if IsLeapYear(y) then 366 else 365
    ensures DaysBeforeYear(y + 1) == DaysBeforeYear(y) + DaysBeforeMonth(y, 13)
  {
    MonthTable(y);
    YearStep(y);
  }

  /** The day after `d`. */
  function NextDay(d: Date): (r: Date)
    requires d.Valid()
    ensures r.Valid() && DayNumber(r) == DayNumber(d) + 1
  {
    if d.day < DaysInMonth(d.year, d.month) then d.(day := d.day + 1)
    else if d.month < 12 then Date(d.year, d.month + 1, 1)
    else
      YearLength(d.year);
      Date(d.year + 1, 1, 1)
  }

  /** The day before `d`. */
  function PrevDay(d: Date): (r: Date)
    requires d.Valid()
    ensures r.Valid() && DayNumber(r) == DayNumber(d) - 1
  {
    if d.day > 1 then d.(day := d.day - 1)
    else if d.month > 1 then Date(d.year, d.month - 1, DaysInMonth(d.year, d.month - 1))
    else
      YearBefore(d.year);
      Date(d.year - 1, 12, 31)
  }

  /** The year before `y` ends where `y` begins, on its 31st of December. */
  lemma YearBefore(y: int)
    ensures DaysBeforeYear(y) == DaysBeforeYear(y - 1) + DaysBeforeMonth(y - 1, 12) + 31
  {
    var x := y - 1;
    YearLength(x);
    assert x + 1 == y;
    assert DaysBeforeMonth(x, 13) == DaysBeforeMonth(x, 12) + 31;
  }

  /** `d + Duration::days(n)`. */
  function AddDays(d: Date, n: int): (r: Date)
    requires d.Valid()
    ensures r.Valid() && DayNumber(r) == DayNumber(d) + n
    decreases if n < 0 then -n else n
  {
    if n == 0 then d
    else if n > 0 then AddDays(NextDay(d), n - 1)
    else AddDays(PrevDay(d), n + 1)
  }

  const Epoch: Date := Date(1970, 1, 1)

  /** The date with day number `n`. */
  function FromDayNumber(n: int): (r: Date)
    ensures r.Valid() && DayNumber(r) == n
  {
    assert DayNumber(Epoch) == 0;
    AddDays(Epoch, n)
  }

  /** Later in the year means a larger day number. */
  lemma DaysBeforeMonthGrows(y: int, m: int, k: int)
    requires 1 <= m <= k <= 13
    ensures DaysBeforeMonth(y, k) >= DaysBeforeMonth(y, m) + (k - m) * 28
    decreases k - m
  {
    if m < k {
      DaysBeforeMonthGrows(y, m, k - 1);
    }
  }

  /** A date's day of the year lies inside its month, and so inside its year. */
  lemma WithinMonth(d: Date)
    requires d.Valid()
    ensures var k := DayNumber(d) + EpochOffset - DaysBeforeYear(d.year);
            DaysBeforeMonth(d.year, d.month) <= k < DaysBeforeMonth(d.year, d.month + 1)
            && k < DaysBeforeMonth(d.year, 13)
  {
    DaysBeforeMonthGrows(d.year, d.month + 1, 13);
  }

  /** A date in an earlier year has a smaller day number. */
  lemma EarlierYear(a: Date, b: Date)
    requires a.Valid() && b.Valid() && a.year < b.year
    ensures DayNumber(a) < DayNumber(b)
  {
    WithinMonth(a);
    YearsApart(a.year, b.year);
  }

  /** A date in an earlier month of the same year has a smaller day number. */
  lemma EarlierMonth(a: Date, b: Date)
    requires a.Valid() && b.Valid() && a.year == b.year && a.month < b.month
    ensures DayNumber(a) < DayNumber(b)
  {
    WithinMonth(a);
    DaysBeforeMonthGrows(a.year, a.month + 1, b.month);
  }

  /** Two valid dates with the same day number are the same date. */
  lemma DayNumberInjective(a: Date, b: Date)
    requires a.Valid() && b.Valid()
    ensures DayNumber(a) == DayNumber(b) ==> a == b
  {
    if a.year < b.year {
      EarlierYear(a, b);
    } else if b.year < a.year {
      EarlierYear(b, a);
    } else if a.month < b.month {
      EarlierMonth(a, b);
    } else if b.month < a.month {
      EarlierMonth(b, a);
    }
  }

  /** An earlier year starts at least a whole year earlier. */
  lemma YearsApart(y: int, z: int)
    requires y < z
    ensures DaysBeforeYear(z) >= DaysBeforeYear(y) + DaysBeforeMonth(y, 13)
    decreases z - y
  {
    YearLength(y);
    if y + 1 < z {
      YearsApart(y + 1, z);
      YearLength(y + 1);
    }
  }

  /**
   * chrono's `%Y`: a year from 0 to 9999 as four digits; any other year
   * with an explicit sign and at least four digits.
   */
  function YearText(y: int): (s: String)
    ensures s != [] && Numbers.ParseInt(s) == Some(y)
    ensures 0 <= y <= 9999 <==> |s| == 4
    ensures 0 <= y <= 9999 ==> Numbers.AllDigits(s)
    ensures y > 9999 ==> s[0] == '+'
    ensures y < 0 ==> s[0] == '-'
  {
    if y < 0 then
      var s := "-" + Numbers.ZeroPad(-y, 4);
      assert s[1..] == Numbers.ZeroPad(-y, 4);
      s
    else if y > 9999 then
      var s := "+" + Numbers.ZeroPad(y, 4);
      assert s[1..] == Numbers.ZeroPad(y, 4);
      s
    else
      assert Numbers.Pow10(4) == 10000;
      Numbers.ZeroPad(y, 4)
  }

  /** The three fields of `y-m-d` with two-character `m` and `d`, counted from the end. */
  lemma DashFields(y: String, m: String, d: String)
    requires |m| == 2 && |d| == 2
    ensures var r := y + "-" + m + "-" + d;
      |r| == |y| + 6 && r[|r| - 6] == '-' && r[|r| - 3] == '-'
      && r[..|r| - 6] == y && r[|r| - 5..|r| - 3] == m && r[|r| - 2..] == d
  {
  }

  /**
   * `%Y-%m-%d`: the year as chrono writes it, month and day as two digits.
   * Reading the three dash-separated fields back gives the date.
   */
  function FormatIso(d: Date): (r: String)
    requires d.Valid()
    ensures |r| >= 10 && r[|r| - 6] == '-' && r[|r| - 3] == '-'
    ensures Numbers.ParseInt(r[..|r| - 6]) == Some(d.year)
    ensures Numbers.ParseInt(r[|r| - 5..|r| - 3]) == Some(d.month as int)
    ensures Numbers.ParseInt(r[|r| - 2..]) == Some(d.day as int)
    ensures 0 <= d.year <= 9999 <==> |r| == 10
    ensures d.year > 9999 ==> r[0] == '+'
    ensures d.year < 0 ==> r[0] == '-'
  {
    var y := YearText(d.year);
    assert Numbers.Pow10(2) == 100;
    var m := Numbers.ZeroPad(d.month, 2);
    var dd := Numbers.ZeroPad(d.day, 2);
    DashFields(y, m, dd);
    y + "-" + m + "-" + dd
  }
}

=== FILE: datetime.dfy ===
/**
 * Date helpers for display: a due date shown relative to today, and the
 * day comparisons. Instants are seconds; `localDay` gives the local
 * calendar day number of an instant, and `now` is the current instant.
 */
module DateTime {
  import opened Wrappers
  import opened Text
  import T = Tasks
  import D = Dates
  import N = Numbers

  const WeekdayAbbrevs: seq<String> := ["Mon", "Tue", "Wed", "Thu", "Fri", "Sat", "Sun"]

  const MonthAbbrevs: seq<String> :=
    ["Jan", "Feb", "Mar", "Apr", "May", "Jun", "Jul", "Aug", "Sep", "Oct", "Nov", "Dec"]

  /** `%a %d`: the weekday's abbreviation and the zero-padded day of the month. */
  function WeekdayFormat(day: int): (r: String)
    ensures |r| >= 6 && r[..3] == WeekdayAbbrevs[D.Weekday(day)] && r[3] == ' '
    ensures |r| == 6 && r[4..] == N.ZeroPad(D.FromDayNumber(day).day, 2)
    ensures N.AllDigits(r[4..]) && N.DigitsValue(r[4..]) == D.FromDayNumber(day).day
  {
    var d := D.FromDayNumber(day);
    assert N.Pow10(2) == 100;
    WeekdayAbbrevs[D.Weekday(day)] + " " + N.ZeroPad(d.day, 2)
  }

  /** `%b %d`: the month's abbreviation and the zero-padded day of the month. */
  function MonthFormat(day: int): (r: String)
    ensures |r| >= 6 && r[..3] == MonthAbbrevs[D.FromDayNumber(day).month - 1] && r[3] == ' '
    ensures |r| == 6 && r[4..] == N.ZeroPad(D.FromDayNumber(day).day, 2)
    ensures N.AllDigits(r[4..]) && N.DigitsValue(r[4..]) == D.FromDayNumber(day).day
  {
    var d := D.FromDayNumber(day);
    assert N.Pow10(2) == 100;
    MonthAbbrevs[d.month - 1] + " " + N.ZeroPad(d.day, 2)
  }

  /**
   * `format_relative_date`: "Today", "Tomorrow" or "Yesterday" for the
   * local days next to today; the weekday form for two to seven days
   * ahead; the month form for everything else.
   */
  function FormatRelativeDate(date: int, now: int, localDay: int -> int): (r: String)
    ensures var diff := localDay(date) - localDay(now);
            (r == "Today" <==> diff == 0)
            && (r == "Tomorrow" <==> diff == 1)
            && (r == "Yesterday" <==> diff == -1)
            && (2 <= diff <= 7 ==> r == WeekdayFormat(localDay(date)))
            && (diff < -1 || diff > 7 ==> r == MonthFormat(localDay(date)))
  {
    var day := localDay(date);
    var today := localDay(now);
    if day == today then "Today"
    else if day == today + 1 then "Tomorrow"
    else if day == today - 1 then "Yesterday"
    else if day > today && day <= today + 7 then WeekdayFormat(day)
    else MonthFormat(day)
  }

  /** `format_due_date`: empty without a date. */
  function FormatDueDate(date: Option<int>, now: int, localDay: int -> int): (r: String)
    ensures date.None? <==> r == []
    ensures date.Some? ==> r == FormatRelativeDate(date.value, now, localDay)
  {
    match date
    case None => []
    case Some(d) => FormatRelativeDate(d, now, localDay)
  }

  /** `is_same_day`: the same local calendar day. */
  predicate IsSameDay(a: int, b: int, localDay: int -> int)
  {
    localDay(a) == localDay(b)
  }

  lemma SameDayIsEquivalence(a: int, b: int, c: int, localDay: int -> int)
    ensures IsSameDay(a, a, localDay)
    ensures IsSameDay(a, b, localDay) == IsSameDay(b, a, localDay)
    ensures IsSameDay(a, b, localDay) && IsSameDay(b, c, localDay) ==> IsSameDay(a, c, localDay)
  {
  }

  /** `is_today`. */
  predicate IsToday(date: int, now: int, localDay: int -> int)
  {
    IsSameDay(date, now, localDay)
  }

  /** `is_this_week`: from now to seven days from now, both ends included. */
  predicate IsThisWeek(date: int, now: int)
  {
    now <= date <= now + 7 * T.SecondsPerDay
  }

  /** `days_until`: local calendar days from today to the date's day. */
  function DaysUntil(date: int, now: int, localDay: int -> int): (r: int)
    ensures r > 0 <==> localDay(date) > localDay(now)
    ensures r == 0 <==> IsToday(date, now, localDay)
    ensures r < 0 <==> localDay(date) < localDay(now)
  {
    localDay(date) - localDay(now)
  }

  /**
   * The helpers agree with each other and with the task predicates: a date
   * is "Today" exactly when it is today, zero days away, and what the
   * due-today filter means; "this week" is the due-this-week interval.
   */
  lemma HelpersAgree(t: T.Task, date: int, now: int, localDay: int -> int)
    requires t.dueDate == Some(date)
    ensures FormatDueDate(t.dueDate, now, localDay) == "Today" <==> IsToday(date, now, localDay)
    ensures IsToday(date, now, localDay) <==> DaysUntil(date, now, localDay) == 0
    ensures IsToday(date, now, localDay) <==> T.IsDueToday(t, now, localDay)
    ensures IsThisWeek(date, now) <==> T.IsDueThisWeek(t, now)
  {
  }

  /** Tomorrow is one day away and yesterday one day back. */
  lemma AdjacentDays(date: int, now: int, localDay: int -> int)
    ensures FormatRelativeDate(date, now, localDay) == "Tomorrow" <==> DaysUntil(date, now, localDay) == 1
    ensures FormatRelativeDate(date, now, localDay) == "Yesterday" <==> DaysUntil(date, now, localDay) == -1
  {
  }
}

=== FILE: delete_project.dfy ===
/** The delete-project dialog: what happens to the project's tasks. */
module DeleteProject {
  import opened Text
  import K = Keys

  datatype Choice = MoveToInbox | DeleteTasks | Cancel

  datatype Dialog = Dialog(projectId: String, projectName: String, taskCount: nat, selected: Choice)

  /** `DeleteProjectDialog::new`: the safe choice, moving the tasks to the Inbox, comes first. */
  function New(projectId: String, projectName: String, taskCount: nat): (d: Dialog)
    ensures d.selected == MoveToInbox
    ensures d.projectId == projectId && d.projectName == projectName && d.taskCount == taskCount
  {
    Dialog(projectId, projectName, taskCount, MoveToInbox)
  }

  /** The highlight one row up, wrapping from the first row to the last. */
  function Up(c: Choice): Choice
  {
    match c
    case MoveToInbox => Cancel
    case DeleteTasks => MoveToInbox
    case Cancel => DeleteTasks
  }

  /** The highlight one row down, wrapping from the last row to the first. */
  function Down(c: Choice): Choice
  {
    match c
    case MoveToInbox => DeleteTasks
    case DeleteTasks => Cancel
    case Cancel => MoveToInbox
  }

  /** Up and Down undo each other and each cycles through the three rows. */
  lemma UpDownCycle(c: Choice)
    ensures Up(Down(c)) == c && Down(Up(c)) == c
    ensures Down(Down(Down(c))) == c && Up(Up(Up(c))) == c
    ensures Down(c) != c && Down(Down(c)) != c
  {
  }

  /**
   * `handle_key`: m/M and d/D choose and submit at once; Esc, c and C
   * choose Cancel and cancel; Up/k and Down/j move the highlight; Enter
   * cancels on the Cancel row and submits on the others.
   */
  function HandleKey(d: Dialog, key: K.KeyEvent): (r: (Dialog, K.DialogAction))
    ensures r.0.projectId == d.projectId && r.0.taskCount == d.taskCount
    ensures key.code in {K.Char('m'), K.Char('M')} ==> r == (d.(selected := MoveToInbox), K.Submit)
    ensures key.code in {K.Char('d'), K.Char('D')} ==> r == (d.(selected := DeleteTasks), K.Submit)
    ensures key.code in {K.Esc, K.Char('c'), K.Char('C')} ==> r == (d.(selected := Cancel), K.Cancel)
    ensures key.code == K.Enter ==> r.0 == d && (r.1 == K.Cancel <==> d.selected == Cancel)
    ensures key.code == K.Enter ==> r.1 != K.NoAction
    ensures r.1 == K.Submit ==> r.0.selected != Cancel
    ensures r.1 == K.Cancel ==> r.0.selected == Cancel
  {
    match key.code
    case Char('m') => (d.(selected := MoveToInbox), K.Submit)
    case Char('M') => (d.(selected := MoveToInbox), K.Submit)
    case Char('d') => (d.(selected := DeleteTasks), K.Submit)
    case Char('D') => (d.(selected := DeleteTasks), K.Submit)
    case Esc => (d.(selected := Cancel), K.Cancel)
    case Char('c') => (d.(selected := Cancel), K.Cancel)
    case Char('C') => (d.(selected := Cancel), K.Cancel)
    case Up => (d.(selected := Up(d.selected)), K.NoAction)
    case Char('k') => (d.(selected := Up(d.selected)), K.NoAction)
    case Down => (d.(selected := Down(d.selected)), K.NoAction)
    case Char('j') => (d.(selected := Down(d.selected)), K.NoAction)
    case Enter => (d, if d.selected == Cancel then K.Cancel else K.Submit)
    case _ => (d, K.NoAction)
  }

  /** Pressing Enter on a fresh dialog moves the tasks to the Inbox. */
  lemma EnterOnNewMovesToInbox(projectId: String, projectName: String, taskCount: nat)
    ensures var r := HandleKey(New(projectId, projectName, taskCount), K.Plain(K.Enter));
            r.1 == K.Submit && r.0.selected == MoveToInbox
  {
  }
}

=== FILE: filter_sort_dialog.dfy ===
/**
 * The filter/sort picker: two lists side by side, each with a highlighted
 * entry, and beside each filter the number of tasks it would show.
 */
module FilterSortDialog {
  import opened Wrappers
  import K = Keys
  import T = Tasks
  import F = Filters
  import So = Sorting
  import Seqs

  /** The filters the dialog offers, in display order. */
  const FilterChoices: seq<F.Filter> :=
    [F.All, F.Pending, F.Completed, F.DueToday, F.DueThisWeek, F.Overdue,
     F.ByPriority(T.Urgent), F.ByPriority(T.High), F.ByPriority(T.Medium), F.ByPriority(T.Low)]

  /** The sort orders the dialog offers, in display order. */
  const SortChoices: seq<So.SortOrder> := [So.DueDateAsc, So.PriorityDesc, So.CreatedDesc, So.Alphabetical]

  datatype Section = FilterSection | SortSection

  datatype Dialog = Dialog(section: Section, filterIndex: nat, sortIndex: nat, filterCounts: seq<nat>)
  {
    predicate Valid()
    {
      filterIndex < |FilterChoices| && sortIndex < |SortChoices|
    }
  }

  /** Two filters built by the same constructor, whatever its argument. */
  predicate SameVariant(a: F.Filter, b: F.Filter)
  {
    match a
    case ByProject(_) => b.ByProject?
    case ByTag(_) => b.ByTag?
    case ByPriority(_) => b.ByPriority?
    case _ => a == b
  }

  /** The number of tasks a filter matches. */
  function CountMatching(f: F.Filter, tasks: seq<T.Task>, now: int, localDay: int -> int): (r: nat)
    ensures r <= |tasks|
    decreases |tasks|
  {
    if tasks == [] then 0
    else CountMatching(f, tasks[..|tasks| - 1], now, localDay)
         + (if F.Matches(f, tasks[|tasks| - 1], now, localDay) then 1 else 0)
  }

  /** The count is the length of the filtered list. */
  lemma {:induction false} CountIsFilteredLength(f: F.Filter, tasks: seq<T.Task>, now: int, localDay: int -> int)
    ensures CountMatching(f, tasks, now, localDay) == |F.Apply(f, tasks, now, localDay)|
    decreases |tasks|
  {
    if tasks != [] {
      var init := tasks[..|tasks| - 1];
      var last := tasks[|tasks| - 1];
      CountIsFilteredLength(f, init, now, localDay);
      assert tasks == init + [last];
      F.ApplyAppend(f, init, [last], now, localDay);
      assert F.Apply(f, [last], now, localDay) == (if F.Matches(f, last, now, localDay) then [last] else []) by {
        assert [last][1..] == [];
      }
    }
  }

  /** The count of every offered filter, position by position. */
  function CountsFor(tasks: seq<T.Task>, now: int, localDay: int -> int): (r: seq<nat>)
    ensures |r| == |FilterChoices|
    ensures forall i :: 0 <= i < |r| ==> r[i] == CountMatching(FilterChoices[i], tasks, now, localDay)
  {
    seq(|FilterChoices|, i requires 0 <= i < |FilterChoices| => CountMatching(FilterChoices[i], tasks, now, localDay))
  }

  /**
   * The highlighted filter when the dialog opens, as written: the first
   * offered filter with the same constructor as the current one, else the
   * first. Every priority filter lands on the Urgent entry.
   */
  function FilterIndexAsWritten(current: F.Filter): (r: nat)
    ensures r < |FilterChoices|
    ensures (exists i :: 0 <= i < |FilterChoices| && SameVariant(FilterChoices[i], current)) ==>
              SameVariant(FilterChoices[r], current)
              && forall j :: 0 <= j < r ==> !SameVariant(FilterChoices[j], current)
  {
    match Seqs.FirstIndex((f: F.Filter) => SameVariant(f, current), FilterChoices)
    case Some(i) => i
    case None => 0
  }

  /** Opening the dialog on the Low priority filter highlights the Urgent entry. */
  lemma LowFilterOpensOnUrgent()
    ensures FilterChoices[FilterIndexAsWritten(F.ByPriority(T.Low))] == F.ByPriority(T.Urgent)
  {
    assert SameVariant(FilterChoices[6], F.ByPriority(T.Low));
    assert forall j :: 0 <= j < 6 ==> !SameVariant(FilterChoices[j], F.ByPriority(T.Low));
  }

  /**
   * The highlighted filter when the dialog opens: the offered filter equal
   * to the current one; failing that the first with the same constructor;
   * failing that the first.
   */
  function FilterIndex(current: F.Filter): (r: nat)
    ensures r < |FilterChoices|
    ensures current in FilterChoices ==> FilterChoices[r] == current
    ensures current !in FilterChoices ==> r == FilterIndexAsWritten(current)
  {
    match Seqs.FirstIndex((f: F.Filter) => f == current, FilterChoices)
    case Some(i) => i
    case None => FilterIndexAsWritten(current)
  }

  /** The highlighted sort order: the current one if offered, else the first. */
  function SortIndex(current: So.SortOrder): (r: nat)
    ensures r < |SortChoices|
    ensures current in SortChoices ==> SortChoices[r] == current
    ensures current !in SortChoices ==> r == 0
  {
    match Seqs.FirstIndex((s: So.SortOrder) => s == current, SortChoices)
    case Some(i) => i
    case None => 0
  }

  /** The dialog opened on the filter column with entry `fi` highlighted and the counts computed. */
  function OpenAt(fi: nat, sort: So.SortOrder, tasks: seq<T.Task>, now: int, localDay: int -> int): (d: Dialog)
    requires fi < |FilterChoices|
    ensures d.Valid() && d.section == FilterSection
    ensures d.filterIndex == fi && d.sortIndex == SortIndex(sort)
    ensures |d.filterCounts| == |FilterChoices|
    ensures forall i :: 0 <= i < |FilterChoices| ==>
              d.filterCounts[i] == |F.Apply(FilterChoices[i], tasks, now, localDay)|
  {
    var counts := CountsFor(tasks, now, localDay);
    forall i | 0 <= i < |FilterChoices|
      ensures counts[i] == |F.Apply(FilterChoices[i], tasks, now, localDay)|
    {
      CountIsFilteredLength(FilterChoices[i], tasks, now, localDay);
    }
    Dialog(FilterSection, fi, SortIndex(sort), counts)
  }

  /**
   * `FilterSortDialog::new` as written: the filter section focused, the
   * first filter of the current one's kind and the current sort highlighted,
   * the counts computed.
   */
  function New(filter: F.Filter, sort: So.SortOrder, tasks: seq<T.Task>, now: int, localDay: int -> int): (d: Dialog)
    ensures d.Valid() && d.section == FilterSection
    ensures d.filterIndex == FilterIndexAsWritten(filter) && d.sortIndex == SortIndex(sort)
    ensures |d.filterCounts| == |FilterChoices|
    ensures forall i :: 0 <= i < |FilterChoices| ==>
              d.filterCounts[i] == |F.Apply(FilterChoices[i], tasks, now, localDay)|
  {
    OpenAt(FilterIndexAsWritten(filter), sort, tasks, now, localDay)
  }

  /** The constructor as evidently intended: the current filter itself highlighted. */
  function NewIntended(filter: F.Filter, sort: So.SortOrder, tasks: seq<T.Task>, now: int, localDay: int -> int): (d: Dialog)
    ensures d.Valid() && d.section == FilterSection
    ensures d.filterIndex == FilterIndex(filter) && d.sortIndex == SortIndex(sort)
    ensures |d.filterCounts| == |FilterChoices|
    ensures forall i :: 0 <= i < |FilterChoices| ==>
              d.filterCounts[i] == |F.Apply(FilterChoices[i], tasks, now, localDay)|
  {
    OpenAt(FilterIndex(filter), sort, tasks, now, localDay)
  }

  function SelectedFilter(d: Dialog): F.Filter
    requires d.Valid()
  {
    FilterChoices[d.filterIndex]
  }

  function SelectedSort(d: Dialog): So.SortOrder
    requires d.Valid()
  {
    SortChoices[d.sortIndex]
  }

  /**
   * Opening the dialog and confirming straight away keeps the current sort
   * order, and keeps an offered filter unless it is a priority filter other
   * than Urgent: those come back as the Urgent filter.
   */
  lemma NewKeepsCurrent(filter: F.Filter, sort: So.SortOrder, tasks: seq<T.Task>, now: int, localDay: int -> int)
    requires filter in FilterChoices && sort in SortChoices
    ensures SelectedSort(New(filter, sort, tasks, now, localDay)) == sort
    ensures (SelectedFilter(New(filter, sort, tasks, now, localDay)) == filter)
              == !(filter.ByPriority? && filter.priority != T.Urgent)
    ensures filter.ByPriority? ==> SelectedFilter(New(filter, sort, tasks, now, localDay)) == F.ByPriority(T.Urgent)
  {
    var i := ChoiceIndex(filter);
    PriorityChoices(i);
    NewOnChoice(i, sort, tasks, now, localDay);
    NewKeepsSort(filter, sort, tasks, now, localDay);
    var selected := SelectedFilter(New(filter, sort, tasks, now, localDay));
    if i < 6 {
      assert selected == filter;
    } else {
      assert selected == F.ByPriority(T.Urgent);
      assert filter == F.ByPriority(filter.priority);
    }
  }

  lemma NewKeepsSort(filter: F.Filter, sort: So.SortOrder, tasks: seq<T.Task>, now: int, localDay: int -> int)
    requires sort in SortChoices
    ensures SelectedSort(New(filter, sort, tasks, now, localDay)) == sort
  {
  }

  lemma ChoiceIndex(filter: F.Filter) returns (i: nat)
    requires filter in FilterChoices
    ensures i < |FilterChoices| && FilterChoices[i] == filter
  {
    i :| 0 <= i < |FilterChoices| && FilterChoices[i] == filter;
  }

  /** Opening on the `i`-th offered filter highlights it, or Urgent for a priority filter. */
  lemma NewOnChoice(i: nat, sort: So.SortOrder, tasks: seq<T.Task>, now: int, localDay: int -> int)
    requires i < |FilterChoices|
    ensures SelectedFilter(New(FilterChoices[i], sort, tasks, now, localDay)) == FilterChoices[if i < 6 then i else 6]
  {
    WrittenIndex(i);
  }

  /** The offered priority filters are the last four, Urgent first. */
  lemma PriorityChoices(i: nat)
    requires i < |FilterChoices|
    ensures FilterChoices[i].ByPriority? <==> i >= 6
    ensures FilterChoices[i] == F.ByPriority(T.Urgent) <==> i == 6
  {
  }

  /** The written lookup finds each offered filter itself, except that every priority filter finds Urgent. */
  lemma WrittenIndex(i: nat)
    requires i < |FilterChoices|
    ensures FilterIndexAsWritten(FilterChoices[i]) == if i < 6 then i else 6
  {
    if i < 6 {
      WrittenIndexPlain(i);
    } else {
      WrittenIndexPriority(i);
    }
  }

  lemma WrittenIndexPlain(i: nat)
    requires i < 6
    ensures FilterIndexAsWritten(FilterChoices[i]) == i
  {
    var f := FilterChoices[i];
    assert SameVariant(FilterChoices[i], f);
    assert forall j :: 0 <= j < |FilterChoices| && j != i ==> !SameVariant(FilterChoices[j], f);
  }

  lemma WrittenIndexPriority(i: nat)
    requires 6 <= i < |FilterChoices|
    ensures FilterIndexAsWritten(FilterChoices[i]) == 6
  {
    var f := FilterChoices[i];
    assert f.ByPriority?;
    assert SameVariant(FilterChoices[6], f);
    assert forall j :: 0 <= j < 6 ==> !SameVariant(FilterChoices[j], f);
  }

  /** Under the intended constructor, confirming straight away keeps any offered filter and sort order. */
  lemma NewIntendedKeepsCurrent(filter: F.Filter, sort: So.SortOrder, tasks: seq<T.Task>, now: int, localDay: int -> int)
    requires filter in FilterChoices && sort in SortChoices
    ensures SelectedFilter(NewIntended(filter, sort, tasks, now, localDay)) == filter
    ensures SelectedSort(NewIntended(filter, sort, tasks, now, localDay)) == sort
  {
  }

  function Toggle(s: Section): Section
  {
    match s
    case FilterSection => SortSection
    case SortSection => FilterSection
  }

  /** One step up the active list, stopping at the first entry. */
  function Up(i: nat): nat
  {
    if i > 0 then i - 1 else 0
  }

  /** One step down a list of `n` entries, stopping at the last. */
  function Down(i: nat, n: nat): nat
    requires n > 0
  {
    if i + 1 < n then i + 1 else n - 1
  }

  /**
   * `handle_key`: Esc or q cancel and Enter submits, both with no change;
   * Tab, Left, Right, h and l switch section; Up/k, Down/j, Home/g and
   * End/G move within the focused section's list.
   */
  function HandleKey(d: Dialog, key: K.KeyEvent): (r: (Dialog, K.DialogAction))
    requires d.Valid()
    ensures r.0.Valid() && r.0.filterCounts == d.filterCounts
    ensures r.1 == K.Cancel <==> key.code in {K.Esc, K.Char('q')}
    ensures r.1 == K.Submit <==> key.code == K.Enter
    ensures r.1 != K.NoAction ==> r.0 == d
    ensures key.code in {K.Tab, K.Left, K.Right, K.Char('h'), K.Char('l')} <==> r.0.section != d.section
    ensures d.section == FilterSection ==> r.0.sortIndex == d.sortIndex
    ensures d.section == SortSection ==> r.0.filterIndex == d.filterIndex
    ensures key.code in {K.Up, K.Char('k')} && d.section == FilterSection ==>
              r.0.filterIndex == if d.filterIndex == 0 then 0 else d.filterIndex - 1
    ensures key.code in {K.Down, K.Char('j')} && d.section == FilterSection ==>
              r.0.filterIndex == if d.filterIndex + 1 == |FilterChoices| then d.filterIndex else d.filterIndex + 1
    ensures key.code in {K.Up, K.Char('k')} && d.section == SortSection ==>
              r.0.sortIndex == if d.sortIndex == 0 then 0 else d.sortIndex - 1
    ensures key.code in {K.Down, K.Char('j')} && d.section == SortSection ==>
              r.0.sortIndex == if d.sortIndex + 1 == |SortChoices| then d.sortIndex else d.sortIndex + 1
    ensures key.code in {K.Home, K.Char('g')} ==>
              if d.section == FilterSection then r.0.filterIndex == 0 else r.0.sortIndex == 0
    ensures key.code in {K.End, K.Char('G')} ==>
              if d.section == FilterSection then r.0.filterIndex == |FilterChoices| - 1
              else r.0.sortIndex == |SortChoices| - 1
  {
    match key.code
    case Esc => (d, K.Cancel)
    case Char('q') => (d, K.Cancel)
    case Enter => (d, K.Submit)
    case Tab => (d.(section := Toggle(d.section)), K.NoAction)
    case Left => (d.(section := Toggle(d.section)), K.NoAction)
    case Right => (d.(section := Toggle(d.section)), K.NoAction)
    case Char('h') => (d.(section := Toggle(d.section)), K.NoAction)
    case Char('l') => (d.(section := Toggle(d.section)), K.NoAction)
    case Up => (MoveUp(d), K.NoAction)
    case Char('k') => (MoveUp(d), K.NoAction)
    case Down => (MoveDown(d), K.NoAction)
    case Char('j') => (MoveDown(d), K.NoAction)
    case Home => (ToFirst(d), K.NoAction)
    case Char('g') => (ToFirst(d), K.NoAction)
    case End => (ToLast(d), K.NoAction)
    case Char('G') => (ToLast(d), K.NoAction)
    case _ => (d, K.NoAction)
  }

  function MoveUp(d: Dialog): (r: Dialog)
    requires d.Valid()
    ensures r.Valid()
  {
    match d.section
    case FilterSection => d.(filterIndex := Up(d.filterIndex))
    case SortSection => d.(sortIndex := Up(d.sortIndex))
  }

  function MoveDown(d: Dialog): (r: Dialog)
    requires d.Valid()
    ensures r.Valid()
  {
    match d.section
    case FilterSection => d.(filterIndex := Down(d.filterIndex, |FilterChoices|))
    case SortSection => d.(sortIndex := Down(d.sortIndex, |SortChoices|))
  }

  function ToFirst(d: Dialog): (r: Dialog)
    requires d.Valid()
    ensures r.Valid()
  {
    match d.section
    case FilterSection => d.(filterIndex := 0)
    case SortSection => d.(sortIndex := 0)
  }

  function ToLast(d: Dialog): (r: Dialog)
    requires d.Valid()
    ensures r.Valid()
  {
    match d.section
    case FilterSection => d.(filterIndex := |FilterChoices| - 1)
    case SortSection => d.(sortIndex := |SortChoices| - 1)
  }

  /** Switching section twice is the identity. */
  lemma ToggleTwice(d: Dialog)
    requires d.Valid()
    ensures HandleKey(HandleKey(d, K.Plain(K.Tab)).0, K.Plain(K.Tab)).0 == d
  {
  }
}

=== FILE: filters.dfy ===
/** Task filters: which tasks a view shows. */
module Filters {
  import opened Wrappers
  import opened Text
  import T = Tasks
  import Seqs

  datatype Filter =
    | All
    | Pending
    | InProgress
    | Completed
    | Archived
    | DueToday
    | DueThisWeek
    | Overdue
    | ByProject(projectId: String)
    | ByTag(tag: String)
    | ByPriority(priority: T.Priority)

  /** `Filter::matches`. */
  predicate Matches(f: Filter, t: T.Task, now: int, localDay: int -> int)
  {
    match f
    case All => true
    case Pending => t.status == T.Pending
    case InProgress => t.status == T.InProgress
    case Completed => t.status == T.Completed
    case Archived => t.status == T.Archived
    case DueToday => T.IsDueToday(t, now, localDay)
    case DueThisWeek => T.IsDueThisWeek(t, now)
    case Overdue => T.IsOverdue(t, now)
    case ByProject(id) => t.projectId == Some(id)
    case ByTag(tag) => tag in t.tags
    case ByPriority(p) => t.priority == p
  }

  function MatchesFn(f: Filter, now: int, localDay: int -> int): T.Task -> bool
  {
    t => Matches(f, t, now, localDay)
  }

  /** `Filter::apply`: the matching tasks, in their original order. */
  function Apply(f: Filter, tasks: seq<T.Task>, now: int, localDay: int -> int): (r: seq<T.Task>)
    ensures forall i :: 0 <= i < |r| ==> Matches(f, r[i], now, localDay) && r[i] in tasks
    ensures forall i :: 0 <= i < |tasks| && Matches(f, tasks[i], now, localDay) ==> tasks[i] in r
    ensures Seqs.IsSubsequence(r, tasks)
  {
    Seqs.KeepIsSubsequence(MatchesFn(f, now, localDay), tasks);
    Seqs.Keep(MatchesFn(f, now, localDay), tasks)
  }

  /** A matching task is kept as often as it occurs; a task that does not match is dropped. */
  lemma ApplyCounts(f: Filter, tasks: seq<T.Task>, now: int, localDay: int -> int, t: T.Task)
    ensures multiset(Apply(f, tasks, now, localDay))[t] == if Matches(f, t, now, localDay) then multiset(tasks)[t] else 0
  {
    Seqs.KeepCount(MatchesFn(f, now, localDay), tasks, t);
  }

  /** Filtering a concatenation filters each part: the relative order of kept tasks never changes. */
  lemma ApplyAppend(f: Filter, a: seq<T.Task>, b: seq<T.Task>, now: int, localDay: int -> int)
    ensures Apply(f, a + b, now, localDay) == Apply(f, a, now, localDay) + Apply(f, b, now, localDay)
  {
    Seqs.KeepAppend(MatchesFn(f, now, localDay), a, b);
  }

  /** Applying a filter to its own output changes nothing. */
  lemma ApplyIdempotent(f: Filter, tasks: seq<T.Task>, now: int, localDay: int -> int)
    ensures Apply(f, Apply(f, tasks, now, localDay), now, localDay) == Apply(f, tasks, now, localDay)
  {
    Seqs.KeepIdempotent(MatchesFn(f, now, localDay), tasks);
  }

  /** `All` keeps every task. */
  lemma {:induction false} ApplyAllIsIdentity(tasks: seq<T.Task>, now: int, localDay: int -> int)
    ensures Apply(All, tasks, now, localDay) == tasks
    decreases |tasks|
  {
    if tasks != [] {
      ApplyAllIsIdentity(tasks[1..], now, localDay);
      assert tasks == [tasks[0]] + tasks[1..];
    }
  }

  /**
   * Each status filter is exact status equality, and the project, tag and
   * priority filters are exact equality or membership.
   */
  lemma MatchesExact(t: T.Task, now: int, localDay: int -> int, id: String, tag: String, p: T.Priority)
    ensures Matches(All, t, now, localDay)
    ensures Matches(Pending, t, now, localDay) <==> t.status == T.Pending
    ensures Matches(InProgress, t, now, localDay) <==> t.status == T.InProgress
    ensures Matches(Completed, t, now, localDay) <==> t.status == T.Completed
    ensures Matches(Archived, t, now, localDay) <==> t.status == T.Archived
    ensures Matches(ByProject(id), t, now, localDay) <==> t.projectId.Some? && t.projectId.value == id
    ensures Matches(ByTag(tag), t, now, localDay) <==> exists i :: 0 <= i < |t.tags| && t.tags[i] == tag
    ensures Matches(ByPriority(p), t, now, localDay) <==> t.priority == p
  {
  }

  /** The date filters delegate to the task predicates, so an undated task never matches them. */
  lemma DateFiltersNeedDueDate(t: T.Task, now: int, localDay: int -> int)
    ensures Matches(DueToday, t, now, localDay) <==> T.IsDueToday(t, now, localDay)
    ensures Matches(DueThisWeek, t, now, localDay) <==> T.IsDueThisWeek(t, now)
    ensures Matches(Overdue, t, now, localDay) <==> T.IsOverdue(t, now)
    ensures t.dueDate.None? ==>
              !Matches(DueToday, t, now, localDay) && !Matches(DueThisWeek, t, now, localDay)
              && !Matches(Overdue, t, now, localDay)
  {
  }
}

=== FILE: keymap.dfy ===
/**
 * The key map: which command a key event means in the current view and
 * input mode. A few keys work everywhere; the help, log, calendar and
 * task-detail views have maps of their own; the search view in search
 * mode uses the search map; everywhere else the input mode decides.
 */
module KeyMap {
  import opened Wrappers
  import K = Keys
  import T = Tasks
  import Cmd = Commands

  /** Any key leaves the help screen. */
  function HelpKey(key: K.KeyEvent): (r: Option<Cmd.Command>)
    ensures r == Some(Cmd.ShowMain)
  {
    match key.code
    case Esc => Some(Cmd.ShowMain)
    case _ => Some(Cmd.ShowMain)
  }

  /** The log viewer: Esc leaves it, the other bound keys are forwarded to the viewer. */
  function DebugKey(key: K.KeyEvent): (r: Option<Cmd.Command>)
    ensures r.Some? ==> r.value == Cmd.ShowMain || r.value.Logger?
    ensures r == Some(Cmd.ShowMain) <==> key.code == K.Esc
    ensures key.code.Char? && key.code.c in "jk" ==> r.Some? && r.value.Logger? && r.value.event in {Cmd.Up, Cmd.Down}
  {
    match key.code
    case Esc => Some(Cmd.ShowMain)
    case Char(' ') => Some(Cmd.Logger(Cmd.SpaceBar))
    case Up => Some(Cmd.Logger(Cmd.Up))
    case Char('k') => Some(Cmd.Logger(Cmd.Up))
    case Down => Some(Cmd.Logger(Cmd.Down))
    case Char('j') => Some(Cmd.Logger(Cmd.Down))
    case PageUp => Some(Cmd.Logger(Cmd.PrevPage))
    case PageDown => Some(Cmd.Logger(Cmd.NextPage))
    case Left => Some(Cmd.Logger(Cmd.Left))
    case Char('h') => Some(Cmd.Logger(Cmd.Left))
    case Right => Some(Cmd.Logger(Cmd.Right))
    case Char('l') => Some(Cmd.Logger(Cmd.Right))
    case Char('+') => Some(Cmd.Logger(Cmd.Plus))
    case Char('=') => Some(Cmd.Logger(Cmd.Plus))
    case Char('-') => Some(Cmd.Logger(Cmd.Minus))
    case Char('H') => Some(Cmd.Logger(Cmd.Hide))
    case _ => None
  }

  /** The commands the calendar view can produce. */
  predicate CalendarCommand(c: Cmd.Command)
  {
    c in {Cmd.ShowMain, Cmd.CalendarPrevDay, Cmd.CalendarNextDay, Cmd.CalendarPrevWeek,
          Cmd.CalendarNextWeek, Cmd.CalendarToday, Cmd.CalendarSelectDay, Cmd.Quit}
  }

  /** The calendar: h/l and the arrows move by a day, j/k and up/down by a week. */
  function CalendarKey(key: K.KeyEvent): (r: Option<Cmd.Command>)
    ensures r.Some? ==> CalendarCommand(r.value)
    ensures key.code in {K.Left, K.Char('h')} <==> r == Some(Cmd.CalendarPrevDay)
    ensures key.code in {K.Right, K.Char('l')} <==> r == Some(Cmd.CalendarNextDay)
    ensures key.code in {K.Up, K.Char('k')} <==> r == Some(Cmd.CalendarPrevWeek)
    ensures key.code in {K.Down, K.Char('j')} <==> r == Some(Cmd.CalendarNextWeek)
  {
    match key.code
    case Esc => Some(Cmd.ShowMain)
    case Left => Some(Cmd.CalendarPrevDay)
    case Char('h') => Some(Cmd.CalendarPrevDay)
    case Right => Some(Cmd.CalendarNextDay)
    case Char('l') => Some(Cmd.CalendarNextDay)
    case Up => Some(Cmd.CalendarPrevWeek)
    case Char('k') => Some(Cmd.CalendarPrevWeek)
    case Down => Some(Cmd.CalendarNextWeek)
    case Char('j') => Some(Cmd.CalendarNextWeek)
    case Char('t') => Some(Cmd.CalendarToday)
    case Enter => Some(Cmd.CalendarSelectDay)
    case Char('q') => Some(Cmd.Quit)
    case _ => None
  }

  /** The task-detail view: quick actions on the task shown. */
  function DetailKey(key: K.KeyEvent): (r: Option<Cmd.Command>)
    ensures r.Some? ==> r.value in {Cmd.ShowMain, Cmd.ToggleTaskStatus, Cmd.CyclePriority,
                                    Cmd.EditTask, Cmd.DeleteTask, Cmd.Quit}
    ensures r == Some(Cmd.EditTask) <==> key.code in {K.Char('e'), K.Enter}
  {
    match key.code
    case Esc => Some(Cmd.ShowMain)
    case Char(' ') => Some(Cmd.ToggleTaskStatus)
    case Char('p') => Some(Cmd.CyclePriority)
    case Char('e') => Some(Cmd.EditTask)
    case Enter => Some(Cmd.EditTask)
    case Char('d') => Some(Cmd.DeleteTask)
    case Char('q') => Some(Cmd.Quit)
    case _ => None
  }

  /** The priority a digit key filters by: 1 is the lowest, 4 the most urgent. */
  function DigitPriority(c: char): (r: Option<T.Priority>)
    ensures r.Some? <==> '1' <= c <= '4'
    ensures r.Some? ==> T.Rank(r.value) == (c as int) - ('1' as int)
  {
    match c
    case '1' => Some(T.Low)
    case '2' => Some(T.Medium)
    case '3' => Some(T.High)
    case '4' => Some(T.Urgent)
    case _ => None
  }

  /**
   * Normal mode: navigation, panel switching, the actions whose target
   * (a task or a project) follows the focused panel, views and filters.
   * Control changes only `d` and `u`.
   */
  function NormalKey(key: K.KeyEvent, focus: Cmd.Focus): (r: Option<Cmd.Command>)
    ensures key.code == K.Char('a') ==> r == Some(if focus == Cmd.Sidebar then Cmd.AddProject else Cmd.AddTask)
    ensures key.code == K.Char('d') && !key.ctrl ==>
      r == Some(if focus == Cmd.Sidebar then Cmd.DeleteProject else Cmd.DeleteTask)
    ensures key.code in {K.Char('e'), K.Enter} ==>
      r == Some(if focus == Cmd.Sidebar then Cmd.EditProject else Cmd.EditTask)
    ensures key.code.Char? && DigitPriority(key.code.c).Some? ==>
      r == Some(Cmd.FilterByPriority(DigitPriority(key.code.c).value))
    ensures key.code == K.Esc ==> r.None?
  {
    match key.code
    case Char('q') => Some(Cmd.Quit)
    case Char('j') => Some(Cmd.NavigateDown)
    case Down => Some(Cmd.NavigateDown)
    case Char('k') => Some(Cmd.NavigateUp)
    case Up => Some(Cmd.NavigateUp)
    case Char('g') => Some(Cmd.NavigateTop)
    case Home => Some(Cmd.NavigateTop)
    case Char('G') => Some(Cmd.NavigateBottom)
    case End => Some(Cmd.NavigateBottom)
    case Char('d') =>
      if key.ctrl then Some(Cmd.PageDown)
      else if focus == Cmd.Sidebar then Some(Cmd.DeleteProject) else Some(Cmd.DeleteTask)
    case Char('u') => if key.ctrl then Some(Cmd.PageUp) else None
    case Tab => Some(Cmd.SwitchPanel)
    case Char('h') => Some(Cmd.FocusSidebar)
    case Left => Some(Cmd.FocusSidebar)
    case Char('l') => Some(Cmd.FocusTaskList)
    case Right => Some(Cmd.FocusTaskList)
    case Char('a') => if focus == Cmd.Sidebar then Some(Cmd.AddProject) else Some(Cmd.AddTask)
    case Char('e') => if focus == Cmd.Sidebar then Some(Cmd.EditProject) else Some(Cmd.EditTask)
    case Enter => if focus == Cmd.Sidebar then Some(Cmd.EditProject) else Some(Cmd.EditTask)
    case Char(' ') => Some(Cmd.ToggleTaskStatus)
    case Char('p') => Some(Cmd.CyclePriority)
    case Char('t') => Some(Cmd.EditTags)
    case Char('m') => Some(Cmd.MoveToProject)
    case Char('?') => Some(Cmd.ShowHelp)
    case Char('/') => Some(Cmd.ShowSearch)
    case Char('c') => Some(Cmd.ShowCalendar)
    case Char('T') => Some(Cmd.FilterToday)
    case Char('W') => Some(Cmd.FilterThisWeek)
    case Char('1') => Some(Cmd.FilterByPriority(T.Low))
    case Char('2') => Some(Cmd.FilterByPriority(T.Medium))
    case Char('3') => Some(Cmd.FilterByPriority(T.High))
    case Char('4') => Some(Cmd.FilterByPriority(T.Urgent))
    case Char('f') => Some(Cmd.ShowFilterSort)
    case Char('S') => Some(Cmd.ShowSettings)
    case Char('r') => Some(Cmd.Refresh)
    case _ => None
  }

  /** The commands that only edit the line buffer or move its cursor. */
  predicate LineEditCommand(c: Cmd.Command)
  {
    c.InsertChar? || c in {Cmd.DeleteCharBackward, Cmd.DeleteCharForward, Cmd.MoveCursorLeft,
                           Cmd.MoveCursorRight, Cmd.MoveCursorStart, Cmd.MoveCursorEnd}
  }

  /** Editing mode: Control+a and Control+e jump to the ends, other keys edit the line. */
  function EditingKey(key: K.KeyEvent): (r: Option<Cmd.Command>)
    ensures r.Some? ==> LineEditCommand(r.value) || r.value in {Cmd.CancelInput, Cmd.SubmitInput}
    ensures key.ctrl ==> (r.Some? <==> key.code in {K.Char('a'), K.Char('e')})
    ensures !key.ctrl && key.code.Char? ==> r == Some(Cmd.InsertChar(key.code.c))
  {
    if key.ctrl then
      match key.code
      case Char('a') => Some(Cmd.MoveCursorStart)
      case Char('e') => Some(Cmd.MoveCursorEnd)
      case _ => None
    else
      match key.code
      case Esc => Some(Cmd.CancelInput)
      case Enter => Some(Cmd.SubmitInput)
      case Char(c) => Some(Cmd.InsertChar(c))
      case Backspace => Some(Cmd.DeleteCharBackward)
      case Delete => Some(Cmd.DeleteCharForward)
      case Left => Some(Cmd.MoveCursorLeft)
      case Right => Some(Cmd.MoveCursorRight)
      case Home => Some(Cmd.MoveCursorStart)
      case End => Some(Cmd.MoveCursorEnd)
      case _ => None
  }

  /** Search mode: editing keys plus moving through the results. */
  function SearchKey(key: K.KeyEvent): (r: Option<Cmd.Command>)
    ensures r.Some? ==> LineEditCommand(r.value)
                        || r.value in {Cmd.CancelInput, Cmd.SearchSelectTask, Cmd.SearchNavigateUp, Cmd.SearchNavigateDown}
    ensures key.ctrl ==> (r.Some? <==> key.code in {K.Char('a'), K.Char('e'), K.Char('n'), K.Char('p')})
    ensures !key.ctrl && key.code.Char? ==> r == Some(Cmd.InsertChar(key.code.c))
    ensures r == Some(Cmd.SearchNavigateDown) <==>
      (key.ctrl && key.code == K.Char('n')) || (!key.ctrl && key.code == K.Down)
  {
    if key.ctrl then
      match key.code
      case Char('a') => Some(Cmd.MoveCursorStart)
      case Char('e') => Some(Cmd.MoveCursorEnd)
      case Char('n') => Some(Cmd.SearchNavigateDown)
      case Char('p') => Some(Cmd.SearchNavigateUp)
      case _ => None
    else
      match key.code
      case Esc => Some(Cmd.CancelInput)
      case Enter => Some(Cmd.SearchSelectTask)
      case Down => Some(Cmd.SearchNavigateDown)
      case Up => Some(Cmd.SearchNavigateUp)
      case Char(c) => Some(Cmd.InsertChar(c))
      case Backspace => Some(Cmd.DeleteCharBackward)
      case Delete => Some(Cmd.DeleteCharForward)
      case Left => Some(Cmd.MoveCursorLeft)
      case Right => Some(Cmd.MoveCursorRight)
      case Home => Some(Cmd.MoveCursorStart)
      case End => Some(Cmd.MoveCursorEnd)
      case _ => None
  }

  /** Control+C quits and F12 toggles the log view, whatever the state. */
  predicate GlobalKey(key: K.KeyEvent)
  {
    (key.code == K.Char('c') && key.ctrl) || key.code == K.F(12)
  }

  /** `map_key_to_command`. */
  function MapKey(key: K.KeyEvent, view: Cmd.View, mode: Cmd.InputMode, focus: Cmd.Focus): (r: Option<Cmd.Command>)
    ensures key.code == K.Char('c') && key.ctrl ==> r == Some(Cmd.ForceQuit)
    ensures key.code == K.F(12) ==> r == Some(Cmd.ShowDebugLogs)
    ensures !GlobalKey(key) && view == Cmd.Help ==> r == Some(Cmd.ShowMain)
    ensures !GlobalKey(key) && view == Cmd.CalendarView ==> r.None? || CalendarCommand(r.value)
  {
    if key.code == K.Char('c') && key.ctrl then Some(Cmd.ForceQuit)
    else if key.code == K.F(12) then Some(Cmd.ShowDebugLogs)
    else match view
      case Help => HelpKey(key)
      case DebugLogs => DebugKey(key)
      case CalendarView => CalendarKey(key)
      case TaskDetail => DetailKey(key)
      case _ =>
        if view == Cmd.SearchView && mode == Cmd.Searching then SearchKey(key)
        else match mode
          case Normal => NormalKey(key, focus)
          case Editing => EditingKey(key)
          case Searching => SearchKey(key)
  }

  /** The Alt and Shift flags are never consulted. */
  lemma AltShiftIgnored(key: K.KeyEvent, alt: bool, shift: bool, view: Cmd.View, mode: Cmd.InputMode, focus: Cmd.Focus)
    ensures MapKey(key.(alt := alt, shift := shift), view, mode, focus) == MapKey(key, view, mode, focus)
  {
  }

  /** In normal mode Control matters only for `c`, `d` and `u`: Control+q still quits, Control+j still moves. */
  lemma NormalCtrlOnlyForCDU(c: char, focus: Cmd.Focus)
    requires c !in "cdu"
    ensures MapKey(K.WithCtrl(K.Char(c)), Cmd.Main, Cmd.Normal, focus) == MapKey(K.Plain(K.Char(c)), Cmd.Main, Cmd.Normal, focus)
  {
  }

  /** While typing on the main view, every printable key goes into the buffer, Control+C aside. */
  lemma TypingInserts(c: char, view: Cmd.View, mode: Cmd.InputMode, focus: Cmd.Focus)
    requires mode == Cmd.Editing || mode == Cmd.Searching
    requires view == Cmd.Main || view == Cmd.SearchView
    ensures MapKey(K.Plain(K.Char(c)), view, mode, focus) == Some(Cmd.InsertChar(c))
  {
  }

  /**
   * Escape always has a way back: from the help, log, calendar and detail
   * views it returns to the main view, and while typing it leaves the line
   * editor with an empty buffer. Only the main view in normal mode ignores it.
   */
  lemma EscapeReturns(app: Cmd.App, ctx: Cmd.Ctx)
    requires app.Valid()
    ensures var r := MapKey(K.Plain(K.Esc), app.view, app.mode, app.focus);
            (app.view in {Cmd.Help, Cmd.DebugLogs, Cmd.CalendarView, Cmd.TaskDetail} ==>
               r == Some(Cmd.ShowMain) && Cmd.Execute(app, r.value, ctx).value.0.view == Cmd.Main)
            && (app.view !in {Cmd.Help, Cmd.DebugLogs, Cmd.CalendarView, Cmd.TaskDetail} && app.mode != Cmd.Normal ==>
               r == Some(Cmd.CancelInput)
               && Cmd.Execute(app, r.value, ctx).value.0.mode == Cmd.Normal
               && Cmd.Execute(app, r.value, ctx).value.0.buffer == [])
            && (app.view !in {Cmd.Help, Cmd.DebugLogs, Cmd.CalendarView, Cmd.TaskDetail} && app.mode == Cmd.Normal ==>
               r.None?)
  {
    var r := MapKey(K.Plain(K.Esc), app.view, app.mode, app.focus);
    if app.view in {Cmd.Help, Cmd.DebugLogs, Cmd.CalendarView, Cmd.TaskDetail} {
      assert r == Some(Cmd.ShowMain);
      assert Cmd.ListUpdate(app, Cmd.ShowMain, ctx) == app.(view := Cmd.Main);
    } else if app.mode != Cmd.Normal {
      assert r == Some(Cmd.CancelInput);
      Cmd.ExecuteInput(app, Cmd.CancelInput, ctx);
    }
  }

  /** Each digit key filters by a priority one step above the previous digit's. */
  lemma DigitsAscend(c: char, focus: Cmd.Focus)
    requires '1' <= c <= '3'
    ensures var a := MapKey(K.Plain(K.Char(c)), Cmd.Main, Cmd.Normal, focus);
            var b := MapKey(K.Plain(K.Char((c as int + 1) as char)), Cmd.Main, Cmd.Normal, focus);
            a.Some? && b.Some? && a.value.FilterByPriority? && b.value.FilterByPriority?
            && T.Rank(b.value.priority) == T.Rank(a.value.priority) + 1
  {
    var d := (c as int + 1) as char;
    assert DigitPriority(c).Some? && DigitPriority(d).Some?;
  }
}

=== FILE: keys.dfy ===
/** Keyboard events as the terminal library delivers them: a key code plus modifier flags. */
module Keys {
  datatype KeyCode =
    | Char(c: char)
    | Enter | Esc | Tab | BackTab | Backspace | Delete
    | Left | Right | Up | Down | Home | End | PageUp | PageDown
    | F(n: nat)
    | Other

  /** Only the Control, Alt and Shift modifiers are ever inspected. */
  datatype KeyEvent = KeyEvent(code: KeyCode, ctrl: bool, alt: bool, shift: bool)

  function Plain(code: KeyCode): KeyEvent
  {
    KeyEvent(code, false, false, false)
  }

  function WithCtrl(code: KeyCode): KeyEvent
  {
    KeyEvent(code, true, false, false)
  }

  function WithAlt(code: KeyCode): KeyEvent
  {
    KeyEvent(code, false, true, false)
  }

  /** The outcome a dialog reports to its owner after a key. */
  datatype DialogAction = NoAction | Submit | Cancel
}

=== FILE: move_to_project.dfy ===
/** The move-to-project picker: a list of projects with one highlighted. */
module MoveToProject {
  import opened Wrappers
  import opened Text
  import K = Keys
  import T = Tasks
  import Seqs

  datatype Dialog = Dialog(projects: seq<T.Project>, selected: nat, taskId: String)
  {
    /** The highlight is on a project, or at 0 when there are none. */
    predicate Valid()
    {
      if projects == [] then selected == 0 else selected < |projects|
    }
  }

  function HasId(id: String): T.Project -> bool
  {
    (p: T.Project) => p.id == id
  }

  /** `MoveToProjectDialog::new`: the task's current project highlighted, else the first entry. */
  function New(projects: seq<T.Project>, taskId: String, current: Option<String>): (d: Dialog)
    ensures d.Valid() && d.projects == projects && d.taskId == taskId
    ensures current.Some? && (exists i :: 0 <= i < |projects| && projects[i].id == current.value) ==>
              projects[d.selected].id == current.value
              && forall j :: 0 <= j < d.selected ==> projects[j].id != current.value
    ensures current.None? || (forall i :: 0 <= i < |projects| ==> projects[i].id != current.value) ==>
              d.selected == 0
  {
    var i := match current
      case None => 0
      case Some(id) => Seqs.FirstIndex(HasId(id), projects).UnwrapOr(0);
    Dialog(projects, i, taskId)
  }

  /** `selected_project`: the highlighted project, absent only when the list is empty. */
  function SelectedProject(d: Dialog): (r: Option<T.Project>)
    requires d.Valid()
    ensures r.None? <==> d.projects == []
    ensures r.Some? ==> r.value == d.projects[d.selected]
  {
    if d.selected < |d.projects| then Some(d.projects[d.selected]) else None
  }

  /**
   * `handle_key`: Esc/q cancel, Enter submits; Up/k and Down/j step and
   * stop at the ends; Home/g and End/G jump to the first and last project.
   */
  function HandleKey(d: Dialog, key: K.KeyEvent): (r: (Dialog, K.DialogAction))
    requires d.Valid()
    ensures r.0.Valid() && r.0.projects == d.projects && r.0.taskId == d.taskId
    ensures r.1 == K.Cancel <==> key.code in {K.Esc, K.Char('q')}
    ensures r.1 == K.Submit <==> key.code == K.Enter
    ensures r.1 != K.NoAction ==> r.0 == d
    ensures key.code in {K.Up, K.Char('k')} ==> r.0.selected == if d.selected == 0 then 0 else d.selected - 1
    ensures key.code in {K.Down, K.Char('j')} && d.projects != [] ==>
              r.0.selected == if d.selected + 1 == |d.projects| then d.selected else d.selected + 1
    ensures key.code in {K.Home, K.Char('g')} ==> r.0.selected == 0
    ensures key.code in {K.End, K.Char('G')} && d.projects != [] ==> r.0.selected == |d.projects| - 1
    ensures d.projects == [] ==> r.0 == d
  {
    var n := |d.projects|;
    match key.code
    case Esc => (d, K.Cancel)
    case Char('q') => (d, K.Cancel)
    case Enter => (d, K.Submit)
    case Up => (d.(selected := if d.selected > 0 then d.selected - 1 else 0), K.NoAction)
    case Char('k') => (d.(selected := if d.selected > 0 then d.selected - 1 else 0), K.NoAction)
    case Down => (if n > 0 then d.(selected := if d.selected + 1 <= n - 1 then d.selected + 1 else n - 1) else d, K.NoAction)
    case Char('j') => (if n > 0 then d.(selected := if d.selected + 1 <= n - 1 then d.selected + 1 else n - 1) else d, K.NoAction)
    case Home => (d.(selected := 0), K.NoAction)
    case Char('g') => (d.(selected := 0), K.NoAction)
    case End => (if n > 0 then d.(selected := n - 1) else d, K.NoAction)
    case Char('G') => (if n > 0 then d.(selected := n - 1) else d, K.NoAction)
    case _ => (d, K.NoAction)
  }

  /** Opening on the task's project and confirming keeps the task where it is. */
  lemma NewThenSubmitKeepsProject(projects: seq<T.Project>, taskId: String, id: String, i: nat)
    requires i < |projects| && projects[i].id == id
    ensures var d := New(projects, taskId, Some(id));
            HandleKey(d, K.Plain(K.Enter)).1 == K.Submit
            && SelectedProject(HandleKey(d, K.Plain(K.Enter)).0).value.id == id
  {
  }
}

=== FILE: numbers.dfy ===
/** Decimal and hexadecimal digit strings: parsing and printing. */
module Numbers {
  import opened Wrappers
  import opened Text

  predicate IsDigit(c: char)
  {
    '0' <= c <= '9'
  }

  predicate AllDigits(s: String)
  {
    forall i :: 0 <= i < |s| ==> IsDigit(s[i])
  }

  function DigitValue(c: char): (v: nat)
    requires IsDigit(c)
    ensures v < 10
  {
    c as int - '0' as int
  }

  function DigitChar(v: nat): (c: char)
    requires v < 10
    ensures IsDigit(c) && DigitValue(c) == v
  {
    ('0' as int + v) as char
  }

  /** One step forward through `n` entries modulo `n` wraps from the last to the first. */
  lemma WrapRight(i: nat, n: nat)
    requires i < n
    ensures (i + 1) % n == if i + 1 < n then i + 1 else 0
  {
    if i + 1 == n {
      assert (i + 1) % n == n % n;
    }
  }

  /** One step back through `n` entries modulo `n` wraps from the first to the last. */
  lemma WrapLeft(i: nat, n: nat)
    requires i < n
    ensures (i + n - 1) % n == if i > 0 then i - 1 else n - 1
  {
    if i > 0 {
      assert i + n - 1 == n + (i - 1);
    }
  }

  /** The value of a string of decimal digits, most significant first. */
  function DigitsValue(s: String): nat
    requires AllDigits(s)
  {
    if s == [] then 0 else DigitsValue(s[..|s| - 1]) * 10 + DigitValue(s[|s| - 1])
  }

  /**
   * `str::parse::<i64>` without the range limit: an optional `+` or `-`
   * followed by at least one decimal digit and nothing else.
   */
  function ParseInt(s: String): (r: Option<int>)
    ensures r.Some? ==> s != [] && (AllDigits(s) || (s[0] in "+-" && |s| >= 2 && AllDigits(s[1..])))
    ensures s != [] && AllDigits(s) ==> r == Some(DigitsValue(s))
  {
    if s == [] then None
    else if s[0] == '+' || s[0] == '-' then
      var rest := s[1..];
      if rest != [] && AllDigits(rest) then
        var v: int := DigitsValue(rest);
        Some(if s[0] == '-' then -v else v)
      else None
    else if AllDigits(s) then Some(DigitsValue(s))
    else None
  }

  /** Decimal notation of `n` without leading zeros. */
  function NatToString(n: nat): (s: String)
    ensures s != [] && AllDigits(s)
  {
    if n < 10 then [DigitChar(n)] else NatToString(n / 10) + [DigitChar(n % 10)]
  }

  /** Reading back the decimal notation of `n` gives `n`. */
  lemma {:induction false} NatToStringValue(n: nat)
    ensures DigitsValue(NatToString(n)) == n
  {
    var s := NatToString(n);
    if n >= 10 {
      NatToStringValue(n / 10);
      assert s[..|s| - 1] == NatToString(n / 10);
    }
  }

  lemma ParseNatToString(n: nat)
    ensures ParseInt(NatToString(n)) == Some(n)
  {
    NatToStringValue(n);
  }

  function Pow10(k: nat): (r: nat)
    ensures r >= 1
  {
    if k == 0 then 1 else 10 * Pow10(k - 1)
  }

  /** A number below 10^k takes at most k digits. */
  lemma {:induction false} NatToStringShort(n: nat, k: nat)
    requires k >= 1 && n < Pow10(k)
    ensures |NatToString(n)| <= k
  {
    if n >= 10 {
      NatToStringShort(n / 10, k - 1);
    }
  }

  /** `n` printed in decimal and padded with leading zeros to at least `width` characters. */
  function ZeroPad(n: nat, width: nat): (s: String)
    ensures AllDigits(s) && |s| >= width && DigitsValue(s) == n
    ensures width >= 1 && n < Pow10(width) ==> |s| == width
    decreases width
  {
    var d := NatToString(n);
    NatToStringValue(n);
    assert width >= 1 && n < Pow10(width) ==> |d| <= width by {
      if width >= 1 && n < Pow10(width) {
        NatToStringShort(n, width);
      }
    }
    if |d| >= width then d else ZeroPadded(n, d, width)
  }

  function ZeroPadded(n: nat, d: String, width: nat): (s: String)
    requires AllDigits(d) && DigitsValue(d) == n && |d| <= width
    ensures AllDigits(s) && |s| == width && DigitsValue(s) == n
    decreases width - |d|
  {
    if |d| == width then d
    else
      LeadingZero(d);
      ZeroPadded(n, "0" + d, width)
  }

  /** A leading zero does not change the value. */
  lemma {:induction false} LeadingZero(d: String)
    requires AllDigits(d)
    ensures AllDigits("0" + d) && DigitsValue("0" + d) == DigitsValue(d)
    decreases |d|
  {
    if d != [] {
      LeadingZero(d[..|d| - 1]);
      assert ("0" + d)[..|d|] == "0" + d[..|d| - 1];
    }
  }

  predicate IsHexDigit(c: char)
  {
    IsDigit(c) || 'a' <= c <= 'f' || 'A' <= c <= 'F'
  }

  function HexValue(c: char): (v: nat)
    requires IsHexDigit(c)
    ensures v < 16
  {
    if IsDigit(c) then DigitValue(c)
    else if 'a' <= c <= 'f' then c as int - 'a' as int + 10
    else c as int - 'A' as int + 10
  }

  /**
   * `u8::from_str_radix(s, 16)` on a two-character string: two hex digits,
   * or a `+` followed by one hex digit.
   */
  function ParseHexByte(s: String): (r: Option<nat>)
    requires |s| == 2
    ensures r.Some? ==> r.value < 256
    ensures IsHexDigit(s[0]) && IsHexDigit(s[1]) ==> r == Some(HexValue(s[0]) * 16 + HexValue(s[1]))
    ensures s[0] == '+' && IsHexDigit(s[1]) ==> r == Some(HexValue(s[1]))
    ensures r.None? <==> !IsHexDigit(s[1]) || (!IsHexDigit(s[0]) && s[0] != '+')
  {
    if IsHexDigit(s[0]) && IsHexDigit(s[1]) then Some(HexValue(s[0]) * 16 + HexValue(s[1]))
    else if s[0] == '+' && IsHexDigit(s[1]) then Some(HexValue(s[1]))
    else None
  }

  /** The lower-case hex digit of a value below 16. */
  function HexDigitChar(d: nat): (c: char)
    requires d < 16
    ensures IsHexDigit(c) && HexValue(c) == d
  {
    if d < 10 then ('0' as int + d) as char else ('a' as int + d - 10) as char
  }

  /** `{:02x}`: a byte as two lower-case hex digits. */
  function HexByteText(v: nat): (s: String)
    requires v < 256
    ensures |s| == 2 && IsHexDigit(s[0]) && IsHexDigit(s[1])
  {
    [HexDigitChar(v / 16), HexDigitChar(v % 16)]
  }

  /** Two hex digits read back as the byte they were written from. */
  lemma ParseHexByteText(v: nat)
    requires v < 256
    ensures ParseHexByte(HexByteText(v)) == Some(v)
  {
    var s := HexByteText(v);
    assert HexValue(s[0]) * 16 + HexValue(s[1]) == (v / 16) * 16 + v % 16;
  }
}

=== FILE: project_dialog.dfy ===
/**
 * The create/edit project dialog: a name field, a colour and an icon
 * chosen from fixed palettes, and the conversion into a project.
 */
module ProjectDialog {
  import opened Wrappers
  import opened Text
  import K = Keys
  import T = Tasks
  import TI = TextInput
  import N = Numbers
  import Seqs

  datatype Field = Name | Color | Icon | Submit

  /** Tab order. */
  function Next(f: Field): Field
  {
    match f
    case Name => Color
    case Color => Icon
    case Icon => Submit
    case Submit => Name
  }

  /** Reverse tab order. */
  function Prev(f: Field): Field
  {
    match f
    case Name => Submit
    case Color => Name
    case Icon => Color
    case Submit => Icon
  }

  /** Next and Prev undo each other, and four steps of Next come back to the start. */
  lemma FieldCycle(f: Field)
    ensures Prev(Next(f)) == f && Next(Prev(f)) == f
    ensures Next(Next(Next(Next(f)))) == f
    ensures Next(f) != f && Next(Next(f)) != f && Next(Next(Next(f))) != f
  {
  }

  /** The preset colours, as the hex codes a project stores. */
  const ColorCodes: seq<String> :=
    ["#3498db", "#e74c3c", "#2ecc71", "#f39c12", "#9b59b6", "#1abc9c", "#e91e63", "#607d8b"]

  /** Their display names, position by position. */
  const ColorNames: seq<String> := ["Blue", "Red", "Green", "Orange", "Purple", "Teal", "Pink", "Gray"]

  /** The preset icons. */
  const Icons: seq<String> :=
    ["\U{1F4C1}", "\U{1F4CB}", "\U{1F3E0}", "\U{1F4BC}", "\U{1F4DA}", "\U{1F3AF}", "\U{1F4A1}", "\U{2B50}"]

  datatype Dialog = Dialog(name: TI.Input, color: nat, icon: nat, focused: Field, editingId: Option<String>)
  {
    predicate Valid()
    {
      name.Valid() && color < |ColorCodes| && icon < |Icons|
    }
  }

  /** A blank dialog for a new project: first colour, first icon, the name field focused. */
  function New(): (d: Dialog)
    ensures d.Valid() && d.name.value == [] && d.editingId.None?
    ensures d.color == 0 && d.icon == 0 && d.focused == Name
  {
    Dialog(TI.Empty(), 0, 0, Name, None)
  }

  /** The position of `x` in `s`, or 0 when it is absent. */
  function PositionOr0(s: seq<String>, x: String): (r: nat)
    ensures |s| > 0 ==> r < |s|
    ensures x in s ==> s[r] == x && forall j :: 0 <= j < r ==> s[j] != x
    ensures x !in s ==> r == 0
  {
    match Seqs.FirstIndex((y: String) => y == x, s)
    case Some(i) => i
    case None => 0
  }

  /** `from_project`: the dialog pre-filled from a project, selecting its colour and icon if they are presets. */
  function FromProject(p: T.Project): (d: Dialog)
    ensures d.Valid() && d.name.value == p.name && d.name.cursor == |p.name|
    ensures d.editingId == Some(p.id) && d.focused == Name
    ensures p.color in ColorCodes ==> ColorCodes[d.color] == p.color
    ensures p.color !in ColorCodes ==> d.color == 0
    ensures p.icon in Icons ==> Icons[d.icon] == p.icon
    ensures p.icon !in Icons ==> d.icon == 0
  {
    Dialog(TI.WithValue(p.name), PositionOr0(ColorCodes, p.color), PositionOr0(Icons, p.icon), Name, Some(p.id))
  }

  /**
   * The palette selector shared by the colour and icon fields over `n`
   * choices: Left/h and Right/l step with wrap-around, and digit `k`
   * selects choice `k` when 1 <= k <= n.
   */
  function HandleChoice(i: nat, n: nat, key: K.KeyEvent): (r: nat)
    requires i < n
    ensures r < n
    ensures key.code in {K.Left, K.Char('h')} ==> r == (i + n - 1) % n
    ensures key.code in {K.Right, K.Char('l')} ==> r == (i + 1) % n
    ensures key.code.Char? && N.IsDigit(key.code.c) && 1 <= N.DigitValue(key.code.c) <= n ==>
      r == N.DigitValue(key.code.c) - 1
    ensures key.code.Char? && N.IsDigit(key.code.c) && !(1 <= N.DigitValue(key.code.c) <= n) ==> r == i
    ensures !key.code.Char? && key.code !in {K.Left, K.Right} ==> r == i
  {
    match key.code
    case Left => N.WrapLeft(i, n); if i > 0 then i - 1 else n - 1
    case Char('h') => N.WrapLeft(i, n); if i > 0 then i - 1 else n - 1
    case Right => (i + 1) % n
    case Char('l') => (i + 1) % n
    case Char(c) =>
      if N.IsDigit(c) then
        var k := N.DigitValue(c);
        if k > 0 && k <= n then k - 1 else i
      else i
    case _ => i
  }

  /** A step left from choice `i`. */
  lemma StepLeft(i: nat, n: nat)
    requires i < n
    ensures HandleChoice(i, n, K.Plain(K.Left)) == if i > 0 then i - 1 else n - 1
  {
  }

  /** A step right from choice `i`. */
  lemma StepRight(i: nat, n: nat)
    requires i < n
    ensures HandleChoice(i, n, K.Plain(K.Right)) == if i + 1 < n then i + 1 else 0
  {
    N.WrapRight(i, n);
  }

  /** Stepping left and then right, or right and then left, returns to the same choice. */
  lemma ChoiceStepsInverse(i: nat, n: nat)
    requires i < n
    ensures HandleChoice(HandleChoice(i, n, K.Plain(K.Left)), n, K.Plain(K.Right)) == i
    ensures HandleChoice(HandleChoice(i, n, K.Plain(K.Right)), n, K.Plain(K.Left)) == i
  {
    StepLeft(i, n);
    StepRight(if i > 0 then i - 1 else n - 1, n);
    StepRight(i, n);
    StepLeft(if i + 1 < n then i + 1 else 0, n);
  }

  /** The name field: plain line editing, other keys ignored. */
  function HandleNameInput(t: TI.Input, key: K.KeyEvent): (r: TI.Input)
    requires t.Valid()
    ensures r.Valid()
    ensures key.code.Char? ==> r == TI.InsertChar(t, key.code.c)
    ensures key.code !in {K.Backspace, K.Delete, K.Left, K.Right, K.Home, K.End} && !key.code.Char? ==> r == t
  {
    match key.code
    case Char(c) => TI.InsertChar(t, c)
    case Backspace => TI.DeleteBackward(t)
    case Delete => TI.DeleteForward(t)
    case Left => TI.MoveLeft(t)
    case Right => TI.MoveRight(t)
    case Home => TI.MoveHome(t)
    case End => TI.MoveEnd(t)
    case _ => t
  }

  /**
   * `handle_key`: Esc cancels; Enter submits on the Submit button or with
   * Control held; Tab and BackTab move the focus; any other key goes to
   * the focused field.
   */
  function HandleKey(d: Dialog, key: K.KeyEvent): (r: (Dialog, K.DialogAction))
    requires d.Valid()
    ensures r.0.Valid() && r.0.editingId == d.editingId
    ensures r.1 == K.Cancel <==> key.code == K.Esc
    ensures r.1 == K.Submit <==> key.code == K.Enter && (d.focused == Submit || key.ctrl)
    ensures r.1 != K.NoAction ==> r.0 == d
    ensures key.code == K.Tab ==> r.0 == d.(focused := Next(d.focused))
    ensures key.code == K.BackTab ==> r.0 == d.(focused := Prev(d.focused))
    ensures key.code !in {K.Tab, K.BackTab} ==> r.0.focused == d.focused
    ensures d.focused != Name ==> r.0.name == d.name
    ensures d.focused != Color ==> r.0.color == d.color
    ensures d.focused != Icon ==> r.0.icon == d.icon
  {
    if key.code == K.Esc then (d, K.Cancel)
    else if key.code == K.Enter && d.focused == Submit then (d, K.Submit)
    else if key.code == K.Enter && key.ctrl then (d, K.Submit)
    else if key.code == K.Tab then (d.(focused := Next(d.focused)), K.NoAction)
    else if key.code == K.BackTab then (d.(focused := Prev(d.focused)), K.NoAction)
    else
      match d.focused
      case Name => (d.(name := HandleNameInput(d.name, key)), K.NoAction)
      case Color => (d.(color := HandleChoice(d.color, |ColorCodes|, key)), K.NoAction)
      case Icon => (d.(icon := HandleChoice(d.icon, |Icons|, key)), K.NoAction)
      case Submit => (d, K.NoAction)
  }

  /**
   * `to_project`: nothing when the trimmed name is empty; otherwise a
   * project with the trimmed name and the chosen colour code and icon,
   * keeping the edited project's identifier (a new one gets `freshId`).
   */
  function ToProject(d: Dialog, freshId: String, now: int): (r: Option<T.Project>)
    requires d.Valid()
    ensures r.None? <==> Trim(d.name.value) == []
    ensures r.Some? ==> r.value.name == Trim(d.name.value) && r.value.name != []
    ensures r.Some? ==> r.value.color in ColorCodes && r.value.icon in Icons
    ensures r.Some? ==> r.value.color == ColorCodes[d.color] && r.value.icon == Icons[d.icon]
    ensures r.Some? ==> r.value.id == d.editingId.UnwrapOr(freshId)
  {
    var name := Trim(d.name.value);
    if name == [] then None
    else Some(T.Project(d.editingId.UnwrapOr(freshId), name, ColorCodes[d.color], Icons[d.icon], now))
  }

  /** A preset project goes through the dialog unchanged (its creation time aside). */
  lemma FromProjectToProject(p: T.Project, freshId: String, now: int)
    requires p.color in ColorCodes && p.icon in Icons
    requires p.name != [] && Trim(p.name) == p.name
    ensures ToProject(FromProject(p), freshId, now) == Some(p.(createdAt := now))
  {
  }

  // ---------------------------------------------------------------- colour parsing

  datatype Rgb = Rgb(r: nat, g: nat, b: nat) | Gray

  /** `trim_start_matches(c)`: drops every leading `c`. */
  function TrimStartMatches(s: String, c: char): (r: String)
    ensures |r| <= |s| && r == s[|s| - |r|..]
    ensures forall i :: 0 <= i < |s| - |r| ==> s[i] == c
    ensures r != [] ==> r[0] != c
    decreases |s|
  {
    if s != [] && s[0] == c then TrimStartMatches(s[1..], c) else s
  }

  /** One channel: two hex digits, 128 when they do not parse. */
  function Channel(s: String): (v: nat)
    requires |s| == 2
    ensures v < 256
    ensures N.IsHexDigit(s[0]) && N.IsHexDigit(s[1]) ==> v == N.HexValue(s[0]) * 16 + N.HexValue(s[1])
    ensures s[0] == '+' && N.IsHexDigit(s[1]) ==> v == N.HexValue(s[1])
    ensures !N.IsHexDigit(s[1]) || (!N.IsHexDigit(s[0]) && s[0] != '+') ==> v == 128
  {
    N.ParseHexByte(s).UnwrapOr(128)
  }

  /**
   * `parse_hex_color`: with the leading `#`s removed, six characters give
   * three channels (an unparsable pair reads as 128); any other length is Gray.
   */
  function ParseHexColor(hex: String): (r: Rgb)
    ensures r.Gray? <==> |TrimStartMatches(hex, '#')| != 6
    ensures r.Rgb? ==> r.r < 256 && r.g < 256 && r.b < 256
    ensures r.Rgb? ==>
              var h := TrimStartMatches(hex, '#');
              r.r == Channel(h[0..2]) && r.g == Channel(h[2..4]) && r.b == Channel(h[4..6])
  {
    var h := TrimStartMatches(hex, '#');
    if |h| != 6 then Gray
    else Rgb(Channel(h[0..2]), Channel(h[2..4]), Channel(h[4..6]))
  }

  /** Writing three bytes as `#rrggbb` and parsing the text gives the three bytes back. */
  lemma ParseHexColorRoundTrip(r: nat, g: nat, b: nat)
    requires r < 256 && g < 256 && b < 256
    ensures ParseHexColor("#" + N.HexByteText(r) + N.HexByteText(g) + N.HexByteText(b)) == Rgb(r, g, b)
  {
    var digits := N.HexByteText(r) + N.HexByteText(g) + N.HexByteText(b);
    assert "#" + N.HexByteText(r) + N.HexByteText(g) + N.HexByteText(b) == "#" + digits;
    assert ("#" + digits)[1..] == digits;
    assert TrimStartMatches("#" + digits, '#') == TrimStartMatches(digits, '#');
    assert digits[0] == N.HexByteText(r)[0];
    assert TrimStartMatches(digits, '#') == digits;
    assert digits[0..2] == N.HexByteText(r);
    assert digits[2..4] == N.HexByteText(g);
    assert digits[4..6] == N.HexByteText(b);
    N.ParseHexByteText(r);
    N.ParseHexByteText(g);
    N.ParseHexByteText(b);
    assert Channel(digits[0..2]) == r && Channel(digits[2..4]) == g && Channel(digits[4..6]) == b;
  }

  /** The first preset colour decodes to the channels its hex digits spell. */
  lemma BlueDecodes()
    ensures ParseHexColor(ColorCodes[0]) == Rgb(52, 152, 219)
  {
    var h := TrimStartMatches(ColorCodes[0], '#');
    assert h == "3498db";
    assert h[0..2] == "34" && h[2..4] == "98" && h[4..6] == "db";
    assert N.ParseHexByte("34") == Some(52);
    assert N.ParseHexByte("98") == Some(152);
    assert N.ParseHexByte("db") == Some(219);
  }
}

=== FILE: quick_capture.dfy ===
/**
 * The quick-capture overlay: a one-line input parsed as the user types,
 * with autocompletion of the `@project`, `#tag` or `!priority` token under
 * the cursor, and conversion of the parsed line into a task or a
 * pre-filled add-task dialog.
 */
module QuickCapture {
  import opened Wrappers
  import opened Text
  import Seqs
  import K = Keys
  import T = Tasks
  import TI = TextInput
  import TG = TagInput
  import AT = AddTask
  import CP = CaptureParser
  import N = Numbers

  /** Which kind of completion list is showing. */
  datatype Mode = NoSuggestions | Projects | Tags | Priorities

  function ModeOf(c: char): Mode
  {
    if c == '@' then Projects else if c == '#' then Tags else if c == '!' then Priorities else NoSuggestions
  }

  // ---------------------------------------------------------------- token under the cursor

  /** `k` starts the space-delimited run that ends at the cursor `c`. */
  predicate RunStart(s: String, k: nat, c: nat)
    requires c <= |s|
  {
    k < c && (k == 0 || s[k - 1] == ' ') && forall i :: k <= i < c ==> s[i] != ' '
  }

  /** Scans back from the cursor to just after the previous space (spaces only, not all whitespace). */
  function TokenStart(s: String, c: nat): (k: nat)
    requires c <= |s|
    ensures k <= c && (k == 0 || s[k - 1] == ' ')
    ensures forall i :: k <= i < c ==> s[i] != ' '
    decreases c
  {
    if c == 0 || s[c - 1] == ' ' then c else TokenStart(s, c - 1)
  }

  /** The token being completed: its kind, the text typed after the sigil, and its span. */
  datatype ActiveToken = ActiveToken(mode: Mode, partial: String, start: nat, end: nat)

  /** `active_token_at_cursor`. */
  function TokenAt(t: TI.Input): (r: Option<ActiveToken>)
    requires t.Valid()
    ensures r.Some? ==>
      var a := r.value;
      a.end == t.cursor && RunStart(t.value, a.start, t.cursor)
      && t.value[a.start] in "@#!" && a.mode == ModeOf(t.value[a.start]) && a.mode != NoSuggestions
      && a.partial == t.value[a.start + 1..t.cursor]
    ensures r.None? <==> forall k: nat :: RunStart(t.value, k, t.cursor) ==> t.value[k] !in "@#!"
  {
    var s, c := t.value, t.cursor;
    if c == 0 || s == [] then None
    else
      var k := TokenStart(s, c);
      assert forall j: nat :: RunStart(s, j, c) ==> j == k;
      if k < c && s[k] in "@#!" then Some(ActiveToken(ModeOf(s[k]), s[k + 1..c], k, c))
      else None
  }

  // ---------------------------------------------------------------- suggestion lists

  function Names(ps: seq<T.Project>): (r: seq<String>)
    ensures |r| == |ps| && forall i :: 0 <= i < |ps| ==> r[i] == ps[i].name
  {
    seq(|ps|, i requires 0 <= i < |ps| => ps[i].name)
  }

  /** Some project of the list has this name and satisfies `p`. */
  predicate NamedBy(ps: seq<T.Project>, x: String, p: T.Project -> bool)
  {
    exists i :: 0 <= i < |ps| && ps[i].name == x && p(ps[i])
  }

  lemma NamesOfKeep(ps: seq<T.Project>, p: T.Project -> bool)
    ensures forall x :: x in Names(Seqs.Keep(p, ps)) <==> NamedBy(ps, x, p)
  {
    var ks := Seqs.Keep(p, ps);
    forall x ensures x in Names(ks) <==> NamedBy(ps, x, p) {
      if x in Names(ks) {
        var i :| 0 <= i < |ks| && Names(ks)[i] == x;
        var j :| 0 <= j < |ps| && ps[j] == ks[i];
      }
      if NamedBy(ps, x, p) {
        var i :| 0 <= i < |ps| && ps[i].name == x && p(ps[i]);
        var j :| 0 <= j < |ks| && ks[j] == ps[i];
        assert Names(ks)[j] == x;
      }
    }
  }

  function ExactNames(ps: seq<T.Project>, lower: String): seq<String>
  {
    Names(Seqs.Keep(CP.ExactFn(lower), ps))
  }

  function PrefixNames(ps: seq<T.Project>, lower: String): seq<String>
  {
    Names(Seqs.Keep(CP.PrefixFn(lower), ps))
  }

  function SubstringNames(ps: seq<T.Project>, lower: String): seq<String>
  {
    Names(Seqs.Keep(CP.SubstringFn(lower), ps))
  }

  /**
   * `update_suggestions` for `@partial`: every project name when nothing
   * follows the `@`; otherwise the exact (case-insensitive) names, then
   * the prefix names, then the substring names, each name at most once
   * beyond the exact ones.
   */
  function ProjectSuggestions(ps: seq<T.Project>, lower: String): (r: seq<String>)
    ensures lower == [] ==> r == Names(ps)
    ensures lower != [] ==> forall x :: x in r <==> NamedBy(ps, x, CP.SubstringFn(lower))
  {
    if lower == [] then Names(ps)
    else
      NamesOfKeep(ps, CP.ExactFn(lower));
      NamesOfKeep(ps, CP.PrefixFn(lower));
      NamesOfKeep(ps, CP.SubstringFn(lower));
      ExactIsSubstring(ps, lower);
      Seqs.AppendMissing(Seqs.AppendMissing(ExactNames(ps, lower), PrefixNames(ps, lower)), SubstringNames(ps, lower))
  }

  lemma ExactIsSubstring(ps: seq<T.Project>, lower: String)
    ensures forall x :: NamedBy(ps, x, CP.ExactFn(lower)) ==> NamedBy(ps, x, CP.SubstringFn(lower))
    ensures forall x :: NamedBy(ps, x, CP.PrefixFn(lower)) ==> NamedBy(ps, x, CP.SubstringFn(lower))
  {
    forall i | 0 <= i < |ps| && CP.PrefixName(lower, ps[i]) ensures CP.SubstringName(lower, ps[i]) {
      assert OccursAt(Lower(ps[i].name), lower, 0);
    }
  }

  lemma ExactNamesAreExact(ps: seq<T.Project>, lower: String, i: nat)
    requires i < |ExactNames(ps, lower)|
    ensures Lower(ExactNames(ps, lower)[i]) == lower
  {
    var ks := Seqs.Keep(CP.ExactFn(lower), ps);
    assert CP.ExactFn(lower)(ks[i]);
  }

  lemma PrefixNamesArePrefixes(ps: seq<T.Project>, lower: String, i: nat)
    requires i < |PrefixNames(ps, lower)|
    ensures StartsWith(Lower(PrefixNames(ps, lower)[i]), lower)
  {
    var ks := Seqs.Keep(CP.PrefixFn(lower), ps);
    assert CP.PrefixFn(lower)(ks[i]);
  }

  /** A suggested name that equals the query ignoring case comes from an exact match. */
  lemma ExactNameIsListed(ps: seq<T.Project>, lower: String, x: String)
    requires NamedBy(ps, x, CP.SubstringFn(lower)) && Lower(x) == lower
    ensures x in ExactNames(ps, lower)
  {
    var j :| 0 <= j < |ps| && ps[j].name == x && CP.SubstringFn(lower)(ps[j]);
    assert CP.ExactFn(lower)(ps[j]);
    NamesOfKeep(ps, CP.ExactFn(lower));
  }

  /** A suggested name that starts with the query comes from a prefix match. */
  lemma PrefixNameIsListed(ps: seq<T.Project>, lower: String, x: String)
    requires NamedBy(ps, x, CP.SubstringFn(lower)) && StartsWith(Lower(x), lower)
    ensures x in PrefixNames(ps, lower)
  {
    var j :| 0 <= j < |ps| && ps[j].name == x && CP.SubstringFn(lower)(ps[j]);
    assert CP.PrefixFn(lower)(ps[j]);
    NamesOfKeep(ps, CP.PrefixFn(lower));
  }

  /** The list opens with exactly the exact-match names. */
  lemma ExactBlock(ps: seq<T.Project>, lower: String)
    requires lower != []
    ensures var r := ProjectSuggestions(ps, lower);
            forall i :: 0 <= i < |r| ==> (i < |ExactNames(ps, lower)| <==> Lower(r[i]) == lower)
  {
    var exact := ExactNames(ps, lower);
    var m := Seqs.AppendMissing(exact, PrefixNames(ps, lower));
    var r := ProjectSuggestions(ps, lower);
    assert r[..|m|] == m;
    assert m[..|exact|] == exact;
    forall i | 0 <= i < |r|
      ensures i < |exact| <==> Lower(r[i]) == lower
    {
      if i < |exact| {
        assert r[i] == m[i] == exact[i];
        ExactNamesAreExact(ps, lower, i);
      } else {
        assert r[i] !in exact by {
          if i < |m| {
            assert r[i] == m[i];
          }
        }
        if Lower(r[i]) == lower {
          assert r[i] in r;
          ExactNameIsListed(ps, lower, r[i]);
        }
      }
    }
  }

  /** Then come the remaining prefix-match names, and after them nothing starts with the query. */
  lemma PrefixBlock(ps: seq<T.Project>, lower: String)
    requires lower != []
    ensures var r := ProjectSuggestions(ps, lower);
            var n := |Seqs.AppendMissing(ExactNames(ps, lower), PrefixNames(ps, lower))|;
            forall i :: 0 <= i < |r| ==> (i < n <==> StartsWith(Lower(r[i]), lower))
  {
    var exact := ExactNames(ps, lower);
    var prefix := PrefixNames(ps, lower);
    var m := Seqs.AppendMissing(exact, prefix);
    var r := ProjectSuggestions(ps, lower);
    assert r[..|m|] == m;
    forall i | 0 <= i < |r|
      ensures i < |m| <==> StartsWith(Lower(r[i]), lower)
    {
      if i < |m| {
        assert r[i] == m[i] && m[i] in m;
        PrefixBlockStarts(ps, lower);
      } else {
        assert r[i] !in m && r[i] in r;
        if StartsWith(Lower(r[i]), lower) {
          PrefixNameIsListed(ps, lower, r[i]);
        }
      }
    }
  }

  /** Every exact or prefix-match name starts with the query. */
  lemma PrefixBlockStarts(ps: seq<T.Project>, lower: String)
    ensures forall x :: x in Seqs.AppendMissing(ExactNames(ps, lower), PrefixNames(ps, lower)) ==>
      StartsWith(Lower(x), lower)
  {
    ExactNamesStart(ps, lower);
    PrefixNamesStart(ps, lower);
  }

  lemma ExactNamesStart(ps: seq<T.Project>, lower: String)
    ensures forall x :: x in ExactNames(ps, lower) ==> StartsWith(Lower(x), lower)
  {
    var exact := ExactNames(ps, lower);
    forall x | x in exact ensures StartsWith(Lower(x), lower) {
      var k :| 0 <= k < |exact| && exact[k] == x;
      ExactNamesAreExact(ps, lower, k);
      assert Lower(x)[..|lower|] == lower;
    }
  }

  lemma PrefixNamesStart(ps: seq<T.Project>, lower: String)
    ensures forall x :: x in PrefixNames(ps, lower) ==> StartsWith(Lower(x), lower)
  {
    var prefix := PrefixNames(ps, lower);
    forall x | x in prefix ensures StartsWith(Lower(x), lower) {
      var k :| 0 <= k < |prefix| && prefix[k] == x;
      PrefixNamesArePrefixes(ps, lower, k);
    }
  }

  /**
   * The completion list ranks better matches first: no name follows a
   * worse-matching one, exact before prefix before substring.
   */
  lemma ProjectSuggestionsRanked(ps: seq<T.Project>, lower: String)
    requires lower != []
    ensures var r := ProjectSuggestions(ps, lower);
            forall i, j :: 0 <= i < j < |r| && Lower(r[j]) == lower ==> Lower(r[i]) == lower
    ensures var r := ProjectSuggestions(ps, lower);
            forall i, j :: 0 <= i < j < |r| && StartsWith(Lower(r[j]), lower) ==> StartsWith(Lower(r[i]), lower)
  {
    ExactBlock(ps, lower);
    PrefixBlock(ps, lower);
  }

  /** Some entry of `tags` equals `tag` ignoring case. */
  predicate ListedIgnoreCase(tags: seq<String>, tag: String)
  {
    exists i :: 0 <= i < |tags| && Lower(tags[i]) == Lower(tag)
  }

  /** A known tag not yet typed, used in the scoped project (`inScope`) or not. */
  function CandidateFn(parsed: seq<String>, scoped: seq<String>, inScope: bool): String -> bool
  {
    t => !ListedIgnoreCase(parsed, t) && ListedIgnoreCase(scoped, t) == inScope
  }

  function MentionsFn(lower: String): String -> bool
  {
    t => Contains(Lower(t), lower)
  }

  /** `filter` in the tag branch: everything for an empty query, else the tags containing it. */
  function FilterByQuery(tags: seq<String>, lower: String): (r: seq<String>)
    ensures forall x :: x in r <==> x in tags && (lower == [] || Contains(Lower(x), lower))
  {
    if lower == [] then tags else Seqs.Keep(MentionsFn(lower), tags)
  }

  function Candidates(allTags: seq<String>, parsed: seq<String>, scoped: seq<String>, inScope: bool, lower: String): (r: seq<String>)
    ensures forall x :: x in r <==>
      x in allTags && !ListedIgnoreCase(parsed, x) && ListedIgnoreCase(scoped, x) == inScope
      && (lower == [] || Contains(Lower(x), lower))
  {
    var k := Seqs.Keep(CandidateFn(parsed, scoped, inScope), allTags);
    assert forall x :: x in k <==> x in allTags && CandidateFn(parsed, scoped, inScope)(x);
    FilterByQuery(k, lower)
  }

  /**
   * `update_suggestions` for `#partial`: the known tags not already typed
   * (ignoring case) that contain the query, those used in the scoped
   * project first.
   */
  function TagSuggestions(allTags: seq<String>, parsed: seq<String>, scoped: seq<String>, lower: String): (r: seq<String>)
    ensures forall x :: x in r <==>
      x in allTags && !ListedIgnoreCase(parsed, x) && (lower == [] || Contains(Lower(x), lower))
    ensures forall i, j :: 0 <= i < j < |r| && ListedIgnoreCase(scoped, r[j]) ==> ListedIgnoreCase(scoped, r[i])
  {
    var inside := Candidates(allTags, parsed, scoped, true, lower);
    var outside := Candidates(allTags, parsed, scoped, false, lower);
    ScopedFirst(inside, outside, scoped);
    inside + outside
  }

  lemma ScopedFirst(inside: seq<String>, outside: seq<String>, scoped: seq<String>)
    requires forall x :: x in inside ==> ListedIgnoreCase(scoped, x)
    requires forall x :: x in outside ==> !ListedIgnoreCase(scoped, x)
    ensures var r := inside + outside;
            forall i, j :: 0 <= i < j < |r| && ListedIgnoreCase(scoped, r[j]) ==> ListedIgnoreCase(scoped, r[i])
  {
    var r := inside + outside;
    forall i | 0 <= i < |r| ensures i < |inside| <==> ListedIgnoreCase(scoped, r[i]) {
      if i < |inside| {
        assert r[i] == inside[i] && inside[i] in inside;
      } else {
        assert r[i] == outside[i - |inside|] && outside[i - |inside|] in outside;
      }
    }
  }

  function StartsWithFn(partial: String): String -> bool
  {
    p => StartsWith(p, partial)
  }

  const PriorityLevels: seq<String> := ["1", "2", "3", "4"]

  /** `update_suggestions` for `!partial`: the levels 1 to 4 that start with what was typed. */
  function PrioritySuggestions(partial: String): (r: seq<String>)
    ensures forall x :: x in r <==> x in PriorityLevels && StartsWith(x, partial)
  {
    if partial == [] then PriorityLevels else Seqs.Keep(StartsWithFn(partial), PriorityLevels)
  }

  /** Nothing typed after `!` offers all four levels; a level offers itself; anything else offers nothing. */
  lemma PrioritySuggestionsExamples()
    ensures PrioritySuggestions("") == ["1", "2", "3", "4"]
    ensures PrioritySuggestions("3") == ["3"]
    ensures PrioritySuggestions("5") == []
  {
    var l := PriorityLevels;
    assert l[1..] == ["2", "3", "4"] && l[2..] == ["3", "4"] && l[3..] == ["4"] && l[4..] == [];
    KeepLevels("3");
    KeepLevels("5");
  }

  lemma KeepLevels(partial: String)
    requires |partial| == 1
    ensures Seqs.Keep(StartsWithFn(partial), PriorityLevels)
         == (if partial[0] in "1234" then [partial] else [])
  {
    var p := StartsWithFn(partial);
    var l := PriorityLevels;
    assert forall k :: 0 <= k < 4 ==> (p(l[k]) <==> l[k] == partial);
    Seqs.KeepCons(p, l);
    Seqs.KeepCons(p, l[1..]);
    Seqs.KeepCons(p, l[2..]);
    Seqs.KeepCons(p, l[3..]);
    assert l[1..][0] == l[1] && l[2..][0] == l[2] && l[3..][0] == l[3];
    assert l[1..][1..] == l[2..] && l[2..][1..] == l[3..] && l[3..][1..] == [];
    assert partial[0] in "1234" <==> partial in l by {
      assert partial == [partial[0]];
    }
  }

  // ---------------------------------------------------------------- project tag map

  /** The tag list recorded for a project, empty when it has none. */
  function TagsFor(m: map<String, seq<String>>, pid: String): seq<String>
  {
    if pid in m then m[pid] else []
  }

  /** One task of the precomputation: its tags join its project's list, each tag once. */
  function RecordTask(m: map<String, seq<String>>, t: T.Task): map<String, seq<String>>
  {
    match t.projectId
    case None => m
    case Some(pid) => m[pid := Seqs.AppendMissing(TagsFor(m, pid), t.tags)]
  }

  function RecordTasks(m: map<String, seq<String>>, tasks: seq<T.Task>): map<String, seq<String>>
    decreases |tasks|
  {
    if tasks == [] then m else RecordTasks(RecordTask(m, tasks[0]), tasks[1..])
  }

  /** Some task of the project carries the tag. */
  predicate UsedIn(tasks: seq<T.Task>, pid: String, tag: String)
  {
    exists i :: 0 <= i < |tasks| && tasks[i].projectId == Some(pid) && tag in tasks[i].tags
  }

  predicate HasProject(tasks: seq<T.Task>, pid: String)
  {
    exists i :: 0 <= i < |tasks| && tasks[i].projectId == Some(pid)
  }

  lemma HasProjectCons(tasks: seq<T.Task>, pid: String)
    requires tasks != []
    ensures HasProject(tasks, pid) <==> tasks[0].projectId == Some(pid) || HasProject(tasks[1..], pid)
  {
    if HasProject(tasks[1..], pid) {
      var i :| 0 <= i < |tasks[1..]| && tasks[1..][i].projectId == Some(pid);
      assert tasks[i + 1] == tasks[1..][i];
    }
    if HasProject(tasks, pid) {
      var i :| 0 <= i < |tasks| && tasks[i].projectId == Some(pid);
      if i > 0 {
        assert tasks[1..][i - 1] == tasks[i];
      }
    }
  }

  lemma UsedInCons(tasks: seq<T.Task>, pid: String, tag: String)
    requires tasks != []
    ensures UsedIn(tasks, pid, tag) <==>
      (tasks[0].projectId == Some(pid) && tag in tasks[0].tags) || UsedIn(tasks[1..], pid, tag)
  {
    if UsedIn(tasks[1..], pid, tag) {
      var i :| 0 <= i < |tasks[1..]| && tasks[1..][i].projectId == Some(pid) && tag in tasks[1..][i].tags;
      assert tasks[i + 1] == tasks[1..][i];
    }
    if UsedIn(tasks, pid, tag) {
      var i :| 0 <= i < |tasks| && tasks[i].projectId == Some(pid) && tag in tasks[i].tags;
      if i > 0 {
        assert tasks[1..][i - 1] == tasks[i];
      }
    }
  }

  /** Recording one task touches only its own project's entry. */
  lemma RecordTaskStep(m: map<String, seq<String>>, t: T.Task, pid: String, tag: String)
    requires Seqs.Distinct(TagsFor(m, pid))
    ensures pid in RecordTask(m, t) <==> pid in m || t.projectId == Some(pid)
    ensures tag in TagsFor(RecordTask(m, t), pid) <==>
      tag in TagsFor(m, pid) || (t.projectId == Some(pid) && tag in t.tags)
    ensures Seqs.Distinct(TagsFor(RecordTask(m, t), pid))
  {
  }

  /**
   * The map from each project to the tags its tasks use: a project has an
   * entry iff some task belongs to it, an entry holds exactly the tags
   * that project's tasks carry, and holds each once.
   */
  lemma {:induction false} RecordTasksContents(m: map<String, seq<String>>, tasks: seq<T.Task>, pid: String, tag: String)
    requires Seqs.Distinct(TagsFor(m, pid))
    ensures pid in RecordTasks(m, tasks) <==> pid in m || HasProject(tasks, pid)
    ensures tag in TagsFor(RecordTasks(m, tasks), pid) <==> tag in TagsFor(m, pid) || UsedIn(tasks, pid, tag)
    ensures Seqs.Distinct(TagsFor(RecordTasks(m, tasks), pid))
    decreases |tasks|
  {
    if tasks != [] {
      RecordTaskStep(m, tasks[0], pid, tag);
      RecordTasksContents(RecordTask(m, tasks[0]), tasks[1..], pid, tag);
      HasProjectCons(tasks, pid);
      UsedInCons(tasks, pid, tag);
    }
  }

  /** `QuickCaptureDialog::new`'s precomputation of each project's tags. */
  function ProjectTagMap(tasks: seq<T.Task>): (m: map<String, seq<String>>)
    ensures forall pid :: pid in m <==> HasProject(tasks, pid)
  {
    var m := RecordTasks(map[], tasks);
    forall pid ensures pid in m <==> HasProject(tasks, pid) {
      RecordTasksContents(map[], tasks, pid, []);
    }
    m
  }

  lemma ProjectTagMapContents(tasks: seq<T.Task>, pid: String, tag: String)
    ensures tag in TagsFor(ProjectTagMap(tasks), pid) <==> UsedIn(tasks, pid, tag)
    ensures Seqs.Distinct(TagsFor(ProjectTagMap(tasks), pid))
  {
    RecordTasksContents(map[], tasks, pid, tag);
  }

  // ---------------------------------------------------------------- the dialog

  /** `QuickCaptureAction`. */
  datatype CaptureAction = NoAction | Submit | Cancel | ExpandToFull

  /**
   * `QuickCaptureDialog`. `explicit` is a project chosen from the list (or
   * preset by the caller); `matched` is the fuzzy match of the typed
   * `@name`; `projectTags` maps a project identifier to the tags its tasks use.
   */
  datatype Dialog = Dialog(
    input: TI.Input,
    parsed: CP.Parsed,
    projects: seq<T.Project>,
    allTags: seq<String>,
    matched: Option<T.Project>,
    suggestions: seq<String>,
    selected: Option<nat>,
    mode: Mode,
    explicit: Option<T.Project>,
    projectTags: map<String, seq<String>>)
  {
    /** A highlighted entry exists exactly when the list is non-empty, and lies inside it. */
    predicate Valid()
    {
      input.Valid()
      && (selected.Some? <==> suggestions != [])
      && (mode == NoSuggestions ==> suggestions == [])
      && (selected.Some? ==> selected.value < |suggestions|)
    }
  }

  /** The parsed fields describe the current text. */
  predicate InSync(d: Dialog, env: AT.Env)
  {
    d.parsed == CP.Parse(d.input.value, env)
  }

  const NothingParsed := CP.Parsed([], None, [], None, None, None)

  /** `QuickCaptureDialog::new`. */
  function New(projects: seq<T.Project>, allTags: seq<String>, tasks: seq<T.Task>): (d: Dialog)
    ensures d.Valid() && d.input.value == [] && d.suggestions == [] && d.mode == NoSuggestions
    ensures d.explicit.None? && d.matched.None? && d.parsed == NothingParsed
    ensures forall pid :: pid in d.projectTags <==> HasProject(tasks, pid)
  {
    Dialog(TI.Empty(), NothingParsed, projects, allTags, None, [], None, NoSuggestions, None, ProjectTagMap(tasks))
  }

  /** The empty line parses to nothing, so a new dialog starts in sync. */
  lemma NewInSync(projects: seq<T.Project>, allTags: seq<String>, tasks: seq<T.Task>, env: AT.Env)
    ensures InSync(New(projects, allTags, tasks), env)
  {
    assert Join([], " ") == [];
  }

  /** `set_project`. */
  function SetProject(d: Dialog, p: T.Project): (r: Dialog)
    ensures r.explicit == Some(p) && r.input == d.input && r.parsed == d.parsed
  {
    d.(explicit := Some(p))
  }

  /**
   * `reparse`: parse the line, fuzzy-match its `@name`, and drop the
   * chosen project when the line names one of its own.
   */
  function Reparse(d: Dialog, env: AT.Env): (r: Dialog)
    requires d.Valid()
    ensures r.Valid() && InSync(r, env) && r.input == d.input && r.suggestions == d.suggestions
    ensures r.parsed.projectName.None? ==> r.matched.None? && r.explicit == d.explicit
    ensures r.parsed.projectName.Some? ==>
      r.explicit.None? && r.matched == CP.FuzzyMatchProject(d.projects, r.parsed.projectName.value)
  {
    var parsed := CP.Parse(d.input.value, env);
    var matched := match parsed.projectName case Some(n) => CP.FuzzyMatchProject(d.projects, n) case None => None;
    var explicit := if parsed.projectName.Some? && d.explicit.Some? then None else d.explicit;
    d.(parsed := parsed, matched := matched, explicit := explicit)
  }

  /** The project a task would get: the chosen one, else the matched one. */
  function EffectiveProject(d: Dialog): Option<T.Project>
  {
    d.explicit.Or(d.matched)
  }

  /** Tags the effective project's tasks use (none without a project). */
  function ScopedTags(d: Dialog): seq<String>
  {
    match EffectiveProject(d)
    case Some(p) => TagsFor(d.projectTags, p.id)
    case None => []
  }

  /** `update_suggestions`: the completion list for the token under the cursor, its first entry highlighted. */
  function UpdateSuggestions(d: Dialog): (r: Dialog)
    requires d.Valid()
    ensures r.Valid() && r.input == d.input && r.parsed == d.parsed && r.explicit == d.explicit
    ensures r.selected == (if r.suggestions == [] then None else Some(0))
    ensures TokenAt(d.input).None? ==> r.mode == NoSuggestions && r.suggestions == []
    ensures TokenAt(d.input).Some? ==> r.mode == TokenAt(d.input).value.mode
    ensures r.mode == Tags ==> forall x :: x in r.suggestions ==> !ListedIgnoreCase(d.parsed.tags, x)
    ensures r.mode == Priorities ==> forall x :: x in r.suggestions ==> x in PriorityLevels
    ensures TokenAt(d.input).Some? && r.mode == Projects ==>
              r.suggestions == ProjectSuggestions(d.projects, Lower(TokenAt(d.input).value.partial))
    ensures TokenAt(d.input).Some? && r.mode == Tags ==>
              r.suggestions == TagSuggestions(d.allTags, d.parsed.tags, ScopedTags(d), Lower(TokenAt(d.input).value.partial))
    ensures TokenAt(d.input).Some? && r.mode == Priorities ==>
              r.suggestions == PrioritySuggestions(TokenAt(d.input).value.partial)
  {
    match TokenAt(d.input)
    case None => d.(suggestions := [], selected := None, mode := NoSuggestions)
    case Some(tok) =>
      var list := Completions(d, tok);
      d.(suggestions := list, selected := if list == [] then None else Some(0), mode := tok.mode)
  }

  /** The completion list of one token, by the kind of token. */
  function Completions(d: Dialog, tok: ActiveToken): (r: seq<String>)
    ensures tok.mode == Projects ==> r == ProjectSuggestions(d.projects, Lower(tok.partial))
    ensures tok.mode == Tags ==> r == TagSuggestions(d.allTags, d.parsed.tags, ScopedTags(d), Lower(tok.partial))
    ensures tok.mode == Tags ==> forall x :: x in r ==> !ListedIgnoreCase(d.parsed.tags, x)
    ensures tok.mode != Projects && tok.mode != Tags ==> r == PrioritySuggestions(tok.partial)
    ensures tok.mode != Projects && tok.mode != Tags ==> forall x :: x in r ==> x in PriorityLevels
  {
    var lower := Lower(tok.partial);
    if tok.mode == Projects then ProjectSuggestions(d.projects, lower)
    else if tok.mode == Tags then TagSuggestions(d.allTags, d.parsed.tags, ScopedTags(d), lower)
    else PrioritySuggestions(tok.partial)
  }

  /** Moving right `n` times from the start of the line. */
  function RightTimes(t: TI.Input, n: nat): (r: TI.Input)
    requires t.Valid()
    ensures r.Valid() && r.value == t.value
    ensures r.cursor == if t.cursor + n <= |t.value| then t.cursor + n else |t.value|
    decreases n
  {
    if n == 0 then t else RightTimes(TI.MoveRight(t), n - 1)
  }

  function Min(a: nat, b: nat): nat
  {
    if a <= b then a else b
  }

  /**
   * `replace_token_in_input`: splice `repl` over `[start, end)`, collapse
   * the whitespace to single spaces, and put the cursor after the
   * replacement (at `start` when it is empty), within the new line.
   */
  function ReplaceToken(t: TI.Input, start: nat, end: nat, repl: String): (r: TI.Input)
    requires t.Valid() && start <= end <= |t.value|
    ensures r.Valid()
    ensures SplitWhitespace(r.value) == SplitWhitespace(t.value[..start] + repl + t.value[end..])
    ensures r.cursor == Min(if repl == [] then start else start + |repl|, |r.value|)
  {
    var spliced := t.value[..start] + repl + t.value[end..];
    var v := Join(SplitWhitespace(spliced), " ");
    SplitJoinRoundTrip(SplitWhitespace(spliced));
    var target := if repl == [] then start else start + |repl|;
    RightTimes(TI.MoveHome(TI.SetValue(t, v)), Min(target, |v|))
  }

  /**
   * When the replaced span is a whole space-delimited token, the words of
   * the new line are the words before it, the replacement, and the words
   * after it.
   */
  lemma ReplaceWholeToken(t: TI.Input, start: nat, end: nat, repl: String)
    requires t.Valid() && start <= end <= |t.value|
    requires start == 0 || IsWhitespace(t.value[start - 1])
    requires end == |t.value| || IsWhitespace(t.value[end])
    requires repl == [] || IsWord(repl)
    ensures SplitWhitespace(ReplaceToken(t, start, end, repl).value)
         == SplitWhitespace(t.value[..start]) + SplitWhitespace(repl) + SplitWhitespace(t.value[end..])
    ensures repl != [] ==> SplitWhitespace(repl) == [repl]
  {
    var a, b := t.value[..start], t.value[end..];
    assert a != [] ==> a[|a| - 1] == t.value[start - 1];
    assert b != [] ==> b[0] == t.value[end];
    SpliceWords(a, repl, b);
  }

  /** A token under a cursor at a word end is a whole word: whitespace or an end of the line on both sides. */
  lemma WholeToken(t: TI.Input)
    requires t.Valid() && TokenAt(t).Some? && AtWordEnd(t)
    ensures var tok := TokenAt(t).value;
            tok.start <= tok.end <= |t.value|
            && (tok.start == 0 || IsWhitespace(t.value[tok.start - 1]))
            && (tok.end == |t.value| || IsWhitespace(t.value[tok.end]))
  {
  }

  /** Replacing a whole-word token by a word or by nothing splices the words at that place. */
  lemma ReplaceTokenWords(t: TI.Input, repl: String)
    requires t.Valid() && TokenAt(t).Some? && AtWordEnd(t)
    requires repl == [] || IsWord(repl)
    ensures var tok := TokenAt(t).value;
            SplitWhitespace(ReplaceToken(t, tok.start, tok.end, repl).value)
              == SplitWhitespace(t.value[..tok.start]) + SplitWhitespace(repl) + SplitWhitespace(t.value[tok.end..])
    ensures repl != [] ==> SplitWhitespace(repl) == [repl]
    ensures repl == [] ==>
            var tok := TokenAt(t).value;
            SplitWhitespace(ReplaceToken(t, tok.start, tok.end, repl).value)
              == SplitWhitespace(t.value[..tok.start]) + SplitWhitespace(t.value[tok.end..])
  {
    var tok := TokenAt(t).value;
    WholeToken(t);
    ReplaceWholeToken(t, tok.start, tok.end, repl);
    if repl == [] {
      assert SplitWhitespace(repl) == [];
      Seqs.AppendEmptyMiddle(SplitWhitespace(t.value[..tok.start]), SplitWhitespace(t.value[tok.end..]));
    }
  }

  lemma SpliceWords(a: String, repl: String, b: String)
    requires a == [] || IsWhitespace(a[|a| - 1])
    requires b == [] || IsWhitespace(b[0])
    requires repl == [] || IsWord(repl)
    ensures SplitWhitespace(a + repl + b) == SplitWhitespace(a) + SplitWhitespace(repl) + SplitWhitespace(b)
    ensures repl != [] ==> SplitWhitespace(repl) == [repl]
  {
    SplitConcat(repl, b);
    SplitConcat(a, repl + b);
    Seqs.AppendAssoc(a, repl, b);
    Seqs.AppendAssoc(SplitWhitespace(a), SplitWhitespace(repl), SplitWhitespace(b));
    if repl != [] {
      WordSplitsToItself(repl);
    }
  }

  lemma WordSplitsToItself(w: String)
    requires IsWord(w)
    ensures SplitWhitespace(w) == [w]
  {
    SplitAfterWord(w, []);
    assert w + [] == w;
  }

  function NamedFn(name: String): T.Project -> bool
  {
    (p: T.Project) => p.name == name
  }

  /** What an accepted entry puts in place of its token: nothing for a project, `#tag` or `!level` otherwise. */
  function Replacement(mode: Mode, sel: String): (r: String)
    ensures mode == Projects <==> r == []
    ensures mode == Tags ==> r == "#" + sel
    ensures mode !in {Projects, Tags} ==> r == "!" + sel
  {
    if mode == Projects then "" else if mode == Tags then "#" + sel else "!" + sel
  }

  /**
   * `accept_suggestion`: a project entry becomes the chosen project and
   * its token leaves the line; a tag or level entry replaces its token
   * with `#tag` or `!level`; the list closes and the line is reparsed.
   */
  function AcceptSuggestion(d: Dialog, env: AT.Env): (r: Dialog)
    requires d.Valid()
    ensures r.Valid()
    ensures d.selected.None? || d.mode == NoSuggestions ==> r == d
    ensures d.selected.Some? && d.mode != NoSuggestions ==>
      r.suggestions == [] && r.mode == NoSuggestions && InSync(r, env)
    ensures d.selected.Some? && TokenAt(d.input).Some? ==>
      var tok := TokenAt(d.input).value;
      r.input == ReplaceToken(d.input, tok.start, tok.end, Replacement(d.mode, d.suggestions[d.selected.value]))
    ensures d.selected.Some? && TokenAt(d.input).None? ==> r.input == d.input
  {
    match d.selected
    case None => d
    case Some(idx) =>
      if idx >= |d.suggestions| || d.mode == NoSuggestions then d
      else
        var sel := d.suggestions[idx];
        var explicit :=
          if d.mode == Projects then
            match Seqs.FirstIndex(NamedFn(sel), d.projects)
            case Some(i) => Some(d.projects[i])
            case None => d.explicit
          else d.explicit;
        var repl := Replacement(d.mode, sel);
        var input :=
          match TokenAt(d.input)
          case Some(tok) => ReplaceToken(d.input, tok.start, tok.end, repl)
          case None => d.input;
        Reparse(d.(input := input, explicit := explicit, suggestions := [], selected := None, mode := NoSuggestions), env)
  }

  /** The cursor sits at the end of a word: before whitespace or at the end of the line. */
  predicate AtWordEnd(t: TI.Input)
    requires t.Valid()
  {
    t.cursor == |t.value| || IsWhitespace(t.value[t.cursor])
  }

  /**
   * Accepting a tag entry with the cursor at the end of `#partial` swaps
   * that word for `#tag`, leaves the other words alone, and the tag is
   * then among the parsed tags.
   */
  lemma AcceptTagInsertsTag(d: Dialog, env: AT.Env)
    requires d.Valid() && d.mode == Tags && d.selected.Some?
    requires TokenAt(d.input).Some? && AtWordEnd(d.input)
    requires IsWord(d.suggestions[d.selected.value])
    ensures var tok := TokenAt(d.input).value;
            var sel := d.suggestions[d.selected.value];
            var r := AcceptSuggestion(d, env);
            SplitWhitespace(r.input.value)
              == SplitWhitespace(d.input.value[..tok.start]) + ["#" + sel] + SplitWhitespace(d.input.value[tok.end..])
            && sel in r.parsed.tags
  {
    var tok := TokenAt(d.input).value;
    var sel := d.suggestions[d.selected.value];
    var w := "#" + sel;
    assert IsWord(w) by {
      assert forall k :: 1 <= k < |w| ==> w[k] == sel[k - 1];
    }
    assert Replacement(d.mode, sel) == w;
    ReplaceTokenWords(d.input, w);
    var r := AcceptSuggestion(d, env);
    TagWordParsed(r.input.value, SplitWhitespace(d.input.value[..tok.start]), sel, SplitWhitespace(d.input.value[tok.end..]), env);
  }

  /** A `#tag` word anywhere on the line puts the tag among the parsed tags. */
  lemma TagWordParsed(input: String, before: seq<String>, sel: String, after: seq<String>, env: AT.Env)
    requires IsWord(sel) && SplitWhitespace(input) == before + ["#" + sel] + after
    ensures sel in CP.Parse(input, env).tags
  {
    var w: String := "#" + sel;
    CP.ParseFields(input, env);
    TagWordClassified(sel);
    CP.TagsOfMiddle(before, w, after, sel);
  }

  lemma TagWordClassified(sel: String)
    requires IsWord(sel)
    ensures CP.Classify("#" + sel) == CP.TagRef(sel)
  {
    var w: String := "#" + sel;
    assert w[1..] == sel;
  }

  /** Accepting a project entry with the cursor at the end of `@partial` removes that word. */
  lemma AcceptProjectRemovesToken(d: Dialog, env: AT.Env)
    requires d.Valid() && d.mode == Projects && d.selected.Some?
    requires TokenAt(d.input).Some? && AtWordEnd(d.input)
    ensures var tok := TokenAt(d.input).value;
            SplitWhitespace(AcceptSuggestion(d, env).input.value)
              == SplitWhitespace(d.input.value[..tok.start]) + SplitWhitespace(d.input.value[tok.end..])
  {
    assert Replacement(d.mode, d.suggestions[d.selected.value]) == [];
    ReplaceTokenWords(d.input, []);
  }

  /**
   * Accepting a project entry makes the first project of that name the
   * chosen one, unless the line still names a project of its own.
   */
  lemma AcceptProjectChoosesProject(d: Dialog, env: AT.Env, i: nat)
    requires d.Valid() && d.mode == Projects && d.selected.Some?
    requires i < |d.projects| && d.projects[i].name == d.suggestions[d.selected.value]
    ensures var r := AcceptSuggestion(d, env);
            r.parsed.projectName.None? ==>
              r.explicit.Some? && r.explicit.value.name == d.projects[i].name && r.explicit.value in d.projects
  {
    assert NamedFn(d.projects[i].name)(d.projects[i]);
  }

  /** Up in the list: the previous entry, the last one from the first. */
  function HighlightUp(selected: Option<nat>, n: nat): (r: Option<nat>)
    requires n > 0
    ensures r.Some? <==> selected.Some?
    ensures selected.Some? && selected.value < n ==> r.value < n
  {
    match selected
    case Some(i) => Some(if i == 0 then n - 1 else i - 1)
    case None => None
  }

  /** Down in the list: the next entry, the first one from the last. */
  function HighlightDown(selected: Option<nat>, n: nat): (r: Option<nat>)
    requires n > 0
    ensures r.Some? <==> selected.Some?
    ensures selected.Some? ==> r.value < n
  {
    match selected
    case Some(i) => Some((i + 1) % n)
    case None => None
  }

  /** Up undoes Down on every entry of a list. */
  lemma HighlightDownUp(i: nat, n: nat)
    requires i < n
    ensures HighlightUp(HighlightDown(Some(i), n), n) == Some(i)
    ensures HighlightDown(HighlightUp(Some(i), n), n) == Some(i)
  {
    N.WrapRight(i, n);
    N.WrapRight(if i == 0 then n - 1 else i - 1, n);
  }

  /** `handle_key`; `env` supplies what parsing the due date reads. */
  function HandleKey(d: Dialog, key: K.KeyEvent, env: AT.Env): (r: (Dialog, CaptureAction))
    requires d.Valid()
    ensures r.0.Valid()
    ensures r.1 == Submit <==> key.code == K.Enter
    ensures r.1 == Cancel <==> key.code == K.Esc
    ensures r.1 == ExpandToFull <==> key.code == K.Tab && d.suggestions == []
    ensures key.code == K.Esc ==> r.0 == d
    ensures r.1 in {Submit, ExpandToFull} ==> InSync(r.0, env) && r.0.input == d.input
    ensures key.code == K.Tab && d.suggestions != [] ==> r.0.suggestions == []
    ensures key.code in {K.Up, K.Down} ==> r.0.input == d.input
    ensures key.code.Char? && !(key.alt && key.code.c in "bf") ==>
      r.0.input == TI.InsertChar(d.input, key.code.c) && InSync(r.0, env)
  {
    var has := d.suggestions != [];
    var c := key.code;
    if c == K.Enter then (Reparse(d, env), Submit)
    else if c == K.Esc then (d, Cancel)
    else if c == K.Tab then
      if has then (AcceptSuggestion(d, env), NoAction) else (Reparse(d, env), ExpandToFull)
    else if c == K.Up && has then (d.(selected := HighlightUp(d.selected, |d.suggestions|)), NoAction)
    else if c == K.Down && has then (d.(selected := HighlightDown(d.selected, |d.suggestions|)), NoAction)
    else (EditKey(d, key, env), NoAction)
  }

  /** The text-field keys: edits reparse, cursor moves keep the parse, anything else is ignored. */
  function EditKey(d: Dialog, key: K.KeyEvent, env: AT.Env): (r: Dialog)
    requires d.Valid()
    ensures r.Valid()
    ensures InSync(d, env) ==> InSync(r, env)
    ensures key.code in {K.Up, K.Down, K.Enter, K.Esc, K.Tab} ==> r == d
    ensures key.code.Char? && !(key.alt && key.code.c in "bf") ==>
      r.input == TI.InsertChar(d.input, key.code.c) && InSync(r, env)
  {
    var c := key.code;
    if c == K.Char('b') && key.alt then Edited(d, TI.MoveWordLeft(d.input), env)
    else if c == K.Char('f') && key.alt then Edited(d, TI.MoveWordRight(d.input), env)
    else if c == K.Backspace && key.alt then Edited(d, TI.DeleteWordBackward(d.input), env)
    else if c.Char? then Edited(d, TI.InsertChar(d.input, c.c), env)
    else if c == K.Backspace then Edited(d, TI.DeleteBackward(d.input), env)
    else if c == K.Delete then Edited(d, TI.DeleteForward(d.input), env)
    else if c == K.Left && key.alt then Moved(d, TI.MoveWordLeft(d.input))
    else if c == K.Right && key.alt then Moved(d, TI.MoveWordRight(d.input))
    else if c == K.Left then Moved(d, TI.MoveLeft(d.input))
    else if c == K.Right then Moved(d, TI.MoveRight(d.input))
    else if c == K.Home then Moved(d, TI.MoveHome(d.input))
    else if c == K.End then Moved(d, TI.MoveEnd(d.input))
    else d
  }

  /** An edit: the new text is reparsed and the list recomputed. */
  function Edited(d: Dialog, input: TI.Input, env: AT.Env): (r: Dialog)
    requires d.Valid() && input.Valid()
    ensures r.Valid() && r.input == input && InSync(r, env)
  {
    UpdateSuggestions(Reparse(d.(input := input), env))
  }

  /** A cursor move: the text is unchanged, only the list is recomputed. */
  function Moved(d: Dialog, input: TI.Input): (r: Dialog)
    requires d.Valid() && input.Valid() && input.value == d.input.value
    ensures r.Valid() && r.input == input && r.parsed == d.parsed
  {
    UpdateSuggestions(d.(input := input))
  }

  /** Whatever the key, the parsed fields keep describing the text. */
  lemma HandleKeyKeepsInSync(d: Dialog, key: K.KeyEvent, env: AT.Env)
    requires d.Valid() && InSync(d, env)
    ensures InSync(HandleKey(d, key, env).0, env)
  {
    var c := key.code;
    if c == K.Tab && d.suggestions != [] {
      assert HandleKey(d, key, env).0 == AcceptSuggestion(d, env);
    }
  }

  /** With a list showing, Down then Up returns to the same entry, and Up from the first wraps to the last. */
  lemma SelectionCycles(d: Dialog, env: AT.Env)
    requires d.Valid() && d.suggestions != []
    ensures HandleKey(HandleKey(d, K.Plain(K.Down), env).0, K.Plain(K.Up), env).0 == d
    ensures d.selected == Some(0) ==> HandleKey(d, K.Plain(K.Up), env).0.selected == Some(|d.suggestions| - 1)
    ensures d.selected == Some(|d.suggestions| - 1) ==> HandleKey(d, K.Plain(K.Down), env).0.selected == Some(0)
  {
    var i, n := d.selected.value, |d.suggestions|;
    var d1 := d.(selected := HighlightDown(d.selected, n));
    assert HandleKey(d, K.Plain(K.Down), env).0 == d1;
    HighlightDownUp(i, n);
    assert HandleKey(d1, K.Plain(K.Up), env).0 == d;
  }

  /**
   * `to_task`: nothing for a blank title; otherwise a task with the
   * trimmed title, the typed level (Medium by default), due date and tags,
   * in the chosen project, else the matched one.
   */
  function ToTask(d: Dialog, freshId: String, now: int): (r: Option<T.Task>)
    ensures r.None? <==> Trim(d.parsed.title) == []
    ensures r.Some? ==>
      var t := r.value;
      t.id == freshId && t.title == Trim(d.parsed.title) && t.status == T.Pending
      && t.priority == d.parsed.priority.UnwrapOr(T.Medium)
      && t.dueDate == d.parsed.dueDate && t.tags == d.parsed.tags
      && (d.explicit.Some? ==> t.projectId == Some(d.explicit.value.id))
      && (d.explicit.None? && d.matched.Some? ==> t.projectId == Some(d.matched.value.id))
      && (d.explicit.None? && d.matched.None? ==> t.projectId.None?)
  {
    var title := Trim(d.parsed.title);
    if title == [] then None
    else
      var t := T.NewTask(freshId, title, now);
      var t := t.(priority := d.parsed.priority.UnwrapOr(T.Medium), dueDate := d.parsed.dueDate, tags := d.parsed.tags);
      match EffectiveProject(d)
      case Some(p) => Some(t.(projectId := Some(p.id)))
      case None => Some(t)
  }

  /**
   * `to_add_task_dialog`: the full dialog pre-filled with the parsed
   * title, level (Medium by default), due-date text, project and tags.
   */
  function ToAddTaskDialog(d: Dialog): (r: AT.Dialog)
    ensures r.Valid() && r.focused == AT.Title && r.editingId.None?
    ensures r.title.value == d.parsed.title
    ensures r.priority == d.parsed.priority.UnwrapOr(T.Medium)
    ensures r.dueDate.value == d.parsed.dueText.UnwrapOr([])
    ensures r.projectId == (match EffectiveProject(d) case Some(p) => Some(p.id) case None => None)
    ensures r.tags.tags == d.parsed.tags && r.allTags == d.allTags
  {
    var base := AT.New().(allTags := d.allTags);
    var withTitle := if d.parsed.title != [] then base.(title := TI.SetValue(base.title, d.parsed.title)) else base;
    var withDue := match d.parsed.dueText
      case Some(x) => withTitle.(dueDate := TI.SetValue(withTitle.dueDate, x))
      case None => withTitle;
    var withProject := match EffectiveProject(d)
      case Some(p) => withDue.(projectId := Some(p.id))
      case None => withDue;
    withProject.(priority := d.parsed.priority.UnwrapOr(T.Medium), tags := TG.WithTags(d.parsed.tags))
  }
}

=== FILE: search.dfy ===
/** Full-text search over task titles and descriptions, and string truncation. */
module Search {
  import opened Wrappers
  import opened Text
  import T = Tasks
  import Seqs

  /** A hit: the task, where the query sits in its title, and a description excerpt. */
  datatype SearchResult = SearchResult(task: T.Task, titleMatch: Option<(nat, nat)>, snippet: Option<String>)

  /** Characters kept before and after the match in a description excerpt. */
  const SnippetBefore := 20
  const SnippetAfter := 30

  /** The first occurrence of the lowercased query `q` in the lowercased title, as a span. */
  function TitleMatch(q: String, title: String): (r: Option<(nat, nat)>)
    ensures r.Some? <==> Contains(Lower(title), q)
    ensures r.Some? ==> r.value.1 == r.value.0 + |q| && OccursAt(Lower(title), q, r.value.0)
                        && forall j: nat :: j < r.value.0 ==> !OccursAt(Lower(title), q, j)
  {
    match Find(Lower(title), q)
    case Some(s) => Some((s, s + |q|))
    case None => None
  }

  /** The excerpt window around a match at `pos` of length `qlen` in a text of length `n`. */
  function Window(n: nat, pos: nat, qlen: nat): (w: (nat, nat))
    requires pos + qlen <= n
    ensures w.0 <= pos && pos + qlen <= w.1 <= n
    ensures w.0 == 0 || w.0 == pos - SnippetBefore
    ensures w.1 == n || w.1 == pos + qlen + SnippetAfter
    ensures w.0 >= pos - SnippetBefore && w.1 <= pos + qlen + SnippetAfter
    ensures w.1 - w.0 <= SnippetBefore + qlen + SnippetAfter
  {
    var start := if pos >= SnippetBefore then pos - SnippetBefore else 0;
    var end := if pos + qlen + SnippetAfter < n then pos + qlen + SnippetAfter else n;
    (start, end)
  }

  /** "..." when text was cut on that side, nothing otherwise. */
  function Ellipsis(cut: bool): (r: String)
    ensures r == "..." <==> cut
    ensures r == [] <==> !cut
  {
    if cut then "..." else ""
  }

  /**
   * The description excerpt around the first occurrence of `q`, with "..."
   * before it when text was cut at the front and after it when cut at the back.
   */
  function Snippet(q: String, desc: String): (r: Option<String>)
    ensures r.Some? <==> Contains(Lower(desc), q)
    ensures r.Some? ==> Contains(Lower(r.value), q)
    ensures r.Some? ==> |r.value| <= 3 + SnippetBefore + |q| + SnippetAfter + 3
    ensures r.Some? ==>
              var w := Window(|desc|, Find(Lower(desc), q).value, |q|);
              r.value == Ellipsis(w.0 > 0) + desc[w.0..w.1] + Ellipsis(w.1 < |desc|)
  {
    match Find(Lower(desc), q)
    case Some(pos) =>
      var w := Window(|desc|, pos, |q|);
      var prefix := Ellipsis(w.0 > 0);
      var suffix := Ellipsis(w.1 < |desc|);
      SnippetContainsMatch(q, desc, pos, w.0, w.1, prefix, suffix);
      Some(prefix + desc[w.0..w.1] + suffix)
    case None => None
  }

  lemma SnippetContainsMatch(q: String, desc: String, pos: nat, start: nat, end: nat, prefix: String, suffix: String)
    requires start <= pos && pos + |q| <= end <= |desc|
    requires OccursAt(Lower(desc), q, pos)
    ensures Contains(Lower(prefix + desc[start..end] + suffix), q)
  {
    var s := prefix + desc[start..end] + suffix;
    var k: nat := |prefix| + pos - start;
    assert forall i :: 0 <= i < |q| ==> Lower(s)[k + i] == LowerChar(desc[pos + i]) == q[i];
    assert Lower(s)[k..k + |q|] == q;
    assert OccursAt(Lower(s), q, k);
  }

  /** Whether a task's title or description contains the lowercased query `q`. */
  predicate Hit(q: String, t: T.Task)
  {
    Contains(Lower(t.title), q) || (t.description.Some? && Contains(Lower(t.description.value), q))
  }

  function HitFn(q: String): T.Task -> bool
  {
    t => Hit(q, t)
  }

  /** The search result for one task, if it matches. */
  function ResultFor(q: String, t: T.Task): (r: Option<SearchResult>)
    ensures r.Some? <==> Hit(q, t)
    ensures r.Some? ==> r.value.task == t && (r.value.titleMatch.Some? || r.value.snippet.Some?)
  {
    var tm := TitleMatch(q, t.title);
    var sn := if t.description.Some? then Snippet(q, t.description.value) else None;
    if tm.Some? || sn.Some? then Some(SearchResult(t, tm, sn)) else None
  }

  function ResultsFor(q: String, tasks: seq<T.Task>): (r: seq<SearchResult>)
    ensures forall i :: 0 <= i < |r| ==> r[i].titleMatch.Some? || r[i].snippet.Some?
  {
    if tasks == [] then []
    else
      (match ResultFor(q, tasks[0]) case Some(x) => [x] case None => []) + ResultsFor(q, tasks[1..])
  }

  /** `search_tasks`: the matching tasks in input order; nothing for an empty query. */
  function SearchTasks(query: String, tasks: seq<T.Task>): (r: seq<SearchResult>)
    ensures query == [] ==> r == []
    ensures forall i :: 0 <= i < |r| ==> r[i].titleMatch.Some? || r[i].snippet.Some?
  {
    var q := Lower(query);
    if q == [] then [] else ResultsFor(q, tasks)
  }

  function TasksOf(rs: seq<SearchResult>): (r: seq<T.Task>)
    ensures |r| == |rs|
    ensures forall i :: 0 <= i < |rs| ==> r[i] == rs[i].task
  {
    seq(|rs|, i requires 0 <= i < |rs| => rs[i].task)
  }

  /** The results are exactly the tasks that match, in input order. */
  lemma {:induction false} ResultsAreMatchingTasks(q: String, tasks: seq<T.Task>)
    ensures TasksOf(ResultsFor(q, tasks)) == Seqs.Keep(HitFn(q), tasks)
  {
    if tasks != [] {
      ResultsAreMatchingTasks(q, tasks[1..]);
      var head := match ResultFor(q, tasks[0]) case Some(x) => [x] case None => [];
      assert ResultsFor(q, tasks) == head + ResultsFor(q, tasks[1..]);
      assert TasksOf(head + ResultsFor(q, tasks[1..])) == TasksOf(head) + TasksOf(ResultsFor(q, tasks[1..]));
    }
  }

  /** `search_tasks` keeps, in order, the tasks whose title or description contains the query ignoring case. */
  lemma SearchTasksIsFilter(query: String, tasks: seq<T.Task>)
    requires query != []
    ensures TasksOf(SearchTasks(query, tasks)) == Seqs.Keep(HitFn(Lower(query)), tasks)
  {
    ResultsAreMatchingTasks(Lower(query), tasks);
  }

  /**
   * `truncate_str`: the text itself when it fits; otherwise exactly
   * `maxWidth` characters, the last three being "..." when `maxWidth > 3`.
   */
  function Truncate(s: String, maxWidth: nat): (r: String)
    ensures |s| <= maxWidth ==> r == s
    ensures |s| > maxWidth ==> |r| == maxWidth
    ensures |s| > maxWidth && maxWidth > 3 ==>
              r[..maxWidth - 3] == s[..maxWidth - 3] && r[maxWidth - 3..] == "..."
    ensures |s| > maxWidth && maxWidth <= 3 ==> r == s[..maxWidth]
  {
    if |s| <= maxWidth then s
    else if maxWidth > 3 then s[..maxWidth - 3] + "..."
    else s[..maxWidth]
  }
}

=== FILE: seqs.dfy ===
/**
 * Order-preserving filtering and first-position search over sequences: the
 * `iter().filter(..).collect()` and `iter().position(..)` idioms of the program.
 */
module Seqs {
  import opened Wrappers

  /** The elements of `s` satisfying `p`, in their original order. */
  function Keep<T(==)>(p: T -> bool, s: seq<T>): (r: seq<T>)
    ensures |r| <= |s|
    ensures forall i :: 0 <= i < |r| ==> p(r[i]) && r[i] in s
    ensures forall i :: 0 <= i < |s| && p(s[i]) ==> s[i] in r
    decreases |s|
  {
    if s == [] then []
    else (if p(s[0]) then [s[0]] else []) + Keep(p, s[1..])
  }

  /** `a` can be obtained from `b` by deleting some of its elements. */
  predicate IsSubsequence<T(==)>(a: seq<T>, b: seq<T>)
    decreases |b|
  {
    if b == [] then a == []
    else (a != [] && a[0] == b[0] && IsSubsequence(a[1..], b[1..])) || IsSubsequence(a, b[1..])
  }

  /** Filtering distributes over concatenation: kept elements never change relative order. */
  lemma {:induction false} KeepAppend<T>(p: T -> bool, a: seq<T>, b: seq<T>)
    ensures Keep(p, a + b) == Keep(p, a) + Keep(p, b)
    decreases |a|
  {
    if a == [] {
      assert a + b == b;
    } else {
      assert (a + b)[0] == a[0];
      assert (a + b)[1..] == a[1..] + b;
      KeepAppend(p, a[1..], b);
    }
  }

  /** One step of the filter: the head is kept or dropped, then the rest is filtered. */
  lemma KeepCons<T>(p: T -> bool, s: seq<T>)
    requires s != []
    ensures Keep(p, s) == (if p(s[0]) then [s[0]] else []) + Keep(p, s[1..])
  {
  }

  lemma KeepOne<T>(p: T -> bool, a: T)
    ensures Keep(p, [a]) == if p(a) then [a] else []
  {
    assert [a][1..] == [];
  }

  /** Two neighbours that are not both kept may trade places without changing the filter. */
  lemma KeepSwap<T>(p: T -> bool, a: T, b: T, t: seq<T>)
    requires !(p(a) && p(b))
    ensures Keep(p, [a] + ([b] + t)) == Keep(p, [b] + ([a] + t))
  {
    KeepAppend(p, [a], [b] + t);
    KeepAppend(p, [b], t);
    KeepAppend(p, [b], [a] + t);
    KeepAppend(p, [a], t);
    KeepOne(p, a);
    KeepOne(p, b);
    SwapEmpty(Keep(p, [a]), Keep(p, [b]), Keep(p, t));
  }

  lemma SwapEmpty<T>(x: seq<T>, y: seq<T>, z: seq<T>)
    requires x == [] || y == []
    ensures x + (y + z) == y + (x + z)
  {
    if x == [] {
      assert x + (y + z) == y + z == y + (x + z);
    } else {
      assert x + (y + z) == x + z == y + (x + z);
    }
  }

  /** The kept elements form a subsequence of the input. */
  lemma {:induction false} KeepIsSubsequence<T>(p: T -> bool, s: seq<T>)
    ensures IsSubsequence(Keep(p, s), s)
    decreases |s|
  {
    if s != [] {
      KeepIsSubsequence(p, s[1..]);
      if p(s[0]) {
        assert Keep(p, s) == [s[0]] + Keep(p, s[1..]);
        assert Keep(p, s)[1..] == Keep(p, s[1..]);
      } else {
        assert Keep(p, s) == Keep(p, s[1..]);
      }
    }
  }

  /** Filtering keeps every copy of an element it accepts and none of one it rejects. */
  lemma {:induction false} KeepCount<T>(p: T -> bool, s: seq<T>, x: T)
    ensures multiset(Keep(p, s))[x] == if p(x) then multiset(s)[x] else 0
    decreases |s|
  {
    if s != [] {
      KeepCount(p, s[1..], x);
      assert s == [s[0]] + s[1..];
      assert multiset(s) == multiset([s[0]]) + multiset(s[1..]);
    }
  }

  /** Filtering twice with the same predicate is filtering once. */
  lemma {:induction false} KeepIdempotent<T>(p: T -> bool, s: seq<T>)
    ensures Keep(p, Keep(p, s)) == Keep(p, s)
    decreases |s|
  {
    if s != [] {
      KeepIdempotent(p, s[1..]);
      if p(s[0]) {
        assert Keep(p, s) == [s[0]] + Keep(p, s[1..]);
        KeepAppend(p, [s[0]], Keep(p, s[1..]));
        assert [s[0]][1..] == [];
        assert Keep(p, [s[0]]) == [s[0]] + Keep(p, []);
      } else {
        assert Keep(p, s) == Keep(p, s[1..]);
      }
    }
  }

  /** The position of the first element satisfying `p`, as `Iterator::position` finds it. */
  function FirstIndex<T>(p: T -> bool, s: seq<T>): (r: Option<nat>)
    ensures r.Some? ==> r.value < |s| && p(s[r.value])
                        && forall j :: 0 <= j < r.value ==> !p(s[j])
    ensures r.None? <==> forall j :: 0 <= j < |s| ==> !p(s[j])
    decreases |s|
  {
    if s == [] then None
    else if p(s[0]) then Some(0)
    else match FirstIndex(p, s[1..])
      case None => None
      case Some(i) => Some(i + 1)
  }

  /** No element occurs twice. */
  predicate Distinct<T(==)>(s: seq<T>)
  {
    forall i, j :: 0 <= i < j < |s| ==> s[i] != s[j]
  }

  /**
   * Appends, in order, each element of `xs` not already present: the
   * "push unless contains" loop. The old contents stay in front and every
   * appended element is new.
   */
  function AppendMissing<T(==,!new)>(acc: seq<T>, xs: seq<T>): (r: seq<T>)
    ensures |acc| <= |r| && r[..|acc|] == acc
    ensures forall x :: x in r <==> x in acc || x in xs
    ensures forall i :: |acc| <= i < |r| ==> r[i] !in acc
    ensures Distinct(acc) ==> Distinct(r)
    decreases |xs|
  {
    if xs == [] then acc
    else if xs[0] in acc then AppendMissing(acc, xs[1..])
    else
      var r := AppendMissing(acc + [xs[0]], xs[1..]);
      assert r[..|acc|] == (acc + [xs[0]])[..|acc|];
      r
  }

  lemma AppendAssoc<T>(a: seq<T>, b: seq<T>, c: seq<T>)
    ensures a + b + c == a + (b + c)
  {
  }

  lemma AppendEmptyMiddle<T>(a: seq<T>, c: seq<T>)
    ensures a + [] + c == a + c
  {
    assert a + [] == a;
  }
}

=== FILE: settings.dfy ===
/**
 * The settings dialog: a menu of destructive maintenance actions, each
 * of which must be confirmed in a second step.
 */
module Settings {
  import opened Wrappers
  import K = Keys

  datatype SettingsOption = DeleteCompletedTasks | ResetDatabase

  /** The menu, in display order. */
  const Options: seq<SettingsOption> := [DeleteCompletedTasks, ResetDatabase]

  /** Every option destroys data, so every option asks for confirmation. */
  predicate IsDestructive(o: SettingsOption)
  {
    true
  }

  datatype State = Menu | Confirming

  datatype Dialog = Dialog(selected: nat, state: State, confirming: Option<SettingsOption>, confirmYes: bool)
  {
    /** The highlight is on an option, and an option is under confirmation exactly in the second step. */
    predicate Valid()
    {
      selected < |Options| && (state == Confirming <==> confirming.Some?)
    }
  }

  /** `SettingsDialog::new`. */
  function New(): (d: Dialog)
    ensures d.Valid() && d.state == Menu && d.selected == 0 && d.confirming.None? && !d.confirmYes
  {
    Dialog(0, Menu, None, false)
  }

  /** `confirmed_option`: the option under confirmation, if any. */
  function ConfirmedOption(d: Dialog): (r: Option<SettingsOption>)
    requires d.Valid()
    ensures r.Some? <==> d.state == Confirming
  {
    d.confirming
  }

  /**
   * The menu: Esc cancels; Up/k and Down/j step within the options and
   * stop at the ends; Enter asks to confirm the highlighted option, with
   * "No" highlighted.
   */
  function HandleMenuKey(d: Dialog, key: K.KeyEvent): (r: (Dialog, K.DialogAction))
    requires d.Valid() && d.state == Menu
    ensures r.0.Valid() && (r.1 == K.Cancel <==> key.code == K.Esc) && r.1 != K.Submit
    ensures key.code in {K.Up, K.Char('k')} ==> r.0.selected == if d.selected == 0 then 0 else d.selected - 1
    ensures key.code in {K.Down, K.Char('j')} ==>
              r.0.selected == if d.selected + 1 == |Options| then d.selected else d.selected + 1
    ensures key.code == K.Enter ==>
              r.0 == Dialog(d.selected, Confirming, Some(Options[d.selected]), false)
    ensures key.code != K.Enter ==> r.0.state == Menu && r.0.confirming == d.confirming
  {
    match key.code
    case Esc => (d, K.Cancel)
    case Up => (d.(selected := if d.selected > 0 then d.selected - 1 else d.selected), K.NoAction)
    case Char('k') => (d.(selected := if d.selected > 0 then d.selected - 1 else d.selected), K.NoAction)
    case Down => (d.(selected := if d.selected < |Options| - 1 then d.selected + 1 else d.selected), K.NoAction)
    case Char('j') => (d.(selected := if d.selected < |Options| - 1 then d.selected + 1 else d.selected), K.NoAction)
    case Enter =>
      var option := Options[d.selected];
      if IsDestructive(option) then (d.(state := Confirming, confirming := Some(option), confirmYes := false), K.NoAction)
      else (d, K.Submit)
    case _ => (d, K.NoAction)
  }

  /** The menu again, with nothing under confirmation. */
  function BackToMenu(d: Dialog): (r: Dialog)
    requires d.selected < |Options|
    ensures r.Valid() && r.state == Menu && r.confirming.None? && r.selected == d.selected
  {
    d.(state := Menu, confirming := None)
  }

  /**
   * The confirmation: y/Y submit; n/N/Esc go back to the menu; Left,
   * Right, Tab, h and l move the highlight; Enter submits on "Yes" and goes
   * back to the menu on "No".
   */
  function HandleConfirmKey(d: Dialog, key: K.KeyEvent): (r: (Dialog, K.DialogAction))
    requires d.Valid() && d.state == Confirming
    ensures r.0.Valid() && r.1 != K.Cancel && r.0.selected == d.selected
    ensures r.1 == K.Submit <==> key.code in {K.Char('y'), K.Char('Y')} || (key.code == K.Enter && d.confirmYes)
    ensures r.1 == K.Submit ==> r.0 == d
    ensures key.code in {K.Char('n'), K.Char('N'), K.Esc} || (key.code == K.Enter && !d.confirmYes) <==>
              r.0.state == Menu
    ensures r.0.state == Menu ==> r.0.confirming.None?
    ensures key.code in {K.Left, K.Right, K.Tab, K.Char('h'), K.Char('l')} ==> r.0 == d.(confirmYes := !d.confirmYes)
  {
    match key.code
    case Char('y') => (d, K.Submit)
    case Char('Y') => (d, K.Submit)
    case Char('n') => (BackToMenu(d), K.NoAction)
    case Char('N') => (BackToMenu(d), K.NoAction)
    case Esc => (BackToMenu(d), K.NoAction)
    case Left => (d.(confirmYes := !d.confirmYes), K.NoAction)
    case Right => (d.(confirmYes := !d.confirmYes), K.NoAction)
    case Tab => (d.(confirmYes := !d.confirmYes), K.NoAction)
    case Char('h') => (d.(confirmYes := !d.confirmYes), K.NoAction)
    case Char('l') => (d.(confirmYes := !d.confirmYes), K.NoAction)
    case Enter => if d.confirmYes then (d, K.Submit) else (BackToMenu(d), K.NoAction)
    case _ => (d, K.NoAction)
  }

  /** `handle_key`: the menu or the confirmation, by state. */
  function HandleKey(d: Dialog, key: K.KeyEvent): (r: (Dialog, K.DialogAction))
    requires d.Valid()
    ensures r.0.Valid()
    ensures r.1 == K.Submit ==> d.state == Confirming && ConfirmedOption(r.0) == d.confirming
    ensures r.1 == K.Cancel ==> d.state == Menu && r.0 == d
  {
    match d.state
    case Menu => HandleMenuKey(d, key)
    case Confirming => HandleConfirmKey(d, key)
  }

  /**
   * Nothing is done without two steps: Enter on an option then `y`
   * submits exactly that option, while Enter then `n` returns to the same
   * place in the menu.
   */
  lemma TwoStepConfirmation(d: Dialog)
    requires d.Valid() && d.state == Menu
    ensures var c := HandleKey(d, K.Plain(K.Enter));
            c.1 == K.NoAction
            && HandleKey(c.0, K.Plain(K.Char('y'))).1 == K.Submit
            && ConfirmedOption(HandleKey(c.0, K.Plain(K.Char('y'))).0) == Some(Options[d.selected])
            && HandleKey(c.0, K.Plain(K.Char('n'))).0 == d.(confirmYes := false)
  {
  }

  /** On entering the confirmation Enter alone goes back: "No" is the default. */
  lemma EnterTwiceIsSafe(d: Dialog)
    requires d.Valid() && d.state == Menu && d.confirming.None?
    ensures var c := HandleKey(d, K.Plain(K.Enter)).0;
            HandleKey(c, K.Plain(K.Enter)) == (d.(confirmYes := false), K.NoAction)
  {
  }
}

=== FILE: sorting.dfy ===
/**
 * Sort orders for task lists. Each order is a comparator; the list is sorted
 * with a stable sort, so tasks the comparator calls equal keep their input
 * order. The comparators carry no further tie-breaks.
 */
module Sorting {
  import opened Wrappers
  import opened Text
  import T = Tasks
  import Seqs

  datatype Ordering = Less | Equal | Greater

  function Flip(o: Ordering): Ordering
  {
    match o
    case Less => Greater
    case Equal => Equal
    case Greater => Less
  }

  /** `Ord::cmp` on integers. */
  function IntCmp(a: int, b: int): (r: Ordering)
    ensures r == Less <==> a < b
    ensures r == Equal <==> a == b
    ensures r == Greater <==> a > b
  {
    if a < b then Less else if a == b then Equal else Greater
  }

  /** `Ord::cmp` on strings: lexicographic by character, a proper prefix first. */
  function LexCmp(a: String, b: String): Ordering
    decreases |a|
  {
    if a == [] && b == [] then Equal
    else if a == [] then Less
    else if b == [] then Greater
    else if a[0] < b[0] then Less
    else if a[0] > b[0] then Greater
    else LexCmp(a[1..], b[1..])
  }

  lemma {:induction false} LexCmpFlip(a: String, b: String)
    ensures LexCmp(b, a) == Flip(LexCmp(a, b))
    decreases |a|
  {
    if a != [] && b != [] && a[0] == b[0] {
      LexCmpFlip(a[1..], b[1..]);
    }
  }

  /** Two strings compare equal exactly when they are the same string. */
  lemma {:induction false} LexCmpEqualIff(a: String, b: String)
    ensures LexCmp(a, b) == Equal <==> a == b
    decreases |a|
  {
    if a != [] && b != [] && a[0] == b[0] {
      LexCmpEqualIff(a[1..], b[1..]);
      assert a == [a[0]] + a[1..];
      assert b == [b[0]] + b[1..];
    }
  }

  lemma {:induction false} LexCmpTransitive(a: String, b: String, c: String)
    requires LexCmp(a, b) != Greater && LexCmp(b, c) != Greater
    ensures LexCmp(a, c) != Greater
    decreases |a|
  {
    if a != [] && b != [] && c != [] && a[0] == b[0] && b[0] == c[0] {
      LexCmpTransitive(a[1..], b[1..], c[1..]);
    }
  }

  datatype SortOrder = DueDateAsc | DueDateDesc | PriorityDesc | PriorityAsc
                     | CreatedDesc | CreatedAsc | Alphabetical

  /** The comparator `SortOrder::apply` hands to `sort_by` for each order. */
  function Compare(o: SortOrder, a: T.Task, b: T.Task): Ordering
  {
    match o
    case DueDateAsc =>
      (match (a.dueDate, b.dueDate)
       case (Some(x), Some(y)) => IntCmp(x, y)
       case (Some(_), None) => Less
       case (None, Some(_)) => Greater
       case (None, None) => IntCmp(a.createdAt, b.createdAt))
    case DueDateDesc =>
      (match (a.dueDate, b.dueDate)
       case (Some(x), Some(y)) => IntCmp(y, x)
       case (Some(_), None) => Less
       case (None, Some(_)) => Greater
       case (None, None) => IntCmp(b.createdAt, a.createdAt))
    case PriorityDesc => IntCmp(T.Rank(b.priority), T.Rank(a.priority))
    case PriorityAsc => IntCmp(T.Rank(a.priority), T.Rank(b.priority))
    case CreatedDesc => IntCmp(b.createdAt, a.createdAt)
    case CreatedAsc => IntCmp(a.createdAt, b.createdAt)
    case Alphabetical => LexCmp(a.title, b.title)
  }

  predicate Leq(o: SortOrder, a: T.Task, b: T.Task)
  {
    Compare(o, a, b) != Greater
  }

  /** Swapping the arguments flips the answer, for every order. */
  lemma CompareFlip(o: SortOrder, a: T.Task, b: T.Task)
    ensures Compare(o, b, a) == Flip(Compare(o, a, b))
  {
    if o == Alphabetical {
      LexCmpFlip(a.title, b.title);
    }
  }

  /** Every comparator is transitive. */
  lemma CompareTransitive(o: SortOrder, a: T.Task, b: T.Task, c: T.Task)
    requires Leq(o, a, b) && Leq(o, b, c)
    ensures Leq(o, a, c)
  {
    if o == Alphabetical {
      LexCmpTransitive(a.title, b.title, c.title);
    }
  }

  /** "Compares equal" is an equivalence relation, for every order. */
  lemma EquivalenceTransitive(o: SortOrder, a: T.Task, b: T.Task, c: T.Task)
    requires Compare(o, a, b) == Equal && Compare(o, b, c) == Equal
    ensures Compare(o, a, c) == Equal
  {
    if o == Alphabetical {
      LexCmpEqualIff(a.title, b.title);
      LexCmpEqualIff(b.title, c.title);
      LexCmpEqualIff(a.title, c.title);
    }
  }

  /** The tasks comparing equal to `x`. */
  function EquivTo(o: SortOrder, x: T.Task): T.Task -> bool
  {
    y => Compare(o, x, y) == Equal
  }

  predicate Sorted(o: SortOrder, s: seq<T.Task>)
  {
    forall i, j :: 0 <= i < j < |s| ==> Leq(o, s[i], s[j])
  }

  /** Insert `x` before the first element it does not exceed. */
  function Insert(o: SortOrder, x: T.Task, s: seq<T.Task>): (r: seq<T.Task>)
    ensures multiset(r) == multiset(s) + multiset{x}
    decreases |s|
  {
    if s == [] then [x]
    else if Leq(o, x, s[0]) then [x] + s
    else
      assert s == [s[0]] + s[1..];
      [s[0]] + Insert(o, x, s[1..])
  }

  /** `SortOrder::apply`: a stable sort of the tasks by the order's comparator. */
  function SortBy(o: SortOrder, s: seq<T.Task>): (r: seq<T.Task>)
    ensures multiset(r) == multiset(s)
    ensures |r| == |s|
    decreases |s|
  {
    if s == [] then []
    else
      assert s == [s[0]] + s[1..];
      Insert(o, s[0], SortBy(o, s[1..]))
  }

  /** Placing `x` in front of a sorted sequence whose head it does not exceed keeps it sorted. */
  lemma PrependSorted(o: SortOrder, x: T.Task, s: seq<T.Task>)
    requires s != [] && Sorted(o, s) && Leq(o, x, s[0])
    ensures Sorted(o, [x] + s)
  {
    var r := [x] + s;
    forall i, j | 0 <= i < j < |r| ensures Leq(o, r[i], r[j]) {
      if i == 0 && j > 1 {
        CompareTransitive(o, x, s[0], s[j - 1]);
      }
    }
  }

  /** A lower bound of `x` and of every element of `s` bounds every element of the insertion. */
  lemma InsertBounded(o: SortOrder, b: T.Task, x: T.Task, s: seq<T.Task>)
    requires Leq(o, b, x)
    requires forall m :: 0 <= m < |s| ==> Leq(o, b, s[m])
    ensures forall k :: 0 <= k < |Insert(o, x, s)| ==> Leq(o, b, Insert(o, x, s)[k])
  {
    var rest := Insert(o, x, s);
    forall k | 0 <= k < |rest| ensures Leq(o, b, rest[k]) {
      assert rest[k] in multiset(rest);
      assert rest[k] == x || rest[k] in multiset(s);
      if rest[k] != x {
        var m :| 0 <= m < |s| && s[m] == rest[k];
      }
    }
  }

  /** Inserting into a sorted sequence keeps it sorted. */
  lemma {:induction false} InsertSorted(o: SortOrder, x: T.Task, s: seq<T.Task>)
    requires Sorted(o, s)
    ensures Sorted(o, Insert(o, x, s))
    decreases |s|
  {
    if s == [] {
    } else if Leq(o, x, s[0]) {
      PrependSorted(o, x, s);
    } else {
      var s' := s[1..];
      var rest := Insert(o, x, s');
      InsertSorted(o, x, s');
      CompareFlip(o, x, s[0]);
      assert forall m :: 0 <= m < |s'| ==> Leq(o, s[0], s'[m]) by {
        forall m | 0 <= m < |s'| ensures Leq(o, s[0], s'[m]) {
          assert s'[m] == s[m + 1];
        }
      }
      InsertBounded(o, s[0], x, s');
      assert Insert(o, x, s) == [s[0]] + rest;
    }
  }

  /** The output of every order is sorted by that order's comparator. */
  lemma {:induction false} SortBySorted(o: SortOrder, s: seq<T.Task>)
    ensures Sorted(o, SortBy(o, s))
    decreases |s|
  {
    if s != [] {
      SortBySorted(o, s[1..]);
      InsertSorted(o, s[0], SortBy(o, s[1..]));
    }
  }

  /** Inserting `x` keeps every equivalence class in the order it has in `[x] + s`. */
  lemma {:induction false} InsertStable(o: SortOrder, x: T.Task, s: seq<T.Task>, z: T.Task)
    ensures Seqs.Keep(EquivTo(o, z), Insert(o, x, s)) == Seqs.Keep(EquivTo(o, z), [x] + s)
    decreases |s|
  {
    var p := EquivTo(o, z);
    if s != [] && !Leq(o, x, s[0]) {
      var s' := s[1..];
      InsertStable(o, x, s', z);
      Seqs.KeepAppend(p, [s[0]], Insert(o, x, s'));
      Seqs.KeepAppend(p, [s[0]], [x] + s');
      if p(x) && p(s[0]) {
        CompareFlip(o, z, x);
        EquivalenceTransitive(o, x, z, s[0]);
      }
      Seqs.KeepSwap(p, s[0], x, s');
      assert s == [s[0]] + s';
    }
  }

  /**
   * Stability: sorting does not reorder tasks that compare equal. For every
   * task `z`, the tasks equivalent to `z` appear in the output in exactly
   * their input order.
   */
  lemma {:induction false} SortByStable(o: SortOrder, s: seq<T.Task>, z: T.Task)
    ensures Seqs.Keep(EquivTo(o, z), SortBy(o, s)) == Seqs.Keep(EquivTo(o, z), s)
    decreases |s|
  {
    if s != [] {
      var p := EquivTo(o, z);
      SortByStable(o, s[1..], z);
      InsertStable(o, s[0], SortBy(o, s[1..]), z);
      Seqs.KeepAppend(p, [s[0]], SortBy(o, s[1..]));
      Seqs.KeepAppend(p, [s[0]], s[1..]);
      assert s == [s[0]] + s[1..];
    }
  }

  /** Any two positions of a sorted output are in comparator order. */
  lemma {:induction false} SortByPair(o: SortOrder, s: seq<T.Task>, i: int, j: int)
    requires 0 <= i < j < |s|
    ensures Leq(o, SortBy(o, s)[i], SortBy(o, s)[j])
  {
    SortBySorted(o, s);
  }

  /**
   * Earliest due first: every dated task precedes every undated one, dated
   * tasks ascend by due date and undated ones ascend by creation time.
   */
  lemma {:induction false} DueDateAscLayout(s: seq<T.Task>, i: int, j: int)
    requires 0 <= i < j < |s|
    ensures var r := SortBy(DueDateAsc, s);
      (r[j].dueDate.Some? ==> r[i].dueDate.Some?)
      && (r[i].dueDate.Some? && r[j].dueDate.Some? ==> r[i].dueDate.value <= r[j].dueDate.value)
      && (r[i].dueDate.None? && r[j].dueDate.None? ==> r[i].createdAt <= r[j].createdAt)
  {
    SortByPair(DueDateAsc, s, i, j);
  }

  /**
   * Latest due first, yet still dated before undated (so not the reverse of
   * earliest due first); undated tasks descend by creation time.
   */
  lemma {:induction false} DueDateDescLayout(s: seq<T.Task>, i: int, j: int)
    requires 0 <= i < j < |s|
    ensures var r := SortBy(DueDateDesc, s);
      (r[j].dueDate.Some? ==> r[i].dueDate.Some?)
      && (r[i].dueDate.Some? && r[j].dueDate.Some? ==> r[i].dueDate.value >= r[j].dueDate.value)
      && (r[i].dueDate.None? && r[j].dueDate.None? ==> r[i].createdAt >= r[j].createdAt)
  {
    SortByPair(DueDateDesc, s, i, j);
  }

  /** A dated task and an undated one come out dated-first under both due-date orders. */
  lemma DueDateDescIsNotReverse(d: T.Task, u: T.Task)
    requires d.dueDate.Some? && u.dueDate.None?
    ensures SortBy(DueDateAsc, [u, d]) == [d, u]
    ensures SortBy(DueDateDesc, [u, d]) == [d, u]
  {
    assert [u, d][1..] == [d];
    assert [d][1..] == [];
  }

  /** Priority orders: non-increasing for PriorityDesc, non-decreasing for PriorityAsc. */
  lemma {:induction false} PriorityLayout(s: seq<T.Task>, i: int, j: int)
    requires 0 <= i < j < |s|
    ensures T.Rank(SortBy(PriorityDesc, s)[i].priority) >= T.Rank(SortBy(PriorityDesc, s)[j].priority)
    ensures T.Rank(SortBy(PriorityAsc, s)[i].priority) <= T.Rank(SortBy(PriorityAsc, s)[j].priority)
  {
    SortByPair(PriorityDesc, s, i, j);
    SortByPair(PriorityAsc, s, i, j);
  }

  lemma {:induction false} CreatedDescLayout(s: seq<T.Task>, i: int, j: int)
    requires 0 <= i < j < |s|
    ensures SortBy(CreatedDesc, s)[i].createdAt >= SortBy(CreatedDesc, s)[j].createdAt
  {
    SortByPair(CreatedDesc, s, i, j);
  }

  lemma {:induction false} CreatedAscLayout(s: seq<T.Task>, i: int, j: int)
    requires 0 <= i < j < |s|
    ensures SortBy(CreatedAsc, s)[i].createdAt <= SortBy(CreatedAsc, s)[j].createdAt
  {
    SortByPair(CreatedAsc, s, i, j);
  }

  /** Creation-time orders: newest first for CreatedDesc, oldest first for CreatedAsc. */
  lemma {:induction false} CreatedLayout(s: seq<T.Task>, i: int, j: int)
    requires 0 <= i < j < |s|
    ensures SortBy(CreatedDesc, s)[i].createdAt >= SortBy(CreatedDesc, s)[j].createdAt
    ensures SortBy(CreatedAsc, s)[i].createdAt <= SortBy(CreatedAsc, s)[j].createdAt
  {
    CreatedDescLayout(s, i, j);
    CreatedAscLayout(s, i, j);
  }

  /** Alphabetical order is plain case-sensitive string order of the titles. */
  lemma {:induction false} AlphabeticalLayout(s: seq<T.Task>, i: int, j: int)
    requires 0 <= i < j < |s|
    ensures LexCmp(SortBy(Alphabetical, s)[i].title, SortBy(Alphabetical, s)[j].title) != Greater
  {
    SortByPair(Alphabetical, s, i, j);
  }

  /** A title starting with an upper-case letter sorts before one starting with a lower-case letter ("Zebra" before "apple"). */
  lemma AlphabeticalIsCaseSensitive(a: String, b: String)
    requires a != [] && b != [] && 'A' <= a[0] <= 'Z' && 'a' <= b[0] <= 'z'
    ensures LexCmp(a, b) == Less
  {
  }
}

=== FILE: storage.dfy ===
/**
 * The pure part of task storage: the text stored for a priority and a
 * status, and the WHERE clause with its bound parameters that a filter
 * becomes before the query runs.
 */
module Storage {
  import opened Wrappers
  import opened Text
  import T = Tasks
  import F = Filters

  /** `priority_to_str`. */
  function PriorityToStr(p: T.Priority): (r: String)
    ensures Lower(r) == r
  {
    match p
    case Low => "low"
    case Medium => "medium"
    case High => "high"
    case Urgent => "urgent"
  }

  /** `str_to_priority`: case-insensitive; anything unrecognised reads as Medium. */
  function StrToPriority(s: String): (r: T.Priority)
    ensures r == T.Low <==> Lower(s) == "low"
    ensures r == T.High <==> Lower(s) == "high"
    ensures r == T.Urgent <==> Lower(s) == "urgent"
    ensures Lower(s) !in {"low", "high", "urgent"} ==> r == T.Medium
  {
    var l := Lower(s);
    if l == "low" then T.Low
    else if l == "high" then T.High
    else if l == "urgent" then T.Urgent
    else T.Medium
  }

  /** Every priority reads back as itself, and the stored texts are all different. */
  lemma PriorityRoundTrip(p: T.Priority, q: T.Priority)
    ensures StrToPriority(PriorityToStr(p)) == p
    ensures PriorityToStr(p) == PriorityToStr(q) ==> p == q
  {
  }

  /** Case never matters when reading a priority. */
  lemma StrToPriorityIgnoresCase(s: String)
    ensures StrToPriority(s) == StrToPriority(Lower(s))
  {
    LowerIdempotent(s);
  }

  /** `status_to_str`. */
  function StatusToStr(s: T.Status): (r: String)
    ensures Lower(r) == r
  {
    match s
    case Pending => "pending"
    case InProgress => "in_progress"
    case Completed => "completed"
    case Archived => "archived"
  }

  /** `str_to_status`: case-insensitive; anything unrecognised reads as Pending. */
  function StrToStatus(s: String): (r: T.Status)
    ensures r == T.InProgress <==> Lower(s) == "in_progress"
    ensures r == T.Completed <==> Lower(s) == "completed"
    ensures r == T.Archived <==> Lower(s) == "archived"
    ensures Lower(s) !in {"in_progress", "completed", "archived"} ==> r == T.Pending
  {
    var l := Lower(s);
    if l == "in_progress" then T.InProgress
    else if l == "completed" then T.Completed
    else if l == "archived" then T.Archived
    else T.Pending
  }

  /** Every status reads back as itself, and the stored texts are all different. */
  lemma StatusRoundTrip(s: T.Status, u: T.Status)
    ensures StrToStatus(StatusToStr(s)) == s
    ensures StatusToStr(s) == StatusToStr(u) ==> s == u
  {
  }

  lemma StrToStatusIgnoresCase(s: String)
    ensures StrToStatus(s) == StrToStatus(Lower(s))
  {
    LowerIdempotent(s);
  }

  /** A WHERE clause (empty for none) and the text values bound to its placeholders. */
  datatype Clause = Clause(sql: String, params: seq<String>)

  /** The clause a status filter becomes. */
  function StatusClause(s: T.Status): String
  {
    "WHERE status = '" + StatusToStr(s) + "'"
  }

  /** The clause the three due-date filters share. */
  const DueClause: String := "WHERE due_date IS NOT NULL AND status NOT IN ('completed', 'archived')"

  /**
   * `build_filter_clause`: status filters compare the stored status, the
   * project and priority filters bind one parameter, the due-date filters
   * pre-select open dated tasks, and All and the tag filter select
   * everything (tags are checked after loading).
   */
  function BuildFilterClause(f: F.Filter): (r: Clause)
    ensures |r.params| == (if f.ByProject? || f.ByPriority? then 1 else 0)
    ensures f.ByProject? ==> r.params == [f.projectId]
    ensures f.ByPriority? ==> StrToPriority(r.params[0]) == f.priority
    ensures r.sql == [] <==> f == F.All || f.ByTag?
  {
    match f
    case All => Clause([], [])
    case Pending => Clause("WHERE status = 'pending'", [])
    case InProgress => Clause("WHERE status = 'in_progress'", [])
    case Completed => Clause("WHERE status = 'completed'", [])
    case Archived => Clause("WHERE status = 'archived'", [])
    case ByProject(id) => Clause("WHERE project_id = ?1", [id])
    case ByPriority(p) =>
      PriorityRoundTrip(p, p);
      Clause("WHERE priority = ?1", [PriorityToStr(p)])
    case DueToday => Clause(DueClause, [])
    case DueThisWeek => Clause(DueClause, [])
    case Overdue => Clause(DueClause, [])
    case ByTag(_) => Clause([], [])
  }

  /** The status filters compare against exactly the text the status is stored as. */
  lemma StatusFilterClauses()
    ensures BuildFilterClause(F.Pending).sql == StatusClause(T.Pending)
    ensures BuildFilterClause(F.InProgress).sql == StatusClause(T.InProgress)
    ensures BuildFilterClause(F.Completed).sql == StatusClause(T.Completed)
    ensures BuildFilterClause(F.Archived).sql == StatusClause(T.Archived)
  {
    assert StatusClause(T.Pending) == "WHERE status = 'pending'" by { assert StatusToStr(T.Pending) == "pending"; }
    assert StatusClause(T.InProgress) == "WHERE status = 'in_progress'" by { assert StatusToStr(T.InProgress) == "in_progress"; }
    assert StatusClause(T.Completed) == "WHERE status = 'completed'" by { assert StatusToStr(T.Completed) == "completed"; }
    assert StatusClause(T.Archived) == "WHERE status = 'archived'" by { assert StatusToStr(T.Archived) == "archived"; }
  }

  /** The rows the due-date filters' clause lets through: dated, and neither completed nor archived. */
  predicate DuePreselects(t: T.Task)
  {
    t.dueDate.Some? && StatusToStr(t.status) !in {"completed", "archived"}
  }

  /** For the overdue filter the pre-selection loses nothing the filter would keep. */
  lemma OverduePreselectionIsSound(t: T.Task, now: int, localDay: int -> int)
    requires F.Matches(F.Overdue, t, now, localDay)
    ensures DuePreselects(t)
  {
  }

  /**
   * The due-today and due-this-week filters do not look at the status, so
   * their pre-selection drops closed tasks the filter alone would keep: a
   * completed task due now matches both yet is never loaded.
   */
  lemma DuePreselectionDropsClosedTasks(t: T.Task, now: int, localDay: int -> int)
    requires t.status == T.Completed && t.dueDate == Some(now)
    ensures F.Matches(F.DueToday, t, now, localDay) && F.Matches(F.DueThisWeek, t, now, localDay)
    ensures !DuePreselects(t)
  {
  }
}

=== FILE: tag_input.dfy ===
/**
 * The tag editor of the task dialog: a list of tags kept free of
 * case-insensitive duplicates, a text input for the next tag, and at most
 * five suggestions drawn from the known tag names.
 */
module TagInput {
  import opened Wrappers
  import opened Text
  import opened Keys
  import TI = TextInput
  import Seqs

  const MaxSuggestions: nat := 5

  datatype TagState = TagState(
    input: TI.Input,
    tags: seq<String>,
    suggestions: seq<String>,
    selected: Option<nat>)
  {
    /** The input cursor is in range and the selection, if any, names a suggestion. */
    predicate Valid()
    {
      input.Valid() && (selected.Some? ==> selected.value < |suggestions|)
    }
  }

  /** `TagInput::with_tags`. */
  function WithTags(tags: seq<String>): (s: TagState)
    ensures s.Valid() && s.tags == tags && s.input.value == [] && s.suggestions == [] && s.selected == None
  {
    TagState(TI.Empty(), tags, [], None)
  }

  /** Some existing tag equals `tag` ignoring ASCII case. */
  predicate HasTagIgnoreCase(tags: seq<String>, tag: String)
  {
    exists i :: 0 <= i < |tags| && EqIgnoreCase(tags[i], tag)
  }

  /** No two tags of the list are equal ignoring ASCII case. */
  predicate DistinctIgnoreCase(tags: seq<String>)
  {
    forall i, j :: 0 <= i < j < |tags| ==> !EqIgnoreCase(tags[i], tags[j])
  }

  /** `add_tag`: trims, then appends unless empty or already present ignoring case. */
  function AddTag(tags: seq<String>, tag: String): (r: seq<String>)
    ensures Trim(tag) == [] || HasTagIgnoreCase(tags, Trim(tag)) ==> r == tags
    ensures Trim(tag) != [] && !HasTagIgnoreCase(tags, Trim(tag)) ==> r == tags + [Trim(tag)]
  {
    var t := Trim(tag);
    if t != [] && !(exists i :: 0 <= i < |tags| && EqIgnoreCase(tags[i], t)) then tags + [t] else tags
  }

  /** Starting from a case-insensitively distinct list, adding a tag keeps it distinct. */
  lemma AddTagKeepsDistinct(tags: seq<String>, tag: String)
    requires DistinctIgnoreCase(tags)
    ensures DistinctIgnoreCase(AddTag(tags, tag))
  {
    var r := AddTag(tags, tag);
    if r != tags {
      forall i, j | 0 <= i < j < |r| ensures !EqIgnoreCase(r[i], r[j]) {
        if j == |tags| {
          assert r[j] == Trim(tag);
          assert r[i] == tags[i];
        }
      }
    }
  }

  /** `remove_last_tag`: drops the last tag only (nothing on an empty list). */
  function RemoveLastTag(tags: seq<String>): (r: seq<String>)
    ensures tags == [] ==> r == []
    ensures tags != [] ==> r + [tags[|tags| - 1]] == tags
  {
    if tags == [] then [] else tags[..|tags| - 1]
  }

  function NotEqualTo(tag: String): String -> bool
  {
    t => t != tag
  }

  /** `remove_tag`: removes every exact match and keeps the rest in order. */
  function RemoveTag(tags: seq<String>, tag: String): (r: seq<String>)
    ensures tag !in r
    ensures forall i :: 0 <= i < |tags| && tags[i] != tag ==> tags[i] in r
    ensures Seqs.IsSubsequence(r, tags)
    ensures forall x :: x != tag ==> multiset(r)[x] == multiset(tags)[x]
  {
    Seqs.KeepIsSubsequence(NotEqualTo(tag), tags);
    forall x | x != tag
      ensures multiset(Seqs.Keep(NotEqualTo(tag), tags))[x] == multiset(tags)[x]
    {
      Seqs.KeepCount(NotEqualTo(tag), tags, x);
    }
    Seqs.Keep(NotEqualTo(tag), tags)
  }

  /** A known tag name is offered: it contains the query ignoring case and is not yet a tag. */
  function Qualifies(query: String, tags: seq<String>): String -> bool
  {
    name => Contains(Lower(name), query) && !HasTagIgnoreCase(tags, name)
  }

  function Take<X>(s: seq<X>, n: nat): (r: seq<X>)
    ensures |r| == if |s| < n then |s| else n
    ensures r == s[..|r|]
  {
    if |s| <= n then s else s[..n]
  }

  /** `update_suggestions`: recomputes the suggestions for the current input. */
  function UpdateSuggestions(s: TagState, allTags: seq<String>): (r: TagState)
    requires s.Valid()
    ensures r.Valid() && r.input == s.input && r.tags == s.tags
    ensures s.input.value == [] ==> r.suggestions == [] && r.selected == None
    ensures |r.suggestions| <= MaxSuggestions
    ensures forall i :: 0 <= i < |r.suggestions| ==>
              Contains(Lower(r.suggestions[i]), Lower(s.input.value))
              && !HasTagIgnoreCase(s.tags, r.suggestions[i])
    ensures s.input.value != [] ==>
              r.suggestions == Take(Seqs.Keep(Qualifies(Lower(s.input.value), s.tags), allTags), MaxSuggestions)
    ensures r.selected == (if r.suggestions == [] then None else Some(0))
  {
    var query := Lower(s.input.value);
    if query == [] then s.(suggestions := [], selected := None)
    else
      var sugg := Take(Seqs.Keep(Qualifies(query, s.tags), allTags), MaxSuggestions);
      s.(suggestions := sugg, selected := if sugg == [] then None else Some(0))
  }

  /** `selected_suggestion`. */
  function SelectedSuggestion(s: TagState): (r: Option<String>)
    ensures r.Some? <==> s.selected.Some? && s.selected.value < |s.suggestions|
    ensures r.Some? ==> r.value == s.suggestions[s.selected.value]
  {
    match s.selected
    case Some(i) => if i < |s.suggestions| then Some(s.suggestions[i]) else None
    case None => None
  }

  /** Adds a tag and resets the input and the suggestions. */
  function CommitTag(s: TagState, tag: String): TagState
  {
    TagState(TI.Clear(s.input), AddTag(s.tags, tag), [], None)
  }

  /** Up over non-empty suggestions: one back, wrapping from the first to the last. */
  function SuggestionUp(selected: Option<nat>, count: nat): (r: nat)
    requires count > 0
    requires selected.Some? ==> selected.value < count
    ensures r < count
    ensures selected.None? ==> r == 0
    ensures selected.Some? ==> (r + 1) % count == selected.value
  {
    match selected
    case Some(i) => if i == 0 then count - 1 else i - 1
    case None => 0
  }

  /** Down over non-empty suggestions: one forward modulo the count. */
  function SuggestionDown(selected: Option<nat>, count: nat): (r: nat)
    requires count > 0
    requires selected.Some? ==> selected.value < count
    ensures r < count
    ensures selected.None? ==> r == 0
    ensures selected.Some? ==> r == (selected.value + 1) % count
  {
    match selected
    case Some(i) => (i + 1) % count
    case None => 0
  }

  /** Down then Up returns to the same suggestion. */
  lemma SuggestionDownUp(i: nat, count: nat)
    requires i < count
    ensures SuggestionUp(Some(SuggestionDown(Some(i), count)), count) == i
  {
  }

  /** `handle_key`: the new state and whether the key was consumed. */
  function HandleKey(s: TagState, key: KeyEvent, allTags: seq<String>): (r: (TagState, bool))
    requires s.Valid()
    ensures r.0.Valid()
    ensures key.code == Backspace && s.input.value == [] ==> r.0.tags == RemoveLastTag(s.tags) && r.1
    ensures key.code in {Char(','), Enter} && Trim(s.input.value) != [] ==>
              r.0.tags == AddTag(s.tags, s.input.value) && r.0.input.value == [] && r.1
    ensures key.code in {Char(','), Enter} && Trim(s.input.value) == [] ==> r == (s, true)
    ensures key.code in {Up, Down} ==> (r.1 <==> s.suggestions != [])
    ensures key.code == Tab ==> (r.1 <==> SelectedSuggestion(s).Some?)
    ensures key.code in {Up, Down, Tab} ==> r == SuggestionKey(s, key.code)
    ensures key.code != Char(',') && (key.code.Char? || key.code in {Delete, Left, Right, Home, End}
                                      || (key.code == Backspace && s.input.value != [])) ==>
              r == (EditKey(s, key.code, allTags), true)
    ensures !r.1 ==> r.0 == s
  {
    var code := key.code;
    if code == Char(',') || code == Enter then
      var t := Trim(s.input.value);
      if t != [] then (CommitTag(s, t), true) else (s, true)
    else if code == Backspace && s.input.value == [] then (s.(tags := RemoveLastTag(s.tags)), true)
    else if code == Up || code == Down || code == Tab then SuggestionKey(s, code)
    else if code.Char? || code in {Backspace, Delete, Left, Right, Home, End} then (EditKey(s, code, allTags), true)
    else (s, false)
  }

  /** Up, Down and Tab: move the highlight or accept the highlighted suggestion, when there is one. */
  function SuggestionKey(s: TagState, code: KeyCode): (r: (TagState, bool))
    requires s.Valid() && code in {Up, Down, Tab}
    ensures r.0.Valid()
    ensures code != Tab ==> (r.1 <==> s.suggestions != [])
    ensures code == Up && s.suggestions != [] ==>
              r.0 == s.(selected := Some(SuggestionUp(s.selected, |s.suggestions|)))
    ensures code == Down && s.suggestions != [] ==>
              r.0 == s.(selected := Some(SuggestionDown(s.selected, |s.suggestions|)))
    ensures code == Tab ==> (r.1 <==> SelectedSuggestion(s).Some?)
    ensures code == Tab && SelectedSuggestion(s).Some? ==>
              r.0.tags == AddTag(s.tags, SelectedSuggestion(s).value) && r.0.input.value == []
              && r.0.suggestions == [] && r.0.selected == None
    ensures !r.1 ==> r.0 == s
  {
    if code == Tab then
      (match SelectedSuggestion(s)
       case Some(name) => (CommitTag(s, name), true)
       case None => (s, false))
    else if s.suggestions == [] then (s, false)
    else if code == Up then (s.(selected := Some(SuggestionUp(s.selected, |s.suggestions|))), true)
    else (s.(selected := Some(SuggestionDown(s.selected, |s.suggestions|))), true)
  }

  /** Typing and cursor keys edit the text; the keys that change it refresh the suggestions. */
  function EditKey(s: TagState, code: KeyCode, allTags: seq<String>): (r: TagState)
    requires s.Valid() && code != Char(',') && (code.Char? || code in {Backspace, Delete, Left, Right, Home, End})
    ensures r.Valid()
    ensures code.Char? ==> r == UpdateSuggestions(s.(input := TI.InsertChar(s.input, code.c)), allTags)
    ensures code == Backspace ==> r == UpdateSuggestions(s.(input := TI.DeleteBackward(s.input)), allTags)
    ensures code == Delete ==> r == UpdateSuggestions(s.(input := TI.DeleteForward(s.input)), allTags)
    ensures code in {Left, Right, Home, End} ==>
              r.tags == s.tags && r.suggestions == s.suggestions && r.selected == s.selected
              && r.input.value == s.input.value
  {
    match code
    case Char(c) => UpdateSuggestions(s.(input := TI.InsertChar(s.input, c)), allTags)
    case Backspace => UpdateSuggestions(s.(input := TI.DeleteBackward(s.input)), allTags)
    case Delete => UpdateSuggestions(s.(input := TI.DeleteForward(s.input)), allTags)
    case Left => s.(input := TI.MoveLeft(s.input))
    case Right => s.(input := TI.MoveRight(s.input))
    case Home => s.(input := TI.MoveHome(s.input))
    case End => s.(input := TI.MoveEnd(s.input))
  }
}

=== FILE: task_list.dfy ===
/**
 * Geometry of the rendered task list, used to aim animations at a row,
 * and the compact tag string shown on each row.
 */
module TaskList {
  import opened Wrappers
  import opened Text
  import Seqs

  /** A screen rectangle in terminal cells. */
  datatype Rect = Rect(x: nat, y: nat, width: nat, height: nat)

  /** What the last render recorded: the rows' area, the first row shown, and the listed task ids in order. */
  datatype RenderInfo = RenderInfo(contentArea: Rect, scrollOffset: nat, taskIds: seq<String>)

  /** Terminal coordinates are 16-bit. */
  const U16Range: nat := 0x1_0000

  /**
   * `task_row_rect` as written: the row's distance from the top of the view
   * is narrowed to 16 bits before it is compared with the view's height.
   */
  function TaskRowRectAsWritten(info: RenderInfo, index: nat): (r: Option<Rect>)
    ensures index < info.scrollOffset ==> r.None?
  {
    if index < info.scrollOffset then None
    else
      var row := index - info.scrollOffset;
      if row % U16Range >= info.contentArea.height then None
      else Some(Rect(info.contentArea.x, info.contentArea.y + row % U16Range, info.contentArea.width, 1))
  }

  /** A task 65536 rows below the top of a ten-row view is reported on the view's first row. */
  lemma FarRowWrapsIntoView()
    ensures var info := RenderInfo(Rect(0, 1, 80, 10), 0, []);
            TaskRowRectAsWritten(info, U16Range) == Some(Rect(0, 1, 80, 1))
  {
  }

  /**
   * `task_row_rect`: the one-cell-high strip of the content area for row
   * `index`, present exactly when that row lies within the scrolled view.
   */
  function TaskRowRect(info: RenderInfo, index: nat): (r: Option<Rect>)
    ensures r.Some? <==> info.scrollOffset <= index < info.scrollOffset + info.contentArea.height
    ensures r.Some? ==> r.value == Rect(info.contentArea.x, info.contentArea.y + (index - info.scrollOffset),
                                        info.contentArea.width, 1)
    ensures index - info.scrollOffset < U16Range ==> r == TaskRowRectAsWritten(info, index)
  {
    if index < info.scrollOffset then None
    else
      var row := index - info.scrollOffset;
      if row >= info.contentArea.height then None
      else Some(Rect(info.contentArea.x, info.contentArea.y + row, info.contentArea.width, 1))
  }

  function IsId(id: String): String -> bool
  {
    (s: String) => s == id
  }

  /** The position of the first listed task with this id. */
  function FirstPosition(ids: seq<String>, id: String): (r: Option<nat>)
    ensures r.None? <==> id !in ids
    ensures r.Some? ==> r.value < |ids| && ids[r.value] == id && id !in ids[..r.value]
  {
    match Seqs.FirstIndex(IsId(id), ids)
    case None => None
    case Some(i) =>
      assert id !in ids[..i];
      Some(i)
  }

  /** `find_task_rect` as written: the truncating row test applied to the first listed task with this id. */
  function FindTaskRect(info: RenderInfo, id: String): (r: Option<Rect>)
    ensures id !in info.taskIds ==> r.None?
    ensures id in info.taskIds ==>
              exists i :: 0 <= i < |info.taskIds| && info.taskIds[i] == id && id !in info.taskIds[..i]
                          && r == TaskRowRectAsWritten(info, i)
  {
    match FirstPosition(info.taskIds, id)
    case None => None
    case Some(i) => TaskRowRectAsWritten(info, i)
  }

  /** The same lookup with the corrected row test. */
  function FindTaskRectIntended(info: RenderInfo, id: String): (r: Option<Rect>)
    ensures id !in info.taskIds ==> r.None?
    ensures id in info.taskIds ==>
              exists i :: 0 <= i < |info.taskIds| && info.taskIds[i] == id && id !in info.taskIds[..i]
                          && r == TaskRowRect(info, i)
  {
    match FirstPosition(info.taskIds, id)
    case None => None
    case Some(i) => TaskRowRect(info, i)
  }

  /** While fewer than 65536 tasks are listed below the scroll offset, both lookups agree. */
  lemma FindTaskRectAgrees(info: RenderInfo, id: String)
    requires |info.taskIds| <= info.scrollOffset + U16Range
    ensures FindTaskRect(info, id) == FindTaskRectIntended(info, id)
  {
  }

  /** The visible rows are consecutive screen lines, one per task. */
  lemma RowsAreConsecutive(info: RenderInfo, i: nat)
    requires TaskRowRect(info, i).Some? && TaskRowRect(info, i + 1).Some?
    ensures TaskRowRect(info, i + 1).value.y == TaskRowRect(info, i).value.y + 1
  {
  }

  // ---------------------------------------------------------------- tags

  /** The tags written `#tag`, separated by single spaces. */
  function TagString(tags: seq<String>): (r: String)
    ensures tags == [] <==> r == []
    ensures tags != [] ==> r[0] == '#'
  {
    if tags == [] then []
    else if |tags| == 1 then "#" + tags[0]
    else TagString(tags[..|tags| - 1]) + " #" + tags[|tags| - 1]
  }

  /**
   * `render_tags`: the tag string when it fits in `maxWidth`, otherwise
   * its first `maxWidth - 3` characters (none when `maxWidth` < 3) followed by "...".
   */
  function RenderTags(tags: seq<String>, maxWidth: nat): (r: String)
    ensures tags == [] ==> r == []
    ensures |TagString(tags)| <= maxWidth ==> r == TagString(tags)
    ensures |TagString(tags)| > maxWidth ==>
              |r| == (if maxWidth >= 3 then maxWidth else 3)
              && r == TagString(tags)[..|r| - 3] + "..."
    ensures maxWidth >= 3 ==> |r| <= maxWidth
  {
    var s := TagString(tags);
    if |s| > maxWidth then
      s[..if maxWidth >= 3 then maxWidth - 3 else 0] + "..."
    else s
  }

  /** A width below three still yields the three dots: the result then overflows the width. */
  lemma NarrowRenderOverflows()
    ensures RenderTags(["a"], 1) == "..."
  {
    assert TagString(["a"]) == "#a";
  }
}

=== FILE: tasks.dfy ===
/**
 * The task record, its priority order and its due-date predicates.
 *
 * Instants are whole seconds. The wall clock is the explicit parameter `now`,
 * and the local calendar day of an instant is the explicit function `localDay`,
 * which stands for the conversion into the user's time zone.
 */
module Tasks {
  import opened Wrappers
  import opened Text

  const SecondsPerDay: int := 86400

  datatype Priority = Low | Medium | High | Urgent

  /** The numeric value the priority order compares: Low 0, Medium 1, High 2, Urgent 3. */
  function Rank(p: Priority): (r: nat)
    ensures r < 4
  {
    match p
    case Low => 0
    case Medium => 1
    case High => 2
    case Urgent => 3
  }

  /** `Ord for Priority`: strictly below. */
  predicate PriorityLess(a: Priority, b: Priority)
  {
    Rank(a) < Rank(b)
  }

  /** The priority order is a strict total order with Low < Medium < High < Urgent. */
  lemma PriorityStrictTotalOrder()
    ensures forall a: Priority :: !PriorityLess(a, a)
    ensures forall a: Priority, b: Priority, c: Priority ::
              PriorityLess(a, b) && PriorityLess(b, c) ==> PriorityLess(a, c)
    ensures forall a: Priority, b: Priority :: a == b || PriorityLess(a, b) || PriorityLess(b, a)
    ensures PriorityLess(Low, Medium) && PriorityLess(Medium, High) && PriorityLess(High, Urgent)
  {
  }

  datatype Status = Pending | InProgress | Completed | Archived

  datatype Task = Task(
    id: String,
    title: String,
    description: Option<String>,
    dueDate: Option<int>,
    priority: Priority,
    status: Status,
    projectId: Option<String>,
    tags: seq<String>,
    createdAt: int,
    updatedAt: int,
    completedAt: Option<int>)

  /** `Task::new`: a fresh pending task; the identifier is supplied by the caller. */
  function NewTask(id: String, title: String, now: int): (t: Task)
    ensures t.id == id && t.title == title
    ensures t.priority == Medium && t.status == Pending
    ensures t.description == None && t.dueDate == None && t.projectId == None && t.tags == []
    ensures t.completedAt == None
    ensures t.createdAt == now && t.updatedAt == t.createdAt
  {
    Task(id, title, None, None, Medium, Pending, None, [], now, now, None)
  }

  predicate IsClosed(s: Status)
  {
    s == Completed || s == Archived
  }

  /** `is_overdue`: still open and due strictly before now. */
  predicate IsOverdue(t: Task, now: int)
  {
    if t.status == Completed || t.status == Archived then false
    else match t.dueDate
      case Some(due) => due < now
      case None => false
  }

  /** `is_due_today`: the due instant falls on today's local day. */
  predicate IsDueToday(t: Task, now: int, localDay: int -> int)
  {
    match t.dueDate
    case Some(due) => localDay(due) == localDay(now)
    case None => false
  }

  /** `is_due_this_week`: due within the next seven days, both ends included. */
  predicate IsDueThisWeek(t: Task, now: int)
  {
    match t.dueDate
    case Some(due) => due >= now && due <= now + 7 * SecondsPerDay
    case None => false
  }

  /** Overdue exactly when open (pending or in progress), dated, and due before now. */
  lemma OverdueIff(t: Task, now: int)
    ensures IsOverdue(t, now) <==>
      (t.status == Pending || t.status == InProgress) && t.dueDate.Some? && t.dueDate.value < now
  {
  }

  /** A completed or archived task is never overdue, whatever its due date. */
  lemma ClosedNeverOverdue(t: Task, now: int)
    requires IsClosed(t.status)
    ensures !IsOverdue(t, now)
  {
  }

  /** A task without a due date matches none of the three due predicates. */
  lemma UndatedMatchesNoDuePredicate(t: Task, now: int, localDay: int -> int)
    requires t.dueDate.None?
    ensures !IsOverdue(t, now) && !IsDueToday(t, now, localDay) && !IsDueThisWeek(t, now)
  {
  }

  /** Due this week is the closed interval [now, now + 7 days]. */
  lemma DueThisWeekInterval(t: Task, now: int)
    ensures IsDueThisWeek(t, now) <==>
      t.dueDate.Some? && now <= t.dueDate.value <= now + 7 * SecondsPerDay
  {
  }

  /** `complete`: marks the task done, stamping completion and update times. */
  function Complete(t: Task, now: int): (r: Task)
    ensures r.status == Completed && r.completedAt == Some(now) && r.updatedAt == now
    ensures r.(status := t.status, completedAt := t.completedAt, updatedAt := t.updatedAt) == t
  {
    t.(status := Completed, completedAt := Some(now), updatedAt := now)
  }

  /** `reopen`: back to pending with the completion time cleared. */
  function Reopen(t: Task, now: int): (r: Task)
    ensures r.status == Pending && r.completedAt == None && r.updatedAt == now
    ensures r.(status := t.status, completedAt := t.completedAt, updatedAt := t.updatedAt) == t
  {
    t.(status := Pending, completedAt := None, updatedAt := now)
  }

  /**
   * Completing then reopening yields a pending task with no completion time;
   * for a task that was pending and never completed it is the original task
   * apart from the update time.
   */
  lemma CompleteThenReopen(t: Task, n1: int, n2: int)
    ensures Reopen(Complete(t, n1), n2).status == Pending
    ensures Reopen(Complete(t, n1), n2).completedAt == None
    ensures t.status == Pending && t.completedAt == None ==>
              Reopen(Complete(t, n1), n2) == t.(updatedAt := n2)
  {
  }

  /** A project groups tasks; it carries a display colour and icon. */
  datatype Project = Project(id: String, name: String, color: String, icon: String, createdAt: int)
}

=== FILE: text.dfy ===
/**
 * ASCII string helpers mirroring the Rust `str` methods the program relies on:
 * `to_lowercase`, `eq_ignore_ascii_case`, `starts_with`, `find`, `contains`,
 * `trim`, `split_whitespace` and `join`. Strings are sequences of characters and
 * every character is assumed to be ASCII.
 */
module Text {
  import opened Wrappers

  type String = seq<char>

  /** ASCII whitespace: space, tab, line feed, vertical tab, form feed, carriage return. */
  predicate IsWhitespace(c: char)
  {
    c == ' ' || c == '\t' || c == '\n' || c == '\r' || c as int == 11 || c as int == 12
  }

  function LowerChar(c: char): (r: char)
    ensures 'A' <= c <= 'Z' ==> 'a' <= r <= 'z' && r as int == c as int + 32
    ensures !('A' <= c <= 'Z') ==> r == c
  {
    if 'A' <= c <= 'Z' then (c as int + 32) as char else c
  }

  function Lower(s: String): (r: String)
    ensures |r| == |s|
    ensures forall i :: 0 <= i < |s| ==> r[i] == LowerChar(s[i])
  {
    seq(|s|, i requires 0 <= i < |s| => LowerChar(s[i]))
  }

  lemma LowerIdempotent(s: String)
    ensures Lower(Lower(s)) == Lower(s)
  {
  }

  /** `eq_ignore_ascii_case`. */
  predicate EqIgnoreCase(a: String, b: String)
  {
    Lower(a) == Lower(b)
  }

  predicate StartsWith(s: String, prefix: String)
  {
    |prefix| <= |s| && s[..|prefix|] == prefix
  }

  predicate OccursAt(s: String, sub: String, i: nat)
  {
    i + |sub| <= |s| && s[i..i + |sub|] == sub
  }

  predicate Contains(s: String, sub: String)
  {
    exists i: nat :: i <= |s| && OccursAt(s, sub, i)
  }

  /** `s[k..].find(sub)` shifted back to absolute positions: the first occurrence at or after `k`. */
  function FindFrom(s: String, sub: String, k: nat): (r: Option<nat>)
    requires k <= |s|
    ensures r.Some? ==> k <= r.value <= |s| && OccursAt(s, sub, r.value)
                        && forall j: nat :: k <= j < r.value ==> !OccursAt(s, sub, j)
    ensures r.None? ==> forall j: nat :: k <= j <= |s| ==> !OccursAt(s, sub, j)
    decreases |s| - k
  {
    if OccursAt(s, sub, k) then Some(k)
    else if k == |s| then None
    else FindFrom(s, sub, k + 1)
  }

  /** `str::find`: the first occurrence of `sub` in `s`. */
  function Find(s: String, sub: String): (r: Option<nat>)
    ensures r.Some? <==> Contains(s, sub)
    ensures r.Some? ==> OccursAt(s, sub, r.value)
                        && forall j: nat :: j < r.value ==> !OccursAt(s, sub, j)
  {
    FindFrom(s, sub, 0)
  }

  /** `trim_start`: drop the leading whitespace. */
  function TrimStart(s: String): (r: String)
    ensures |r| <= |s| && r == s[|s| - |r|..]
    ensures forall i :: 0 <= i < |s| - |r| ==> IsWhitespace(s[i])
    ensures r != [] ==> !IsWhitespace(r[0])
    decreases |s|
  {
    if s != [] && IsWhitespace(s[0]) then TrimStart(s[1..]) else s
  }

  /** `trim_end`: drop the trailing whitespace. */
  function TrimEnd(s: String): (r: String)
    ensures |r| <= |s| && r == s[..|r|]
    ensures forall i :: |r| <= i < |s| ==> IsWhitespace(s[i])
    ensures r != [] ==> !IsWhitespace(r[|r| - 1])
    decreases |s|
  {
    if s != [] && IsWhitespace(s[|s| - 1]) then TrimEnd(s[..|s| - 1]) else s
  }

  /** `trim`: drop whitespace at both ends. */
  function Trim(s: String): (r: String)
    ensures |r| <= |s|
    ensures r != [] ==> !IsWhitespace(r[0]) && !IsWhitespace(r[|r| - 1])
  {
    TrimEnd(TrimStart(s))
  }

  /** A string trims to nothing exactly when every character is whitespace. */
  lemma TrimEmptyIff(s: String)
    ensures Trim(s) == [] <==> forall i :: 0 <= i < |s| ==> IsWhitespace(s[i])
  {
    var t := TrimStart(s);
    if Trim(s) == [] {
      forall i | 0 <= i < |s| ensures IsWhitespace(s[i]) {
        if i >= |s| - |t| {
          assert s[i] == t[i - (|s| - |t|)];
        }
      }
    } else {
      var r := Trim(s);
      assert !IsWhitespace(r[0]);
      assert r[0] == t[0] == s[|s| - |t|];
    }
  }

  /** A word of `split_whitespace`: non-empty and free of whitespace. */
  predicate IsWord(w: String)
  {
    w != [] && forall i :: 0 <= i < |w| ==> !IsWhitespace(w[i])
  }

  /** Length of the leading run of non-whitespace characters. */
  function WordLen(s: String): (n: nat)
    ensures n <= |s|
    ensures forall i :: 0 <= i < n ==> !IsWhitespace(s[i])
    ensures n < |s| ==> IsWhitespace(s[n])
    decreases |s|
  {
    if s == [] || IsWhitespace(s[0]) then 0 else 1 + WordLen(s[1..])
  }

  /** `split_whitespace`: the maximal whitespace-free runs, in order. */
  function SplitWhitespace(s: String): (r: seq<String>)
    ensures forall i :: 0 <= i < |r| ==> IsWord(r[i])
    decreases |s|
  {
    if s == [] then []
    else if IsWhitespace(s[0]) then SplitWhitespace(s[1..])
    else
      var n := WordLen(s);
      [s[..n]] + SplitWhitespace(s[n..])
  }

  /** `join(sep)`. */
  function Join(parts: seq<String>, sep: String): String
  {
    if parts == [] then []
    else if |parts| == 1 then parts[0]
    else parts[0] + sep + Join(parts[1..], sep)
  }

  /** A word followed by whitespace (or nothing) is split off as the first word. */
  lemma SplitAfterWord(w: String, t: String)
    requires IsWord(w)
    requires t == [] || IsWhitespace(t[0])
    ensures SplitWhitespace(w + t) == [w] + SplitWhitespace(t)
  {
    var s := w + t;
    var n := WordLen(s);
    assert forall i :: 0 <= i < |w| ==> s[i] == w[i];
    assert |w| < |s| ==> s[|w|] == t[0];
    assert n == |w|;
    assert s[..n] == w;
    assert s[n..] == t;
  }

  /** Joining words with single spaces and splitting again gives back the words. */
  lemma {:induction false} SplitJoinRoundTrip(words: seq<String>)
    requires forall i :: 0 <= i < |words| ==> IsWord(words[i])
    ensures SplitWhitespace(Join(words, " ")) == words
    decreases |words|
  {
    if words == [] {
    } else if |words| == 1 {
      SplitAfterWord(words[0], []);
      assert words[0] + [] == words[0];
    } else {
      var rest := Join(words[1..], " ");
      SplitJoinRoundTrip(words[1..]);
      assert Join(words, " ") == words[0] + (" " + rest);
      SplitAfterWord(words[0], " " + rest);
      assert (" " + rest)[1..] == rest;
    }
  }

  /** `WordLen` is the only length that ends a leading whitespace-free run at whitespace or the end. */
  lemma WordLenUnique(s: String, n: nat)
    requires n <= |s|
    requires forall i :: 0 <= i < n ==> !IsWhitespace(s[i])
    requires n == |s| || IsWhitespace(s[n])
    ensures WordLen(s) == n
  {
  }

  /** A leading word of `a` that stops at whitespace or at a seam before whitespace is the leading word of `a + b`. */
  lemma SameLeadingWord(a: String, b: String)
    requires a != [] && !IsWhitespace(a[0])
    requires b == [] || IsWhitespace(a[|a| - 1]) || IsWhitespace(b[0])
    ensures WordLen(a + b) == WordLen(a)
  {
    var s, n := a + b, WordLen(a);
    assert forall i :: 0 <= i < n ==> s[i] == a[i];
    if n < |a| {
      assert s[n] == a[n];
    } else if b != [] {
      assert s[n] == b[0];
    }
    WordLenUnique(s, n);
  }

  /** Splitting distributes over a concatenation whose seam falls on whitespace. */
  lemma {:induction false} SplitConcat(a: String, b: String)
    requires a == [] || b == [] || IsWhitespace(a[|a| - 1]) || IsWhitespace(b[0])
    ensures SplitWhitespace(a + b) == SplitWhitespace(a) + SplitWhitespace(b)
    decreases |a|
  {
    var s := a + b;
    if a == [] {
      assert s == b;
    } else if b == [] {
      assert s == a;
    } else if IsWhitespace(a[0]) {
      assert s[0] == a[0];
      assert s[1..] == a[1..] + b;
      SplitConcat(a[1..], b);
    } else {
      var n := WordLen(a);
      SameLeadingWord(a, b);
      assert s[..n] == a[..n];
      assert s[n..] == a[n..] + b;
      assert SplitWhitespace(s) == [a[..n]] + SplitWhitespace(a[n..] + b);
      assert SplitWhitespace(a) == [a[..n]] + SplitWhitespace(a[n..]);
      assert a[n..] == [] || IsWhitespace(a[n..][0]);
      SplitConcat(a[n..], b);
    }
  }
}

=== FILE: text_input.dfy ===
/**
 * The single-line text input: a character buffer and a cursor position
 * between characters (0 is before the first, |value| after the last).
 */
module TextInput {
  import opened Text

  datatype Input = Input(value: String, cursor: nat)
  {
    /** The invariant every operation keeps: the cursor lies within the buffer. */
    predicate Valid()
    {
      cursor <= |value|
    }
  }

  /** `TextInput::new`. */
  function Empty(): (t: Input)
    ensures t.Valid() && t.value == [] && t.cursor == 0
  {
    Input([], 0)
  }

  /** `with_value`: the given text with the cursor at its end. */
  function WithValue(v: String): (t: Input)
    ensures t.Valid() && t.value == v && t.cursor == |v|
  {
    Input(v, |v|)
  }

  /** `set_value`: replaces the text and moves the cursor to its end. */
  function SetValue(t: Input, v: String): (r: Input)
    ensures r.Valid() && r.value == v && r.cursor == |v|
  {
    Input(v, |v|)
  }

  /** `clear`. */
  function Clear(t: Input): (r: Input)
    ensures r.Valid() && r.value == [] && r.cursor == 0
  {
    Input([], 0)
  }

  /** `insert`: the character goes in at the cursor, which moves past it. */
  function InsertChar(t: Input, c: char): (r: Input)
    requires t.Valid()
    ensures r.Valid()
    ensures |r.value| == |t.value| + 1 && r.cursor == t.cursor + 1
    ensures r.value[..t.cursor] == t.value[..t.cursor]
    ensures r.value[t.cursor] == c
    ensures r.value[t.cursor + 1..] == t.value[t.cursor..]
  {
    Input(t.value[..t.cursor] + [c] + t.value[t.cursor..], t.cursor + 1)
  }

  /** `delete_backward`: removes the character before the cursor, if any. */
  function DeleteBackward(t: Input): (r: Input)
    requires t.Valid()
    ensures r.Valid()
    ensures t.cursor == 0 ==> r == t
    ensures t.cursor > 0 ==>
              r.cursor == t.cursor - 1
              && r.value == t.value[..t.cursor - 1] + t.value[t.cursor..]
  {
    if t.cursor > 0 then Input(t.value[..t.cursor - 1] + t.value[t.cursor..], t.cursor - 1)
    else t
  }

  /** `delete_forward`: removes the character after the cursor, if any. */
  function DeleteForward(t: Input): (r: Input)
    requires t.Valid()
    ensures r.Valid()
    ensures t.cursor == |t.value| ==> r == t
    ensures t.cursor < |t.value| ==>
              r.cursor == t.cursor && r.value == t.value[..t.cursor] + t.value[t.cursor + 1..]
  {
    if t.cursor < |t.value| then Input(t.value[..t.cursor] + t.value[t.cursor + 1..], t.cursor)
    else t
  }

  /** `move_left`: one step left, saturating at 0. */
  function MoveLeft(t: Input): (r: Input)
    requires t.Valid()
    ensures r.Valid() && r.value == t.value
    ensures r.cursor == if t.cursor == 0 then 0 else t.cursor - 1
  {
    t.(cursor := if t.cursor > 0 then t.cursor - 1 else 0)
  }

  /** `move_right`: one step right, capped at the end of the text. */
  function MoveRight(t: Input): (r: Input)
    requires t.Valid()
    ensures r.Valid() && r.value == t.value
    ensures r.cursor == if t.cursor == |t.value| then t.cursor else t.cursor + 1
  {
    t.(cursor := if t.cursor + 1 < |t.value| then t.cursor + 1 else |t.value|)
  }

  function MoveHome(t: Input): (r: Input)
    ensures r.Valid() && r.value == t.value && r.cursor == 0
  {
    t.(cursor := 0)
  }

  function MoveEnd(t: Input): (r: Input)
    ensures r.Valid() && r.value == t.value && r.cursor == |t.value|
  {
    t.(cursor := |t.value|)
  }

  /** Leftmost position reachable from `p` going left over whitespace only. */
  function SkipSpaceBack(s: String, p: nat): (q: nat)
    requires p <= |s|
    ensures q <= p
    ensures forall k :: q <= k < p ==> IsWhitespace(s[k])
    ensures q == 0 || !IsWhitespace(s[q - 1])
    decreases p
  {
    if p > 0 && IsWhitespace(s[p - 1]) then SkipSpaceBack(s, p - 1) else p
  }

  /** Leftmost position reachable from `p` going left over non-whitespace only. */
  function SkipWordBack(s: String, p: nat): (q: nat)
    requires p <= |s|
    ensures q <= p
    ensures forall k :: q <= k < p ==> !IsWhitespace(s[k])
    ensures q == 0 || IsWhitespace(s[q - 1])
    decreases p
  {
    if p > 0 && !IsWhitespace(s[p - 1]) then SkipWordBack(s, p - 1) else p
  }

  /** Rightmost position reachable from `p` going right over non-whitespace only. */
  function SkipWordForward(s: String, p: nat): (q: nat)
    requires p <= |s|
    ensures p <= q <= |s|
    ensures forall k :: p <= k < q ==> !IsWhitespace(s[k])
    ensures q == |s| || IsWhitespace(s[q])
    decreases |s| - p
  {
    if p < |s| && !IsWhitespace(s[p]) then SkipWordForward(s, p + 1) else p
  }

  /** Rightmost position reachable from `p` going right over whitespace only. */
  function SkipSpaceForward(s: String, p: nat): (q: nat)
    requires p <= |s|
    ensures p <= q <= |s|
    ensures forall k :: p <= k < q ==> IsWhitespace(s[k])
    ensures q == |s| || !IsWhitespace(s[q])
    decreases |s| - p
  {
    if p < |s| && IsWhitespace(s[p]) then SkipSpaceForward(s, p + 1) else p
  }

  /** Start of the word before position `p`: skip whitespace, then the word. */
  function WordLeftTarget(s: String, p: nat): (q: nat)
    requires p <= |s|
    ensures q <= p
    ensures q == 0 || (q < p && IsWhitespace(s[q - 1]) && !IsWhitespace(s[q]))
  {
    SkipWordBack(s, SkipSpaceBack(s, p))
  }

  /** Start of the next word after position `p`: skip the word, then whitespace. */
  function WordRightTarget(s: String, p: nat): (q: nat)
    requires p <= |s|
    ensures p <= q <= |s|
    ensures q == |s| || (!IsWhitespace(s[q]) && q > 0 && IsWhitespace(s[q - 1]))
  {
    SkipSpaceForward(s, SkipWordForward(s, p))
  }

  /** `move_word_left`: never moves right; lands at 0 or at the first character of a word. */
  function MoveWordLeft(t: Input): (r: Input)
    requires t.Valid()
    ensures r.Valid() && r.value == t.value && r.cursor <= t.cursor
    ensures r.cursor == 0
            || (r.cursor < |t.value| && IsWhitespace(t.value[r.cursor - 1]) && !IsWhitespace(t.value[r.cursor]))
  {
    if t.cursor == 0 then t else t.(cursor := WordLeftTarget(t.value, t.cursor))
  }

  /** `move_word_right`: never moves left; lands at the end or just after whitespace. */
  function MoveWordRight(t: Input): (r: Input)
    requires t.Valid()
    ensures r.Valid() && r.value == t.value && r.cursor >= t.cursor
    ensures r.cursor == |t.value|
            || (r.cursor > 0 && IsWhitespace(t.value[r.cursor - 1]) && !IsWhitespace(t.value[r.cursor]))
  {
    if t.cursor >= |t.value| then t else t.(cursor := WordRightTarget(t.value, t.cursor))
  }

  /** `delete_word_backward`: removes exactly the span from the word-left target to the cursor. */
  function DeleteWordBackward(t: Input): (r: Input)
    requires t.Valid()
    ensures r.Valid()
    ensures t.cursor == 0 ==> r == t
    ensures t.cursor > 0 ==>
              var p := WordLeftTarget(t.value, t.cursor);
              r.cursor == p && r.value == t.value[..p] + t.value[t.cursor..]
  {
    if t.cursor == 0 then t
    else
      var p := WordLeftTarget(t.value, t.cursor);
      Input(t.value[..p] + t.value[t.cursor..], p)
  }

  /**
   * The word-left scan with the two loops of the program; it agrees with
   * the recursive definition.
   */
  method ScanWordLeft(s: String, cursor: nat) returns (pos: nat)
    requires cursor <= |s|
    ensures pos == WordLeftTarget(s, cursor)
  {
    pos := cursor;
    while pos > 0 && IsWhitespace(s[pos - 1])
      invariant pos <= cursor
      invariant SkipSpaceBack(s, pos) == SkipSpaceBack(s, cursor)
      decreases pos
    {
      pos := pos - 1;
    }
    ghost var mid := pos;
    while pos > 0 && !IsWhitespace(s[pos - 1])
      invariant pos <= mid
      invariant SkipWordBack(s, pos) == SkipWordBack(s, mid)
      decreases pos
    {
      pos := pos - 1;
    }
  }

  /** The word-right scan with the two loops of the program. */
  method ScanWordRight(s: String, cursor: nat) returns (pos: nat)
    requires cursor <= |s|
    ensures pos == WordRightTarget(s, cursor)
  {
    pos := cursor;
    while pos < |s| && !IsWhitespace(s[pos])
      invariant cursor <= pos <= |s|
      invariant SkipWordForward(s, pos) == SkipWordForward(s, cursor)
      decreases |s| - pos
    {
      pos := pos + 1;
    }
    ghost var mid := pos;
    while pos < |s| && IsWhitespace(s[pos])
      invariant mid <= pos <= |s|
      invariant SkipSpaceForward(s, pos) == SkipSpaceForward(s, mid)
      decreases |s| - pos
    {
      pos := pos + 1;
    }
  }

  /** Inserting a character and deleting backward restores text and cursor. */
  lemma InsertThenDeleteBackward(t: Input, c: char)
    requires t.Valid()
    ensures DeleteBackward(InsertChar(t, c)) == t
  {
    var r := InsertChar(t, c);
    assert r.value[..t.cursor] + r.value[t.cursor + 1..] == t.value[..t.cursor] + t.value[t.cursor..];
    assert t.value[..t.cursor] + t.value[t.cursor..] == t.value;
  }

  /** Deleting backward at 0 and deleting forward at the end leave the input unchanged. */
  lemma DeleteAtBoundariesIsNoOp(t: Input)
    requires t.Valid()
    ensures t.cursor == 0 ==> DeleteBackward(t) == t
    ensures t.cursor == |t.value| ==> DeleteForward(t) == t
  {
  }

  /** The characterisation of each scan pins its result down. */
  lemma ScansAreUnique(s: String, p: nat, n: nat)
    requires p <= |s| && n <= |s|
    ensures n <= p && (forall k :: n <= k < p ==> IsWhitespace(s[k])) && (n == 0 || !IsWhitespace(s[n - 1]))
            ==> SkipSpaceBack(s, p) == n
    ensures n <= p && (forall k :: n <= k < p ==> !IsWhitespace(s[k])) && (n == 0 || IsWhitespace(s[n - 1]))
            ==> SkipWordBack(s, p) == n
    ensures p <= n && (forall k :: p <= k < n ==> !IsWhitespace(s[k])) && (n == |s| || IsWhitespace(s[n]))
            ==> SkipWordForward(s, p) == n
    ensures p <= n && (forall k :: p <= k < n ==> IsWhitespace(s[k])) && (n == |s| || !IsWhitespace(s[n]))
            ==> SkipSpaceForward(s, p) == n
  {
  }

  /** "Hello world test": words at 0..5, 6..11 and 12..16, single spaces at 5 and 11. */
  lemma HelloWorldTest(s: String)
    requires s == "Hello world test"
    ensures |s| == 16 && IsWhitespace(s[5]) && IsWhitespace(s[11])
    ensures forall k :: 0 <= k < 5 || 6 <= k < 11 || 12 <= k < 16 ==> !IsWhitespace(s[k])
  {
  }

  /** The word movements of the test suite: "Hello world test" steps left 16, 12, 6, 0. */
  lemma WordLeftExample()
    ensures WordLeftTarget("Hello world test", 16) == 12
    ensures WordLeftTarget("Hello world test", 12) == 6
    ensures WordLeftTarget("Hello world test", 6) == 0
  {
    var s := "Hello world test";
    HelloWorldTest(s);
    ScansAreUnique(s, 16, 16);
    ScansAreUnique(s, 16, 12);
    ScansAreUnique(s, 12, 11);
    ScansAreUnique(s, 11, 6);
    ScansAreUnique(s, 6, 5);
    ScansAreUnique(s, 5, 0);
  }

  /** ... and right 0, 6, 12, 16. */
  lemma WordRightExample()
    ensures WordRightTarget("Hello world test", 0) == 6
    ensures WordRightTarget("Hello world test", 6) == 12
    ensures WordRightTarget("Hello world test", 12) == 16
  {
    var s := "Hello world test";
    HelloWorldTest(s);
    ScansAreUnique(s, 0, 5);
    ScansAreUnique(s, 5, 6);
    ScansAreUnique(s, 6, 11);
    ScansAreUnique(s, 11, 12);
    ScansAreUnique(s, 12, 16);
    ScansAreUnique(s, 16, 16);
  }
}

=== FILE: textarea.dfy ===
/**
 * The multi-line description editor: a non-empty list of lines, a cursor
 * (row, column), and the web links detected in the text. Links are
 * recomputed from the lines after every edit, so they are modelled as a
 * function of the lines.
 */
module TextArea {
  import opened Wrappers
  import opened Text
  import opened Keys
  import TI = TextInput
  import Seqs

  datatype Area = Area(lines: seq<String>, row: nat, col: nat)
  {
    /** At least one line; the cursor is on a line and within it. */
    predicate Valid()
    {
      |lines| >= 1 && row < |lines| && col <= |lines[row]|
    }
  }

  /** `DescriptionTextArea::new`: one empty line, cursor at its start. */
  function Empty(): (a: Area)
    ensures a.Valid() && a.lines == [[]] && a.row == 0 && a.col == 0
  {
    Area([[]], 0, 0)
  }

  /** Index of the first `c` in `t`, or `|t|` when there is none. */
  function IndexOfChar(t: String, c: char): (k: nat)
    ensures k <= |t|
    ensures k < |t| ==> t[k] == c
    ensures forall i :: 0 <= i < k ==> t[i] != c
    decreases |t|
  {
    if t == [] then 0 else if t[0] == c then 0 else 1 + IndexOfChar(t[1..], c)
  }

  /** The pieces of `t` between line feeds (`split('\n')`). */
  function SplitNewlines(t: String): (r: seq<String>)
    ensures |r| >= 1
    ensures forall i :: 0 <= i < |r| ==> '\n' !in r[i]
    decreases |t|
  {
    var k := IndexOfChar(t, '\n');
    if k == |t| then [t] else [t[..k]] + SplitNewlines(t[k + 1..])
  }

  /** Joining the pieces with line feeds gives back the text. */
  lemma {:induction false} SplitNewlinesJoin(t: String)
    ensures Join(SplitNewlines(t), "\n") == t
    decreases |t|
  {
    var k := IndexOfChar(t, '\n');
    if k < |t| {
      var rest := SplitNewlines(t[k + 1..]);
      SplitNewlinesJoin(t[k + 1..]);
      assert SplitNewlines(t) == [t[..k]] + rest;
      assert t == t[..k] + "\n" + t[k + 1..];
    }
  }

  function StripCR(s: String): (r: String)
  {
    if s != [] && s[|s| - 1] == '\r' then s[..|s| - 1] else s
  }

  /**
   * `str::lines`: split at line feeds; a final line feed does not start
   * another line, and a carriage return just before a line feed is dropped.
   */
  function Lines(t: String): (r: seq<String>)
  {
    var p := SplitNewlines(t);
    var kept := if t != [] && t[|t| - 1] == '\n' then p[..|p| - 1] else p;
    seq(|kept|, i requires 0 <= i < |kept| => if i < |p| - 1 then StripCR(kept[i]) else kept[i])
  }

  /** `set_text`: the lines of `t` (one empty line at least), cursor at the start. */
  function SetText(t: String): (a: Area)
    ensures a.Valid() && a.row == 0 && a.col == 0
    ensures t == [] ==> a.lines == [[]]
  {
    var ls := if t == [] then [[]] else Lines(t);
    Area(if ls == [] then [[]] else ls, 0, 0)
  }

  /** `text`: the lines joined by line feeds. */
  function GetText(a: Area): String
  {
    Join(a.lines, "\n")
  }

  /** `is_empty`. */
  predicate IsEmpty(a: Area)
  {
    |a.lines| == 1 && a.lines[0] == []
  }

  /** A single line joins to itself, so `is_empty` holds iff the text is empty. */
  lemma IsEmptyIffNoText(a: Area)
    requires a.Valid()
    requires |a.lines| == 1
    ensures IsEmpty(a) <==> GetText(a) == []
  {
  }

  /**
   * Setting a text and reading it back returns it, provided it has no
   * carriage return and does not end with a line feed.
   */
  lemma SetTextRoundTrip(t: String)
    requires '\r' !in t
    requires t == [] || t[|t| - 1] != '\n'
    ensures GetText(SetText(t)) == t
  {
    if t != [] {
      var p := SplitNewlines(t);
      SplitNewlinesJoin(t);
      forall i | 0 <= i < |p| ensures StripCR(p[i]) == p[i] {
        PieceHasNoCR(t, i);
      }
      assert Lines(t) == p;
    }
  }

  /** Every piece of a text without carriage returns has none either. */
  lemma {:induction false} PieceHasNoCR(t: String, i: nat)
    requires '\r' !in t
    requires i < |SplitNewlines(t)|
    ensures '\r' !in SplitNewlines(t)[i]
    decreases |t|
  {
    var k := IndexOfChar(t, '\n');
    if k < |t| && i > 0 {
      var u := t[k + 1..];
      assert forall j :: 0 <= j < |u| ==> u[j] == t[k + 1 + j];
      PieceHasNoCR(t[k + 1..], i - 1);
    } else if k < |t| {
      assert forall j :: 0 <= j < k ==> t[..k][j] == t[j];
    }
  }

  // ---------------------------------------------------------------- links

  datatype Link = Link(url: String, line: nat, start: nat, end: nat)

  /** A character that ends a URL. */
  predicate IsUrlStop(c: char)
  {
    IsWhitespace(c) || c == ')' || c == ']' || c == '>' || c == '"' || c == '\''
  }

  /** The first URL-ending character at or after `from`, or the line length. */
  function UrlEnd(line: String, from: nat): (r: nat)
    requires from <= |line|
    ensures from <= r <= |line|
    ensures forall k :: from <= k < r ==> !IsUrlStop(line[k])
    ensures r == |line| || IsUrlStop(line[r])
    decreases |line| - from
  {
    if from == |line| || IsUrlStop(line[from]) then from else UrlEnd(line, from + 1)
  }

  /** The earlier of the next "https://" and the next "http://" at or after `start`. */
  function NextUrlStart(line: String, start: nat): (r: Option<nat>)
    requires start <= |line|
    ensures r.Some? ==> start <= r.value < |line|
                        && (OccursAt(line, "https://", r.value) || OccursAt(line, "http://", r.value))
    ensures r.Some? ==> forall j: nat :: start <= j < r.value ==>
                          !OccursAt(line, "https://", j) && !OccursAt(line, "http://", j)
    ensures r.None? ==> forall j: nat :: start <= j <= |line| ==>
                          !OccursAt(line, "https://", j) && !OccursAt(line, "http://", j)
  {
    match (FindFrom(line, "https://", start), FindFrom(line, "http://", start))
    case (Some(a), Some(b)) => Some(if a < b then a else b)
    case (Some(a), None) => Some(a)
    case (None, Some(b)) => Some(b)
    case (None, None) => None
  }

  /** A link found on line `idx` of `line`: a URL prefix up to the first stop character. */
  predicate WellFormedLink(line: String, idx: nat, l: Link)
  {
    l.line == idx && l.start < l.end <= |line| && l.url == line[l.start..l.end]
    && (StartsWith(l.url, "https://") || StartsWith(l.url, "http://"))
    && (forall k :: l.start <= k < l.end ==> !IsUrlStop(line[k]))
    && (l.end == |line| || IsUrlStop(line[l.end]))
  }

  /** The scheme contains no stop character, so the URL runs at least past it. */
  lemma UrlKeepsScheme(line: String, p: nat, scheme: String)
    requires scheme == "https://" || scheme == "http://"
    requires OccursAt(line, scheme, p)
    ensures p + |scheme| <= UrlEnd(line, p)
    ensures StartsWith(line[p..UrlEnd(line, p)], scheme)
  {
    assert forall k :: 0 <= k < |scheme| ==> !IsUrlStop(scheme[k]);
    var e := UrlEnd(line, p);
    assert forall k :: p <= k < p + |scheme| ==> line[k] == line[p..p + |scheme|][k - p];
    assert line[p..e][..|scheme|] == line[p..p + |scheme|];
  }

  /** A URL scheme begins at position `j` of `line`. */
  predicate SchemeAt(line: String, j: nat)
  {
    OccursAt(line, "https://", j) || OccursAt(line, "http://", j)
  }

  /** Links found after the first URL, preceded by that URL's link, keep every property of `DetectLinks`. */
  lemma LinksStep(line: String, idx: nat, start: nat, p: nat, rest: seq<Link>)
    requires start <= |line| && NextUrlStart(line, start) == Some(p)
    requires forall i :: 0 <= i < |rest| ==>
               WellFormedLink(line, idx, rest[i]) && rest[i].start >= UrlEnd(line, p)
    requires forall i, j :: 0 <= i < j < |rest| ==> rest[i].end <= rest[j].start
    requires forall j: nat :: UrlEnd(line, p) <= j && SchemeAt(line, j) ==>
               exists i :: 0 <= i < |rest| && rest[i].start <= j < rest[i].end
    ensures p < UrlEnd(line, p)
    ensures var r := [Link(line[p..UrlEnd(line, p)], idx, p, UrlEnd(line, p))] + rest;
      (forall i :: 0 <= i < |r| ==> WellFormedLink(line, idx, r[i]) && r[i].start >= start)
      && (forall i, j :: 0 <= i < j < |r| ==> r[i].end <= r[j].start)
      && (forall j: nat :: start <= j && SchemeAt(line, j) ==>
            exists i :: 0 <= i < |r| && r[i].start <= j < r[i].end)
  {
    var e := UrlEnd(line, p);
    UrlKeepsScheme(line, p, if OccursAt(line, "https://", p) then "https://" else "http://");
    var r := [Link(line[p..e], idx, p, e)] + rest;
    forall j: nat | start <= j && SchemeAt(line, j)
      ensures exists i :: 0 <= i < |r| && r[i].start <= j < r[i].end
    {
      if j < e {
        assert r[0].start <= j < r[0].end;
      } else {
        var i :| 0 <= i < |rest| && rest[i].start <= j < rest[i].end;
        assert r[i + 1] == rest[i];
      }
    }
  }

  /**
   * `detect_links_in_line` from position `start`: well-formed, in order,
   * non-overlapping; the first link starts at the first scheme and runs to
   * the first stop character, and no scheme occurrence is missed.
   */
  function DetectLinks(line: String, idx: nat, start: nat): (r: seq<Link>)
    requires start <= |line|
    ensures forall i :: 0 <= i < |r| ==> WellFormedLink(line, idx, r[i]) && r[i].start >= start
    ensures forall i, j :: 0 <= i < j < |r| ==> r[i].end <= r[j].start
    ensures NextUrlStart(line, start).None? ==> r == []
    ensures NextUrlStart(line, start).Some? ==>
              r != [] && r[0].start == NextUrlStart(line, start).value
              && r[0].end == UrlEnd(line, NextUrlStart(line, start).value)
    ensures forall j: nat :: start <= j && SchemeAt(line, j) ==>
              exists i :: 0 <= i < |r| && r[i].start <= j < r[i].end
    decreases |line| - start
  {
    if start >= |line| then []
    else match NextUrlStart(line, start)
      case None => []
      case Some(p) =>
        var e := UrlEnd(line, p);
        var rest := DetectLinks(line, idx, e);
        LinksStep(line, idx, start, p, rest);
        [Link(line[p..e], idx, p, e)] + rest
  }

  /** The links of every line, line by line (`update_links`). */
  function AllLinks(lines: seq<String>, from: nat): (r: seq<Link>)
    requires from <= |lines|
    ensures forall i :: 0 <= i < |r| ==>
              from <= r[i].line < |lines| && WellFormedLink(lines[r[i].line], r[i].line, r[i])
    decreases |lines| - from
  {
    if from == |lines| then [] else DetectLinks(lines[from], from, 0) + AllLinks(lines, from + 1)
  }

  predicate UnderCursor(l: Link, row: nat, col: nat)
  {
    l.line == row && l.start <= col < l.end
  }

  function UnderCursorFn(row: nat, col: nat): Link -> bool
  {
    l => UnderCursor(l, row, col)
  }

  /** `link_at_cursor`: the URL of the first link covering the cursor. */
  function LinkAtCursor(links: seq<Link>, row: nat, col: nat): (r: Option<String>)
    ensures r.Some? <==> exists i :: 0 <= i < |links| && UnderCursor(links[i], row, col)
    ensures r.Some? ==> exists i :: 0 <= i < |links| && UnderCursor(links[i], row, col)
                                    && links[i].url == r.value
  {
    match Seqs.FirstIndex(UnderCursorFn(row, col), links)
    case Some(i) => Some(links[i].url)
    case None => None
  }

  /** The links on one line never overlap, so at most one covers the cursor. */
  lemma AtMostOneLinkUnderCursor(line: String, idx: nat, col: nat, i: nat, j: nat)
    ensures i < j < |DetectLinks(line, idx, 0)| ==>
      !(UnderCursor(DetectLinks(line, idx, 0)[i], idx, col) && UnderCursor(DetectLinks(line, idx, 0)[j], idx, col))
  {
  }

  // ---------------------------------------------------------------- edits

  /** `insert_char`. */
  function InsertChar(a: Area, c: char): (r: Area)
    requires a.Valid()
    ensures r.Valid() && |r.lines| == |a.lines| && r.row == a.row && r.col == a.col + 1
    ensures r.lines[r.row] == a.lines[a.row][..a.col] + [c] + a.lines[a.row][a.col..]
    ensures forall i :: 0 <= i < |a.lines| && i != a.row ==> r.lines[i] == a.lines[i]
  {
    var line := a.lines[a.row];
    a.(lines := a.lines[a.row := line[..a.col] + [c] + line[a.col..]], col := a.col + 1)
  }

  /** `insert_newline`: splits the current line at the cursor and moves to the new line's start. */
  function InsertNewline(a: Area): (r: Area)
    requires a.Valid()
    ensures r.Valid() && |r.lines| == |a.lines| + 1 && r.row == a.row + 1 && r.col == 0
    ensures r.lines == a.lines[..a.row] + [a.lines[a.row][..a.col], a.lines[a.row][a.col..]]
                       + a.lines[a.row + 1..]
  {
    var line := a.lines[a.row];
    Area(a.lines[..a.row] + [line[..a.col], line[a.col..]] + a.lines[a.row + 1..], a.row + 1, 0)
  }

  /** The lines with `row - 1` and `row` merged into one. */
  function JoinWithPrevious(lines: seq<String>, row: nat): (r: seq<String>)
    requires 0 < row < |lines|
    ensures |r| == |lines| - 1
    ensures r[row - 1] == lines[row - 1] + lines[row]
  {
    lines[..row - 1] + [lines[row - 1] + lines[row]] + lines[row + 1..]
  }

  /**
   * `delete_backward`: inside a line removes the character before the
   * cursor; at column 0 below the first line joins the line onto the previous
   * one with the cursor at that line's old length; at (0, 0) does nothing.
   */
  function DeleteBackward(a: Area): (r: Area)
    requires a.Valid()
    ensures r.Valid()
    ensures a.col > 0 ==> r.row == a.row && r.col == a.col - 1 && |r.lines| == |a.lines|
                          && r.lines[r.row] == a.lines[a.row][..a.col - 1] + a.lines[a.row][a.col..]
    ensures a.col == 0 && a.row > 0 ==>
              r.row == a.row - 1 && r.col == |a.lines[a.row - 1]| && |r.lines| == |a.lines| - 1
              && r.lines[r.row] == a.lines[a.row - 1] + a.lines[a.row]
    ensures a.col == 0 && a.row == 0 ==> r == a
  {
    if a.col > 0 then
      var line := a.lines[a.row];
      a.(lines := a.lines[a.row := line[..a.col - 1] + line[a.col..]], col := a.col - 1)
    else if a.row > 0 then
      Area(JoinWithPrevious(a.lines, a.row), a.row - 1, |a.lines[a.row - 1]|)
    else a
  }

  /**
   * `delete_forward`: inside a line removes the character under the cursor;
   * at the end of a line that is not the last joins the next line onto it.
   */
  function DeleteForward(a: Area): (r: Area)
    requires a.Valid()
    ensures r.Valid() && r.row == a.row && r.col == a.col
    ensures a.col < |a.lines[a.row]| ==>
              |r.lines| == |a.lines| && r.lines[r.row] == a.lines[a.row][..a.col] + a.lines[a.row][a.col + 1..]
    ensures a.col == |a.lines[a.row]| && a.row < |a.lines| - 1 ==>
              |r.lines| == |a.lines| - 1 && r.lines[r.row] == a.lines[a.row] + a.lines[a.row + 1]
    ensures a.col == |a.lines[a.row]| && a.row == |a.lines| - 1 ==> r == a
  {
    var line := a.lines[a.row];
    if a.col < |line| then a.(lines := a.lines[a.row := line[..a.col] + line[a.col + 1..]])
    else if a.row < |a.lines| - 1 then a.(lines := JoinWithPrevious(a.lines, a.row + 1))
    else a
  }

  /** Splitting a line and deleting backward restores the buffer and the cursor. */
  lemma NewlineThenDeleteBackward(a: Area)
    requires a.Valid()
    ensures DeleteBackward(InsertNewline(a)) == a
  {
    var n := InsertNewline(a);
    var line := a.lines[a.row];
    var r := DeleteBackward(n);
    assert n.lines[a.row] == line[..a.col];
    assert n.lines[a.row + 1] == line[a.col..];
    assert line[..a.col] + line[a.col..] == line;
    assert r.lines == n.lines[..a.row] + [line] + n.lines[a.row + 2..];
    assert n.lines[..a.row] == a.lines[..a.row];
    assert n.lines[a.row + 2..] == a.lines[a.row + 1..];
    assert a.lines == a.lines[..a.row] + [line] + a.lines[a.row + 1..];
  }

  /** Inserting a character and deleting backward restores the buffer and the cursor. */
  lemma InsertThenDeleteBackward(a: Area, c: char)
    requires a.Valid()
    ensures DeleteBackward(InsertChar(a, c)) == a
  {
    var line := a.lines[a.row];
    var n := InsertChar(a, c);
    assert n.lines[a.row][..a.col] + n.lines[a.row][a.col + 1..] == line[..a.col] + line[a.col..];
    assert line[..a.col] + line[a.col..] == line;
    assert a.lines[a.row := line] == a.lines;
  }

  // ---------------------------------------------------------------- movement

  /** `move_left`: one character left, or to the end of the previous line from column 0. */
  function MoveLeft(a: Area): (r: Area)
    requires a.Valid()
    ensures r.Valid() && r.lines == a.lines
    ensures a.col > 0 ==> r.row == a.row && r.col == a.col - 1
    ensures a.col == 0 && a.row > 0 ==> r.row == a.row - 1 && r.col == |a.lines[a.row - 1]|
    ensures a.col == 0 && a.row == 0 ==> r == a
  {
    if a.col > 0 then a.(col := a.col - 1)
    else if a.row > 0 then a.(row := a.row - 1, col := |a.lines[a.row - 1]|)
    else a
  }

  /** `move_right`: one character right, or to the start of the next line from a line's end. */
  function MoveRight(a: Area): (r: Area)
    requires a.Valid()
    ensures r.Valid() && r.lines == a.lines
    ensures a.col < |a.lines[a.row]| ==> r.row == a.row && r.col == a.col + 1
    ensures a.col == |a.lines[a.row]| && a.row < |a.lines| - 1 ==> r.row == a.row + 1 && r.col == 0
    ensures a.col == |a.lines[a.row]| && a.row == |a.lines| - 1 ==> r == a
  {
    if a.col < |a.lines[a.row]| then a.(col := a.col + 1)
    else if a.row < |a.lines| - 1 then a.(row := a.row + 1, col := 0)
    else a
  }

  function Min(x: nat, y: nat): nat
  {
    if x < y then x else y
  }

  /** `move_up`: to the previous line, column clamped to its length; nothing on the first line. */
  function MoveUp(a: Area): (r: Area)
    requires a.Valid()
    ensures r.Valid() && r.lines == a.lines
    ensures a.row == 0 ==> r == a
    ensures a.row > 0 ==> r.row == a.row - 1 && r.col <= a.col
                          && (r.col == a.col || r.col == |a.lines[r.row]|)
  {
    if a.row > 0 then a.(row := a.row - 1, col := Min(a.col, |a.lines[a.row - 1]|)) else a
  }

  /** `move_down`: to the next line, column clamped to its length; nothing on the last line. */
  function MoveDown(a: Area): (r: Area)
    requires a.Valid()
    ensures r.Valid() && r.lines == a.lines
    ensures a.row == |a.lines| - 1 ==> r == a
    ensures a.row < |a.lines| - 1 ==> r.row == a.row + 1 && r.col <= a.col
                                      && (r.col == a.col || r.col == |a.lines[r.row]|)
  {
    if a.row < |a.lines| - 1 then a.(row := a.row + 1, col := Min(a.col, |a.lines[a.row + 1]|)) else a
  }

  function MoveHome(a: Area): (r: Area)
    requires a.Valid()
    ensures r.Valid() && r.lines == a.lines && r.row == a.row && r.col == 0
  {
    a.(col := 0)
  }

  function MoveEnd(a: Area): (r: Area)
    requires a.Valid()
    ensures r.Valid() && r.lines == a.lines && r.row == a.row && r.col == |a.lines[a.row]|
  {
    a.(col := |a.lines[a.row]|)
  }

  /** `move_word_left`: the single-line word jump, crossing to the previous line's end at column 0. */
  function MoveWordLeft(a: Area): (r: Area)
    requires a.Valid()
    ensures r.Valid() && r.lines == a.lines
    ensures a.col == 0 ==> r == MoveLeft(a)
    ensures a.col > 0 ==> r.row == a.row && r.col == TI.WordLeftTarget(a.lines[a.row], a.col)
  {
    if a.col == 0 then
      if a.row > 0 then a.(row := a.row - 1, col := |a.lines[a.row - 1]|) else a
    else a.(col := TI.WordLeftTarget(a.lines[a.row], a.col))
  }

  /** `move_word_right`: the single-line word jump, crossing to the next line's start at a line's end. */
  function MoveWordRight(a: Area): (r: Area)
    requires a.Valid()
    ensures r.Valid() && r.lines == a.lines
    ensures a.col == |a.lines[a.row]| ==> r == MoveRight(a)
    ensures a.col < |a.lines[a.row]| ==> r.row == a.row && r.col == TI.WordRightTarget(a.lines[a.row], a.col)
  {
    if a.col >= |a.lines[a.row]| then
      if a.row < |a.lines| - 1 then a.(row := a.row + 1, col := 0) else a
    else a.(col := TI.WordRightTarget(a.lines[a.row], a.col))
  }

  /** `delete_word_backward`: deletes back to the word start, or joins lines at column 0. */
  function DeleteWordBackward(a: Area): (r: Area)
    requires a.Valid()
    ensures r.Valid()
    ensures a.col == 0 ==> r == DeleteBackward(a)
    ensures a.col > 0 ==>
              var p := TI.WordLeftTarget(a.lines[a.row], a.col);
              r.row == a.row && r.col == p && |r.lines| == |a.lines|
              && r.lines[r.row] == a.lines[a.row][..p] + a.lines[a.row][a.col..]
  {
    if a.col == 0 then
      if a.row > 0 then Area(JoinWithPrevious(a.lines, a.row), a.row - 1, |a.lines[a.row - 1]|) else a
    else
      var line := a.lines[a.row];
      var p := TI.WordLeftTarget(line, a.col);
      a.(lines := a.lines[a.row := line[..p] + line[a.col..]], col := p)
  }

  /** `TextAreaAction`; `NoOp` stands for its `None`. */
  datatype AreaAction = NoOp | OpenLink(url: String) | NextField | PrevField

  /** `handle_key`. */
  function HandleKey(a: Area, key: KeyEvent): (r: (Area, AreaAction))
    requires a.Valid()
    ensures r.0.Valid()
    ensures r.1.OpenLink? ==>
              key.code == Char('o') && key.ctrl && r.0 == a && Some(r.1.url) == LinkAtCursor(AllLinks(a.lines, 0), a.row, a.col)
    ensures r.1 == NextField <==> key.code == Tab && !key.shift
    ensures r.1 == PrevField <==> key.code == BackTab
    ensures key.code == Enter ==> r.0 == InsertNewline(a)
  {
    match key.code
    case Char(c) =>
      if key.code == Char('o') && key.ctrl then
        match LinkAtCursor(AllLinks(a.lines, 0), a.row, a.col)
        case Some(url) => (a, OpenLink(url))
        case None => (a, NoOp)
      else if key.code == Char('b') && key.alt then (MoveWordLeft(a), NoOp)
      else if key.code == Char('f') && key.alt then (MoveWordRight(a), NoOp)
      else (InsertChar(a, c), NoOp)
    case Tab => if !key.shift then (a, NextField) else (a, NoOp)
    case BackTab => (a, PrevField)
    case Enter => (InsertNewline(a), NoOp)
    case Backspace => if key.alt then (DeleteWordBackward(a), NoOp) else (DeleteBackward(a), NoOp)
    case Delete => (DeleteForward(a), NoOp)
    case Left => if key.alt then (MoveWordLeft(a), NoOp) else (MoveLeft(a), NoOp)
    case Right => if key.alt then (MoveWordRight(a), NoOp) else (MoveRight(a), NoOp)
    case Up => (MoveUp(a), NoOp)
    case Down => (MoveDown(a), NoOp)
    case Home => (MoveHome(a), NoOp)
    case End => (MoveEnd(a), NoOp)
    case _ => (a, NoOp)
  }
}

=== FILE: theme.dfy ===
/** The gradient bar drawn in headers. */
module Theme {
  import opened Text

  /** The bar's shades from left to right: light, medium, dark, full, then back. */
  const Shades: seq<char> := ['░', '▒', '▓', '█', '▓', '▒', '░']

  /** `n` copies of `c`. */
  function Repeat(c: char, n: nat): (r: String)
    ensures |r| == n && forall i :: 0 <= i < n ==> r[i] == c
  {
    if n == 0 then [] else Repeat(c, n - 1) + [c]
  }

  /** How many cells run `i` gets: a seventh of the width, the middle run taking what is left. */
  function RunLength(width: nat, i: nat): nat
  {
    if i == |Shades| / 2 then width - (width / |Shades|) * (|Shades| - 1) else width / |Shades|
  }

  /** The first `i` runs. */
  function Runs(width: nat, i: nat): String
    requires i <= |Shades|
  {
    if i == 0 then [] else Runs(width, i - 1) + Repeat(Shades[i - 1], RunLength(width, i - 1))
  }

  /** The bar as seven runs, written out. */
  function Bar(width: nat): String
  {
    var s := width / 7;
    Repeat('░', s) + Repeat('▒', s) + Repeat('▓', s) + Repeat('█', width - 6 * s)
    + Repeat('▓', s) + Repeat('▒', s) + Repeat('░', s)
  }

  /** `gradient_bar`: each shade pushed as many times as its run length, run after run. */
  method GradientBar(width: nat) returns (r: String)
    ensures r == Bar(width)
    ensures |r| == width
  {
    r := [];
    var i := 0;
    while i < |Shades|
      invariant 0 <= i <= |Shades|
      invariant r == Runs(width, i)
    {
      var count := RunLength(width, i);
      var j := 0;
      while j < count
        invariant 0 <= j <= count
        invariant r == Runs(width, i) + Repeat(Shades[i], j)
      {
        r := r + [Shades[i]];
        j := j + 1;
      }
      i := i + 1;
    }
    RunsAreBar(width);
  }

  lemma RunsAreBar(width: nat)
    ensures Runs(width, |Shades|) == Bar(width)
    ensures |Bar(width)| == width
  {
    var s := width / 7;
    var light, medium, dark := Repeat('░', s), Repeat('▒', s), Repeat('▓', s);
    var full := Repeat('█', width - 6 * s);
    assert RunLength(width, 3) == width - 6 * s;
    assert Runs(width, 1) == light by { assert [] + light == light; }
    assert Runs(width, 2) == light + medium;
    assert Runs(width, 3) == light + medium + dark;
    assert Runs(width, 4) == light + medium + dark + full;
    assert Runs(width, 5) == light + medium + dark + full + dark;
    assert Runs(width, 6) == light + medium + dark + full + dark + medium;
    assert Runs(width, 7) == light + medium + dark + full + dark + medium + light;
  }

  /** The full-shade middle run starts after three runs of a seventh of the width and is at least as long as each of them. */
  lemma MiddleRun(width: nat, k: nat)
    requires 3 * (width / 7) <= k < 3 * (width / 7) + (width - 6 * (width / 7))
    ensures Bar(width)[k] == '█'
    ensures width - 6 * (width / 7) >= width / 7
  {
    var s := width / 7;
    var a := Repeat('░', s) + Repeat('▒', s) + Repeat('▓', s);
    var m := Repeat('█', width - 6 * s);
    assert |a| == 3 * s;
    assert Bar(width) == a + m + (Repeat('▓', s) + Repeat('▒', s) + Repeat('░', s));
    assert (a + m)[k] == m[k - 3 * s];
  }
}

=== FILE: wrappers.dfy ===
/** The optional-value wrapper used throughout the model, standing in for Rust's `Option`. */
module Wrappers {
  datatype Option<T> = None | Some(value: T)
  {
    function UnwrapOr(default: T): (r: T)
      ensures this.Some? ==> r == value
      ensures this.None? ==> r == default
    {
      match this
      case Some(v) => v
      case None => default
    }

    /** `Option::or`: this value when present, otherwise `other`. */
    function Or(other: Option<T>): (r: Option<T>)
      ensures this.Some? ==> r == this
      ensures this.None? ==> r == other
    {
      if this.Some? then this else other
    }
  }
}
